=== FILE: README.md ===
# Store management system — a Dafny model

This project models the core of a point-of-sale, inventory and billing
application for a Colombian retail store, and proves properties of it. In
the application, a browser keeps every table in one local record store.
Products, suppliers, clients, users, sales, invoices and the company,
tax and invoicing configuration all live there. Each page checks the
acting user's permissions before it changes anything. A separate Python
backend processes purchase invoices: it finds or creates the supplier and
the products, records the invoice with its items, and takes the
quantities into stock.

Modules, one per file:

- `Wrappers`: `Option` and `Result`.
- `Seqs`, `Text`, `Grouping`, `Sorting`: the filter/find/reduce idioms, the
  string methods, grouping by key, and descending sorts.
- `Entities`: the records of the store and the partial updates merged
  into them.
- `Permissions`, `Auth`: the permission catalogue, each role's defaults,
  and the login and permission gate.
- `Database`: the record store's operations. Creating a record, selling,
  soft-deleting and restoring a sale, the configuration singletons, the
  invoice numbering, and the dashboard metrics.
- `Pos`, `Inventory`, `Billing`, `Products`, `Clients`, `Suppliers`,
  `Users`, `PurchaseInvoices`, `Configuration`, `Dashboard`, `Reports`:
  the pages' handlers, each behind its permission gate.
- `InvoiceProcessor`: the backend purchase-invoice processor.

The model has no mutable state. An operation takes a store and returns a
new one. A rejected operation returns the store unchanged, together with
the message the page would show. Money is a `real` and quantities are
integers. Timestamps are integer milliseconds. Identifiers, the clock,
and answers to confirmation dialogs are parameters.

## Model

| member | source | states |
|---|---|---|
| Entities.MergeProveedor | shadcn-ui/src/lib/database.ts:250-259 | the spread update of a supplier never changes its id or creation time |
| Entities.MergeProducto | shadcn-ui/src/lib/database.ts:278-287 | the spread update of a product never changes its id or creation time |
| Entities.MergeCliente | shadcn-ui/src/lib/database.ts:318-327 | the spread update of a client never changes its id or creation time |
| Entities.MergeFactura | shadcn-ui/src/lib/database.ts:457-466 | the spread update of an invoice never changes its id or creation time |
| Entities.MergeEmpresa | shadcn-ui/src/lib/database.ts:505-512 | the company settings keep their id, and the update stamp and author are the ones the update writes last, not the patch's |
| Entities.MergeImpuestos | shadcn-ui/src/lib/database.ts:538-545 | the tax settings keep their id, and the update stamp and author are the ones the update writes last, not the patch's |
| Entities.MergeFacturacion | shadcn-ui/src/lib/database.ts:574-581 | the billing settings keep their id, and the update stamp and author are the ones the update writes last, not the patch's |
| Entities.MergeProveedorLaws | shadcn-ui/src/lib/database.ts:250-259 | an empty supplier patch changes nothing, and applying a patch twice equals applying it once |
| Entities.MergeProductoLaws | shadcn-ui/src/lib/database.ts:278-287 | an empty product patch changes nothing, and applying a patch twice equals applying it once |
| Entities.MergeClienteLaws | shadcn-ui/src/lib/database.ts:318-327 | an empty client patch changes nothing, and applying a patch twice equals applying it once |
| Entities.MergeFacturaLaws | shadcn-ui/src/lib/database.ts:457-466 | an empty invoice patch changes nothing, and applying a patch twice equals applying it once |
| Entities.ClasificarSpec | shadcn-ui/src/lib/database.ts:593-598 | each tier holds exactly under its thresholds: VIP at 20 purchases and 2,000,000 spent, FRECUENTE at 10 and 1,000,000, OCASIONAL at 3, NUEVO below 3; more purchases or more spend never lower the tier |
| Text.ContainsEmpty | shadcn-ui/src/lib/database.ts:289-291 | every string contains the empty query |
| Text.Decimal | shadcn-ui/src/lib/database.ts:348 | `String(n)` of a natural number is a non-empty run of digits with no leading zero |
| Text.ParseDecimalOfDecimal | shadcn-ui/src/lib/database.ts:348 | reading back the decimal text of `n` gives `n` |
| Text.PadStart | shadcn-ui/src/lib/database.ts:348 | `padStart` gives the fill character repeated just enough times to reach the width, followed by the string itself; a string already that long comes back unchanged |
| Text.ZeroPad | shadcn-ui/src/lib/database.ts:348 | the zero-padded number is the decimal digits of the number behind zeros, exactly as wide as asked or as the digits when they are wider, and reads back as the number |
| Text.DecimalFits | shadcn-ui/src/lib/database.ts:348 | a number's decimal text has at most `w` digits exactly when the number is below 10 to the `w` |
| Text.ZeroPadInjective | shadcn-ui/src/lib/database.ts:348 | two different numbers never get the same zero-padded text |
| Text.Take | backend/invoice_processor.py:103 | `s[:n]` is a prefix of `s` of length `min(n, \|s\|)` |
| Text.SharedPrefixContains | backend/invoice_processor.py:101-104 | when two names agree on their first `n` characters, the first, lower-cased, contains the second's first `n` characters lower-cased |
| Permissions.CatalogueKeysAreKeys | src/lib/permissions.ts:8-65 | the spelled-out list of permission strings is, position by position, `module.action` of each catalogue entry |
| Permissions.SuperuserHasWholeCatalogue | src/lib/permissions.ts:69 | SUPERUSUARIO's default list holds the key of every catalogue entry and nothing else |
| Permissions.DefaultsWithinCatalogue | src/lib/permissions.ts:68-105 | every role's default list is drawn from the catalogue |
| Permissions.OnlySuperuserManagesUsers | src/lib/permissions.ts:60-65 | no role other than SUPERUSUARIO gets any `usuarios.*` permission by default |
| Permissions.CatalogueKeysDistinct | src/lib/permissions.ts:8-65 | no two catalogue entries share a permission string |
| Permissions.ModulePart | src/lib/permissions.ts:111 | the module segment is a dot-free prefix of the permission, ending at its first dot |
| Permissions.ActionPart | src/lib/permissions.ts:111 | the action segment is undefined exactly when the permission has no dot |
| Permissions.SplitKey | src/lib/permissions.ts:111 | splitting `m.a` with dot-free `m` and `a` gives back `m` and `a` |
| Permissions.AddPermission | src/lib/permissions.ts:110-116 | one forEach step keeps one group per module and adds the permission's module to the groups |
| Permissions.GroupByModule | src/lib/permissions.ts:107-119 | no module has two groups |
| Permissions.ActionsOfAbsent | src/lib/permissions.ts:107-119 | a module that no permission names has no actions |
| Permissions.GroupByModuleModules | src/lib/permissions.ts:107-119 | a module has a group iff some input permission names it |
| Permissions.AddPermissionActions | src/lib/permissions.ts:110-116 | one step keeps each group equal to the input-ordered actions of its module |
| Permissions.GroupByModuleActions | src/lib/permissions.ts:107-119 | each group lists, in input order, exactly the actions of the permissions of its module |
| Permissions.GroupByModuleFinds | src/lib/permissions.ts:107-119 | every input `m.a` appears as action `a` in the group of `m` |
| Permissions.ActionOfMember | src/lib/permissions.ts:107-119 | the action of every permission of a module is among that module's actions |
| Permissions.GroupByModuleCount | src/lib/permissions.ts:107-119 | the groups hold as many actions in total as there are input permissions: none lost, none duplicated |
| Permissions.HasSpecificPermissionGrouped | src/lib/permissions.ts:107-122 | for a dot-free module and action, holding `m.a` puts `a` under `m` in `getPermissionsByModule`; when every held permission has exactly one dot, `a` under `m` there means `m.a` is held |
| Permissions.JoinKey | src/lib/permissions.ts:111 | a permission with exactly one dot is its module part, the dot and its action part |
| Permissions.GroupedHeld | src/lib/permissions.ts:107-122 | when every held permission has one dot, an action grouped under a module comes from a held `module.action` |
| Auth.Merge | shadcn-ui/src/lib/auth.ts:117-125 | a spread update never changes a user's id or creation time |
| Auth.MergeLaws | shadcn-ui/src/lib/auth.ts:117-125 | an empty patch changes nothing, and applying a patch twice equals applying it once |
| Auth.HasPermission | shadcn-ui/src/lib/auth.ts:189-193 | an inactive or deleted user holds no permission; an active, undeleted one holds exactly the listed ones |
| Auth.SuperUserIgnoresPermissions | shadcn-ui/src/lib/auth.ts:195-198 | the superuser test depends on the role alone, not on permissions, activity or deletion |
| Auth.HasAnyPermission | shadcn-ui/src/lib/auth.ts:200-202 | true iff some permission of the list is held |
| Auth.HasAllPermissions | shadcn-ui/src/lib/auth.ts:205-207 | true iff every permission of the list is held |
| Auth.AnyAllLaws | shadcn-ui/src/lib/auth.ts:200-207 | "all" holds and "any" fails on an empty list; on a non-empty list "all" implies "any"; for an active user "all" means the list is within their permissions |
| Auth.CreateUser | shadcn-ui/src/lib/auth.ts:104-115 | the new user, with the given id, creation time and data and no login or deletion stamp, is appended at the end of the table |
| Auth.UpdateUser | shadcn-ui/src/lib/auth.ts:117-127 | only the first user with the id is merged with the patch; an unknown id returns null and leaves the table as it was |
| Auth.UpdateUserReturnsFirst | shadcn-ui/src/lib/auth.ts:117-127 | the returned user is the first stored user with the id, as merged |
| Auth.DeleteUserRevokesAll | shadcn-ui/src/lib/auth.ts:129-140 | the deleted user holds no permission, is stamped with the deletion time and keeps their permission list; no other user changes; an unknown id reports false and changes nothing |
| Auth.RestoreUserReinstates | shadcn-ui/src/lib/auth.ts:142-153 | the restored user is active, undeleted and holds exactly their stored permissions; no other user changes; an unknown id reports false |
| Auth.DeleteThenRestore | shadcn-ui/src/lib/auth.ts:129-153 | delete followed by restore gives back the user record with only `activo` set and the deletion stamp cleared |
| Auth.LoginSpec | shadcn-ui/src/lib/auth.ts:155-174 | login succeeds iff some user matches username and password exactly and is active and undeleted; a failure changes nothing; on success the authenticated user is the first such user in the table (as `find` returns), the token starts with `token_<id>_`, and that user's stored record gains `last_login` and nothing else |
| Auth.StampsFirst | shadcn-ui/src/lib/auth.ts:162-165 | the `last_login` write hits the first user with the found id and changes only that field |
| Database.CreateCategoria | shadcn-ui/src/lib/database.ts:204-214 | the new category is the given data with the new id and creation time, appended at the end; no other table changes |
| Database.CreateMarca | shadcn-ui/src/lib/database.ts:221-231 | the new brand is the given data with the new id and creation time, appended at the end; no other table changes |
| Database.CreateProveedor | shadcn-ui/src/lib/database.ts:238-248 | the new supplier is the given data with the new id and creation time, appended at the end; no other table changes |
| Database.CreateProducto | shadcn-ui/src/lib/database.ts:266-276 | the new product is the given data with the new id and creation time, appended at the end; no other table changes |
| Database.CreateCliente | shadcn-ui/src/lib/database.ts:306-316 | the new client is the given data with the new id and creation time, appended at the end; no other table changes |
| Database.CreateMovimiento | shadcn-ui/src/lib/database.ts:473-483 | the movement, stamped with the clock, is appended at the end; no other table changes |
| Database.UpdateProveedor | shadcn-ui/src/lib/database.ts:250-259 | only the first supplier with the id is merged with the patch and no other table changes; an unknown id returns null and changes nothing; the returned record has the id and is in the table |
| Database.UpdateProveedorReturnsFirst | shadcn-ui/src/lib/database.ts:250-259 | the returned record is the first stored record with the id, as merged |
| Database.UpdateProducto | shadcn-ui/src/lib/database.ts:278-287 | only the first product with the id is merged with the patch and no other table changes; an unknown id returns null and changes nothing; the returned record has the id and is in the table |
| Database.UpdateProductoReturnsFirst | shadcn-ui/src/lib/database.ts:278-287 | the returned record is the first stored record with the id, as merged |
| Database.UpdateCliente | shadcn-ui/src/lib/database.ts:318-327 | only the first client with the id is merged with the patch and no other table changes; an unknown id returns null and changes nothing; the returned record has the id and is in the table |
| Database.UpdateClienteReturnsFirst | shadcn-ui/src/lib/database.ts:318-327 | the returned record is the first stored record with the id, as merged |
| Database.UpdateFactura | shadcn-ui/src/lib/database.ts:457-466 | only the first invoice with the id is merged with the patch and no other table changes; an unknown id returns null and changes nothing; the returned record has the id and is in the table |
| Database.UpdateFacturaReturnsFirst | shadcn-ui/src/lib/database.ts:457-466 | the returned record is the first stored record with the id, as merged |
| Database.SearchProductos | shadcn-ui/src/lib/database.ts:289-299 | the result holds exactly the active products, all of them for an empty query, otherwise those whose name, SKU or description contains the lower-cased query |
| Database.SearchClientes | shadcn-ui/src/lib/database.ts:329-339 | the result holds exactly the active clients, all of them for an empty query, otherwise those matching the query on the searched fields |
| Database.NumeroVenta | shadcn-ui/src/lib/database.ts:348 | a sale number is `V-` then exactly six digits, or as many as the count has when it has more, so eight characters iff the count is below a million; the digits read back as the count, which fixes every character |
| Database.NumeroVentaDigits | shadcn-ui/src/lib/database.ts:348 | past `V-`, a sale number is zeros followed by the decimal digits of the count |
| Database.FirstSaleNumber | shadcn-ui/src/lib/database.ts:348 | the first sale is numbered `V-000001` |
| Database.NumeroVentaInjective | shadcn-ui/src/lib/database.ts:348 | different counts never give the same sale number |
| Database.SellItem | shadcn-ui/src/lib/database.ts:361-383 | one sale line keeps the product list's length and every product's id |
| Database.SellItems | shadcn-ui/src/lib/database.ts:361-383 | a whole sale keeps the product list's length and every product's id |
| Database.SellItemUnknown | shadcn-ui/src/lib/database.ts:362-363 | a line whose product is not stored changes neither products nor movements |
| Database.SellItemKnown | shadcn-ui/src/lib/database.ts:362-381 | a line whose product is first found at `i` lowers exactly that product's stock by the quantity, with no floor at zero, and appends one SALIDA "Venta" movement from the old stock to the new |
| Database.SellItemAt | shadcn-ui/src/lib/database.ts:361-370 | seen from one product, a line lowers its stock by the line's quantity only when it is the first with its id and the line names it |
| Database.SellItemMovements | shadcn-ui/src/lib/database.ts:361-383 | a line keeps the earlier movements and appends one SALIDA "Venta" movement when its product is known, none otherwise |
| Database.SellItemsStock | shadcn-ui/src/lib/database.ts:361-383 | after a whole sale, the first product with each id has lost the total quantity the lines take of it and is otherwise unchanged; a product shadowed by an earlier one with the same id is never touched |
| Database.SellItemsMovements | shadcn-ui/src/lib/database.ts:361-383 | a whole sale keeps the earlier movements and appends one SALIDA "Venta" movement per line whose product is known |
| Database.KnownLinesCons | shadcn-ui/src/lib/database.ts:362-363 | whether a line's product is known is the same before and after earlier lines are sold |
| Database.CountSale | shadcn-ui/src/lib/database.ts:386-395 | a sale with a client adds one purchase and its total to the first client with that id and recomputes the tier from the new counters; no other client changes; a sale without a client changes none |
| Database.MergeSalePatch | shadcn-ui/src/lib/database.ts:389-393 | the client patch of a sale changes the two counters and the tier and nothing else |
| Database.CreateVenta | shadcn-ui/src/lib/database.ts:346-398 | the sale gets the new id, the clock and the number after the count of stored sales, deleted ones included; it is appended; its lines are sold against the products and movements; the client is counted; no other table changes |
| Database.NumberedInOrderDistinct | shadcn-ui/src/lib/database.ts:348 | sales numbered by their position all have different numbers |
| Database.DeleteVenta | shadcn-ui/src/lib/database.ts:400-411 | the soft delete reports true iff a sale has the id, changes no table but the sales, keeps their number, and changes nothing for an unknown id |
| Database.RestoreVenta | shadcn-ui/src/lib/database.ts:414-425 | the restore reports true iff a sale has the id, changes no table but the sales, keeps their number, and changes nothing for an unknown id |
| Database.RestoreVentaSpec | shadcn-ui/src/lib/database.ts:414-425 | the restore clears the deletion time, author and reason of the first sale with the id and leaves every other sale and table as it was |
| Database.RestoreVentaIdempotent | shadcn-ui/src/lib/database.ts:414-425 | restoring a sale twice is the same as restoring it once |
| Database.DeleteVentaSpec | shadcn-ui/src/lib/database.ts:400-411 | the soft delete reports true iff a sale has the id; it stamps the first such sale with the time, the user and the reason and changes nothing else; an unknown id changes nothing |
| Database.DeleteRestoreRoundTrip | shadcn-ui/src/lib/database.ts:401-426 | restoring a sale just deleted gives back the store as it was, when the sale the id names had no deletion fields |
| Database.DeleteRestoreKeepNumbering | shadcn-ui/src/lib/database.ts:401-426 | deleting and restoring a sale both keep every sale numbered by its position |
| Database.SameIdStaysFirst | shadcn-ui/src/lib/database.ts:403-404 | rewriting a sale in place without changing its id keeps it the first sale with that id |
| Database.ReplaceKeepsNumbering | shadcn-ui/src/lib/database.ts:405-409 | rewriting a sale in place without changing its number keeps the numbering |
| Database.CreateVentaNumbering | shadcn-ui/src/lib/database.ts:346-357 | creating a sale keeps every sale numbered by its position |
| Database.AppendNumbered | shadcn-ui/src/lib/database.ts:348-357 | appending a sale numbered after the count of those before it extends the numbering |
| Database.PutFirst | shadcn-ui/src/lib/database.ts:514-518 | a singleton settings table gets the new row first, added when the table is empty, and keeps the rest |
| Database.UpdateConfiguracionEmpresa | shadcn-ui/src/lib/database.ts:505-522 | the company settings are the current ones merged with the patch, stamped with the clock and the given user, and stored as the first row |
| Database.UpdateConfiguracionImpuestos | shadcn-ui/src/lib/database.ts:538-555 | the tax settings are the current ones merged with the patch, stamped with the clock and the given user, and stored as the first row |
| Database.UpdateConfiguracionFacturacion | shadcn-ui/src/lib/database.ts:574-591 | the billing settings are the current ones merged with the patch, stamped with the clock and always with user "1", and stored as the first row |
| Database.ConfigurationRoundTrip | shadcn-ui/src/lib/database.ts:486-591 | reading a settings table after an update gives back what the update returned, at any later time, with the writer recorded |
| Database.NumeroFacturaInjective | shadcn-ui/src/lib/database.ts:437 | with one prefix, different counters never give the same invoice number |
| Database.CreateFactura | shadcn-ui/src/lib/database.ts:433-455 | the invoice is numbered from the current counter with the configured prefix and appended; the counter rises by exactly one and the prefix stays; no other table changes |
| Database.ConsecutiveFacturasDistinct | shadcn-ui/src/lib/database.ts:433-455 | two invoices created one after the other get different numbers |
| Database.DashboardMetrics | shadcn-ui/src/lib/database.ts:601-625 | the sales of the day are exactly the paid, undeleted sales created on the clock's day, and the count, total and average (0 when there is none) are taken over them; the alerts are the active products at or under their minimum stock, in store order, and the low-stock count is their number; the product and client counts are the numbers of active products and active clients |
| Pos.NewLine | src/pages/POS.tsx:80-90 | a fresh cart line holds one unit of the product at its sale price, with IVA at the product's rate only when it applies, and a total equal to subtotal plus IVA |
| Pos.Requantify | src/pages/POS.tsx:110-120 | a recomputed line keeps its product, id and unit price, and gets the new quantity, subtotal = price × quantity, its IVA and total = subtotal + IVA |
| Pos.RemoveFromCart | src/pages/POS.tsx:126-128 | the cart keeps exactly the lines of other products, in order |
| Pos.UpdateCartItemQuantity | src/pages/POS.tsx:98-124 | a quantity of zero or less removes the product; the update is rejected, leaving the cart, iff the quantity exceeds the stock recorded on the product's first line; otherwise every line of the product is recomputed and the others stay |
| Pos.AddToCart | src/pages/POS.tsx:65-96 | a product without stock is rejected with "Producto sin stock disponible"; a rejection leaves the cart; a product not yet in the cart is appended as a fresh line |
| Pos.AddAt | src/pages/POS.tsx:65-96 | whatever line `find` reported, a rejected addition leaves the cart as it was |
| Pos.AddToCartExisting | src/pages/POS.tsx:71-78 | for a product already in the cart: a line holding all the current stock is rejected with "No hay suficiente stock disponible"; one more unit beyond the stock recorded on the line is rejected with "Cantidad excede el stock disponible"; otherwise the line goes up by one unit and other products' lines stay |
| Pos.AddBumps | src/pages/POS.tsx:73-78 | an accepted addition of a product already in the cart is the quantity update to one more unit |
| Pos.AddToCartAt | src/pages/POS.tsx:71-73 | once `find` has reported the product's line at index i, adding the product goes on from that line |
| Pos.AddAtExisting | src/pages/POS.tsx:73-78 | for a product in stock whose line is at index i, a line already holding all the stock is rejected with "No hay suficiente stock disponible" and the cart is unchanged; otherwise the addition is the quantity update to that line's quantity plus one |
| Pos.UpdateFirstLine | src/pages/POS.tsx:104-123 | for a positive quantity, where the product's first line is at index i: when the quantity exceeds that line's recorded stock, the update is rejected with "Cantidad excede el stock disponible" and the cart is unchanged; otherwise the cart keeps its length, line i takes the new quantity, and other products' lines stay |
| Pos.FirstLineFound | src/pages/POS.tsx:71 | `find` and `findIndex` on the cart report the product's first line |
| Pos.RemoveKeepsWellFormed | src/pages/POS.tsx:126-128 | removing a product keeps the cart at one line per product, each with 1 to stock units and total = subtotal + IVA |
| Pos.UpdateKeepsWellFormed | src/pages/POS.tsx:98-124 | changing a quantity keeps the cart well formed |
| Pos.AddKeepsWellFormed | src/pages/POS.tsx:65-96 | adding a product keeps the cart well formed |
| Pos.AddExistingKeepsWellFormed | src/pages/POS.tsx:73-78 | adding a product that already has a line keeps the cart well formed, whether the addition is rejected or bumps the line by one unit |
| Pos.AddNewKeepsWellFormed | src/pages/POS.tsx:79-92 | adding a product the cart lacks keeps the cart well formed, whether the addition is rejected or appends a fresh line |
| Pos.AppendKeepsWellFormed | src/pages/POS.tsx:80-91 | a well-formed line for a product the cart lacks can be appended without breaking the cart |
| Pos.CalculateTotals | src/pages/POS.tsx:137-151 | the subtotal and IVA are the sums over the lines; the discount is a percentage of the subtotal only; the total is the discounted subtotal plus the undiscounted IVA |
| Pos.SumOfLineTotals | src/pages/POS.tsx:137-151 | when every line's total is its subtotal plus IVA, the line totals sum to subtotal plus IVA |
| Pos.UndiscountedTotal | src/pages/POS.tsx:137-151 | with no discount the sale total is the sum of the line totals; with a full discount only the IVA is left |
| Pos.ProcesarVenta | src/pages/POS.tsx:153-201 | the sale is rejected iff the cart is empty ("El carrito está vacío") or a cash payment is below the total ("El valor recibido es menor al total de la venta"); a rejection records nothing and keeps the cart; otherwise exactly the sale of the computed totals is recorded |
| Pos.RecordSale | src/pages/POS.tsx:166-195 | the recorded sale is PAGADA, carries the user, the method, the computed totals and the cart's lines in order, and a client only when one was selected; cash gets change = received − total ≥ 0, other methods the exact total and no change; the store is updated as `createVenta` does; the cart is emptied |
| Pos.PosSearch | src/pages/POS.tsx:52-59 | an empty query shows nothing; otherwise the first at most ten results of the store search, all of them when there are ten or fewer |
| Inventory.NuevoStock | src/pages/Inventory.tsx:104-120 | an ENTRADA adds the quantity, a SALIDA subtracts it and is refused exactly when it exceeds the stock, an AJUSTE sets the stock to the quantity |
| Inventory.HandleAjusteSubmit | src/pages/Inventory.tsx:87-145 | without `inventario.write` the adjustment is refused; then a missing product or a quantity of zero or less is refused; an unknown product changes nothing, silently; a SALIDA beyond the stock is refused; a refusal changes nothing; otherwise only the product's stock is written and exactly one movement from the old stock to the new, with the form's type, quantity, motive and notes and the user, is appended |
| Inventory.AdjustmentBounds | src/pages/Inventory.tsx:104-120 | an accepted SALIDA leaves between zero and the old stock, an AJUSTE a positive stock, an ENTRADA more than before; from a non-negative stock the result is never negative |
| Inventory.AjusteKeepsStockNonNegative | src/pages/Inventory.tsx:87-145 | an adjustment never takes a product with non-negative stock below zero, and an accepted AJUSTE leaves it positive |
| Inventory.StockStatusSpec | src/pages/Inventory.tsx:180-200 | "Agotado" exactly at zero stock, "Stock Bajo" exactly when the stock is non-zero and at or under the minimum, "Stock OK" otherwise; a negative stock with a non-negative minimum reads as low |
| Inventory.ProductosConAlertas | src/pages/Inventory.tsx:221-223 | the alerts are exactly the active products whose status is not "Stock OK" |
| Inventory.AlertsAgreeWithDashboard | src/pages/Inventory.tsx:221-223 | when no minimum is negative, the page's alerts are exactly the dashboard's low-stock list, in the same order |
| Inventory.ValorInventarioSpec | src/pages/Inventory.tsx:215-219 | the stock valuation adds up over concatenated lists product by product, and is never negative while stocks and purchase prices are not |
| Inventory.Kardex | src/pages/Inventory.tsx:161-165 | the product's kardex is its movements, newest first, each kept with its multiplicity |
| Inventory.KardexMembers | src/pages/Inventory.tsx:161-165 | a movement is in the kardex iff it is a stored movement of that product |
| Inventory.FilterProducts | src/pages/Inventory.tsx:73-85 | the list shows exactly the active products matching the lower-cased query on name or SKU, all of them for an empty query |
| Billing.VentasFacturables | src/pages/Billing.tsx:60-62 | the sales offered are exactly the stored sales that are PAGADA and not deleted |
| Billing.VentasSinFactura | src/pages/Billing.tsx:220 | the sales listed as uninvoiced are exactly the invoiceable sales that no stored invoice, voided ones included, refers to |
| Billing.FacturaDe | src/pages/Billing.tsx:116-127 | the invoice for a sale copies its subtotal, IVA and total, is EMITIDA, is by the user, names the form's client or else the sale's, and carries no voiding fields |
| Billing.HandleSubmit | src/pages/Billing.tsx:94-136 | without `facturacion.write` the form is refused; a refusal changes nothing and an acceptance changes the store; an accepted form has an invoiceable sale with no earlier invoice and a due date, and the store is exactly the one `createFactura` gives for that sale's invoice |
| Billing.HandleSubmitGate | src/pages/Billing.tsx:94-114 | the form goes through iff the user may invoice, the due date parses, the sale is among the offered ones and no invoice refers to it |
| Billing.SinFacturaMembers | src/pages/Billing.tsx:220 | a sale is listed as uninvoiced iff it is offered and no invoice refers to it |
| Billing.HandleSubmitAccepts | src/pages/Billing.tsx:94-114 | the form goes through iff the user may invoice, the due date parses and the sale is one of those listed as uninvoiced |
| Billing.HandleSubmitKeepsOneInvoicePerSale | src/pages/Billing.tsx:108-128 | issuing keeps at most one invoice per sale; afterwards the sale is invoiced and no longer listed as uninvoiced |
| Billing.HandleAnular | src/pages/Billing.tsx:138-157 | without `facturacion.cancel` voiding is refused; a dismissed or empty motive or a declined confirmation changes nothing; otherwise the invoice is set ANULADA with the time, the user and the motive |
| Billing.HandleMarcarPagada | src/pages/Billing.tsx:159-168 | without `facturacion.write` marking as paid is refused; otherwise only the invoice's state becomes PAGADA |
| Billing.StateChangesSpec | src/pages/Billing.tsx:138-168 | voiding changes only the first invoice with the id, setting its state, stamps and motive; paying changes only that invoice's state; all other invoices stay |
| Billing.InvoiceLifecycle | src/pages/Billing.tsx:505-526 | through the buttons a voided invoice offers neither paying nor voiding, and only an EMITIDA invoice can be paid |
| Billing.FilterInvoices | src/pages/Billing.tsx:66-83 | the list is sorted newest first and holds exactly the invoices passing the state filter and the text query, with their multiplicity; with no filter it is all invoices |
| Billing.ShownAll | src/pages/Billing.tsx:66-83 | with no state filter and an empty query every invoice passes |
| Billing.FilterInvoicesMembers | src/pages/Billing.tsx:66-83 | an invoice is listed iff it is stored and passes both filters |
| Products.PatchOf | src/pages/Products.tsx:120-121 | an edit writes every form field, the SKU and both prices as typed |
| Products.EditMatchesCreate | src/pages/Products.tsx:120-134 | an edited product carries exactly the fields a create with the same form and SKU would give it, keeping its id and creation time |
| Products.ProductoOf | src/pages/Products.tsx:134 | a created product carries the chosen SKU and the form's prices |
| Products.Prefix | src/pages/Products.tsx:128-129 | a SKU prefix is the first three characters of the name upper-cased, or "GEN" when there is no name; it has one to three characters |
| Products.SkuSpec | src/pages/Products.tsx:126-131 | a generated SKU is the category prefix, a dash, the brand prefix, a dash and the counter zero-padded to three digits, exactly three iff the counter is below 1000, reading back as the counter |
| Products.SkuExample | src/pages/Products.tsx:131 | counter 7 under prefixes ELE and SAM gives `ELE-SAM-007` |
| Products.SkuInjective | src/pages/Products.tsx:131 | with the same prefixes, different counters give different SKUs |
| Products.HandleSubmit | src/pages/Products.tsx:106-144 | without `productos.write` saving is refused; a sale price not above the purchase price is refused; a refusal changes nothing; an edit merges the whole form, its SKU as typed; a create keeps a typed SKU and otherwise generates one from the active category and brand names and the product count plus one |
| Products.HandleSubmitKeepsPrices | src/pages/Products.tsx:106-144 | saving keeps every stored product's sale price above its purchase price; a create appends one product, with the typed SKU when one was given; an edit stores the typed SKU and never regenerates it |
| Products.SameThresholdsAsInventory | src/pages/Products.tsx:192-200 | this page's stock status splits at the same thresholds as the inventory page's; only the label at zero stock differs |
| Products.FilterProducts | src/pages/Products.tsx:72-85 | an empty query lists every product, inactive ones included; otherwise exactly those whose name, SKU or description contains the lower-cased query |
| Clients.Gate | src/pages/Clients.tsx:99-122 | a save passes iff the user has `clientes.write`, consent is given and no other client holds the document; the permission is checked first, then consent |
| Clients.HandleSubmit | src/pages/Clients.tsx:99-146 | a refused save changes nothing; an accepted edit merges the form data, consent time, tier NUEVO and zero counters into the edited client; an accepted create appends a client made of that data |
| Clients.HandleSubmitSpec | src/pages/Clients.tsx:125-138 | a created client gets the new id, the document, consent with its time, tier NUEVO and zero counters; an edit gives the edited client the same, so its purchase history is reset |
| Clients.EditResetsCounters | src/pages/Clients.tsx:125-135 | retyping only the name of a VIP with 25 purchases and 3,000,000 spent leaves it NUEVO with zero purchases and zero spend |
| Clients.HandleSubmitKeepingCounters | src/pages/Clients.tsx:99-146 | the corrected save passes the same gate; a create is as written; an edit writes the form fields into the first client with the edited id but keeps its tier and counters, and changes no other client |
| Clients.EditKeepsCounters | src/pages/Clients.tsx:125-135 | under the corrected save, an edited client keeps its id, creation time, counters and tier |
| Clients.EditKeepsRegistry | src/pages/Clients.tsx:114-135 | an edit that moves only the edited client's document to one no other client holds keeps ids and documents unique |
| Clients.SaveKeepsDocumentsUnique | src/pages/Clients.tsx:114-138 | with a fresh id, the corrected save keeps every id and every document held by at most one client |
| Clients.EditKeepsDocumentsUnique | src/pages/Clients.tsx:114-135 | an accepted edit under the corrected save keeps ids and documents unique |
| Clients.AppendKeepsRegistry | src/pages/Clients.tsx:114-138 | a client with a fresh id and a document nobody holds can be appended without breaking uniqueness |
| Clients.FilterClients | src/pages/Clients.tsx:65-79 | an empty query lists every client, inactive ones included; otherwise exactly those whose lower-cased name, email or surname, or the document as stored, contains the lower-cased query |
| Suppliers.PatchOf | src/pages/Suppliers.tsx:147-148 | an edit writes every form field, NIT, business name and active flag included |
| Suppliers.EditMatchesCreate | src/pages/Suppliers.tsx:147-152 | an edited supplier carries exactly the fields a create with the same form would give it, keeping its id and creation time |
| Suppliers.ProveedorOf | src/pages/Suppliers.tsx:150-151 | a created supplier carries the form's NIT, business name and active flag |
| Suppliers.HandleSubmit | src/pages/Suppliers.tsx:127-161 | without `proveedores.write` saving is refused; a NIT held by a supplier other than the edited one is refused; the save is accepted iff neither holds; an edit merges the whole form into the edited supplier; a create appends it |
| Suppliers.EditKeepsRegistry | src/pages/Suppliers.tsx:136-148 | an edit that moves only the edited supplier's NIT to one no other supplier holds keeps ids and NITs unique |
| Suppliers.SaveKeepsNitsUnique | src/pages/Suppliers.tsx:127-161 | with a fresh id, saving keeps one supplier per id and per NIT |
| Suppliers.AppendKeepsRegistry | src/pages/Suppliers.tsx:150-151 | a supplier with a fresh id and a NIT nobody holds can be appended without breaking uniqueness |
| Suppliers.HandleDelete | src/pages/Suppliers.tsx:187-198 | without `proveedores.delete` deletion is refused; a declined confirmation changes nothing; otherwise only the supplier's active flag is cleared, no row is removed and no other supplier changes |
| Suppliers.DeleteHidesSupplier | src/pages/Suppliers.tsx:93-107 | a deleted supplier is kept as a row but drops out of the listing whatever the query |
| Suppliers.FilterSuppliers | src/pages/Suppliers.tsx:93-107 | the listing holds exactly the active suppliers whose lower-cased business name, email or city, or NIT as stored, contains the lower-cased query; all active ones for an empty query |
| Suppliers.NoQueryListsActive | src/pages/Suppliers.tsx:94 | with no query the listing is the active suppliers in store order |
| Suppliers.HandleEvaluate | src/pages/Suppliers.tsx:200-215 | with `proveedores.evaluate` the supplier is selected with every score reset to 5; without it the evaluation is refused and nothing is selected |
| Suppliers.Promedio | src/pages/Suppliers.tsx:220 | an evaluation's mean is the sum of its four scores divided by four |
| Suppliers.PromedioBounds | src/pages/Suppliers.tsx:220 | scores between two bounds average between them |
| Suppliers.HandleSaveEvaluation | src/pages/Suppliers.tsx:217-238 | with no supplier selected nothing is saved; otherwise exactly one evaluation is appended with the supplier, the evaluator, the four scores and their mean |
| Suppliers.EvaluacionesDe | src/pages/Suppliers.tsx:240-243 | a supplier's evaluations are exactly the stored ones that name it |
| Suppliers.PromedioEvaluacion | src/pages/Suppliers.tsx:245-249 | a supplier's average is 0 with no evaluation, and otherwise the sum of its evaluations' means divided by their number |
| Suppliers.PromedioEvaluacionBounds | src/pages/Suppliers.tsx:245-249 | when every evaluation of the supplier has its mean between two bounds, so does the supplier's average |
| Suppliers.SaveEvaluationIsolated | src/pages/Suppliers.tsx:217-249 | saving an evaluation never moves another supplier's average |
| Users.UserDataOf | src/pages/Users.tsx:120-130 | a created user carries the form's username, password and role and exactly the role's default permissions |
| Users.PatchOf | src/pages/Users.tsx:120-127 | an edit writes every form field, the password included, and the role's default permissions, and leaves the login and deletion stamps alone |
| Users.EditMatchesCreate | src/pages/Users.tsx:120-130 | an edited user carries exactly the fields a create with the same form would give it, keeping its id, creation time and login and deletion stamps |
| Users.HandleSubmit | src/pages/Users.tsx:100-140 | only SUPERUSUARIO may save; a username held by another live user is refused; the save is accepted iff neither holds; an edit merges the form into the edited user, a create appends a new user |
| Users.SavedPermissionsAreDefaults | src/pages/Users.tsx:120-130 | a save stores the role's default permissions whatever the user held before: in the appended, undeleted record on create, in the edited record on edit |
| Users.BlankPasswordEditAllowsEmptyLogin | src/pages/Users.tsx:142-154 | an edit that leaves the password field blank, as the edit form starts, stores the empty password, and logging in with an empty password then succeeds |
| Users.EditPatch | src/pages/Users.tsx:120-127 | the corrected edit patch writes the password only when the field is not blank, with the role's default permissions |
| Users.HandleSubmitKeepingPassword | src/pages/Users.tsx:100-140 | the corrected save refuses exactly what the original refuses and creates as it does; an accepted edit writes the corrected patch |
| Users.KeepingPasswordBlocksEmptyLogin | src/pages/Users.tsx:100-140 | under the corrected save, when stored passwords are non-empty and a create always types one, they stay non-empty and an empty password never logs in |
| Users.EditKeepsPassword | src/pages/Users.tsx:120-127 | under the corrected save, the edited user keeps the stored password when the field is blank and takes the typed one otherwise |
| Users.EditKeepsRegistry | src/pages/Users.tsx:109-118 | an edit that keeps ids and deletion stamps and moves only the edited user's name to one no other live user has keeps ids unique and live usernames unique |
| Users.SaveKeepsRegistry | src/pages/Users.tsx:100-140 | with a fresh id, a save keeps ids unique and no two live users sharing a username |
| Users.SaveKeepingPasswordKeepsRegistry | src/pages/Users.tsx:100-140 | the corrected save keeps the same uniqueness |
| Users.HandleDelete | src/pages/Users.tsx:156-172 | only SUPERUSUARIO may delete, and never their own record; a refusal or a declined confirmation changes nothing; otherwise the user is soft-deleted |
| Users.DeleteSparesActor | src/pages/Users.tsx:156-172 | every delete leaves the acting user's record as it was, keeps the table's length and keeps uniqueness |
| Users.HandleRestore | src/pages/Users.tsx:174-183 | only SUPERUSUARIO may restore; otherwise the user is restored without confirmation or username check |
| Users.RestoreMayDuplicateUsername | src/pages/Users.tsx:174-183 | restoring a deleted user whose name was reused leaves two live users with one username |
| Users.HandlePermissionChange | src/pages/Users.tsx:191-197 | checking appends the permission, even when already there; unchecking removes every occurrence; no other permission's presence or count changes |
| Users.RemoveAll | src/pages/Users.tsx:195 | removing a permission drops all its occurrences and keeps every other permission with its count |
| Users.CheckThenUncheck | src/pages/Users.tsx:191-197 | checking then unchecking a permission leaves exactly the other permissions of the list |
| Users.HandleSavePermissions | src/pages/Users.tsx:199-206 | the edited list replaces only the selected user's permissions, with no role check; with no user selected nothing changes |
| Users.FilterUsers | src/pages/Users.tsx:69-82 | the list holds exactly the users of the chosen view, deleted or not, whose lower-cased full name, username, email or role contains the lower-cased query, all of the view for an empty query |
| Users.ViewsPartition | src/pages/Users.tsx:70-72 | with no query every user is in exactly one of the two views |
| PurchaseInvoices.AddProduct | src/pages/PurchaseInvoices.tsx:166-180 | exactly one blank line is appended, with quantity 1, price 0, total 0 and no reference or name, and the earlier lines stay as they were |
| PurchaseInvoices.RemoveProduct | src/pages/PurchaseInvoices.tsx:182-188 | only the line at the index goes and the others keep their order; an index past the end removes nothing |
| PurchaseInvoices.UpdateProduct | src/pages/PurchaseInvoices.tsx:190-206 | only the edited line changes, and only in the edited field; a quantity or price edit sets the line total to quantity × price, any other edit keeps the total |
| PurchaseInvoices.CalculateTotals | src/pages/PurchaseInvoices.tsx:208-221 | the subtotal is the sum of the line totals, the IVA is 19% of it and the total is their sum |
| PurchaseInvoices.AddKeepsConsistent | src/pages/PurchaseInvoices.tsx:166-180 | when every line total is quantity × price, it stays so after adding a line |
| PurchaseInvoices.RemoveKeepsConsistent | src/pages/PurchaseInvoices.tsx:182-188 | when every line total is quantity × price, it stays so after removing a line |
| PurchaseInvoices.UpdateKeepsConsistent | src/pages/PurchaseInvoices.tsx:190-206 | when every line total is quantity × price, it stays so after editing any field |
| PurchaseInvoices.AddProductKeepsTotals | src/pages/PurchaseInvoices.tsx:166-180 | adding a blank line leaves the invoice totals as they were |
| PurchaseInvoices.RemoveProductTotals | src/pages/PurchaseInvoices.tsx:182-188 | removing a line takes exactly its total out of the subtotal |
| PurchaseInvoices.ValidateInvoice | src/pages/PurchaseInvoices.tsx:223-247 | the form is sent iff the supplier has a NIT and a business name, the invoice has a number and a date, there is a line, and every line has a reference, a name and a positive quantity and price; the supplier is checked first, then the invoice |
| PurchaseInvoices.BlankLineBlocksSubmit | src/pages/PurchaseInvoices.tsx:166-180 | a form whose last line is fresh from `addProduct` is never sent |
| Configuration.HandleSaveEmpresa | shadcn-ui/src/pages/Configuration.tsx:111-129 | saving company data is refused iff `configuracion.company` is missing, changing nothing; otherwise the stored company record holds all ten of the form's fields, keeps its logo, and names the user and the time as its updater; no other table changes |
| Configuration.HandleSaveImpuestos | shadcn-ui/src/pages/Configuration.tsx:131-149 | saving taxes is refused iff `configuracion.taxes` is missing, changing nothing; otherwise the stored tax record holds the form's rates and names the user as its updater; no other table changes |
| Configuration.HandleSaveFacturacion | shadcn-ui/src/pages/Configuration.tsx:151-175 | saving invoicing is accepted iff the user is SUPERUSUARIO and both dates parse; a refusal changes nothing; otherwise the stored record holds the form's prefix, initial number, resolution, range and the dates as ISO text, keeps the running invoice number, and records user "1" and the clock as its updater and time |
| Configuration.FacturacionGateIgnoresPermissions | shadcn-ui/src/pages/Configuration.tsx:154 | the invoicing gate looks at the role alone, not at permissions or the active flag |
| Configuration.GatesAreIndependent | shadcn-ui/src/pages/Configuration.tsx:114-197 | an ADMIN holding the whole catalogue can open the page and save company and taxes but not invoicing; a SUPERUSUARIO holding no permission cannot open the page yet passes the invoicing gate |
| Configuration.SaveFacturacionKeepsNumbering | shadcn-ui/src/pages/Configuration.tsx:151-175 | saving invoicing settings never moves the invoice counter |
| Dashboard.GetQuickActions | src/pages/Dashboard.tsx:85-129 | an action is offered iff its permission is held, and the offered actions keep the fixed order: new sale, new product, new client, reports |
| Dashboard.ReportsActionUnreachable | src/pages/Dashboard.tsx:118-127 | a user whose permissions all come from the catalogue is never offered "Ver Reportes" |
| Dashboard.ReportesReadUncatalogued | src/lib/permissions.ts:8-65 | `reportes.read` is not a catalogue permission |
| Dashboard.DefaultUsersNeverSeeReports | src/pages/Dashboard.tsx:118-127 | a user saved with their role's default permissions never gets "Ver Reportes" |
| Dashboard.Panels | src/pages/Dashboard.tsx:167-310 | the metric cards show iff `dashboard.read` is held; the alerts panel shows iff `inventario.read` is held and loaded metrics have an alert; it lists the first alerts, at most three, all of them when there are three or fewer; "Ver todas las alertas" shows, with the full count, iff there are more than three |
| Dashboard.PanelAlertsAreLowStock | src/pages/Dashboard.tsx:271-298 | every alert on the dashboard is a stored active product at or under its minimum stock |
| Dashboard.InactiveSeesNothing | src/pages/Dashboard.tsx:85-310 | an inactive or deleted user sees no card, no alert and no action |
| Reports.VentasPagadas | shadcn-ui/src/pages/Reports.tsx:71-72 | the report works on exactly the stored PAGADA sales, deleted ones included |
| Reports.FiltrarVentasPorFecha | shadcn-ui/src/pages/Reports.tsx:77-84 | with either bound empty every sale is kept; otherwise exactly the sales whose day lies between the bounds, both inclusive |
| Reports.InsertDay | shadcn-ui/src/pages/Reports.tsx:88-96 | adding a day to an ascending list of days keeps it ascending and adds just that day |
| Reports.Dias | shadcn-ui/src/pages/Reports.tsx:88-105 | the report's days are ascending, each once, and are exactly the days on which the sales fall |
| Reports.Mean | shadcn-ui/src/pages/Reports.tsx:103 | the mean times the count is the total, and the mean of no terms is 0 |
| Reports.Percent | shadcn-ui/src/pages/Reports.tsx:128 | the percentage times the whole is the part times 100, and it is 0 when the whole is not positive |
| Reports.GenerarReporteVentas | shadcn-ui/src/pages/Reports.tsx:86-106 | the day rows are in strictly ascending date order, so no day has two rows |
| Reports.ReporteVentasCovers | shadcn-ui/src/pages/Reports.tsx:86-106 | every sale in range has the row of its day |
| Reports.ReporteVentasRow | shadcn-ui/src/pages/Reports.tsx:86-106 | every row is for a day with a sale in range and holds that day's sale count (at least one), the sum of their totals and the mean |
| Reports.FilasDiasSums | shadcn-ui/src/pages/Reports.tsx:98-104 | the totals and counts of the day rows are the per-day sums and counts of the sales |
| Reports.Metricas | shadcn-ui/src/pages/Reports.tsx:178-203 | the ticket is the mean sale, 0 with no sale; the gross profit plus the cost is the total; the margin is the profit in percent of the total, 0 when the total is not positive |
| Reports.CalcularMetricasGenerales | shadcn-ui/src/pages/Reports.tsx:178-203 | the metrics are taken from the sum of the totals, the count and the cost of the sales in range; with no sale the total and the ticket are 0 |
| Reports.DailyRowsAddUp | shadcn-ui/src/pages/Reports.tsx:86-106 | the day rows' totals sum to `totalVentas` and their counts to `totalTransacciones` over the same range |
| Reports.ItemsDe | shadcn-ui/src/pages/Reports.tsx:112-120 | the lines of the sales are exactly the lines of each sale, all of them |
| Reports.CostoVentasFlat | shadcn-ui/src/pages/Reports.tsx:185-190 | the cost summed sale by sale equals the cost of all their lines taken together |
| Reports.Margen | shadcn-ui/src/pages/Reports.tsx:127-128 | a product's margin is its price difference in percent of the sale price, 0 when the sale price is not positive |
| Reports.FilasProductosSound | shadcn-ui/src/pages/Reports.tsx:122-137 | each product row is for a catalogue product whose id was sold, with that product's sums |
| Reports.FilasProductosComplete | shadcn-ui/src/pages/Reports.tsx:122-137 | each sold id whose product is in the catalogue gets that product's row |
| Reports.GenerarReporteProductos | shadcn-ui/src/pages/Reports.tsx:108-140 | the product rows are sorted by quantity sold, descending, and no product has two rows |
| Reports.FilasProductosDistinct | shadcn-ui/src/pages/Reports.tsx:122-137 | one entry per product id gives at most one row per product |
| Reports.ReporteProductosRow | shadcn-ui/src/pages/Reports.tsx:108-140 | every row is for a catalogue product sold in range and holds the sum of the quantities and of the line totals of its lines, and its margin |
| Reports.ReporteProductosComplete | shadcn-ui/src/pages/Reports.tsx:108-140 | every line in range whose product is in the catalogue shows up in that product's row; lines of unknown products are dropped |
| Reports.UltimaCompra | shadcn-ui/src/pages/Reports.tsx:154-157 | the latest purchase is unset only for no sale, and otherwise is the latest creation time among the sales |
| Reports.FilasClientesSound | shadcn-ui/src/pages/Reports.tsx:161-173 | each client row is for a known client with sales, with that client's figures |
| Reports.FilasClientesComplete | shadcn-ui/src/pages/Reports.tsx:161-173 | each client id with sales whose client is known gets that client's row |
| Reports.GenerarReporteClientes | shadcn-ui/src/pages/Reports.tsx:142-176 | the client rows are sorted by spend, descending, and no client has two rows |
| Reports.FilasClientesDistinct | shadcn-ui/src/pages/Reports.tsx:161-173 | one entry per client id gives at most one row per client |
| Reports.VentasConCliente | shadcn-ui/src/pages/Reports.tsx:146-147 | the client report counts exactly the sales in range that have a client |
| Reports.ReporteClientesRow | shadcn-ui/src/pages/Reports.tsx:142-176 | every row is for a known client with sales in range, holds their count (at least one), the sum of their totals and the latest of their times; sales without a client count for no one |
| Reports.FilaDeClaveValida | shadcn-ui/src/pages/Reports.tsx:161-173 | the row built for a known client whose id has sales is a valid client row |
| Reports.ReporteClientesComplete | shadcn-ui/src/pages/Reports.tsx:142-176 | every known client with a sale in range has a row |
| Reports.ListsProductoSorted | shadcn-ui/src/pages/Reports.tsx:139 | sorting the product rows keeps every product that had a row |
| Reports.ListsClienteSorted | shadcn-ui/src/pages/Reports.tsx:175 | sorting the client rows keeps every client that had a row |
| Grouping.Members | shadcn-ui/src/pages/Reports.tsx:88-96 | every element of a group has its key and comes from the input, and every input element with the key is in the group |
| Grouping.MembersCons | shadcn-ui/src/pages/Reports.tsx:88-96 | a group keeps input order and repeats: the group of `x` before `xs` is `x` before the group of `xs` when `x` has the key, else the group of `xs` |
| Grouping.Keys | shadcn-ui/src/pages/Reports.tsx:88-98 | the groups' keys are exactly the keys that occur, each once |
| Grouping.GroupPartition | shadcn-ui/src/pages/Reports.tsx:88-104 | when every element's key is listed once, the group totals add up to the overall total and the group sizes to the element count |
| Sorting.Insert | shadcn-ui/src/pages/Reports.tsx:139 | inserting into a descending list keeps it descending and adds just the new element |
| Sorting.SortDesc | shadcn-ui/src/pages/Reports.tsx:139 | the comparator sort yields a descending order of the key and a permutation of the input |
| Sorting.SumSortDesc | shadcn-ui/src/pages/Reports.tsx:139 | sorting leaves a sum over the rows unchanged |
| Sorting.SortDescMembers | shadcn-ui/src/pages/Reports.tsx:139 | an element is in the sorted list iff it is in the input |
| Sorting.SortDescDistinctBy | shadcn-ui/src/pages/Reports.tsx:139 | sorting keeps distinct keys distinct |
| Seqs.FindFirst | shadcn-ui/src/lib/auth.ts:157 | `find` returns the first element that matches |
| Seqs.FindIndex | src/pages/POS.tsx:71 | `findIndex` reports the first match, or none iff nothing matches |
| Seqs.UpdateFirst | shadcn-ui/src/lib/database.ts:250-259 | the merge-update rewrites only the first match and nothing at all when there is none |
| InvoiceProcessor.FindOrCreateSupplier | backend/invoice_processor.py:45-86 | the first supplier with the NIT gets each non-empty field of the data written over its own and keeps its id, trade name and active flag; with no such supplier a new active one is appended whose trade name is its legal name (empty when none is given); no other supplier changes |
| InvoiceProcessor.FindOrCreateSupplierIdempotent | backend/invoice_processor.py:45-86 | sending the same supplier data a second time changes nothing and returns the same supplier |
| InvoiceProcessor.FindCodigo | backend/invoice_processor.py:94-96 | finds the first product whose code is the reference, and none iff no product has that code |
| InvoiceProcessor.FindNamed | backend/invoice_processor.py:102-104 | finds the first product whose name contains the line name's first 20 characters, and none iff there is none |
| InvoiceProcessor.FindProduct | backend/invoice_processor.py:88-107 | the lookup answers the first product coded with the reference; only when no code matches does it fall back to the name match, and it finds nothing iff both miss |
| InvoiceProcessor.NewProduct | backend/invoice_processor.py:109-123 | a created product takes the reference as code (or AUTO- and the clock stamp when there is none), sells at 1.5 times the line's unit price, starts with no stock and a minimum of 5, and is active |
| InvoiceProcessor.Place | backend/invoice_processor.py:98-129 | a found product is used as it is; otherwise exactly one new product is appended and nothing else in the store changes |
| InvoiceProcessor.FindOrCreateProduct | backend/invoice_processor.py:88-129 | a line whose lookup succeeds leaves the store untouched and returns the found product; otherwise the new product is appended at the end |
| InvoiceProcessor.UpdateInventory | backend/invoice_processor.py:131-153 | the product gains exactly the quantity, no other product changes, and one ENTRADA movement by the current user is appended carrying the old and new stock and the purchase reason with the invoice reference |
| InvoiceProcessor.StockIn | backend/invoice_processor.py:219-234 | one line appends one item for the product and one movement, both recording the line, and raises only that product's stock by the line's quantity |
| InvoiceProcessor.LineAt | backend/invoice_processor.py:215-234 | a line appends one item and one movement recording it and leaves suppliers and invoices alone |
| InvoiceProcessor.ProcessLine | backend/invoice_processor.py:215-234 | each line of step 4 appends exactly one item and one movement that record it, after the existing ones |
| InvoiceProcessor.LineFound | backend/invoice_processor.py:215-234 | a line whose product was found adds its quantity to that product and to no other |
| InvoiceProcessor.LineCreated | backend/invoice_processor.py:109-129 | a line nothing matches appends a new product holding exactly the line's quantity |
| InvoiceProcessor.ProcessInvoice | backend/invoice_processor.py:155-246 | the invoice fails iff the issue date does not parse, with status 500 and the error message, and then only the committed supplier change remains; otherwise it is PROCESADA, numbered after the existing invoices, tied to the supplier with the data's NIT, and carries the data's number, dates and totals, and the store is what the product loop makes of the supplier step's store with the invoice appended |
| InvoiceProcessor.ProcessInvoiceLines | backend/invoice_processor.py:197-234 | a processed invoice adds one item and one ENTRADA movement per line, in line order after the stored ones, which stay, and raises the total stock by exactly the sum of the line quantities |
| InvoiceProcessor.ProcessLinesKeepsInvoices | backend/invoice_processor.py:215-234 | the product loop changes neither suppliers nor invoices |
| InvoiceProcessor.ProcessLinesGrows | backend/invoice_processor.py:215-234 | the lines add one item and one movement each, after the ones already recorded, which stay as they were |
| InvoiceProcessor.ProcessLinesRecords | backend/invoice_processor.py:215-234 | the new items and movements record the invoice's lines one for one and in order |
| InvoiceProcessor.ProcessLineStock | backend/invoice_processor.py:215-234 | one line raises the store's total stock by exactly its quantity, whether its product was found or created |
| InvoiceProcessor.ProcessLinesStock | backend/invoice_processor.py:215-234 | an invoice raises the total stock by exactly the sum of its line quantities |
| InvoiceProcessor.FreshLineStep | backend/invoice_processor.py:101-107 | under the corrected lookup, the first line with an unknown reference creates its own product and leaves the remaining references unknown |
| InvoiceProcessor.FreshLinesGetOwnProducts | backend/invoice_processor.py:101-107 | under the corrected lookup, lines with unknown references each get their own product coded with the reference and holding the line's quantity, in line order, with the existing products untouched |
| InvoiceProcessor.IntegrationLinesCollide | backend/invoice_processor.py:101-104 | as written, the second line of the integration invoice lands by name prefix on the product created for the first, so one product ends with 80 units |
| InvoiceProcessor.FirstLineCreates | backend/invoice_processor.py:109-129 | into an empty catalogue the first integration line creates its product with 50 units |
| InvoiceProcessor.SecondLineAdds | backend/invoice_processor.py:101-107 | as written, the second integration line adds its 30 units to the first line's product |
| InvoiceProcessor.SecondLineFindsFirst | backend/invoice_processor.py:101-104 | as written, the second integration line's lookup finds the first line's product by name |
| InvoiceProcessor.IntegrationLinesSeparate | backend/invoice_processor.py:101-107 | under the corrected lookup the integration invoice creates INT-PROD-A with 50 units and INT-PROD-B with 30 |

## Left out

- Persistence in localStorage and JSON serialisation are not modelled. The store is an immutable value, and a failed read or write is not represented.
- React rendering, form state, toasts, dialogs, routing in App and the HTTP client in api.ts are not modelled. These are presentation and transport.
- Window printing on the Billing page (`handlePrint`) is left out. It is a permission gate followed by a browser print call; the gate is the same one the modelled billing handlers use.
- Billing `handleView` and the Suppliers page's product list and statistics are left out. They only display data.
- `handleEdit` on the Products, Clients and Suppliers pages is left out. It only fills the form; the write permission is checked again by `handleSubmit`, which is modelled.
- Users `handleEdit` and `handleManagePermissions` only copy a user into form state. The blank password they start with is modelled as the input to the edit handler (see Findings).
- PurchaseInvoices `handleSupplierNitChange`, `handleExtractData`, `loadInvoices`, `handleViewInvoice` and `handleDeleteInvoice` are left out. They are form autocomplete and network calls to the backend.
- Reports `exportarReporte` is left out. It only simulates an export with a delay and a message.
- The dashboard's 30-second refresh and its `|| 0` display fallbacks are left out. They are timing and presentation.
- JavaScript `NaN` from unparsable numeric inputs and the HTML `required` attribute are not modelled. Numeric form fields are given as numbers.
- Date strings are not parsed. A date is an integer day or millisecond count, and a date that fails to parse is an `Option` input.
- Floating-point rounding is not modelled. Money is an exact `real`.
- Case-insensitive comparisons use ASCII lower and upper case, with no Unicode case folding. The same holds for the SKU prefix: `Products.Prefix` upper-cases in ASCII, and its bound of at most three characters relies on that, because JavaScript's `toUpperCase` can lengthen text ("ß" becomes "SS").
- The iteration order of `Object.entries` is modelled as order of first appearance. The order of rows with equal keys after a sort is not stated by any contract, because the comparator leaves it to the JavaScript engine's sort.
- Reports count every paid sale, including soft-deleted ones. The code does not filter out deleted sales, and the model follows the code.
- Billing.ClienteNombre: a NIT client with no `razon_social` gets "" here; the code returns `undefined`, and the invoice search's `.toLowerCase()` (src/pages/Billing.tsx:77) would throw on it for a non-empty query that misses the invoice number. The app's own client form always sends a string, so only data written outside it reaches this case.
- Users `HandleSavePermissions` performs no role check, because the code has none; the page itself is shown only to the SUPERUSUARIO role (src/pages/Users.tsx:230).
- Restoring a deleted user can leave two users with the same username. The code does not check this, and `Users.RestoreMayDuplicateUsername` exhibits it.
- The SQL `ILIKE` pattern is modelled as a substring test on ASCII-lower-cased text. A `%` or `_` inside the name is not treated as a wildcard.
- `.first()` is modelled as the first row in table order; the database gives no order without an ORDER BY.
- The unique constraint on product codes is not modelled. A database error, a commit and a rollback are modelled only as the supplier change persisting after a failed invoice.
- `save_pdf` writes a file. Its path is an input to `InvoiceProcessor.ProcessInvoice`.
- One clock reading stamps every automatic product code of an invoice. The processor calls the clock once per product.
- Inventory movement ids and the backend's database ids for items and movements are not modelled.
- The backend's unit tests expect NIT trimming, reactivation of inactive suppliers, price updates on existing products and the replacement of AUTO- codes. The processor does none of these, and the model follows the processor.

## Findings

| source | as written | input that shows it | evidently intended | confidence | as-written member | corrected member |
|---|---|---|---|---|---|---|
| src/pages/Users.tsx:142-154 | editing a user merges the password field even when it is left blank, and the edit form starts blank | an admin edits user "cajero1" and changes only the name; the stored password becomes "" and `login("cajero1", "")` succeeds | a blank "new password (optional)" keeps the old password | not executed | Users.BlankPasswordEditAllowsEmptyLogin | Users.HandleSubmitKeepingPassword |
| backend/invoice_processor.py:101-107 | a line with a reference that is not yet known still falls back to the name match on its first 20 characters | an invoice with lines INT-PROD-A "PRODUCTO INTEGRATION A" (50 units) and INT-PROD-B "PRODUCTO INTEGRATION B" (30 units) into an empty catalogue gives one product with 80 units | each new reference gets its own product; the name fallback applies only to lines without a reference | not executed | InvoiceProcessor.IntegrationLinesCollide | InvoiceProcessor.FreshLinesGetOwnProducts |
| src/pages/Clients.tsx:125-138 | saving an edited client sends tier NUEVO and zero purchases and zero spent, which overwrite the stored counters | a VIP client with 25 purchases and 3,000,000 spent whose name is retyped becomes NUEVO with 0 and 0 | an edit keeps the purchase counters and the tier | not executed | Clients.EditResetsCounters | Clients.HandleSubmitKeepingCounters |

=== FILE: auth.dfy ===
/** The user table and the permission gate: `hasPermission` and its
    any/all variants, the role test, user create/merge-update/soft-delete/
    restore, and login matching. The table is passed in and returned; the
    clock is an input. */
module Auth {
  import opened Wrappers
  import opened Seqs
  import opened Text
  import opened Permissions

  datatype Ubicacion = EEUU | COLOMBIA

  /** A user record; timestamps are milliseconds since the epoch and an
      absent optional field is `None`. */
  datatype User = User(
    id: string,
    username: string,
    password: string,
    nombreCompleto: string,
    email: string,
    rol: Role,
    ubicacion: Ubicacion,
    activo: bool,
    permissions: seq<string>,
    createdAt: int,
    lastLogin: Option<int>,
    deletedAt: Option<int>)

  /** The fields `createUser` receives (`Omit<User, 'id' | 'created_at'>`,
      as the users page fills it: no login or deletion stamp). */
  datatype UserData = UserData(
    username: string,
    password: string,
    nombreCompleto: string,
    email: string,
    rol: Role,
    ubicacion: Ubicacion,
    activo: bool,
    permissions: seq<string>)

  /** A `Partial<User>`: `None` leaves a field as it is; for the optional
      fields `Some(None)` clears it. */
  datatype UserPatch = UserPatch(
    username: Option<string>,
    password: Option<string>,
    nombreCompleto: Option<string>,
    email: Option<string>,
    rol: Option<Role>,
    ubicacion: Option<Ubicacion>,
    activo: Option<bool>,
    permissions: Option<seq<string>>,
    lastLogin: Option<Option<int>>,
    deletedAt: Option<Option<int>>)

  const NO_CHANGE := UserPatch(None, None, None, None, None, None, None, None, None, None)

  /** `{ ...u, ...d }`. */
  function Merge(u: User, d: UserPatch): (r: User)
    ensures r.id == u.id && r.createdAt == u.createdAt
  {
    User(u.id,
         d.username.GetOr(u.username),
         d.password.GetOr(u.password),
         d.nombreCompleto.GetOr(u.nombreCompleto),
         d.email.GetOr(u.email),
         d.rol.GetOr(u.rol),
         d.ubicacion.GetOr(u.ubicacion),
         d.activo.GetOr(u.activo),
         d.permissions.GetOr(u.permissions),
         u.createdAt,
         d.lastLogin.GetOr(u.lastLogin),
         d.deletedAt.GetOr(u.deletedAt))
  }

  /** An empty patch changes nothing, and applying a patch twice is the
      same as applying it once. */
  lemma MergeLaws(u: User, d: UserPatch)
    ensures Merge(u, NO_CHANGE) == u
    ensures Merge(Merge(u, d), d) == Merge(u, d)
  {
  }

  // ---------------------------------------------------------------
  // The gate
  // ---------------------------------------------------------------

  /** `hasPermission`: an inactive or deleted user holds nothing. */
  function HasPermission(u: User, permission: string): (r: bool)
    ensures r ==> u.activo && u.deletedAt.None?
    ensures u.activo && u.deletedAt.None? ==> (r <==> permission in u.permissions)
  {
    if !u.activo || u.deletedAt.Some? then false else permission in u.permissions
  }

  /** `isSuperUser`. */
  function IsSuperUser(u: User): bool {
    u.rol == SUPERUSUARIO
  }

  /** The role test looks at nothing but the role. */
  lemma SuperUserIgnoresPermissions(u: User, ps: seq<string>, activo: bool, deletedAt: Option<int>)
    ensures IsSuperUser(u) == IsSuperUser(u.(permissions := ps, activo := activo, deletedAt := deletedAt))
    ensures IsSuperUser(u) <==> u.rol == SUPERUSUARIO
  {
  }

  /** `hasAnyPermission`: `permissions.some(p => hasPermission(user, p))`. */
  function HasAnyPermission(u: User, ps: seq<string>): (r: bool)
    ensures r <==> exists i :: 0 <= i < |ps| && HasPermission(u, ps[i])
  {
    if |ps| == 0 then false
    else HasPermission(u, ps[0]) || HasAnyPermission(u, ps[1..])
  }

  /** `hasAllPermissions`: `permissions.every(p => hasPermission(user, p))`. */
  function HasAllPermissions(u: User, ps: seq<string>): (r: bool)
    ensures r <==> forall i :: 0 <= i < |ps| ==> HasPermission(u, ps[i])
  {
    if |ps| == 0 then true
    else HasPermission(u, ps[0]) && HasAllPermissions(u, ps[1..])
  }

  /** On an empty list "all" holds and "any" fails; on a non-empty list
      "all" implies "any"; a user who may act at all holds everything of a
      list iff the list is within their permissions. */
  lemma AnyAllLaws(u: User, ps: seq<string>)
    ensures |ps| == 0 ==> HasAllPermissions(u, ps) && !HasAnyPermission(u, ps)
    ensures |ps| > 0 && HasAllPermissions(u, ps) ==> HasAnyPermission(u, ps)
    ensures u.activo && u.deletedAt.None? ==>
              (HasAllPermissions(u, ps) <==> forall i :: 0 <= i < |ps| ==> ps[i] in u.permissions)
  {
    if |ps| > 0 && HasAllPermissions(u, ps) {
      assert HasPermission(u, ps[0]);
    }
  }

  // ---------------------------------------------------------------
  // The user table
  // ---------------------------------------------------------------

  function IdIs(id: string): User -> bool {
    (u: User) => u.id == id
  }

  /** `createUser`: the new record, with the given id and creation time,
      goes at the end. */
  function CreateUser(users: seq<User>, data: UserData, id: string, now: int): (r: (seq<User>, User))
    ensures r.0 == users + [r.1]
    ensures r.1.id == id && r.1.createdAt == now
    ensures r.1.username == data.username && r.1.password == data.password
    ensures r.1.rol == data.rol && r.1.activo == data.activo && r.1.permissions == data.permissions
    ensures r.1.lastLogin.None? && r.1.deletedAt.None?
  {
    var u := User(id, data.username, data.password, data.nombreCompleto, data.email,
                  data.rol, data.ubicacion, data.activo, data.permissions, now, None, None);
    (users + [u], u)
  }

  /** `updateUser`: merges the patch into the first user with that id;
      `None` (the source's `null`) and no change for an unknown id. */
  function UpdateUser(users: seq<User>, id: string, d: UserPatch): (r: (seq<User>, Option<User>))
    ensures |r.0| == |users|
    ensures forall j :: 0 <= j < |users| ==>
              r.0[j] == if IsFirst(users, IdIs(id), j) then Merge(users[j], d) else users[j]
    ensures r.1.None? <==> forall j :: 0 <= j < |users| ==> users[j].id != id
    ensures r.1.None? ==> r.0 == users
    ensures r.1.Some? ==> r.1.value.id == id && r.1.value in r.0
  {
    var r := UpdateFirst(users, IdIs(id), (u: User) => Merge(u, d));
    match FindIndex(users, IdIs(id))
    case Some(i) => (r, Some(r[i]))
    case None => (r, None)
  }

  /** The user an update returns is the stored first user with the id, as
      merged. */
  lemma UpdateUserReturnsFirst(users: seq<User>, id: string, d: UserPatch)
    ensures var r := UpdateUser(users, id, d);
            r.1.Some? ==> exists j :: IsFirst(users, IdIs(id), j) && r.1.value == r.0[j]
  {
  }

  /** `deleteUser`: stamps `deleted_at` and sets `activo` to false. */
  function DeleteUser(users: seq<User>, id: string, now: int): (r: (seq<User>, bool)) {
    var (us, u) := UpdateUser(users, id, NO_CHANGE.(deletedAt := Some(Some(now)), activo := Some(false)));
    (us, u.Some?)
  }

  /** `restoreUser`: clears `deleted_at` and sets `activo` to true. */
  function RestoreUser(users: seq<User>, id: string): (r: (seq<User>, bool)) {
    var (us, u) := UpdateUser(users, id, NO_CHANGE.(deletedAt := Some(None), activo := Some(true)));
    (us, u.Some?)
  }

  /** A deleted user holds no permission whatever; the rest of the table
      is untouched; an unknown id changes nothing and reports false. */
  lemma DeleteUserRevokesAll(users: seq<User>, id: string, now: int)
    ensures var (us, ok) := DeleteUser(users, id, now);
            |us| == |users| &&
            (ok <==> exists j :: 0 <= j < |users| && users[j].id == id) &&
            (!ok ==> us == users) &&
            forall j :: 0 <= j < |users| ==>
              if IsFirst(users, IdIs(id), j) then
                (forall p :: !HasPermission(us[j], p)) && us[j].deletedAt == Some(now) &&
                us[j].permissions == users[j].permissions && us[j].username == users[j].username
              else us[j] == users[j]
  {
  }

  /** A restored user holds exactly the permissions stored with them, which
      restoring leaves as they were. */
  lemma RestoreUserReinstates(users: seq<User>, id: string)
    ensures var (us, ok) := RestoreUser(users, id);
            |us| == |users| &&
            (ok <==> exists j :: 0 <= j < |users| && users[j].id == id) &&
            (!ok ==> us == users) &&
            forall j :: 0 <= j < |users| ==>
              if IsFirst(users, IdIs(id), j) then
                (forall p :: HasPermission(us[j], p) <==> p in users[j].permissions) &&
                us[j].permissions == users[j].permissions && us[j].deletedAt.None? && us[j].activo
              else us[j] == users[j]
  {
  }

  /** Deleting and then restoring gives back the user's permissions and
      leaves the record as it was, apart from `activo` (now true) and the
      cleared `deleted_at`. */
  lemma DeleteThenRestore(users: seq<User>, id: string, now: int)
    ensures var us := RestoreUser(DeleteUser(users, id, now).0, id).0;
            |us| == |users| &&
            forall j :: 0 <= j < |users| ==>
              if IsFirst(users, IdIs(id), j) then us[j] == users[j].(activo := true, deletedAt := None)
              else us[j] == users[j]
  {
    var mid := DeleteUser(users, id, now).0;
    var us := RestoreUser(mid, id).0;
    forall j | 0 <= j < |users|
      ensures IsFirst(mid, IdIs(id), j) <==> IsFirst(users, IdIs(id), j)
    {
      assert forall k :: 0 <= k < |users| ==> mid[k].id == users[k].id;
    }
  }

  // ---------------------------------------------------------------
  // Login
  // ---------------------------------------------------------------

  /** The `find` condition of `login`. */
  predicate CanLogIn(u: User, username: string, password: string) {
    u.username == username && u.password == password && u.activo && u.deletedAt.None?
  }

  datatype AuthState = AuthState(user: User, token: string, isAuthenticated: bool)

  /** `login`: the first user matching username and password exactly, who
      is active and not deleted, gets `last_login` = `now` in the table and
      an auth state with token `token_<id>_<now>`. The state carries the
      record as it was found, before the `last_login` write. */
  function Login(users: seq<User>, username: string, password: string, now: nat): (r: (seq<User>, Option<AuthState>))
  {
    match Find(users, (u: User) => CanLogIn(u, username, password))
    case None => (users, None)
    case Some(u) =>
      var (us, _) := UpdateUser(users, u.id, NO_CHANGE.(lastLogin := Some(Some(now))));
      (us, Some(AuthState(u, "token_" + u.id + "_" + Decimal(now), true)))
  }

  /** Login succeeds iff some user matches exactly and is active and not
      deleted; failure changes nothing; success authenticates the first
      such user in the table, whose token names their id, and stamps
      `last_login` on the stored record with that id. */
  lemma LoginSpec(users: seq<User>, username: string, password: string, now: nat)
    ensures var (us, st) := Login(users, username, password, now);
            (st.Some? <==> exists i :: 0 <= i < |users| && CanLogIn(users[i], username, password)) &&
            (st.None? ==> us == users) &&
            (st.Some? ==>
              st.value.isAuthenticated &&
              st.value.user in users && CanLogIn(st.value.user, username, password) &&
              (exists i :: IsFirst(users, (u: User) => CanLogIn(u, username, password), i) &&
                           st.value.user == users[i]) &&
              StartsWith(st.value.token, "token_" + st.value.user.id + "_") &&
              |us| == |users| &&
              exists j :: IsFirst(users, IdIs(st.value.user.id), j) && us[j].lastLogin == Some(now) &&
                          us[j] == users[j].(lastLogin := Some(now)))
  {
    match Find(users, (u: User) => CanLogIn(u, username, password))
    case None =>
    case Some(u) =>
      FindFirst(users, (u: User) => CanLogIn(u, username, password));
      var k :| 0 <= k < |users| && users[k] == u;
      StampsFirst(users, k, now);
      PrefixOfConcat("token_" + u.id + "_", Decimal(now));
  }

  /** The `last_login` write lands on the first user with the id of user
      `k`, and only changes that field. */
  lemma StampsFirst(users: seq<User>, k: nat, now: nat)
    requires k < |users|
    ensures var us := UpdateUser(users, users[k].id, NO_CHANGE.(lastLogin := Some(Some(now)))).0;
            |us| == |users| &&
            exists j :: IsFirst(users, IdIs(users[k].id), j) && us[j] == users[j].(lastLogin := Some(now))
  {
    assert IdIs(users[k].id)(users[k]);
    var j := FindIndex(users, IdIs(users[k].id)).value;
    assert IsFirst(users, IdIs(users[k].id), j);
  }
}

=== FILE: billing.dfy ===
/** The invoicing page: issuing one invoice per paid sale, voiding and
    marking invoices paid behind their permissions, the list of sales
    still to invoice, and the filtered, newest-first invoice listing. */
module Billing {
  import opened Wrappers
  import opened Seqs
  import opened Text
  import opened Entities
  import opened Database
  import opened Auth
  import Sorting

  /** The sales the page offers for invoicing (`loadData`). */
  predicate Facturable(v: Venta) {
    v.estado == EstadoVenta.PAGADA && v.deletedAt.None?
  }

  function VentasFacturables(db: Db): (r: seq<Venta>)
    ensures forall i :: 0 <= i < |r| ==> r[i] in db.ventas && Facturable(r[i])
    ensures forall j :: 0 <= j < |db.ventas| && Facturable(db.ventas[j]) ==> db.ventas[j] in r
  {
    FilterKeeps(db.ventas, Facturable);
    Filter(db.ventas, Facturable)
  }

  /** Some stored invoice is for sale `ventaId`. */
  predicate Facturada(facturas: seq<Factura>, ventaId: string) {
    exists k :: 0 <= k < |facturas| && facturas[k].ventaId == ventaId
  }

  /** `ventasSinFactura`. */
  function VentasSinFactura(db: Db): (r: seq<Venta>)
    ensures forall i :: 0 <= i < |r| ==> r[i] in db.ventas && Facturable(r[i]) && !Facturada(db.facturas, r[i].id)
    ensures forall j :: 0 <= j < |db.ventas| && Facturable(db.ventas[j]) && !Facturada(db.facturas, db.ventas[j].id) ==>
              db.ventas[j] in r
  {
    var pendiente := (v: Venta) => !Facturada(db.facturas, v.id);
    FilterKeeps(VentasFacturables(db), pendiente);
    Filter(VentasFacturables(db), pendiente)
  }

  /** The invoice form; `fechaVencimiento` is `None` when the typed date
      does not parse. */
  datatype FacturaForm = FacturaForm(ventaId: string, clienteId: string, fechaVencimiento: Option<int>,
                                     observaciones: string)

  const SIN_PERMISO_CREAR := "No tienes permisos para crear facturas"
  const VENTA_INVALIDA := "Selecciona una venta válida"
  const YA_FACTURADA := "Ya existe una factura para esta venta"
  const ERROR_CREAR := "Error al crear la factura"

  /** The invoice the page asks the store to create for sale `v`. */
  function FacturaDe(v: Venta, form: FacturaForm, vence: int, user: User, now: int): (r: Factura)
    ensures r.ventaId == form.ventaId && r.estado == EMITIDA && r.usuarioId == user.id
    ensures r.subtotal == v.subtotal && r.ivaValor == v.ivaValor && r.total == v.total
    ensures r.clienteId == if form.clienteId != "" then Some(form.clienteId) else v.clienteId
    ensures r.anuladaAt.None? && r.anuladaBy.None? && r.anulacionMotivo.None?
  {
    Factura("", "", form.ventaId, if form.clienteId != "" then Some(form.clienteId) else v.clienteId,
            now, vence, v.subtotal, v.ivaValor, v.total, EMITIDA, Some(form.observaciones), user.id, 0,
            None, None, None)
  }

  /** `handleSubmit`: permission, a sale among the invoiceable ones, no
      earlier invoice for it (a voided one counts), a parseable due date;
      then the store numbers and saves the invoice. */
  function HandleSubmit(db: Db, user: User, form: FacturaForm, id: string, now: int): (r: Outcome<Db>)
    ensures !HasPermission(user, "facturacion.write") ==> r == Outcome(db, Some(SIN_PERMISO_CREAR))
    ensures r.error.Some? <==> r.state == db
    ensures r.error.None? ==>
              HasPermission(user, "facturacion.write") && form.fechaVencimiento.Some? &&
              !Facturada(db.facturas, form.ventaId) &&
              exists i :: 0 <= i < |db.ventas| && db.ventas[i].id == form.ventaId && Facturable(db.ventas[i]) &&
                r.state == CreateFactura(db, FacturaDe(db.ventas[i], form, form.fechaVencimiento.value, user, now), id, now).0
  {
    if !HasPermission(user, "facturacion.write") then Outcome(db, Some(SIN_PERMISO_CREAR))
    else match Find(VentasFacturables(db), (v: Venta) => v.id == form.ventaId)
      case None => Outcome(db, Some(VENTA_INVALIDA))
      case Some(v) =>
        if Facturada(db.facturas, form.ventaId) then Outcome(db, Some(YA_FACTURADA))
        else if form.fechaVencimiento.None? then Outcome(db, Some(ERROR_CREAR))
        else
          var (db', _) := CreateFactura(db, FacturaDe(v, form, form.fechaVencimiento.value, user, now), id, now);
          assert db'.facturas == db.facturas + [db'.facturas[|db.facturas|]];
          Outcome(db', None)
  }

  /** The gate of `handleSubmit`, test by test. */
  lemma HandleSubmitGate(db: Db, user: User, form: FacturaForm, id: string, now: int)
    ensures var fs := VentasFacturables(db);
            HandleSubmit(db, user, form, id, now).error.None? <==>
              HasPermission(user, "facturacion.write") && form.fechaVencimiento.Some? &&
              (exists k :: 0 <= k < |fs| && fs[k].id == form.ventaId) && !Facturada(db.facturas, form.ventaId)
  {
  }

  /** A sale `ventasSinFactura` lists is an invoiceable sale with no
      invoice, and conversely. */
  lemma SinFacturaMembers(db: Db, ventaId: string)
    ensures var fs := VentasFacturables(db);
            var sin := VentasSinFactura(db);
            (exists i :: 0 <= i < |sin| && sin[i].id == ventaId) <==>
              (exists k :: 0 <= k < |fs| && fs[k].id == ventaId) && !Facturada(db.facturas, ventaId)
  {
    var fs := VentasFacturables(db);
    var sin := VentasSinFactura(db);
    if exists k :: 0 <= k < |fs| && fs[k].id == ventaId {
      var k :| 0 <= k < |fs| && fs[k].id == ventaId;
      if !Facturada(db.facturas, ventaId) {
        assert fs[k] in sin;
      }
    }
    if exists i :: 0 <= i < |sin| && sin[i].id == ventaId {
      var i :| 0 <= i < |sin| && sin[i].id == ventaId;
      assert sin[i] in fs;
    }
  }

  /** The form goes through exactly when the user may invoice, the date
      parses and the sale is one `ventasSinFactura` lists. */
  lemma HandleSubmitAccepts(db: Db, user: User, form: FacturaForm, id: string, now: int)
    ensures HandleSubmit(db, user, form, id, now).error.None? <==>
              HasPermission(user, "facturacion.write") && form.fechaVencimiento.Some? &&
              exists i :: 0 <= i < |VentasSinFactura(db)| && VentasSinFactura(db)[i].id == form.ventaId
  {
    HandleSubmitGate(db, user, form, id, now);
    SinFacturaMembers(db, form.ventaId);
  }

  /** At most one invoice per sale. */
  predicate OneInvoicePerSale(facturas: seq<Factura>) {
    forall i, j :: 0 <= i < j < |facturas| ==> facturas[i].ventaId != facturas[j].ventaId
  }

  /** Issuing keeps one invoice per sale, and afterwards the sale is
      invoiced and no longer offered. */
  lemma HandleSubmitKeepsOneInvoicePerSale(db: Db, user: User, form: FacturaForm, id: string, now: int)
    requires OneInvoicePerSale(db.facturas)
    ensures var r := HandleSubmit(db, user, form, id, now);
            OneInvoicePerSale(r.state.facturas) &&
            (r.error.None? ==> Facturada(r.state.facturas, form.ventaId) &&
                               forall i :: 0 <= i < |VentasSinFactura(r.state)| ==>
                                 VentasSinFactura(r.state)[i].id != form.ventaId)
  {
    var r := HandleSubmit(db, user, form, id, now);
    if r.error.None? {
      var n := |db.facturas|;
      assert r.state.facturas[n].ventaId == form.ventaId;
      assert Facturada(r.state.facturas, form.ventaId);
    }
  }

  // ---------------------------------------------------------------
  // Voiding and paying
  // ---------------------------------------------------------------

  const SIN_PERMISO_ANULAR := "No tienes permisos para anular facturas"
  const SIN_PERMISO_MODIFICAR := "No tienes permisos para modificar facturas"

  /** `handleAnular`: needs `facturacion.cancel`; a dismissed or empty
      prompt, or a declined confirmation, changes nothing silently. */
  function HandleAnular(db: Db, user: User, factura: Factura, motivo: Option<string>, confirmado: bool,
                        now: int): (r: Outcome<Db>)
    ensures !HasPermission(user, "facturacion.cancel") ==> r == Outcome(db, Some(SIN_PERMISO_ANULAR))
    ensures HasPermission(user, "facturacion.cancel") ==> r.error.None?
    ensures motivo.None? || motivo == Some("") || !confirmado ==> r.state == db
    ensures HasPermission(user, "facturacion.cancel") && motivo.Some? && motivo.value != "" && confirmado ==>
              r.state == UpdateFactura(db, factura.id,
                           FACTURA_NO_CHANGE.(estado := Some(EstadoFactura.ANULADA), anuladaAt := Some(Some(now)),
                                              anuladaBy := Some(Some(user.id)),
                                              anulacionMotivo := Some(Some(motivo.value)))).0
  {
    if !HasPermission(user, "facturacion.cancel") then Outcome(db, Some(SIN_PERMISO_ANULAR))
    else if motivo.None? || motivo.value == "" || !confirmado then Outcome(db, None)
    else
      var patch := FACTURA_NO_CHANGE.(estado := Some(EstadoFactura.ANULADA), anuladaAt := Some(Some(now)),
                                      anuladaBy := Some(Some(user.id)), anulacionMotivo := Some(Some(motivo.value)));
      Outcome(UpdateFactura(db, factura.id, patch).0, None)
  }

  /** `handleMarcarPagada`: needs `facturacion.write`, and writes only the
      state. */
  function HandleMarcarPagada(db: Db, user: User, factura: Factura): (r: Outcome<Db>)
    ensures !HasPermission(user, "facturacion.write") ==> r == Outcome(db, Some(SIN_PERMISO_MODIFICAR))
    ensures HasPermission(user, "facturacion.write") ==>
              r == Outcome(UpdateFactura(db, factura.id, FACTURA_NO_CHANGE.(estado := Some(EstadoFactura.PAGADA))).0, None)
  {
    if !HasPermission(user, "facturacion.write") then Outcome(db, Some(SIN_PERMISO_MODIFICAR))
    else Outcome(UpdateFactura(db, factura.id, FACTURA_NO_CHANGE.(estado := Some(EstadoFactura.PAGADA))).0, None)
  }

  /** What voiding and paying do to the stored invoices: the first one
      with the id takes the new state (and, when voided, the stamps and
      motive); every other invoice and field stays; invoice numbers never
      change. */
  lemma StateChangesSpec(db: Db, user: User, factura: Factura, motivo: string, now: int)
    requires HasPermission(user, "facturacion.cancel") && HasPermission(user, "facturacion.write") && motivo != ""
    ensures var a := HandleAnular(db, user, factura, Some(motivo), true, now).state.facturas;
            |a| == |db.facturas| &&
            forall j :: 0 <= j < |a| ==>
              a[j] == if IsFirst(db.facturas, FacturaIdIs(factura.id), j)
                      then db.facturas[j].(estado := EstadoFactura.ANULADA, anuladaAt := Some(now), anuladaBy := Some(user.id),
                                           anulacionMotivo := Some(motivo))
                      else db.facturas[j]
    ensures var p := HandleMarcarPagada(db, user, factura).state.facturas;
            |p| == |db.facturas| &&
            forall j :: 0 <= j < |p| ==>
              p[j] == if IsFirst(db.facturas, FacturaIdIs(factura.id), j)
                      then db.facturas[j].(estado := EstadoFactura.PAGADA)
                      else db.facturas[j]
  {
  }

  /** The buttons the listing shows for an invoice. */
  predicate PagarVisible(f: Factura, user: User) {
    f.estado == EMITIDA && HasPermission(user, "facturacion.write")
  }

  predicate AnularVisible(f: Factura, user: User) {
    f.estado != EstadoFactura.ANULADA && HasPermission(user, "facturacion.cancel")
  }

  /** Through the buttons, a voided invoice is final and only an issued
      one is paid: ANULADA has no way out, and PAGADA is reached only from
      EMITIDA. */
  lemma InvoiceLifecycle(f: Factura, user: User)
    ensures f.estado == EstadoFactura.ANULADA ==> !PagarVisible(f, user) && !AnularVisible(f, user)
    ensures PagarVisible(f, user) ==> f.estado == EMITIDA
    ensures f.estado == EstadoFactura.PAGADA ==> !PagarVisible(f, user)
  {
  }

  // ---------------------------------------------------------------
  // Listing
  // ---------------------------------------------------------------

  /** `getClienteNombre`: the business name for NIT clients, else name and
      surname. */
  function ClienteNombre(clientes: seq<Cliente>, clienteId: Option<string>): string {
    if clienteId.None? || clienteId.value == "" then "Cliente General"
    else match Find(clientes, ClienteIdIs(clienteId.value))
      case None => "Cliente no encontrado"
      case Some(c) =>
        if c.tipoDocumento == NIT then c.razonSocial.GetOr("")
        else c.nombre + " " + c.apellido.GetOr("")
  }

  /** The state filter of the listing; `None` is TODAS, which keeps all. */
  predicate EstadoShown(f: Factura, estado: Option<EstadoFactura>) {
    estado.None? || f.estado == estado.value
  }

  /** The text filter; an empty query keeps all. */
  predicate TextShown(f: Factura, clientes: seq<Cliente>, q: string) {
    q == "" || Contains(Lower(f.numeroFactura), Lower(q)) ||
    Contains(Lower(ClienteNombre(clientes, f.clienteId)), Lower(q)) ||
    (f.observaciones.Some? && Contains(Lower(f.observaciones.value), Lower(q)))
  }

  predicate Shown(f: Factura, clientes: seq<Cliente>, estado: Option<EstadoFactura>, q: string) {
    EstadoShown(f, estado) && TextShown(f, clientes, q)
  }

  function FacturaCreatedAt(f: Factura): real { f.createdAt as real }

  /** `filterInvoices`: the chosen state, then the text query, newest
      first. (A skipped filter is one whose test holds everywhere.) */
  function FilterInvoices(facturas: seq<Factura>, clientes: seq<Cliente>, estado: Option<EstadoFactura>,
                          q: string): (r: seq<Factura>)
    ensures Sorting.SortedDesc(r, FacturaCreatedAt)
    ensures multiset(r) == multiset(Filter(facturas, (f: Factura) => Shown(f, clientes, estado, q)))
    ensures estado.None? && q == "" ==> multiset(r) == multiset(facturas)
  {
    var porEstado := Filter(facturas, (f: Factura) => EstadoShown(f, estado));
    var porTexto := Filter(porEstado, (f: Factura) => TextShown(f, clientes, q));
    FilterFilter(facturas, (f: Factura) => EstadoShown(f, estado), (f: Factura) => TextShown(f, clientes, q),
                 (f: Factura) => Shown(f, clientes, estado, q));
    ShownAll(facturas, clientes, estado, q);
    Sorting.SortDesc(porTexto, FacturaCreatedAt)
  }

  lemma ShownAll(facturas: seq<Factura>, clientes: seq<Cliente>, estado: Option<EstadoFactura>, q: string)
    ensures estado.None? && q == "" ==> Filter(facturas, (f: Factura) => Shown(f, clientes, estado, q)) == facturas
  {
    if estado.None? && q == "" {
      FilterAll(facturas, (f: Factura) => Shown(f, clientes, estado, q));
    }
  }

  /** An invoice is listed exactly when it is stored and passes both
      filters. */
  lemma FilterInvoicesMembers(facturas: seq<Factura>, clientes: seq<Cliente>, estado: Option<EstadoFactura>,
                              q: string, f: Factura)
    ensures f in FilterInvoices(facturas, clientes, estado, q) <==> f in facturas && Shown(f, clientes, estado, q)
  {
    var r := FilterInvoices(facturas, clientes, estado, q);
    var kept := Filter(facturas, (x: Factura) => Shown(x, clientes, estado, q));
    assert f in r <==> f in multiset(r);
    assert f in kept <==> f in multiset(kept);
    if f in facturas && Shown(f, clientes, estado, q) {
      FilterKeeps(facturas, (x: Factura) => Shown(x, clientes, estado, q));
      var j :| 0 <= j < |facturas| && facturas[j] == f;
    }
  }
}

=== FILE: clients.dfy ===
/** The clients page: saving a client behind `clientes.write`, the
    data-processing consent that Colombian Law 1581 of 2012 requires, the
    one-client-per-document rule, and the text filter. */
module Clients {
  import opened Wrappers
  import opened Seqs
  import opened Text
  import opened Entities
  import opened Database
  import opened Auth

  /** The client form; blank optional fields are empty strings. */
  datatype ClienteForm = ClienteForm(
    tipoDocumento: TipoDocumento,
    documento: string,
    nombre: string,
    apellido: string,
    razonSocial: string,
    email: string,
    telefono: string,
    direccion: string,
    ciudad: string,
    aceptacionTratamientoDatos: bool,
    canalAceptacion: Canal,
    activo: bool)

  /** `clientData` as a patch: the whole form, the consent time, and the
      counters of a new client. */
  function ClientData(f: ClienteForm, now: int): ClientePatch {
    ClientePatch(Some(f.tipoDocumento), Some(f.documento), Some(f.nombre), Some(Some(f.apellido)),
                 Some(Some(f.razonSocial)), Some(Some(f.email)), Some(Some(f.telefono)),
                 Some(Some(f.direccion)), Some(Some(f.ciudad)), Some(f.aceptacionTratamientoDatos),
                 Some(if f.aceptacionTratamientoDatos then Some(now) else None), Some(f.canalAceptacion),
                 Some(NUEVO), Some(0), Some(0.0), Some(f.activo))
  }

  /** The blank record `clientData` is spread over on create. */
  const BLANK := Cliente("", CC, "", "", None, None, None, None, None, None, false, None, WEB, NUEVO, 0, 0.0, true, 0)

  const SIN_PERMISO := "No tienes permisos para crear/editar clientes"
  const SIN_CONSENTIMIENTO := "Es obligatorio aceptar el tratamiento de datos personales según la Ley 1581 de 2012"
  const DOCUMENTO_REPETIDO := "Ya existe un cliente con este número de documento"

  /** Another client (not the one being edited) already holds the document. */
  predicate DocumentoTomado(clientes: seq<Cliente>, documento: string, editing: Option<Cliente>) {
    exists k :: 0 <= k < |clientes| && clientes[k].documento == documento &&
                (editing.None? || clientes[k].id != editing.value.id)
  }

  /** The checks `handleSubmit` runs before writing, in order. */
  function Gate(db: Db, user: User, form: ClienteForm, editing: Option<Cliente>): (r: Option<string>)
    ensures r.None? <==> HasPermission(user, "clientes.write") && form.aceptacionTratamientoDatos &&
                         !DocumentoTomado(db.clientes, form.documento, editing)
    ensures !HasPermission(user, "clientes.write") ==> r == Some(SIN_PERMISO)
    ensures HasPermission(user, "clientes.write") && !form.aceptacionTratamientoDatos ==> r == Some(SIN_CONSENTIMIENTO)
  {
    if !HasPermission(user, "clientes.write") then Some(SIN_PERMISO)
    else if !form.aceptacionTratamientoDatos then Some(SIN_CONSENTIMIENTO)
    else match Find(db.clientes, (c: Cliente) => c.documento == form.documento &&
                                                 (editing.None? || c.id != editing.value.id))
      case Some(_) => Some(DOCUMENTO_REPETIDO)
      case None => None
  }

  /** `handleSubmit` as written: on edit as on create, the saved data
      carries classification NUEVO and zero purchases and spend. */
  function HandleSubmit(db: Db, user: User, form: ClienteForm, editing: Option<Cliente>, id: string, now: int)
    : (r: Outcome<Db>)
    ensures r.error == Gate(db, user, form, editing)
    ensures r.error.Some? ==> r.state == db
    ensures r.error.None? && editing.Some? ==> r.state == UpdateCliente(db, editing.value.id, ClientData(form, now)).0
    ensures r.error.None? && editing.None? ==>
              r.state == CreateCliente(db, MergeCliente(BLANK, ClientData(form, now)), id, now).0
  {
    var gate := Gate(db, user, form, editing);
    if gate.Some? then Outcome(db, gate)
    else if editing.Some? then Outcome(UpdateCliente(db, editing.value.id, ClientData(form, now)).0, None)
    else Outcome(CreateCliente(db, MergeCliente(BLANK, ClientData(form, now)), id, now).0, None)
  }

  /** What a save stores: the consent and its time, and the counters of a
      new client; an edit resets the counters of the client it edits,
      whatever it had bought. */
  lemma HandleSubmitSpec(db: Db, user: User, form: ClienteForm, editing: Option<Cliente>, id: string, now: int)
    ensures var r := HandleSubmit(db, user, form, editing, id, now);
            r.error.None? && editing.None? ==>
              var c := r.state.clientes[|db.clientes|];
              |r.state.clientes| == |db.clientes| + 1 && c.id == id && c.documento == form.documento &&
              c.aceptacionTratamientoDatos && c.fechaAceptacionDatos == Some(now) &&
              c.clasificacion == NUEVO && c.totalCompras == 0 && c.totalGastado == 0.0
    ensures var r := HandleSubmit(db, user, form, editing, id, now);
            r.error.None? && editing.Some? ==>
              forall j :: IsFirst(db.clientes, ClienteIdIs(editing.value.id), j) ==>
                var c := r.state.clientes[j];
                c.documento == form.documento && c.fechaAceptacionDatos == Some(now) &&
                c.clasificacion == NUEVO && c.totalCompras == 0 && c.totalGastado == 0.0
  {
  }

  /** An edit that only retypes a client's name wipes a VIP's history. */
  lemma EditResetsCounters(db: Db, user: User, c: Cliente, now: int)
    requires HasPermission(user, "clientes.write") && c.aceptacionTratamientoDatos
    requires db.clientes == [c] && c.totalCompras == 25 && c.totalGastado == 3000000.0 && c.clasificacion == VIP
    ensures var form := ClienteForm(c.tipoDocumento, c.documento, c.nombre + "a", "", "", "", "", "", "",
                                    true, c.canalAceptacion, c.activo);
            var c' := HandleSubmit(db, user, form, Some(c), "", now).state.clientes[0];
            c'.totalCompras == 0 && c'.totalGastado == 0.0 && c'.clasificacion == NUEVO
  {
    var form := ClienteForm(c.tipoDocumento, c.documento, c.nombre + "a", "", "", "", "", "", "",
                            true, c.canalAceptacion, c.activo);
    assert Gate(db, user, form, Some(c)).None?;
    assert IsFirst(db.clientes, ClienteIdIs(c.id), 0);
  }

  /** The edit patch that leaves the purchase counters and tier alone. */
  function EditData(f: ClienteForm, now: int): ClientePatch {
    ClientData(f, now).(clasificacion := None, totalCompras := None, totalGastado := None)
  }

  /** `handleSubmit` with the counters kept on edit. */
  function HandleSubmitKeepingCounters(db: Db, user: User, form: ClienteForm, editing: Option<Cliente>, id: string,
                                       now: int): (r: Outcome<Db>)
    ensures r.error == Gate(db, user, form, editing)
    ensures r.error.Some? ==> r.state == db
    ensures editing.None? ==> r == HandleSubmit(db, user, form, editing, id, now)
    ensures r.error.None? && editing.Some? ==>
              r.state == db.(clientes := r.state.clientes) && |r.state.clientes| == |db.clientes| &&
              forall j :: 0 <= j < |db.clientes| ==>
                r.state.clientes[j] ==
                  if IsFirst(db.clientes, ClienteIdIs(editing.value.id), j) then
                    var c := db.clientes[j];
                    MergeCliente(c, ClientData(form, now))
                      .(clasificacion := c.clasificacion, totalCompras := c.totalCompras, totalGastado := c.totalGastado)
                  else db.clientes[j]
  {
    var gate := Gate(db, user, form, editing);
    if gate.Some? then Outcome(db, gate)
    else if editing.Some? then Outcome(UpdateCliente(db, editing.value.id, EditData(form, now)).0, None)
    else Outcome(CreateCliente(db, MergeCliente(BLANK, ClientData(form, now)), id, now).0, None)
  }

  /** No two clients share an id or a document. */
  predicate Registry(cs: seq<Cliente>) {
    (forall i, j :: 0 <= i < j < |cs| ==> cs[i].id != cs[j].id) &&
    (forall i, j :: 0 <= i < j < |cs| ==> cs[i].documento != cs[j].documento)
  }

  /** An edit that rewrites ids in place and moves only the edited
      client's document to one no other client holds keeps the registry. */
  lemma EditKeepsRegistry(cs: seq<Cliente>, rs: seq<Cliente>, eid: string, doc: string)
    requires Registry(cs) && |rs| == |cs|
    requires forall j :: 0 <= j < |cs| ==>
               rs[j].id == cs[j].id && (rs[j].documento == cs[j].documento || (cs[j].id == eid && rs[j].documento == doc))
    requires forall k :: 0 <= k < |cs| && cs[k].id != eid ==> cs[k].documento != doc
    ensures Registry(rs)
  {
  }

  /** Saving with a fresh id keeps every id and every document held by one
      client. */
  lemma SaveKeepsDocumentsUnique(db: Db, user: User, form: ClienteForm, editing: Option<Cliente>, id: string, now: int)
    requires Registry(db.clientes)
    requires forall j :: 0 <= j < |db.clientes| ==> db.clientes[j].id != id
    ensures Registry(HandleSubmitKeepingCounters(db, user, form, editing, id, now).state.clientes)
  {
    var r := HandleSubmitKeepingCounters(db, user, form, editing, id, now);
    var cs := db.clientes;
    if r.error.None? {
      if editing.Some? {
        EditKeepsDocumentsUnique(db, user, form, editing.value, id, now);
      } else {
        assert !DocumentoTomado(cs, form.documento, editing);
        var rs := r.state.clientes;
        assert rs == cs + [rs[|cs|]];
        AppendKeepsRegistry(cs, rs[|cs|]);
      }
    }
  }

  /** The edit branch of `SaveKeepsDocumentsUnique`. */
  lemma EditKeepsDocumentsUnique(db: Db, user: User, form: ClienteForm, editing: Cliente, id: string, now: int)
    requires Registry(db.clientes) && Gate(db, user, form, Some(editing)).None?
    ensures Registry(HandleSubmitKeepingCounters(db, user, form, Some(editing), id, now).state.clientes)
  {
    assert !DocumentoTomado(db.clientes, form.documento, Some(editing));
    EditKeepsRegistry(db.clientes, HandleSubmitKeepingCounters(db, user, form, Some(editing), id, now).state.clientes,
                      editing.id, form.documento);
  }

  /** A client with a fresh id and a document nobody holds can be
      appended. */
  lemma AppendKeepsRegistry(cs: seq<Cliente>, c: Cliente)
    requires Registry(cs)
    requires forall j :: 0 <= j < |cs| ==> cs[j].id != c.id && cs[j].documento != c.documento
    ensures Registry(cs + [c])
  {
  }

  /** The corrected save leaves an edited client's counters and tier as
      they were, and changes nothing else but the form fields. */
  lemma EditKeepsCounters(db: Db, user: User, form: ClienteForm, editing: Cliente, now: int, j: nat)
    requires IsFirst(db.clientes, ClienteIdIs(editing.id), j)
    ensures var c' := HandleSubmitKeepingCounters(db, user, form, Some(editing), "", now).state.clientes[j];
            var c := db.clientes[j];
            c'.totalCompras == c.totalCompras && c'.totalGastado == c.totalGastado &&
            c'.clasificacion == c.clasificacion && c'.id == c.id && c'.createdAt == c.createdAt
  {
  }

  // ---------------------------------------------------------------
  // Listing
  // ---------------------------------------------------------------

  /** The text test: the document is matched as typed against the
      lower-cased query. */
  predicate Matches(c: Cliente, q: string) {
    Contains(Lower(c.nombre), Lower(q)) || Contains(c.documento, Lower(q)) ||
    (c.email.Some? && Contains(Lower(c.email.value), Lower(q))) ||
    (c.apellido.Some? && Contains(Lower(c.apellido.value), Lower(q)))
  }

  /** `filterClients`: all clients, inactive ones included. */
  function FilterClients(cs: seq<Cliente>, q: string): (r: seq<Cliente>)
    ensures q == "" ==> r == cs
    ensures forall i :: 0 <= i < |r| ==> r[i] in cs && (q == "" || Matches(r[i], q))
    ensures forall j :: 0 <= j < |cs| && (q == "" || Matches(cs[j], q)) ==> cs[j] in r
  {
    if q == "" then cs
    else
      var m := (c: Cliente) => Matches(c, q);
      FilterKeeps(cs, m);
      Filter(cs, m)
  }
}

=== FILE: configuration.dfy ===
/** The configuration page: who may open it and who may save each of the
    three settings records. The page is shown only with
    `configuracion.read`; company data needs `configuracion.company`,
    taxes need `configuracion.taxes`, and invoicing needs the SUPERUSUARIO
    role whatever the permission list says. */
module Configuration {
  import opened Wrappers
  import opened Entities
  import opened Database
  import opened Permissions
  import opened Auth

  /** The read gate in front of the whole page. */
  predicate CanOpen(user: User) {
    HasPermission(user, "configuracion.read")
  }

  datatype EmpresaForm = EmpresaForm(razonSocial: string, nit: string, direccion: string, ciudad: string,
                                     telefono: string, email: string, sitioWeb: string, eslogan: string,
                                     regimenTributario: string, actividadEconomica: string)

  datatype ImpuestosForm = ImpuestosForm(ivaGeneral: real, ivaProductos: real, retencionFuente: real,
                                         retencionIva: real, retencionIca: real)

  /** The invoicing form; it has no field for the running invoice number. */
  datatype FacturacionForm = FacturacionForm(prefijoFactura: string, numeroInicial: int, resolucionDian: string,
                                             fechaResolucion: string, rangoInicial: int, rangoFinal: int,
                                             fechaVencimiento: string)

  /** The company form as a patch: every field, the blank optional ones
      as empty strings; the logo is not on the form. */
  function EmpresaPatchOf(f: EmpresaForm): EmpresaPatch {
    EmpresaPatch(Some(f.razonSocial), Some(f.nit), Some(f.direccion), Some(f.ciudad), Some(f.telefono),
                 Some(f.email), Some(Some(f.sitioWeb)), None, Some(Some(f.eslogan)),
                 Some(f.regimenTributario), Some(f.actividadEconomica))
  }

  function ImpuestosPatchOf(f: ImpuestosForm): ImpuestosPatch {
    ImpuestosPatch(Some(f.ivaGeneral), Some(f.ivaProductos), Some(f.retencionFuente), Some(f.retencionIva),
                   Some(f.retencionIca))
  }

  /** The invoicing form as a patch, with both dates already turned into
      ISO timestamps. */
  function FacturacionPatchOf(f: FacturacionForm, resolucionIso: string, vencimientoIso: string): FacturacionPatch {
    FacturacionPatch(Some(f.prefijoFactura), Some(f.numeroInicial), None, Some(f.resolucionDian),
                     Some(resolucionIso), Some(f.rangoInicial), Some(f.rangoFinal), Some(vencimientoIso))
  }

  const SIN_PERMISO_EMPRESA := "No tienes permisos para editar la configuración de empresa"
  const SIN_PERMISO_IMPUESTOS := "No tienes permisos para editar la configuración de impuestos"
  const SOLO_SUPERUSUARIO := "Solo el SUPERUSUARIO puede modificar la configuración de facturación"
  const ERROR_FACTURACION := "Error al actualizar la configuración de facturación"

  /** `handleSaveEmpresa`: refused without `configuracion.company`;
      otherwise the form is merged into the company record, stamped with
      the user's id. */
  function HandleSaveEmpresa(db: Db, user: User, f: EmpresaForm, now: int): (r: Outcome<Db>)
    ensures r.error.Some? <==> !HasPermission(user, "configuracion.company")
    ensures r.error.Some? ==> r.state == db && r.error == Some(SIN_PERMISO_EMPRESA)
    ensures r.error.None? ==>
              var c := GetConfiguracionEmpresa(r.state, now);
              c.razonSocial == f.razonSocial && c.nit == f.nit && c.email == f.email &&
              c.direccion == f.direccion && c.ciudad == f.ciudad && c.telefono == f.telefono &&
              c.regimenTributario == f.regimenTributario && c.actividadEconomica == f.actividadEconomica &&
              c.sitioWeb == Some(f.sitioWeb) && c.eslogan == Some(f.eslogan) &&
              c.logoUrl == GetConfiguracionEmpresa(db, now).logoUrl &&
              c.updatedBy == user.id && c.updatedAt == now &&
              r.state == db.(configEmpresa := r.state.configEmpresa)
  {
    if !HasPermission(user, "configuracion.company") then Outcome(db, Some(SIN_PERMISO_EMPRESA))
    else Outcome(UpdateConfiguracionEmpresa(db, EmpresaPatchOf(f), user.id, now).0, None)
  }

  /** `handleSaveImpuestos`: refused without `configuracion.taxes`. */
  function HandleSaveImpuestos(db: Db, user: User, f: ImpuestosForm, now: int): (r: Outcome<Db>)
    ensures r.error.Some? <==> !HasPermission(user, "configuracion.taxes")
    ensures r.error.Some? ==> r.state == db && r.error == Some(SIN_PERMISO_IMPUESTOS)
    ensures r.error.None? ==>
              var c := GetConfiguracionImpuestos(r.state, now);
              c.ivaGeneral == f.ivaGeneral && c.ivaProductos == f.ivaProductos &&
              c.retencionFuente == f.retencionFuente && c.retencionIva == f.retencionIva &&
              c.retencionIca == f.retencionIca && c.updatedBy == user.id &&
              r.state == db.(configImpuestos := r.state.configImpuestos)
  {
    if !HasPermission(user, "configuracion.taxes") then Outcome(db, Some(SIN_PERMISO_IMPUESTOS))
    else Outcome(UpdateConfiguracionImpuestos(db, ImpuestosPatchOf(f), user.id, now).0, None)
  }

  /** `handleSaveFacturacion`: refused for any role but SUPERUSUARIO. A
      date the browser cannot parse (`None`) makes `toISOString` throw,
      which the handler reports with nothing saved. The running invoice
      number is kept, and the store records user "1" as the updater. */
  function HandleSaveFacturacion(db: Db, user: User, f: FacturacionForm, resolucionIso: Option<string>,
                                 vencimientoIso: Option<string>, now: int): (r: Outcome<Db>)
    ensures r.error.None? <==> IsSuperUser(user) && resolucionIso.Some? && vencimientoIso.Some?
    ensures !IsSuperUser(user) ==> r.error == Some(SOLO_SUPERUSUARIO)
    ensures r.error.Some? ==> r.state == db
    ensures r.error.None? ==>
              var c := GetConfiguracionFacturacion(r.state, now);
              var c0 := GetConfiguracionFacturacion(db, now);
              c.prefijoFactura == f.prefijoFactura && c.numeroInicial == f.numeroInicial &&
              c.resolucionDian == f.resolucionDian &&
              c.fechaResolucion == resolucionIso.value && c.fechaVencimiento == vencimientoIso.value &&
              c.rangoInicial == f.rangoInicial && c.rangoFinal == f.rangoFinal &&
              c.numeroActual == c0.numeroActual && c.updatedBy == "1" && c.updatedAt == now &&
              r.state == db.(configFacturacion := r.state.configFacturacion)
  {
    if !IsSuperUser(user) then Outcome(db, Some(SOLO_SUPERUSUARIO))
    else if resolucionIso.None? || vencimientoIso.None? then Outcome(db, Some(ERROR_FACTURACION))
    else Outcome(UpdateConfiguracionFacturacion(db, FacturacionPatchOf(f, resolucionIso.value, vencimientoIso.value),
                                                now).0, None)
  }

  /** The invoicing gate reads the role alone: two users of the same role
      get the same outcome, whatever their permissions or status. */
  lemma FacturacionGateIgnoresPermissions(db: Db, u: User, ps: seq<string>, activo: bool, f: FacturacionForm,
                                          ri: Option<string>, vi: Option<string>, now: int)
    ensures HandleSaveFacturacion(db, u.(permissions := ps, activo := activo), f, ri, vi, now) ==
            HandleSaveFacturacion(db, u, f, ri, vi, now)
  {
  }

  /** An ADMIN with the whole catalogue may edit the company and the taxes
      but not invoicing; a SUPERUSUARIO holding no permission at all may
      still save invoicing, though without `configuracion.read` the page
      that offers the form is not shown. */
  lemma GatesAreIndependent(db: Db, u: User, f: FacturacionForm, ri: string, vi: string, now: int)
    requires u.activo && u.deletedAt.None?
    ensures var admin := u.(rol := ADMIN, permissions := CATALOGUE_KEYS);
            CanOpen(admin) && HasPermission(admin, "configuracion.company") &&
            HasPermission(admin, "configuracion.taxes") &&
            HandleSaveFacturacion(db, admin, f, Some(ri), Some(vi), now).error == Some(SOLO_SUPERUSUARIO)
    ensures var root := u.(rol := SUPERUSUARIO, permissions := []);
            !CanOpen(root) && HandleSaveFacturacion(db, root, f, Some(ri), Some(vi), now).error.None?
  {
    var admin := u.(rol := ADMIN, permissions := CATALOGUE_KEYS);
    assert CATALOGUE_KEYS[31] == "configuracion.read";
    assert CATALOGUE_KEYS[32] == "configuracion.company";
    assert CATALOGUE_KEYS[33] == "configuracion.taxes";
  }

  /** Saving invoicing settings never moves the invoice counter, so the
      next invoice number is the same before and after the save. */
  lemma SaveFacturacionKeepsNumbering(db: Db, user: User, f: FacturacionForm, ri: Option<string>,
                                      vi: Option<string>, now: int)
    ensures var r := HandleSaveFacturacion(db, user, f, ri, vi, now);
            GetConfiguracionFacturacion(r.state, now).numeroActual == GetConfiguracionFacturacion(db, now).numeroActual
  {
  }
}

=== FILE: dashboard.dfy ===
/** The dashboard: the quick actions offered to a user, in their fixed
    order, and the panels each permission unlocks over the store's
    metrics. */
module Dashboard {
  import opened Wrappers
  import opened Entities
  import opened Database
  import opened Permissions
  import opened Auth

  datatype QuickAction = NuevaVenta | NuevoProducto | NuevoCliente | VerReportes

  /** The permission each action asks for. */
  function PermisoDe(a: QuickAction): string {
    match a
    case NuevaVenta => "ventas.write"
    case NuevoProducto => "productos.write"
    case NuevoCliente => "clientes.write"
    case VerReportes => "reportes.read"
  }

  /** The page each action opens. */
  function PaginaDe(a: QuickAction): string {
    match a
    case NuevaVenta => "pos"
    case NuevoProducto => "products"
    case NuevoCliente => "clients"
    case VerReportes => "reports"
  }

  /** The place of an action in the list. */
  function Rank(a: QuickAction): nat {
    match a
    case NuevaVenta => 0
    case NuevoProducto => 1
    case NuevoCliente => 2
    case VerReportes => 3
  }

  function When(c: bool, a: QuickAction): seq<QuickAction> {
    if c then [a] else []
  }

  /** `getQuickActions`: an action is offered exactly when its permission
      is held, and the actions keep their fixed order. */
  function GetQuickActions(user: User): (r: seq<QuickAction>)
    ensures forall a :: a in r <==> HasPermission(user, PermisoDe(a))
    ensures forall i, j :: 0 <= i < j < |r| ==> Rank(r[i]) < Rank(r[j])
  {
    When(HasPermission(user, "ventas.write"), NuevaVenta) +
    When(HasPermission(user, "productos.write"), NuevoProducto) +
    When(HasPermission(user, "clientes.write"), NuevoCliente) +
    When(HasPermission(user, "reportes.read"), VerReportes)
  }

  /** "Ver Reportes" asks for `reportes.read`, which is no catalogue
      permission: a user whose permissions all come from the catalogue,
      as every role's defaults do, is never offered it. */
  lemma ReportsActionUnreachable(user: User)
    requires forall k :: k in user.permissions ==> k in CATALOGUE_KEYS
    ensures VerReportes !in GetQuickActions(user)
  {
    ReportesReadUncatalogued();
  }

  /** The catalogue has `reportes.basic`, `.advanced`, `.export` and
      `.financial`, but no `reportes.read`. */
  lemma ReportesReadUncatalogued()
    ensures "reportes.read" !in CATALOGUE_KEYS
  {
  }

  /** A user saved with their role's defaults never gets "Ver Reportes". */
  lemma DefaultUsersNeverSeeReports(user: User)
    requires user.permissions == DefaultPermissions(user.rol)
    ensures VerReportes !in GetQuickActions(user)
  {
    DefaultsWithinCatalogue(user.rol);
    ReportsActionUnreachable(user);
  }

  /** What the dashboard shows besides the quick actions: the metric
      cards, the first alerts of the inventory panel, and the count on the
      "Ver todas las alertas" button. */
  datatype View = View(tarjetas: bool, alertas: seq<Producto>, verTodas: Option<nat>)

  /** The panels: the cards need `dashboard.read`; the alerts panel needs
      `inventario.read` and loaded metrics with some alert, shows at most
      three, and offers the full list when there are more. */
  function Panels(user: User, metrics: Option<Metrics>): (r: View)
    ensures r.tarjetas <==> HasPermission(user, "dashboard.read")
    ensures |r.alertas| > 0 <==> HasPermission(user, "inventario.read") && metrics.Some? && |metrics.value.alertas| > 0
    ensures |r.alertas| <= 3
    ensures |r.alertas| > 0 ==> |r.alertas| <= |metrics.value.alertas| &&
                                r.alertas == metrics.value.alertas[..|r.alertas|] &&
                                (|r.alertas| == 3 || r.alertas == metrics.value.alertas)
    ensures r.verTodas.Some? <==> |r.alertas| > 0 && |metrics.value.alertas| > 3
    ensures r.verTodas.Some? ==> r.verTodas.value == |metrics.value.alertas|
  {
    var panel := HasPermission(user, "inventario.read") && metrics.Some? && |metrics.value.alertas| > 0;
    var alertas := if !panel then [] else
                     var all := metrics.value.alertas;
                     if |all| > 3 then all[..3] else all;
    var verTodas := if panel && |metrics.value.alertas| > 3 then Some(|metrics.value.alertas|) else None;
    View(HasPermission(user, "dashboard.read"), alertas, verTodas)
  }

  /** The alerts on the dashboard are active products of the store at or
      under their minimum stock. */
  lemma PanelAlertsAreLowStock(db: Db, now: int, user: User)
    ensures var v := Panels(user, Some(DashboardMetrics(db, now)));
            forall i :: 0 <= i < |v.alertas| ==> v.alertas[i] in db.productos && StockBajo(v.alertas[i])
  {
    var m := DashboardMetrics(db, now);
    var v := Panels(user, Some(m));
    forall i | 0 <= i < |v.alertas| ensures v.alertas[i] in db.productos && StockBajo(v.alertas[i]) {
      assert v.alertas[i] == m.alertas[i];
    }
  }

  /** A deleted or inactive user sees no card, no alert and no action. */
  lemma InactiveSeesNothing(user: User, metrics: Option<Metrics>)
    requires !user.activo || user.deletedAt.Some?
    ensures GetQuickActions(user) == []
    ensures var v := Panels(user, metrics);
            !v.tarjetas && v.alertas == [] && v.verTodas.None?
  {
  }
}

=== FILE: database.dfy ===
/** The record store (`class Database`): one immutable state holding every
    table; each operation returns the new state and its result. Generated
    ids and the clock are inputs. */
module Database {
  import opened Wrappers
  import opened Seqs
  import opened Text
  import opened Entities

  datatype Db = Db(
    categorias: seq<Categoria>,
    marcas: seq<Marca>,
    proveedores: seq<Proveedor>,
    productos: seq<Producto>,
    clientes: seq<Cliente>,
    ventas: seq<Venta>,
    facturas: seq<Factura>,
    movimientos: seq<Movimiento>,
    configEmpresa: seq<ConfiguracionEmpresa>,
    configImpuestos: seq<ConfiguracionImpuestos>,
    configFacturacion: seq<ConfiguracionFacturacion>)

  /** The calendar day (UTC) of a timestamp: `toISOString().split('T')[0]`.
      Comparing the `YYYY-MM-DD` prefixes compares these numbers. */
  function DayOf(t: int): int {
    t / 86400000
  }

  function ProveedorIdIs(id: string): Proveedor -> bool { (p: Proveedor) => p.id == id }
  function ProductoIdIs(id: string): Producto -> bool { (p: Producto) => p.id == id }
  function ClienteIdIs(id: string): Cliente -> bool { (c: Cliente) => c.id == id }
  function VentaIdIs(id: string): Venta -> bool { (v: Venta) => v.id == id }
  function FacturaIdIs(id: string): Factura -> bool { (f: Factura) => f.id == id }

  // ---------------------------------------------------------------
  // Create: the record, with a fresh id and creation time, goes last
  // ---------------------------------------------------------------

  function CreateCategoria(db: Db, data: Categoria, id: string, now: int): (r: (Db, Categoria))
    ensures r.0 == db.(categorias := db.categorias + [r.1])
    ensures r.1 == data.(id := id, createdAt := now)
  {
    var c := data.(id := id, createdAt := now);
    (db.(categorias := db.categorias + [c]), c)
  }

  function CreateMarca(db: Db, data: Marca, id: string, now: int): (r: (Db, Marca))
    ensures r.0 == db.(marcas := db.marcas + [r.1])
    ensures r.1 == data.(id := id, createdAt := now)
  {
    var m := data.(id := id, createdAt := now);
    (db.(marcas := db.marcas + [m]), m)
  }

  function CreateProveedor(db: Db, data: Proveedor, id: string, now: int): (r: (Db, Proveedor))
    ensures r.0 == db.(proveedores := db.proveedores + [r.1])
    ensures r.1 == data.(id := id, createdAt := now)
  {
    var p := data.(id := id, createdAt := now);
    (db.(proveedores := db.proveedores + [p]), p)
  }

  function CreateProducto(db: Db, data: Producto, id: string, now: int): (r: (Db, Producto))
    ensures r.0 == db.(productos := db.productos + [r.1])
    ensures r.1 == data.(id := id, createdAt := now)
  {
    var p := data.(id := id, createdAt := now);
    (db.(productos := db.productos + [p]), p)
  }

  function CreateCliente(db: Db, data: Cliente, id: string, now: int): (r: (Db, Cliente))
    ensures r.0 == db.(clientes := db.clientes + [r.1])
    ensures r.1 == data.(id := id, createdAt := now)
  {
    var c := data.(id := id, createdAt := now);
    (db.(clientes := db.clientes + [c]), c)
  }

  /** `createMovimientoInventario`. */
  function CreateMovimiento(db: Db, data: Movimiento, now: int): (r: (Db, Movimiento))
    ensures r.0 == db.(movimientos := db.movimientos + [r.1])
    ensures r.1 == data.(createdAt := now)
  {
    var m := data.(createdAt := now);
    (db.(movimientos := db.movimientos + [m]), m)
  }

  // ---------------------------------------------------------------
  // Merge-update: `{ ...record, ...data }` on the first record with the
  // id; `null` (`None`) and no change for an unknown id
  // ---------------------------------------------------------------

  function UpdateProveedor(db: Db, id: string, d: ProveedorPatch): (r: (Db, Option<Proveedor>))
    ensures r.0 == db.(proveedores := r.0.proveedores)
    ensures |r.0.proveedores| == |db.proveedores|
    ensures forall j :: 0 <= j < |db.proveedores| ==>
              r.0.proveedores[j] == if IsFirst(db.proveedores, ProveedorIdIs(id), j)
                                    then MergeProveedor(db.proveedores[j], d) else db.proveedores[j]
    ensures r.1.None? <==> forall j :: 0 <= j < |db.proveedores| ==> db.proveedores[j].id != id
    ensures r.1.None? ==> r.0 == db
    ensures r.1.Some? ==> r.1.value.id == id && r.1.value in r.0.proveedores
  {
    var ps := UpdateFirst(db.proveedores, ProveedorIdIs(id), (p: Proveedor) => MergeProveedor(p, d));
    match FindIndex(db.proveedores, ProveedorIdIs(id))
    case Some(i) => (db.(proveedores := ps), Some(ps[i]))
    case None => (db, None)
  }

  function UpdateProducto(db: Db, id: string, d: ProductoPatch): (r: (Db, Option<Producto>))
    ensures r.0 == db.(productos := r.0.productos)
    ensures |r.0.productos| == |db.productos|
    ensures forall j :: 0 <= j < |db.productos| ==>
              r.0.productos[j] == if IsFirst(db.productos, ProductoIdIs(id), j)
                                  then MergeProducto(db.productos[j], d) else db.productos[j]
    ensures r.1.None? <==> forall j :: 0 <= j < |db.productos| ==> db.productos[j].id != id
    ensures r.1.None? ==> r.0 == db
    ensures r.1.Some? ==> r.1.value.id == id && r.1.value in r.0.productos
  {
    var ps := UpdateFirst(db.productos, ProductoIdIs(id), (p: Producto) => MergeProducto(p, d));
    match FindIndex(db.productos, ProductoIdIs(id))
    case Some(i) => (db.(productos := ps), Some(ps[i]))
    case None => (db, None)
  }

  function UpdateCliente(db: Db, id: string, d: ClientePatch): (r: (Db, Option<Cliente>))
    ensures r.0 == db.(clientes := r.0.clientes)
    ensures |r.0.clientes| == |db.clientes|
    ensures forall j :: 0 <= j < |db.clientes| ==>
              r.0.clientes[j] == if IsFirst(db.clientes, ClienteIdIs(id), j)
                                 then MergeCliente(db.clientes[j], d) else db.clientes[j]
    ensures r.1.None? <==> forall j :: 0 <= j < |db.clientes| ==> db.clientes[j].id != id
    ensures r.1.None? ==> r.0 == db
    ensures r.1.Some? ==> r.1.value.id == id && r.1.value in r.0.clientes
  {
    var cs := UpdateFirst(db.clientes, ClienteIdIs(id), (c: Cliente) => MergeCliente(c, d));
    match FindIndex(db.clientes, ClienteIdIs(id))
    case Some(i) => (db.(clientes := cs), Some(cs[i]))
    case None => (db, None)
  }

  function UpdateFactura(db: Db, id: string, d: FacturaPatch): (r: (Db, Option<Factura>))
    ensures r.0 == db.(facturas := r.0.facturas)
    ensures |r.0.facturas| == |db.facturas|
    ensures forall j :: 0 <= j < |db.facturas| ==>
              r.0.facturas[j] == if IsFirst(db.facturas, FacturaIdIs(id), j)
                                 then MergeFactura(db.facturas[j], d) else db.facturas[j]
    ensures r.1.None? <==> forall j :: 0 <= j < |db.facturas| ==> db.facturas[j].id != id
    ensures r.1.None? ==> r.0 == db
    ensures r.1.Some? ==> r.1.value.id == id && r.1.value in r.0.facturas
  {
    var fs := UpdateFirst(db.facturas, FacturaIdIs(id), (f: Factura) => MergeFactura(f, d));
    match FindIndex(db.facturas, FacturaIdIs(id))
    case Some(i) => (db.(facturas := fs), Some(fs[i]))
    case None => (db, None)
  }

  /** The record an update returns is the stored first record with the id,
      as merged. */
  lemma UpdateProveedorReturnsFirst(db: Db, id: string, d: ProveedorPatch)
    ensures var r := UpdateProveedor(db, id, d);
            r.1.Some? ==> exists j :: IsFirst(db.proveedores, ProveedorIdIs(id), j) && r.1.value == r.0.proveedores[j]
  {
  }

  lemma UpdateProductoReturnsFirst(db: Db, id: string, d: ProductoPatch)
    ensures var r := UpdateProducto(db, id, d);
            r.1.Some? ==> exists j :: IsFirst(db.productos, ProductoIdIs(id), j) && r.1.value == r.0.productos[j]
  {
  }

  lemma UpdateClienteReturnsFirst(db: Db, id: string, d: ClientePatch)
    ensures var r := UpdateCliente(db, id, d);
            r.1.Some? ==> exists j :: IsFirst(db.clientes, ClienteIdIs(id), j) && r.1.value == r.0.clientes[j]
  {
  }

  lemma UpdateFacturaReturnsFirst(db: Db, id: string, d: FacturaPatch)
    ensures var r := UpdateFactura(db, id, d);
            r.1.Some? ==> exists j :: IsFirst(db.facturas, FacturaIdIs(id), j) && r.1.value == r.0.facturas[j]
  {
  }

  // ---------------------------------------------------------------
  // Search
  // ---------------------------------------------------------------

  /** The text tests of `searchProductos`; `descripcion?.…` is false when
      the description is absent. */
  predicate ProductoMatches(p: Producto, q: string) {
    var t := Lower(q);
    Contains(Lower(p.nombre), t) || Contains(Lower(p.sku), t) ||
    (p.descripcion.Some? && Contains(Lower(p.descripcion.value), t))
  }

  /** `searchProductos`: active products; all of them for an empty query. */
  function SearchProductos(db: Db, q: string): (r: seq<Producto>)
    ensures forall i :: 0 <= i < |r| ==> r[i] in db.productos && r[i].activo && (q == "" || ProductoMatches(r[i], q))
    ensures forall j :: 0 <= j < |db.productos| && db.productos[j].activo && (q == "" || ProductoMatches(db.productos[j], q))
              ==> db.productos[j] in r
  {
    var activo := (p: Producto) => p.activo;
    FilterKeeps(db.productos, activo);
    var activos := Filter(db.productos, activo);
    if q == "" then activos
    else
      var m := (p: Producto) => ProductoMatches(p, q);
      FilterKeeps(activos, m);
      Filter(activos, m)
  }

  /** The tests of `searchClientes`: the document is matched as typed
      against the lower-cased query. */
  predicate ClienteMatches(c: Cliente, q: string) {
    var t := Lower(q);
    Contains(Lower(c.nombre), t) || Contains(c.documento, t) ||
    (c.email.Some? && Contains(Lower(c.email.value), t))
  }

  /** `searchClientes`: active clients; all of them for an empty query. */
  function SearchClientes(db: Db, q: string): (r: seq<Cliente>)
    ensures forall i :: 0 <= i < |r| ==> r[i] in db.clientes && r[i].activo && (q == "" || ClienteMatches(r[i], q))
    ensures forall j :: 0 <= j < |db.clientes| && db.clientes[j].activo && (q == "" || ClienteMatches(db.clientes[j], q))
              ==> db.clientes[j] in r
  {
    var activo := (c: Cliente) => c.activo;
    FilterKeeps(db.clientes, activo);
    var activos := Filter(db.clientes, activo);
    if q == "" then activos
    else
      var m := (c: Cliente) => ClienteMatches(c, q);
      FilterKeeps(activos, m);
      Filter(activos, m)
  }

  // ---------------------------------------------------------------
  // Sales
  // ---------------------------------------------------------------

  /** `V-${String(n).padStart(6, '0')}`: "V-", then the digits of `n`
      behind zeros up to six digits, so exactly eight characters below a
      million. */
  function NumeroVenta(n: nat): (r: string)
    ensures |r| >= 8 && r[..2] == "V-" && AllDigits(r[2..]) && ParseDecimal(r[2..]) == n
    ensures |r| == 2 + (if |Decimal(n)| < 6 then 6 else |Decimal(n)|)
    ensures |r| == 8 <==> n < 1000000
  {
    SalePrefixed(n);
    "V-" + ZeroPad(n, 6)
  }

  lemma SalePrefixed(n: nat)
    ensures var r := "V-" + ZeroPad(n, 6);
            r[..2] == "V-" && r[2..] == ZeroPad(n, 6) && |r| == 2 + |ZeroPad(n, 6)| &&
            (|r| == 8 <==> n < 1000000)
  {
    DecimalFits(n, 6);
    Pow10Values();
  }

  /** Past "V-", a sale number is zeros and then the decimal digits of
      the count. */
  lemma NumeroVentaDigits(n: nat)
    ensures var r := NumeroVenta(n);
            |Decimal(n)| + 2 <= |r| && r[|r| - |Decimal(n)|..] == Decimal(n) &&
            forall i :: 2 <= i < |r| - |Decimal(n)| ==> r[i] == '0'
  {
    var z := ZeroPad(n, 6);
    assert NumeroVenta(n) == "V-" + z;
    AfterPrefix("V-", z, |Decimal(n)|);
  }

  /** The first sale is numbered "V-000001". */
  lemma FirstSaleNumber()
    ensures NumeroVenta(1) == "V-000001"
  {
    assert Decimal(1) == "1";
  }

  lemma NumeroVentaInjective(m: nat, n: nat)
    requires NumeroVenta(m) == NumeroVenta(n)
    ensures m == n
  {
    assert NumeroVenta(m)[2..] == NumeroVenta(n)[2..];
  }

  /** The SALIDA movement a sale line leaves on a product whose stock was
      `anterior`. */
  function SaleMovement(item: VentaItem, anterior: int, numero: string, usuario: string, now: int): Movimiento {
    Movimiento(item.productoId, SALIDA, item.cantidad, anterior, anterior - item.cantidad,
               "Venta", Some("Venta " + numero), usuario, now)
  }

  function WithStock(stock: int): Producto -> Producto {
    (q: Producto) => MergeProducto(q, PRODUCTO_NO_CHANGE.(stockActual := Some(stock)))
  }

  /** The stock update and SALIDA movement of one sale line (one
      `forEach` step): the first product with the line's id loses the
      line's quantity, with no check against negative stock; an unknown
      product changes nothing. */
  function SellItem(ps: seq<Producto>, ms: seq<Movimiento>, item: VentaItem, numero: string,
                    usuario: string, now: int): (r: (seq<Producto>, seq<Movimiento>))
    ensures |r.0| == |ps|
    ensures forall j :: 0 <= j < |ps| ==> r.0[j].id == ps[j].id
  {
    match FindIndex(ps, ProductoIdIs(item.productoId))
    case None => (ps, ms)
    case Some(i) =>
      var p := ps[i];
      (UpdateFirst(ps, ProductoIdIs(p.id), WithStock(p.stockActual - item.cantidad)),
       ms + [SaleMovement(item, p.stockActual, numero, usuario, now)])
  }

  /** `venta.items.forEach(...)`: each line sees the stock left by the
      lines before it. */
  function SellItems(ps: seq<Producto>, ms: seq<Movimiento>, items: seq<VentaItem>, numero: string,
                     usuario: string, now: int): (r: (seq<Producto>, seq<Movimiento>))
    ensures |r.0| == |ps|
    ensures forall j :: 0 <= j < |ps| ==> r.0[j].id == ps[j].id
    decreases |items|
  {
    if |items| == 0 then (ps, ms)
    else
      var (ps1, ms1) := SellItem(ps, ms, items[0], numero, usuario, now);
      SellItems(ps1, ms1, items[1..], numero, usuario, now)
  }

  /** A line whose product is unknown changes nothing. */
  lemma SellItemUnknown(ps: seq<Producto>, ms: seq<Movimiento>, item: VentaItem, numero: string,
                        usuario: string, now: int)
    requires forall j :: 0 <= j < |ps| ==> ps[j].id != item.productoId
    ensures SellItem(ps, ms, item, numero, usuario, now) == (ps, ms)
  {
  }

  /** A line whose product is first found at `i`: exactly that product
      changes, and only its stock, to old − cantidad; exactly one SALIDA
      movement is appended, from the old stock to the new one, with motive
      "Venta". */
  lemma SellItemKnown(ps: seq<Producto>, ms: seq<Movimiento>, item: VentaItem, numero: string,
                      usuario: string, now: int, i: nat)
    requires IsFirst(ps, ProductoIdIs(item.productoId), i)
    ensures var (ps', ms') := SellItem(ps, ms, item, numero, usuario, now);
            ps'[i] == ps[i].(stockActual := ps[i].stockActual - item.cantidad) &&
            (forall j :: 0 <= j < |ps| && j != i ==> ps'[j] == ps[j]) &&
            ms' == ms + [SaleMovement(item, ps[i].stockActual, numero, usuario, now)] &&
            ms'[|ms|].stockNuevo == ms'[|ms|].stockAnterior - item.cantidad &&
            ms'[|ms|].tipo == SALIDA && ms'[|ms|].motivo == "Venta"
  {
    assert FindIndex(ps, ProductoIdIs(item.productoId)) == Some(i);
    assert ProductoIdIs(ps[i].id) == ProductoIdIs(item.productoId);
    UpdateFirstAt(ps, ProductoIdIs(item.productoId), WithStock(ps[i].stockActual - item.cantidad), i);
  }

  /** The quantity the lines of `items` take from product `id`. */
  function QuantityFor(items: seq<VentaItem>, id: string): int {
    SumInt(Filter(items, (it: VentaItem) => it.productoId == id), (it: VentaItem) => it.cantidad)
  }

  lemma {:induction false} QuantityForCons(items: seq<VentaItem>, id: string)
    requires |items| > 0
    ensures QuantityFor(items, id) ==
            (if items[0].productoId == id then items[0].cantidad else 0) + QuantityFor(items[1..], id)
  {
    assert items == [items[0]] + items[1..];
    FilterAppend([items[0]], items[1..], (it: VentaItem) => it.productoId == id);
    SumIntAppend(Filter([items[0]], (it: VentaItem) => it.productoId == id), Filter(items[1..], (it: VentaItem) => it.productoId == id), (it: VentaItem) => it.cantidad);
  }

  /** Every line with a known product leaves one movement. */
  function KnownLines(ps: seq<Producto>, items: seq<VentaItem>): nat {
    |Filter(items, (it: VentaItem) => exists j :: 0 <= j < |ps| && ps[j].id == it.productoId)|
  }

  /** One line as seen from product `j`: only the first product with an id
      is ever touched, and it loses the line's quantity when the line
      names it. */
  lemma SellItemAt(ps: seq<Producto>, ms: seq<Movimiento>, item: VentaItem, numero: string,
                   usuario: string, now: int, j: nat)
    requires j < |ps|
    ensures var ps' := SellItem(ps, ms, item, numero, usuario, now).0;
            ps'[j] == if IsFirst(ps, ProductoIdIs(ps[j].id), j) && item.productoId == ps[j].id
                      then ps[j].(stockActual := ps[j].stockActual - item.cantidad)
                      else ps[j]
  {
    match FindIndex(ps, ProductoIdIs(item.productoId))
    case None =>
      SellItemUnknown(ps, ms, item, numero, usuario, now);
    case Some(i) =>
      SellItemKnown(ps, ms, item, numero, usuario, now, i);
      if i != j && IsFirst(ps, ProductoIdIs(ps[j].id), j) && item.productoId == ps[j].id {
        assert false;
      }
  }

  /** One line on the movement list: one SALIDA "Venta" movement more when
      the product is known, none otherwise. */
  lemma SellItemMovements(ps: seq<Producto>, ms: seq<Movimiento>, item: VentaItem, numero: string,
                          usuario: string, now: int)
    ensures var ms' := SellItem(ps, ms, item, numero, usuario, now).1;
            ms'[..|ms|] == ms &&
            |ms'| == |ms| + (if exists j :: 0 <= j < |ps| && ps[j].id == item.productoId then 1 else 0) &&
            forall k :: |ms| <= k < |ms'| ==> ms'[k].tipo == SALIDA && ms'[k].motivo == "Venta"
  {
    match FindIndex(ps, ProductoIdIs(item.productoId))
    case None =>
      SellItemUnknown(ps, ms, item, numero, usuario, now);
    case Some(i) =>
      SellItemKnown(ps, ms, item, numero, usuario, now, i);
  }

  /** Over a whole sale, product `j`: the first product with each id ends
      with its stock minus the total quantity the lines take from it, and
      every other field unchanged; a product shadowed by an earlier one
      with the same id is never touched. */
  lemma {:induction false} SellItemsStock(ps: seq<Producto>, ms: seq<Movimiento>, items: seq<VentaItem>,
                                          numero: string, usuario: string, now: int, j: nat)
    requires j < |ps|
    ensures var ps' := SellItems(ps, ms, items, numero, usuario, now).0;
            ps'[j] == if IsFirst(ps, ProductoIdIs(ps[j].id), j)
                      then ps[j].(stockActual := ps[j].stockActual - QuantityFor(items, ps[j].id))
                      else ps[j]
    decreases |items|
  {
    if |items| > 0 {
      var (ps1, ms1) := SellItem(ps, ms, items[0], numero, usuario, now);
      var id := ps[j].id;
      SellItemAt(ps, ms, items[0], numero, usuario, now, j);
      FirstSameIds(ps, ps1, id, j);
      SellItemsStock(ps1, ms1, items[1..], numero, usuario, now, j);
      QuantityForCons(items, id);
      StockStep(ps[j], ps1[j], SellItems(ps1, ms1, items[1..], numero, usuario, now).0[j],
                IsFirst(ps, ProductoIdIs(id), j), items[0].productoId == id, items[0].cantidad,
                QuantityFor(items[1..], id), QuantityFor(items, id));
    } else {
      assert QuantityFor(items, ps[j].id) == 0;
    }
  }

  /** Which index is first with an id depends only on the ids. */
  lemma FirstSameIds(ps: seq<Producto>, ps1: seq<Producto>, id: string, j: nat)
    requires |ps1| == |ps| && forall k :: 0 <= k < |ps| ==> ps1[k].id == ps[k].id
    ensures IsFirst(ps1, ProductoIdIs(id), j) <==> IsFirst(ps, ProductoIdIs(id), j)
  {
  }

  /** The step of `SellItemsStock` on one product: taking `c` for the first
      line and `qRest` for the others takes their sum. */
  lemma StockStep(a: Producto, a1: Producto, out: Producto, first: bool, named: bool, c: int, qRest: int, q: int)
    requires a1 == if first && named then a.(stockActual := a.stockActual - c) else a
    requires out == if first then a1.(stockActual := a1.stockActual - qRest) else a1
    requires q == (if named then c else 0) + qRest
    ensures out == if first then a.(stockActual := a.stockActual - q) else a
  {
  }

  /** Over a whole sale: the movements grow by exactly one SALIDA "Venta"
      movement per line whose product is known; the earlier ones stay. */
  lemma {:induction false} SellItemsMovements(ps: seq<Producto>, ms: seq<Movimiento>, items: seq<VentaItem>,
                                              numero: string, usuario: string, now: int)
    ensures var ms' := SellItems(ps, ms, items, numero, usuario, now).1;
            |ms'| == |ms| + KnownLines(ps, items) && ms'[..|ms|] == ms &&
            forall k :: |ms| <= k < |ms'| ==> ms'[k].tipo == SALIDA && ms'[k].motivo == "Venta"
    decreases |items|
  {
    if |items| > 0 {
      var (ps1, ms1) := SellItem(ps, ms, items[0], numero, usuario, now);
      SellItemMovements(ps, ms, items[0], numero, usuario, now);
      SellItemsMovements(ps1, ms1, items[1..], numero, usuario, now);
      KnownLinesCons(ps, ps1, items);
      SalesAppended(ms, ms1, SellItems(ps1, ms1, items[1..], numero, usuario, now).1);
    } else {
      assert KnownLines(ps, items) == 0;
    }
  }

  /** Two extensions by sale movements in a row are one. */
  lemma SalesAppended(ms: seq<Movimiento>, ms1: seq<Movimiento>, ms2: seq<Movimiento>)
    requires |ms| <= |ms1| <= |ms2| && ms1[..|ms|] == ms && ms2[..|ms1|] == ms1
    requires forall k :: |ms| <= k < |ms1| ==> ms1[k].tipo == SALIDA && ms1[k].motivo == "Venta"
    requires forall k :: |ms1| <= k < |ms2| ==> ms2[k].tipo == SALIDA && ms2[k].motivo == "Venta"
    ensures ms2[..|ms|] == ms
    ensures forall k :: |ms| <= k < |ms2| ==> ms2[k].tipo == SALIDA && ms2[k].motivo == "Venta"
  {
    PrefixOfPrefix(ms2, ms1, ms);
    forall k | |ms| <= k < |ms1| ensures ms2[k] == ms1[k] {
      PrefixAt(ms2, ms1, k);
    }
  }

  /** Whether a product id is known is the same before and after a line. */
  lemma KnownLinesCons(ps: seq<Producto>, ps1: seq<Producto>, items: seq<VentaItem>)
    requires |items| > 0 && |ps1| == |ps|
    requires forall k :: 0 <= k < |ps| ==> ps1[k].id == ps[k].id
    ensures KnownLines(ps, items) ==
            (if exists j :: 0 <= j < |ps| && ps[j].id == items[0].productoId then 1 else 0) + KnownLines(ps1, items[1..])
  {
    var f := (it: VentaItem) => exists j :: 0 <= j < |ps| && ps[j].id == it.productoId;
    var f1 := (it: VentaItem) => exists j :: 0 <= j < |ps1| && ps1[j].id == it.productoId;
    assert items == [items[0]] + items[1..];
    FilterAppend([items[0]], items[1..], f);
    FilterSame(items[1..], f, f1);
  }

  /** A sale's client is counted when `cliente_id` is a non-empty string. */
  predicate HasClient(v: Venta) {
    v.clienteId.Some? && v.clienteId.value != ""
  }

  /** The client bookkeeping of `createVenta`: one more purchase, the sale
      total added to the spend, and the tier recomputed from both. */
  function CountSale(cs: seq<Cliente>, v: Venta): (r: seq<Cliente>)
    ensures |r| == |cs|
    ensures !HasClient(v) ==> r == cs
    ensures forall j :: 0 <= j < |cs| ==>
              r[j] == if HasClient(v) && IsFirst(cs, ClienteIdIs(v.clienteId.value), j) then
                        cs[j].(totalCompras := cs[j].totalCompras + 1,
                               totalGastado := cs[j].totalGastado + v.total,
                               clasificacion := Clasificar(cs[j].totalCompras + 1, cs[j].totalGastado + v.total))
                      else cs[j]
  {
    if !HasClient(v) then cs
    else match Find(cs, ClienteIdIs(v.clienteId.value))
      case None => cs
      case Some(c) =>
        var patch := SalePatch(c, v.total);
        var i := FindIndex(cs, ClienteIdIs(v.clienteId.value)).value;
        assert c == cs[i];
        MergeSalePatch(c, v.total);
        UpdateFirst(cs, ClienteIdIs(c.id), (x: Cliente) => MergeCliente(x, patch))
  }

  /** The patch `createVenta` sends for client `c` after a sale of `total`. */
  function SalePatch(c: Cliente, total: real): ClientePatch {
    CLIENTE_NO_CHANGE.(totalCompras := Some(c.totalCompras + 1),
                       totalGastado := Some(c.totalGastado + total),
                       clasificacion := Some(Clasificar(c.totalCompras + 1, c.totalGastado + total)))
  }

  /** The sale patch changes the two counters and the tier, nothing else. */
  lemma MergeSalePatch(c: Cliente, total: real)
    ensures MergeCliente(c, SalePatch(c, total)) ==
            c.(totalCompras := c.totalCompras + 1, totalGastado := c.totalGastado + total,
               clasificacion := Clasificar(c.totalCompras + 1, c.totalGastado + total))
  {
  }

  /** `createVenta`: numbers the sale after the count of stored sales
      (soft-deleted ones included), stores it, sells each line, then
      counts the sale for its client. */
  function CreateVenta(db: Db, data: Venta, id: string, now: int): (r: (Db, Venta))
    ensures r.1 == data.(id := id, numeroVenta := NumeroVenta(|db.ventas| + 1), createdAt := now)
    ensures r.0.ventas == db.ventas + [r.1]
    ensures (r.0.productos, r.0.movimientos) ==
            SellItems(db.productos, db.movimientos, data.items, r.1.numeroVenta, data.usuarioId, now)
    ensures r.0.clientes == CountSale(db.clientes, r.1)
    ensures r.0 == db.(ventas := r.0.ventas, productos := r.0.productos,
                       movimientos := r.0.movimientos, clientes := r.0.clientes)
  {
    var v := data.(id := id, numeroVenta := NumeroVenta(|db.ventas| + 1), createdAt := now);
    var (ps, ms) := SellItems(db.productos, db.movimientos, v.items, v.numeroVenta, data.usuarioId, now);
    (db.(ventas := db.ventas + [v], productos := ps, movimientos := ms, clientes := CountSale(db.clientes, v)), v)
  }

  /** The sale numbers are `V-000001`, `V-000002`, … in storage order. */
  predicate NumberedInOrder(ventas: seq<Venta>) {
    forall i :: 0 <= i < |ventas| ==> ventas[i].numeroVenta == NumeroVenta(i + 1)
  }

  /** Numbering in order makes the numbers unique. */
  lemma NumberedInOrderDistinct(ventas: seq<Venta>)
    requires NumberedInOrder(ventas)
    ensures forall i, j :: 0 <= i < j < |ventas| ==> ventas[i].numeroVenta != ventas[j].numeroVenta
  {
  }

  /** `deleteVenta`: stamps `deleted_at`, `deleted_by` and
      `delete_reason`; false and no change for an unknown id. */
  function DeleteVenta(db: Db, id: string, userId: string, reason: string, now: int): (r: (Db, bool))
    ensures r.1 <==> exists j :: 0 <= j < |db.ventas| && db.ventas[j].id == id
    ensures !r.1 ==> r.0 == db
    ensures r.0 == db.(ventas := r.0.ventas) && |r.0.ventas| == |db.ventas|
  {
    match FindIndex(db.ventas, VentaIdIs(id))
    case None => (db, false)
    case Some(i) =>
      var v := db.ventas[i].(deletedAt := Some(now), deletedBy := Some(userId), deleteReason := Some(reason));
      (db.(ventas := Replace(db.ventas, i, v)), true)
  }

  /** `restoreVenta`: clears the three deletion fields; false and no
      change for an unknown id. */
  function RestoreVenta(db: Db, id: string): (r: (Db, bool))
    ensures r.1 <==> exists j :: 0 <= j < |db.ventas| && db.ventas[j].id == id
    ensures !r.1 ==> r.0 == db
    ensures r.0 == db.(ventas := r.0.ventas) && |r.0.ventas| == |db.ventas|
  {
    match FindIndex(db.ventas, VentaIdIs(id))
    case None => (db, false)
    case Some(i) =>
      var v := db.ventas[i].(deletedAt := None, deletedBy := None, deleteReason := None);
      (db.(ventas := Replace(db.ventas, i, v)), true)
  }

  /** What the soft delete writes, and that nothing else changes. */
  lemma DeleteVentaSpec(db: Db, id: string, userId: string, reason: string, now: int)
    ensures var (db', ok) := DeleteVenta(db, id, userId, reason, now);
            (ok <==> exists j :: 0 <= j < |db.ventas| && db.ventas[j].id == id) &&
            (!ok ==> db' == db) &&
            db' == db.(ventas := db'.ventas) && |db'.ventas| == |db.ventas| &&
            forall j :: 0 <= j < |db.ventas| ==>
              db'.ventas[j] == if IsFirst(db.ventas, VentaIdIs(id), j) then
                                 db.ventas[j].(deletedAt := Some(now), deletedBy := Some(userId), deleteReason := Some(reason))
                               else db.ventas[j]
  {
  }

  /** What the restore clears, and that nothing else changes. */
  lemma RestoreVentaSpec(db: Db, id: string)
    ensures var (db', ok) := RestoreVenta(db, id);
            db' == db.(ventas := db'.ventas) && |db'.ventas| == |db.ventas| &&
            forall j :: 0 <= j < |db.ventas| ==>
              db'.ventas[j] == if IsFirst(db.ventas, VentaIdIs(id), j) then
                                 db.ventas[j].(deletedAt := None, deletedBy := None, deleteReason := None)
                               else db.ventas[j]
  {
  }

  /** Restoring twice is restoring once. */
  lemma RestoreVentaIdempotent(db: Db, id: string)
    ensures RestoreVenta(RestoreVenta(db, id).0, id).0 == RestoreVenta(db, id).0
  {
    match FindIndex(db.ventas, VentaIdIs(id))
    case None =>
    case Some(i) =>
      var v := db.ventas[i].(deletedAt := None, deletedBy := None, deleteReason := None);
      SameIdStaysFirst(db.ventas, id, i, v);
  }

  /** Restoring a deleted sale gives back the record as it was before the
      delete, when the sale the id names had no deletion fields; every
      other sale and table is as it was. */
  lemma DeleteRestoreRoundTrip(db: Db, id: string, userId: string, reason: string, now: int)
    requires forall j :: IsFirst(db.ventas, VentaIdIs(id), j) ==>
               db.ventas[j].deletedAt.None? && db.ventas[j].deletedBy.None? && db.ventas[j].deleteReason.None?
    ensures RestoreVenta(DeleteVenta(db, id, userId, reason, now).0, id).0 == db
  {
    match FindIndex(db.ventas, VentaIdIs(id))
    case None =>
    case Some(i) =>
      var v := db.ventas[i].(deletedAt := Some(now), deletedBy := Some(userId), deleteReason := Some(reason));
      var mid := db.(ventas := Replace(db.ventas, i, v));
      assert DeleteVenta(db, id, userId, reason, now).0 == mid;
      SameIdStaysFirst(db.ventas, id, i, v);
      ReplaceReplace(db.ventas, i, v);
      assert db.ventas[i] == v.(deletedAt := None, deletedBy := None, deleteReason := None);
  }

  /** Deleting and restoring keep the sale numbering. */
  lemma DeleteRestoreKeepNumbering(db: Db, id: string, userId: string, reason: string, now: int)
    requires NumberedInOrder(db.ventas)
    ensures NumberedInOrder(DeleteVenta(db, id, userId, reason, now).0.ventas)
    ensures NumberedInOrder(RestoreVenta(db, id).0.ventas)
  {
    match FindIndex(db.ventas, VentaIdIs(id))
    case None =>
    case Some(i) =>
      ReplaceKeepsNumbering(db.ventas, i,
        db.ventas[i].(deletedAt := Some(now), deletedBy := Some(userId), deleteReason := Some(reason)));
      ReplaceKeepsNumbering(db.ventas, i, db.ventas[i].(deletedAt := None, deletedBy := None, deleteReason := None));
  }

  /** Rewriting a sale in place without touching its id leaves it the
      first with that id. */
  lemma SameIdStaysFirst(ventas: seq<Venta>, id: string, i: nat, v: Venta)
    requires FindIndex(ventas, VentaIdIs(id)) == Some(i) && v.id == ventas[i].id
    ensures FindIndex(Replace(ventas, i, v), VentaIdIs(id)) == Some(i)
  {
    assert IsFirst(Replace(ventas, i, v), VentaIdIs(id), i);
  }

  /** Rewriting a sale in place without touching its number keeps the
      numbering. */
  lemma ReplaceKeepsNumbering(ventas: seq<Venta>, i: nat, v: Venta)
    requires NumberedInOrder(ventas) && i < |ventas| && v.numeroVenta == ventas[i].numeroVenta
    ensures NumberedInOrder(Replace(ventas, i, v))
  {
  }

  /** Creating a sale keeps the numbering in order. */
  lemma CreateVentaNumbering(db: Db, data: Venta, id: string, now: int)
    requires NumberedInOrder(db.ventas)
    ensures NumberedInOrder(CreateVenta(db, data, id, now).0.ventas)
  {
    var (db', v) := CreateVenta(db, data, id, now);
    AppendNumbered(db.ventas, v);
  }

  /** A sale numbered after the count of those stored before it extends
      the numbering. */
  lemma AppendNumbered(ventas: seq<Venta>, v: Venta)
    requires NumberedInOrder(ventas) && v.numeroVenta == NumeroVenta(|ventas| + 1)
    ensures NumberedInOrder(ventas + [v])
  {
    forall i | 0 <= i < |ventas| + 1 ensures (ventas + [v])[i].numeroVenta == NumeroVenta(i + 1) {
      if i < |ventas| {
        assert (ventas + [v])[i] == ventas[i];
      }
    }
  }

  // ---------------------------------------------------------------
  // Configuration singletons: the first row, or the built-in default
  // ---------------------------------------------------------------

  function DefaultEmpresa(now: int): ConfiguracionEmpresa {
    ConfiguracionEmpresa("1", "AEJ Cosmetic & More S.A.S.", "900123456-1", "Calle 123 #45-67",
                         "Bogotá D.C.", "+57 1 234 5678", "info@aejcosmetic.com",
                         Some("https://www.aejcosmetic.com"), None, Some("Tu belleza, nuestra pasión"),
                         "Responsable de IVA", "Comercio al por menor de productos cosméticos", now, "1")
  }

  function DefaultImpuestos(now: int): ConfiguracionImpuestos {
    ConfiguracionImpuestos("1", 19.0, 19.0, 3.5, 15.0, 1.0, now, "1")
  }

  function DefaultFacturacion(now: int): ConfiguracionFacturacion {
    ConfiguracionFacturacion("1", "AEJ-", 1, 1, "Resolución 000123 de 2024", "2024-01-01",
                             1, 10000, "2025-12-31", now, "1")
  }

  function GetConfiguracionEmpresa(db: Db, now: int): ConfiguracionEmpresa {
    if |db.configEmpresa| == 0 then DefaultEmpresa(now) else db.configEmpresa[0]
  }

  function GetConfiguracionImpuestos(db: Db, now: int): ConfiguracionImpuestos {
    if |db.configImpuestos| == 0 then DefaultImpuestos(now) else db.configImpuestos[0]
  }

  function GetConfiguracionFacturacion(db: Db, now: int): ConfiguracionFacturacion {
    if |db.configFacturacion| == 0 then DefaultFacturacion(now) else db.configFacturacion[0]
  }

  /** Writes the first row of a singleton table, adding it when empty. */
  function PutFirst<T>(rows: seq<T>, x: T): (r: seq<T>)
    ensures |r| > 0 && r[0] == x
    ensures |r| == if |rows| == 0 then 1 else |rows|
    ensures forall j :: 0 < j < |rows| ==> r[j] == rows[j]
  {
    if |rows| == 0 then [x] else Replace(rows, 0, x)
  }

  /** `updateConfiguracionEmpresa`: merged over the current settings and
      stamped with the clock and the given user. */
  function UpdateConfiguracionEmpresa(db: Db, d: EmpresaPatch, userId: string, now: int): (r: (Db, ConfiguracionEmpresa))
    ensures r.1 == MergeEmpresa(GetConfiguracionEmpresa(db, now), d).(updatedAt := now, updatedBy := userId)
    ensures r.0 == db.(configEmpresa := PutFirst(db.configEmpresa, r.1))
  {
    var c := MergeEmpresa(GetConfiguracionEmpresa(db, now), d).(updatedAt := now, updatedBy := userId);
    (db.(configEmpresa := PutFirst(db.configEmpresa, c)), c)
  }

  function UpdateConfiguracionImpuestos(db: Db, d: ImpuestosPatch, userId: string, now: int): (r: (Db, ConfiguracionImpuestos))
    ensures r.1 == MergeImpuestos(GetConfiguracionImpuestos(db, now), d).(updatedAt := now, updatedBy := userId)
    ensures r.0 == db.(configImpuestos := PutFirst(db.configImpuestos, r.1))
  {
    var c := MergeImpuestos(GetConfiguracionImpuestos(db, now), d).(updatedAt := now, updatedBy := userId);
    (db.(configImpuestos := PutFirst(db.configImpuestos, c)), c)
  }

  /** `updateConfiguracionFacturacion`: takes no user and always records
      user "1" as the updater. */
  function UpdateConfiguracionFacturacion(db: Db, d: FacturacionPatch, now: int): (r: (Db, ConfiguracionFacturacion))
    ensures r.1 == MergeFacturacion(GetConfiguracionFacturacion(db, now), d).(updatedAt := now, updatedBy := "1")
    ensures r.0 == db.(configFacturacion := PutFirst(db.configFacturacion, r.1))
  {
    var c := MergeFacturacion(GetConfiguracionFacturacion(db, now), d).(updatedAt := now, updatedBy := "1");
    (db.(configFacturacion := PutFirst(db.configFacturacion, c)), c)
  }

  /** Reading a singleton back after writing it gives what was written,
      at any later time; no other table changes. */
  lemma ConfigurationRoundTrip(db: Db, de: EmpresaPatch, di: ImpuestosPatch, df: FacturacionPatch,
                               userId: string, now: int, later: int)
    ensures var (db', c) := UpdateConfiguracionEmpresa(db, de, userId, now);
            GetConfiguracionEmpresa(db', later) == c && c.updatedBy == userId && c.updatedAt == now
    ensures var (db', c) := UpdateConfiguracionImpuestos(db, di, userId, now);
            GetConfiguracionImpuestos(db', later) == c && c.updatedBy == userId && c.updatedAt == now
    ensures var (db', c) := UpdateConfiguracionFacturacion(db, df, now);
            GetConfiguracionFacturacion(db', later) == c && c.updatedBy == "1"
  {
  }

  // ---------------------------------------------------------------
  // Invoices
  // ---------------------------------------------------------------

  /** `${prefijo}${String(numero).padStart(6, '0')}`. */
  function NumeroFactura(prefijo: string, numero: nat): string {
    prefijo + ZeroPad(numero, 6)
  }

  lemma NumeroFacturaInjective(prefijo: string, m: nat, n: nat)
    requires NumeroFactura(prefijo, m) == NumeroFactura(prefijo, n)
    ensures m == n
  {
    assert NumeroFactura(prefijo, m)[|prefijo|..] == ZeroPad(m, 6);
    assert NumeroFactura(prefijo, n)[|prefijo|..] == ZeroPad(n, 6);
    ZeroPadInjective(m, n, 6);
  }

  /** `createFactura`: numbers the invoice from the current counter, stores
      it, then raises the counter by exactly one. */
  function CreateFactura(db: Db, data: Factura, id: string, now: int): (r: (Db, Factura))
    ensures var c := GetConfiguracionFacturacion(db, now);
            r.1 == data.(id := id, numeroFactura := NumeroFactura(c.prefijoFactura, c.numeroActual), createdAt := now) &&
            r.0.facturas == db.facturas + [r.1] &&
            GetConfiguracionFacturacion(r.0, now).numeroActual == c.numeroActual + 1 &&
            GetConfiguracionFacturacion(r.0, now).prefijoFactura == c.prefijoFactura
    ensures r.0 == db.(facturas := r.0.facturas, configFacturacion := r.0.configFacturacion)
  {
    var c := GetConfiguracionFacturacion(db, now);
    var f := data.(id := id, numeroFactura := NumeroFactura(c.prefijoFactura, c.numeroActual), createdAt := now);
    var db1 := db.(facturas := db.facturas + [f]);
    var (db2, _) := UpdateConfiguracionFacturacion(db1, FACTURACION_NO_CHANGE.(numeroActual := Some(c.numeroActual + 1)), now);
    (db2, f)
  }

  /** Back-to-back invoices get different numbers. */
  lemma ConsecutiveFacturasDistinct(db: Db, d1: Factura, id1: string, d2: Factura, id2: string, t1: int, t2: int)
    ensures var (db1, f1) := CreateFactura(db, d1, id1, t1);
            var (_, f2) := CreateFactura(db1, d2, id2, t2);
            f1.numeroFactura != f2.numeroFactura
  {
    var (db1, f1) := CreateFactura(db, d1, id1, t1);
    var (_, f2) := CreateFactura(db1, d2, id2, t2);
    var c := GetConfiguracionFacturacion(db, t1);
    assert GetConfiguracionFacturacion(db1, t2) == GetConfiguracionFacturacion(db1, t1);
    if f1.numeroFactura == f2.numeroFactura {
      NumeroFacturaInjective(c.prefijoFactura, c.numeroActual, c.numeroActual + 1);
    }
  }

  // ---------------------------------------------------------------
  // Dashboard metrics
  // ---------------------------------------------------------------

  datatype Metrics = Metrics(
    ventasHoyTotal: real,
    ventasHoyCantidad: nat,
    ventasHoyPromedio: real,
    totalProductos: nat,
    totalClientes: nat,
    productosStockBajo: nat,
    alertas: seq<Producto>)

  /** A sale the dashboard counts for day `hoy`. */
  predicate VentaDeHoy(v: Venta, hoy: int) {
    v.estado == EstadoVenta.PAGADA && v.deletedAt.None? && DayOf(v.createdAt) == hoy
  }

  predicate StockBajo(p: Producto) {
    p.activo && p.stockActual <= p.stockMinimo
  }

  predicate ProductoActivo(p: Producto) {
    p.activo
  }

  predicate ClienteActivo(c: Cliente) {
    c.activo
  }

  /** `getDashboardMetrics` at time `now`. */
  function DashboardMetrics(db: Db, now: int): (r: Metrics)
    ensures var hoy := Filter(db.ventas, (v: Venta) => VentaDeHoy(v, DayOf(now)));
            r.ventasHoyCantidad == |hoy| &&
            r.ventasHoyTotal == Sum(hoy, (v: Venta) => v.total) &&
            r.ventasHoyPromedio == (if |hoy| > 0 then r.ventasHoyTotal / |hoy| as real else 0.0)
    ensures forall i :: 0 <= i < |r.alertas| ==> r.alertas[i] in db.productos && StockBajo(r.alertas[i])
    ensures forall j :: 0 <= j < |db.productos| && StockBajo(db.productos[j]) ==> db.productos[j] in r.alertas
    ensures r.productosStockBajo == |r.alertas|
    ensures r.alertas == Filter(db.productos, StockBajo)
    ensures r.totalProductos == |Filter(db.productos, ProductoActivo)|
    ensures r.totalClientes == |Filter(db.clientes, ClienteActivo)|
  {
    var ventas := Filter(db.ventas, (v: Venta) => v.estado == EstadoVenta.PAGADA && v.deletedAt.None?);
    var productos := Filter(db.productos, ProductoActivo);
    var clientes := Filter(db.clientes, ClienteActivo);
    var hoy := Filter(ventas, (v: Venta) => DayOf(v.createdAt) == DayOf(now));
    var total := Sum(hoy, (v: Venta) => v.total);
    var bajo := Filter(productos, (p: Producto) => p.stockActual <= p.stockMinimo);
    FilterFilter(db.ventas, (v: Venta) => v.estado == EstadoVenta.PAGADA && v.deletedAt.None?,
                 (v: Venta) => DayOf(v.createdAt) == DayOf(now), (v: Venta) => VentaDeHoy(v, DayOf(now)));
    FilterFilter(db.productos, ProductoActivo, (p: Producto) => p.stockActual <= p.stockMinimo, StockBajo);
    FilterKeeps(db.productos, StockBajo);
    Metrics(total, |hoy|, if |hoy| > 0 then total / |hoy| as real else 0.0,
            |productos|, |clientes|, |bajo|, bajo)
  }
}

=== FILE: entities.dfy ===
/** The records of the store: catalogue, suppliers, products, clients,
    sales, invoices, stock movements and the three configuration
    singletons, with the `Partial<T>` patches merged into them by the
    update operations. Money is `real`, quantities are `int`, timestamps
    are milliseconds since the epoch (UTC); an optional field that is
    absent is `None`. */
module Entities {
  import opened Wrappers

  datatype Categoria = Categoria(id: string, nombre: string, descripcion: Option<string>, activo: bool, createdAt: int)

  datatype Marca = Marca(id: string, nombre: string, descripcion: Option<string>, activo: bool, createdAt: int)

  datatype Proveedor = Proveedor(
    id: string,
    nit: string,
    razonSocial: string,
    nombreComercial: Option<string>,
    contactoNombre: Option<string>,
    contactoEmail: Option<string>,
    contactoTelefono: Option<string>,
    direccion: Option<string>,
    ciudad: Option<string>,
    pais: Option<string>,
    sitioWeb: Option<string>,
    observaciones: Option<string>,
    activo: bool,
    createdAt: int)

  datatype Producto = Producto(
    id: string,
    sku: string,
    nombre: string,
    descripcion: Option<string>,
    categoriaId: string,
    marcaId: string,
    proveedorId: Option<string>,
    precioCompra: real,
    precioVenta: real,
    stockActual: int,
    stockMinimo: int,
    aplicaIva: bool,
    porcentajeIva: real,
    activo: bool,
    createdAt: int)

  datatype TipoDocumento = CC | NIT | CE | TI
  datatype Canal = WEB | FISICO | TELEFONO
  datatype Clasificacion = NUEVO | OCASIONAL | FRECUENTE | VIP

  datatype Cliente = Cliente(
    id: string,
    tipoDocumento: TipoDocumento,
    documento: string,
    nombre: string,
    apellido: Option<string>,
    razonSocial: Option<string>,
    email: Option<string>,
    telefono: Option<string>,
    direccion: Option<string>,
    ciudad: Option<string>,
    aceptacionTratamientoDatos: bool,
    fechaAceptacionDatos: Option<int>,
    canalAceptacion: Canal,
    clasificacion: Clasificacion,
    totalCompras: int,
    totalGastado: real,
    activo: bool,
    createdAt: int)

  datatype VentaItem = VentaItem(
    id: string,
    productoId: string,
    cantidad: int,
    precioUnitario: real,
    descuentoItem: real,
    subtotalItem: real,
    ivaItem: real,
    totalItem: real)

  datatype MetodoPago = EFECTIVO | TARJETA | TRANSFERENCIA | MIXTO
  datatype EstadoVenta = ABIERTA | PAGADA | ANULADA

  datatype Venta = Venta(
    id: string,
    numeroVenta: string,
    clienteId: Option<string>,
    usuarioId: string,
    fechaHora: int,
    items: seq<VentaItem>,
    subtotal: real,
    descuentoPorcentaje: real,
    descuentoValor: real,
    ivaValor: real,
    total: real,
    metodoPago: MetodoPago,
    valorRecibido: Option<real>,
    cambio: Option<real>,
    estado: EstadoVenta,
    notas: Option<string>,
    createdAt: int,
    deletedAt: Option<int>,
    deletedBy: Option<string>,
    deleteReason: Option<string>)

  datatype EstadoFactura = EMITIDA | PAGADA | ANULADA | VENCIDA

  datatype Factura = Factura(
    id: string,
    numeroFactura: string,
    ventaId: string,
    clienteId: Option<string>,
    fechaEmision: int,
    fechaVencimiento: int,
    subtotal: real,
    ivaValor: real,
    total: real,
    estado: EstadoFactura,
    observaciones: Option<string>,
    usuarioId: string,
    createdAt: int,
    anuladaAt: Option<int>,
    anuladaBy: Option<string>,
    anulacionMotivo: Option<string>)

  datatype TipoMovimiento = ENTRADA | SALIDA | AJUSTE

  /** A stock movement (its generated id is not modelled). */
  datatype Movimiento = Movimiento(
    productoId: string,
    tipo: TipoMovimiento,
    cantidad: int,
    stockAnterior: int,
    stockNuevo: int,
    motivo: string,
    observaciones: Option<string>,
    usuarioId: string,
    createdAt: int)

  datatype ConfiguracionEmpresa = ConfiguracionEmpresa(
    id: string,
    razonSocial: string,
    nit: string,
    direccion: string,
    ciudad: string,
    telefono: string,
    email: string,
    sitioWeb: Option<string>,
    logoUrl: Option<string>,
    eslogan: Option<string>,
    regimenTributario: string,
    actividadEconomica: string,
    updatedAt: int,
    updatedBy: string)

  datatype ConfiguracionImpuestos = ConfiguracionImpuestos(
    id: string,
    ivaGeneral: real,
    ivaProductos: real,
    retencionFuente: real,
    retencionIva: real,
    retencionIca: real,
    updatedAt: int,
    updatedBy: string)

  /** The invoicing configuration; `numeroActual` is the next invoice
      number. */
  datatype ConfiguracionFacturacion = ConfiguracionFacturacion(
    id: string,
    prefijoFactura: string,
    numeroInicial: int,
    numeroActual: nat,
    resolucionDian: string,
    fechaResolucion: string,
    rangoInicial: int,
    rangoFinal: int,
    fechaVencimiento: string,
    updatedAt: int,
    updatedBy: string)

  // ---------------------------------------------------------------
  // Patches (`Partial<T>`): `None` keeps a field; for an optional field
  // `Some(None)` clears it, as spreading `undefined` does.
  // ---------------------------------------------------------------

  datatype ProveedorPatch = ProveedorPatch(
    nit: Option<string>,
    razonSocial: Option<string>,
    nombreComercial: Option<Option<string>>,
    contactoNombre: Option<Option<string>>,
    contactoEmail: Option<Option<string>>,
    contactoTelefono: Option<Option<string>>,
    direccion: Option<Option<string>>,
    ciudad: Option<Option<string>>,
    pais: Option<Option<string>>,
    sitioWeb: Option<Option<string>>,
    observaciones: Option<Option<string>>,
    activo: Option<bool>)

  const PROVEEDOR_NO_CHANGE := ProveedorPatch(None, None, None, None, None, None, None, None, None, None, None, None)

  function MergeProveedor(p: Proveedor, d: ProveedorPatch): (r: Proveedor)
    ensures r.id == p.id && r.createdAt == p.createdAt
  {
    Proveedor(p.id, d.nit.GetOr(p.nit), d.razonSocial.GetOr(p.razonSocial),
              d.nombreComercial.GetOr(p.nombreComercial), d.contactoNombre.GetOr(p.contactoNombre),
              d.contactoEmail.GetOr(p.contactoEmail), d.contactoTelefono.GetOr(p.contactoTelefono),
              d.direccion.GetOr(p.direccion), d.ciudad.GetOr(p.ciudad), d.pais.GetOr(p.pais),
              d.sitioWeb.GetOr(p.sitioWeb), d.observaciones.GetOr(p.observaciones),
              d.activo.GetOr(p.activo), p.createdAt)
  }

  datatype ProductoPatch = ProductoPatch(
    sku: Option<string>,
    nombre: Option<string>,
    descripcion: Option<Option<string>>,
    categoriaId: Option<string>,
    marcaId: Option<string>,
    proveedorId: Option<Option<string>>,
    precioCompra: Option<real>,
    precioVenta: Option<real>,
    stockActual: Option<int>,
    stockMinimo: Option<int>,
    aplicaIva: Option<bool>,
    porcentajeIva: Option<real>,
    activo: Option<bool>)

  const PRODUCTO_NO_CHANGE := ProductoPatch(None, None, None, None, None, None, None, None, None, None, None, None, None)

  function MergeProducto(p: Producto, d: ProductoPatch): (r: Producto)
    ensures r.id == p.id && r.createdAt == p.createdAt
  {
    Producto(p.id, d.sku.GetOr(p.sku), d.nombre.GetOr(p.nombre), d.descripcion.GetOr(p.descripcion),
             d.categoriaId.GetOr(p.categoriaId), d.marcaId.GetOr(p.marcaId),
             d.proveedorId.GetOr(p.proveedorId), d.precioCompra.GetOr(p.precioCompra),
             d.precioVenta.GetOr(p.precioVenta), d.stockActual.GetOr(p.stockActual),
             d.stockMinimo.GetOr(p.stockMinimo), d.aplicaIva.GetOr(p.aplicaIva),
             d.porcentajeIva.GetOr(p.porcentajeIva), d.activo.GetOr(p.activo), p.createdAt)
  }

  datatype ClientePatch = ClientePatch(
    tipoDocumento: Option<TipoDocumento>,
    documento: Option<string>,
    nombre: Option<string>,
    apellido: Option<Option<string>>,
    razonSocial: Option<Option<string>>,
    email: Option<Option<string>>,
    telefono: Option<Option<string>>,
    direccion: Option<Option<string>>,
    ciudad: Option<Option<string>>,
    aceptacionTratamientoDatos: Option<bool>,
    fechaAceptacionDatos: Option<Option<int>>,
    canalAceptacion: Option<Canal>,
    clasificacion: Option<Clasificacion>,
    totalCompras: Option<int>,
    totalGastado: Option<real>,
    activo: Option<bool>)

  const CLIENTE_NO_CHANGE := ClientePatch(None, None, None, None, None, None, None, None, None, None, None, None, None, None, None, None)

  function MergeCliente(c: Cliente, d: ClientePatch): (r: Cliente)
    ensures r.id == c.id && r.createdAt == c.createdAt
  {
    Cliente(c.id, d.tipoDocumento.GetOr(c.tipoDocumento), d.documento.GetOr(c.documento),
            d.nombre.GetOr(c.nombre), d.apellido.GetOr(c.apellido), d.razonSocial.GetOr(c.razonSocial),
            d.email.GetOr(c.email), d.telefono.GetOr(c.telefono), d.direccion.GetOr(c.direccion),
            d.ciudad.GetOr(c.ciudad), d.aceptacionTratamientoDatos.GetOr(c.aceptacionTratamientoDatos),
            d.fechaAceptacionDatos.GetOr(c.fechaAceptacionDatos), d.canalAceptacion.GetOr(c.canalAceptacion),
            d.clasificacion.GetOr(c.clasificacion), d.totalCompras.GetOr(c.totalCompras),
            d.totalGastado.GetOr(c.totalGastado), d.activo.GetOr(c.activo), c.createdAt)
  }

  datatype FacturaPatch = FacturaPatch(
    numeroFactura: Option<string>,
    ventaId: Option<string>,
    clienteId: Option<Option<string>>,
    fechaEmision: Option<int>,
    fechaVencimiento: Option<int>,
    subtotal: Option<real>,
    ivaValor: Option<real>,
    total: Option<real>,
    estado: Option<EstadoFactura>,
    observaciones: Option<Option<string>>,
    usuarioId: Option<string>,
    anuladaAt: Option<Option<int>>,
    anuladaBy: Option<Option<string>>,
    anulacionMotivo: Option<Option<string>>)

  const FACTURA_NO_CHANGE := FacturaPatch(None, None, None, None, None, None, None, None, None, None, None, None, None, None)

  function MergeFactura(f: Factura, d: FacturaPatch): (r: Factura)
    ensures r.id == f.id && r.createdAt == f.createdAt
  {
    Factura(f.id, d.numeroFactura.GetOr(f.numeroFactura), d.ventaId.GetOr(f.ventaId),
            d.clienteId.GetOr(f.clienteId), d.fechaEmision.GetOr(f.fechaEmision),
            d.fechaVencimiento.GetOr(f.fechaVencimiento), d.subtotal.GetOr(f.subtotal),
            d.ivaValor.GetOr(f.ivaValor), d.total.GetOr(f.total), d.estado.GetOr(f.estado),
            d.observaciones.GetOr(f.observaciones), d.usuarioId.GetOr(f.usuarioId), f.createdAt,
            d.anuladaAt.GetOr(f.anuladaAt), d.anuladaBy.GetOr(f.anuladaBy),
            d.anulacionMotivo.GetOr(f.anulacionMotivo))
  }

  /** The configuration patches leave out `id` and the `updated_*` stamps,
      which the update operations write themselves. */
  datatype EmpresaPatch = EmpresaPatch(
    razonSocial: Option<string>,
    nit: Option<string>,
    direccion: Option<string>,
    ciudad: Option<string>,
    telefono: Option<string>,
    email: Option<string>,
    sitioWeb: Option<Option<string>>,
    logoUrl: Option<Option<string>>,
    eslogan: Option<Option<string>>,
    regimenTributario: Option<string>,
    actividadEconomica: Option<string>)

  function MergeEmpresa(c: ConfiguracionEmpresa, d: EmpresaPatch): (r: ConfiguracionEmpresa)
    ensures r.id == c.id && r.updatedAt == c.updatedAt && r.updatedBy == c.updatedBy
  {
    ConfiguracionEmpresa(c.id, d.razonSocial.GetOr(c.razonSocial), d.nit.GetOr(c.nit),
                         d.direccion.GetOr(c.direccion), d.ciudad.GetOr(c.ciudad),
                         d.telefono.GetOr(c.telefono), d.email.GetOr(c.email),
                         d.sitioWeb.GetOr(c.sitioWeb), d.logoUrl.GetOr(c.logoUrl),
                         d.eslogan.GetOr(c.eslogan), d.regimenTributario.GetOr(c.regimenTributario),
                         d.actividadEconomica.GetOr(c.actividadEconomica), c.updatedAt, c.updatedBy)
  }

  datatype ImpuestosPatch = ImpuestosPatch(
    ivaGeneral: Option<real>,
    ivaProductos: Option<real>,
    retencionFuente: Option<real>,
    retencionIva: Option<real>,
    retencionIca: Option<real>)

  function MergeImpuestos(c: ConfiguracionImpuestos, d: ImpuestosPatch): (r: ConfiguracionImpuestos)
    ensures r.id == c.id && r.updatedAt == c.updatedAt && r.updatedBy == c.updatedBy
  {
    ConfiguracionImpuestos(c.id, d.ivaGeneral.GetOr(c.ivaGeneral), d.ivaProductos.GetOr(c.ivaProductos),
                           d.retencionFuente.GetOr(c.retencionFuente), d.retencionIva.GetOr(c.retencionIva),
                           d.retencionIca.GetOr(c.retencionIca), c.updatedAt, c.updatedBy)
  }

  datatype FacturacionPatch = FacturacionPatch(
    prefijoFactura: Option<string>,
    numeroInicial: Option<int>,
    numeroActual: Option<nat>,
    resolucionDian: Option<string>,
    fechaResolucion: Option<string>,
    rangoInicial: Option<int>,
    rangoFinal: Option<int>,
    fechaVencimiento: Option<string>)

  const FACTURACION_NO_CHANGE := FacturacionPatch(None, None, None, None, None, None, None, None)

  function MergeFacturacion(c: ConfiguracionFacturacion, d: FacturacionPatch): (r: ConfiguracionFacturacion)
    ensures r.id == c.id && r.updatedAt == c.updatedAt && r.updatedBy == c.updatedBy
  {
    ConfiguracionFacturacion(c.id, d.prefijoFactura.GetOr(c.prefijoFactura),
                             d.numeroInicial.GetOr(c.numeroInicial), d.numeroActual.GetOr(c.numeroActual),
                             d.resolucionDian.GetOr(c.resolucionDian), d.fechaResolucion.GetOr(c.fechaResolucion),
                             d.rangoInicial.GetOr(c.rangoInicial), d.rangoFinal.GetOr(c.rangoFinal),
                             d.fechaVencimiento.GetOr(c.fechaVencimiento), c.updatedAt, c.updatedBy)
  }

  /** The empty patch is the identity, and a patch applied twice acts as
      once. One lemma per entity the store merges into. */
  lemma MergeProveedorLaws(p: Proveedor, dp: ProveedorPatch)
    ensures MergeProveedor(p, PROVEEDOR_NO_CHANGE) == p
    ensures MergeProveedor(MergeProveedor(p, dp), dp) == MergeProveedor(p, dp)
  {
  }

  lemma MergeProductoLaws(q: Producto, dq: ProductoPatch)
    ensures MergeProducto(q, PRODUCTO_NO_CHANGE) == q
    ensures MergeProducto(MergeProducto(q, dq), dq) == MergeProducto(q, dq)
  {
  }

  lemma MergeClienteLaws(c: Cliente, dc: ClientePatch)
    ensures MergeCliente(c, CLIENTE_NO_CHANGE) == c
    ensures MergeCliente(MergeCliente(c, dc), dc) == MergeCliente(c, dc)
  {
  }

  lemma MergeFacturaLaws(f: Factura, df: FacturaPatch)
    ensures MergeFactura(f, FACTURA_NO_CHANGE) == f
    ensures MergeFactura(MergeFactura(f, df), df) == MergeFactura(f, df)
  {
  }

  /** `calcularClasificacionCliente`. */
  function Clasificar(totalCompras: int, totalGastado: real): Clasificacion {
    if totalCompras >= 20 && totalGastado >= 2000000.0 then VIP
    else if totalCompras >= 10 && totalGastado >= 1000000.0 then FRECUENTE
    else if totalCompras >= 3 then OCASIONAL
    else NUEVO
  }

  /** The tiers in order. */
  function Rank(c: Clasificacion): nat {
    match c
    case NUEVO => 0
    case OCASIONAL => 1
    case FRECUENTE => 2
    case VIP => 3
  }

  /** Each tier's thresholds, and monotonicity: more purchases or more
      spend never lowers the tier. */
  lemma ClasificarSpec(n: int, g: real, n2: int, g2: real)
    ensures Clasificar(n, g) == VIP <==> n >= 20 && g >= 2000000.0
    ensures Clasificar(n, g) == FRECUENTE <==> !(n >= 20 && g >= 2000000.0) && n >= 10 && g >= 1000000.0
    ensures Clasificar(n, g) == OCASIONAL <==> !(n >= 10 && g >= 1000000.0) && n >= 3
    ensures Clasificar(n, g) == NUEVO <==> n < 3
    ensures n <= n2 && g <= g2 ==> Rank(Clasificar(n, g)) <= Rank(Clasificar(n2, g2))
  {
  }
}

=== FILE: grouping.dfy ===
/** Grouping a sequence by a key, as the reports do with an object keyed
    by date or id: the distinct keys, the members of one group, and the
    fact that summing group by group over all the keys gives the sum over
    the whole sequence. */
module Grouping {
  import opened Seqs

  predicate Distinct<K(==)>(ks: seq<K>) {
    forall i, j :: 0 <= i < j < |ks| ==> ks[i] != ks[j]
  }

  lemma DistinctTail<K>(ks: seq<K>)
    requires |ks| > 0 && Distinct(ks)
    ensures Distinct(ks[1..])
  {
    forall i, j | 0 <= i < j < |ks| - 1 ensures ks[1..][i] != ks[1..][j] {
      assert ks[1..][i] == ks[i + 1] && ks[1..][j] == ks[j + 1];
    }
  }

  /** The first key of a distinct sequence is none of the later ones. */
  lemma DistinctHead<K>(ks: seq<K>, k: K)
    requires |ks| > 0 && Distinct(ks) && k in ks[1..]
    ensures k != ks[0]
  {
    var m :| 0 <= m < |ks[1..]| && ks[1..][m] == k;
    assert ks[m + 1] == k;
  }

  /** The elements whose key is `k`, in order. */
  function Members<T, K(==)>(xs: seq<T>, key: T -> K, k: K): (r: seq<T>)
    ensures forall i :: 0 <= i < |r| ==> r[i] in xs && key(r[i]) == k
    ensures forall j :: 0 <= j < |xs| && key(xs[j]) == k ==> xs[j] in r
  {
    var de := (x: T) => key(x) == k;
    FilterKeeps(xs, de);
    Filter(xs, de)
  }

  /** The keys that occur, each once. */
  function Keys<T, K(==)>(xs: seq<T>, key: T -> K): (r: seq<K>)
    ensures Distinct(r)
    ensures forall i :: 0 <= i < |xs| ==> key(xs[i]) in r
    ensures forall j :: 0 <= j < |r| ==> exists i :: 0 <= i < |xs| && key(xs[i]) == r[j]
  {
    if |xs| == 0 then []
    else
      var ks := Keys(xs[1..], key);
      assert forall i :: 1 <= i < |xs| ==> key(xs[i]) in ks by {
        forall i | 1 <= i < |xs| ensures key(xs[i]) in ks {
          assert xs[i] == xs[1..][i - 1];
        }
      }
      assert forall j :: 0 <= j < |ks| ==> exists i :: 0 <= i < |xs| && key(xs[i]) == ks[j] by {
        forall j | 0 <= j < |ks| ensures exists i :: 0 <= i < |xs| && key(xs[i]) == ks[j] {
          var i :| 0 <= i < |xs[1..]| && key(xs[1..][i]) == ks[j];
          assert key(xs[i + 1]) == ks[j];
        }
      }
      if key(xs[0]) in ks then ks else [key(xs[0])] + ks
  }

  /** The group totals of `f`, added up over the keys `ks`. */
  function GroupSum<T, K(==)>(xs: seq<T>, key: T -> K, ks: seq<K>, f: T -> real): real {
    if |ks| == 0 then 0.0 else Sum(Members(xs, key, ks[0]), f) + GroupSum(xs, key, ks[1..], f)
  }

  /** The group sizes, added up over the keys `ks`. */
  function GroupCount<T, K(==)>(xs: seq<T>, key: T -> K, ks: seq<K>): int {
    if |ks| == 0 then 0 else |Members(xs, key, ks[0])| + GroupCount(xs, key, ks[1..])
  }

  /** A group is built in input order, keeping repeats: the group of
      `[x] + xs` is `x` in front of the group of `xs` when `x` has the key,
      and the group of `xs` otherwise. */
  lemma MembersCons<T, K>(x: T, xs: seq<T>, key: T -> K, k: K)
    ensures Members([x] + xs, key, k) == if key(x) == k then [x] + Members(xs, key, k) else Members(xs, key, k)
  {
    assert ([x] + xs)[1..] == xs;
  }

  /** One more element adds its term to the group of its key, if that key
      is among `ks`. */
  lemma {:induction false} GroupSumCons<T, K>(x: T, xs: seq<T>, key: T -> K, ks: seq<K>, f: T -> real)
    requires Distinct(ks)
    ensures GroupSum([x] + xs, key, ks, f) == GroupSum(xs, key, ks, f) + (if key(x) in ks then f(x) else 0.0)
    ensures GroupCount([x] + xs, key, ks) == GroupCount(xs, key, ks) + (if key(x) in ks then 1 else 0)
  {
    if |ks| > 0 {
      MembersCons(x, xs, key, ks[0]);
      assert Distinct(ks[1..]);
      GroupSumCons(x, xs, key, ks[1..], f);
      assert key(x) in ks <==> key(x) == ks[0] || key(x) in ks[1..] by {
        assert ks == [ks[0]] + ks[1..];
      }
      if key(x) == ks[0] {
        assert key(x) !in ks[1..];
        assert ([x] + Members(xs, key, ks[0]))[1..] == Members(xs, key, ks[0]);
      }
    }
  }

  /** When every key occurs in `ks` exactly once, the group totals add up
      to the total and the group sizes to the length. */
  lemma {:induction false} GroupPartition<T, K>(xs: seq<T>, key: T -> K, ks: seq<K>, f: T -> real)
    requires Distinct(ks)
    requires forall i :: 0 <= i < |xs| ==> key(xs[i]) in ks
    ensures GroupSum(xs, key, ks, f) == Sum(xs, f)
    ensures GroupCount(xs, key, ks) == |xs|
  {
    if |xs| == 0 {
      GroupEmpty(key, ks, f);
    } else {
      assert xs == [xs[0]] + xs[1..];
      GroupPartition(xs[1..], key, ks, f);
      GroupSumCons(xs[0], xs[1..], key, ks, f);
    }
  }

  lemma {:induction false} GroupEmpty<T, K>(key: T -> K, ks: seq<K>, f: T -> real)
    ensures GroupSum([], key, ks, f) == 0.0 && GroupCount([], key, ks) == 0
  {
    if |ks| > 0 {
      GroupEmpty(key, ks[1..], f);
    }
  }
}

=== FILE: inventory.dfy ===
/** The inventory page: manual stock adjustments (ENTRADA, SALIDA, AJUSTE)
    gated by `inventario.write`, the stock status badge, the alert list,
    the stock valuation, the per-product kardex and the product filter. */
module Inventory {
  import opened Wrappers
  import opened Seqs
  import opened Text
  import opened Entities
  import opened Database
  import opened Auth
  import Sorting

  /** The adjustment form. */
  datatype Ajuste = Ajuste(productoId: string, tipo: TipoMovimiento, cantidad: int, motivo: string,
                           observaciones: string)

  /** The stock an adjustment leads to, or `None` for a SALIDA larger than
      the stock. */
  function NuevoStock(anterior: int, tipo: TipoMovimiento, cantidad: int): (r: Option<int>)
    ensures tipo == ENTRADA ==> r == Some(anterior + cantidad)
    ensures tipo == SALIDA ==> (r.None? <==> cantidad > anterior) && (r.Some? ==> r.value == anterior - cantidad)
    ensures tipo == AJUSTE ==> r == Some(cantidad)
  {
    match tipo
    case ENTRADA => Some(anterior + cantidad)
    case SALIDA => if anterior - cantidad < 0 then None else Some(anterior - cantidad)
    case AJUSTE => Some(cantidad)
  }

  const SIN_PERMISO := "No tienes permisos para realizar ajustes de inventario"
  const FORMULARIO_INVALIDO := "Selecciona un producto y cantidad válida"
  const SALIDA_EXCESIVA := "No se puede realizar salida mayor al stock disponible"

  /** `handleAjusteSubmit`: permission, then the form, then the product
      (an unknown one is ignored without an alert), then the stock rule;
      on success the product's stock is written and one movement recorded. */
  function HandleAjusteSubmit(db: Db, user: User, f: Ajuste, now: int): (r: Outcome<Db>)
    ensures !HasPermission(user, "inventario.write") ==> r == Outcome(db, Some(SIN_PERMISO))
    ensures HasPermission(user, "inventario.write") && (f.productoId == "" || f.cantidad <= 0) ==>
              r == Outcome(db, Some(FORMULARIO_INVALIDO))
    ensures r.error.Some? ==> r.state == db
    ensures (forall j :: 0 <= j < |db.productos| ==> db.productos[j].id != f.productoId) ==> r.state == db
    ensures r.state != db ==> r.error.None?
    ensures forall i :: IsFirst(db.productos, ProductoIdIs(f.productoId), i) &&
                        HasPermission(user, "inventario.write") && f.productoId != "" && f.cantidad > 0 ==>
              var p := db.productos[i];
              match NuevoStock(p.stockActual, f.tipo, f.cantidad)
              case None => r == Outcome(db, Some(SALIDA_EXCESIVA))
              case Some(n) =>
                r.error.None? &&
                r.state == db.(productos := r.state.productos, movimientos := r.state.movimientos) &&
                |r.state.productos| == |db.productos| &&
                r.state.productos[i] == p.(stockActual := n) &&
                (forall j :: 0 <= j < |db.productos| && j != i ==> r.state.productos[j] == db.productos[j]) &&
                r.state.movimientos == db.movimientos +
                  [Movimiento(f.productoId, f.tipo, f.cantidad, p.stockActual, n, f.motivo,
                              Some(f.observaciones), user.id, now)]
  {
    if !HasPermission(user, "inventario.write") then Outcome(db, Some(SIN_PERMISO))
    else if f.productoId == "" || f.cantidad <= 0 then Outcome(db, Some(FORMULARIO_INVALIDO))
    else match FindIndex(db.productos, ProductoIdIs(f.productoId))
      case None => Outcome(db, None)
      case Some(i) =>
        var p := db.productos[i];
        match NuevoStock(p.stockActual, f.tipo, f.cantidad)
        case None => Outcome(db, Some(SALIDA_EXCESIVA))
        case Some(n) =>
          var (db1, _) := UpdateProducto(db, p.id, PRODUCTO_NO_CHANGE.(stockActual := Some(n)));
          var (db2, _) := CreateMovimiento(db1, Movimiento(f.productoId, f.tipo, f.cantidad, p.stockActual, n,
                                                           f.motivo, Some(f.observaciones), user.id, 0), now);
          Outcome(db2, None)
  }

  /** What an accepted adjustment can do to stock: a SALIDA never goes
      below zero, an AJUSTE never sets zero or less, and an ENTRADA always
      raises it; so this path never takes a product below zero. */
  lemma AdjustmentBounds(anterior: int, tipo: TipoMovimiento, cantidad: int)
    requires cantidad > 0
    ensures var r := NuevoStock(anterior, tipo, cantidad);
            r.Some? ==>
              (tipo == SALIDA ==> 0 <= r.value < anterior) &&
              (tipo == AJUSTE ==> r.value > 0) &&
              (tipo == ENTRADA ==> r.value > anterior) &&
              (anterior >= 0 ==> r.value >= 0)
  {
  }

  /** The adjustment of a product holding non-negative stock leaves it
      non-negative, and an AJUSTE leaves it positive. */
  lemma AjusteKeepsStockNonNegative(db: Db, user: User, f: Ajuste, now: int, i: nat)
    requires IsFirst(db.productos, ProductoIdIs(f.productoId), i) && db.productos[i].stockActual >= 0
    ensures var r := HandleAjusteSubmit(db, user, f, now);
            |r.state.productos| == |db.productos| && r.state.productos[i].stockActual >= 0 &&
            (r.state != db && f.tipo == AJUSTE ==> r.state.productos[i].stockActual > 0)
  {
    var r := HandleAjusteSubmit(db, user, f, now);
    if HasPermission(user, "inventario.write") && f.productoId != "" && f.cantidad > 0 {
      AdjustmentBounds(db.productos[i].stockActual, f.tipo, f.cantidad);
    }
  }

  // ---------------------------------------------------------------
  // Status, alerts, valuation
  // ---------------------------------------------------------------

  datatype EstadoStock = AGOTADO | BAJO | OK

  /** `getStockStatus`: zero first, then at or below the minimum. */
  function GetStockStatus(p: Producto): EstadoStock {
    if p.stockActual == 0 then AGOTADO
    else if p.stockActual <= p.stockMinimo then BAJO
    else OK
  }

  /** The badge text of the inventory page. */
  function StockLabel(e: EstadoStock): string {
    match e
    case AGOTADO => "Agotado"
    case BAJO => "Stock Bajo"
    case OK => "Stock OK"
  }

  /** The three statuses split the stock line: an empty product is never
      reported low, and an oversold (negative) product reads as low while
      its minimum is not negative. */
  lemma StockStatusSpec(p: Producto)
    ensures GetStockStatus(p) == AGOTADO <==> p.stockActual == 0
    ensures GetStockStatus(p) == BAJO <==> p.stockActual != 0 && p.stockActual <= p.stockMinimo
    ensures GetStockStatus(p) == OK <==> p.stockActual != 0 && p.stockActual > p.stockMinimo
    ensures p.stockActual < 0 && p.stockMinimo >= 0 ==> GetStockStatus(p) == BAJO
  {
  }

  predicate EnAlerta(p: Producto) {
    p.activo && (p.stockActual == 0 || p.stockActual <= p.stockMinimo)
  }

  /** `getProductosConAlertas`. */
  function ProductosConAlertas(ps: seq<Producto>): (r: seq<Producto>)
    ensures forall i :: 0 <= i < |r| ==> r[i] in ps && r[i].activo && GetStockStatus(r[i]) != OK
    ensures forall j :: 0 <= j < |ps| && ps[j].activo && GetStockStatus(ps[j]) != OK ==> ps[j] in r
  {
    FilterKeeps(ps, EnAlerta);
    Filter(ps, EnAlerta)
  }

  /** With non-negative minimums the page's alerts are the dashboard's. */
  lemma AlertsAgreeWithDashboard(db: Db, now: int)
    requires forall j :: 0 <= j < |db.productos| ==> db.productos[j].stockMinimo >= 0
    ensures ProductosConAlertas(db.productos) == DashboardMetrics(db, now).alertas
  {
    var ps := db.productos;
    FilterFilter(ps, (p: Producto) => p.activo, (p: Producto) => p.stockActual <= p.stockMinimo, StockBajo);
    FilterAgree(ps, EnAlerta, StockBajo);
  }

  lemma {:induction false} FilterAgree(ps: seq<Producto>, f: Producto -> bool, g: Producto -> bool)
    requires forall j :: 0 <= j < |ps| ==> f(ps[j]) == g(ps[j])
    ensures Filter(ps, f) == Filter(ps, g)
  {
    if |ps| > 0 {
      FilterAgree(ps[1..], f, g);
    }
  }

  predicate Activo(p: Producto) { p.activo }

  function StockValue(p: Producto): real { p.stockActual as real * p.precioCompra }

  /** A product's share of the valuation: nothing when inactive. */
  function ValorDe(p: Producto): real {
    if p.activo then StockValue(p) else 0.0
  }

  /** `calcularValorInventario`: stock at purchase price over the active
      products. */
  function ValorInventario(ps: seq<Producto>): real {
    Sum(Filter(ps, Activo), StockValue)
  }

  lemma {:induction false} ValorAsSum(ps: seq<Producto>)
    ensures ValorInventario(ps) == Sum(ps, ValorDe)
  {
    if |ps| > 0 {
      ValorAsSum(ps[1..]);
    }
  }

  lemma {:induction false} SumNonNegative(ps: seq<Producto>)
    requires forall j :: 0 <= j < |ps| ==> ps[j].stockActual >= 0 && ps[j].precioCompra >= 0.0
    ensures Sum(ps, ValorDe) >= 0.0
  {
    if |ps| > 0 {
      SumNonNegative(ps[1..]);
    }
  }

  /** The valuation adds up product by product, only active products
      count, and it is never negative while stocks and prices are not. */
  lemma ValorInventarioSpec(ps: seq<Producto>, qs: seq<Producto>)
    ensures ValorInventario(ps + qs) == ValorInventario(ps) + ValorInventario(qs)
    ensures |ps| > 0 ==> ValorInventario(ps) == ValorDe(ps[0]) + ValorInventario(ps[1..])
    ensures (forall j :: 0 <= j < |ps| ==> ps[j].stockActual >= 0 && ps[j].precioCompra >= 0.0) ==>
              ValorInventario(ps) >= 0.0
  {
    ValorAsSum(ps);
    ValorAsSum(qs);
    ValorAsSum(ps + qs);
    SumAppend(ps, qs, ValorDe);
    if |ps| > 0 {
      ValorAsSum(ps[1..]);
    }
    if forall j :: 0 <= j < |ps| ==> ps[j].stockActual >= 0 && ps[j].precioCompra >= 0.0 {
      SumNonNegative(ps);
    }
  }

  // ---------------------------------------------------------------
  // Kardex and listing
  // ---------------------------------------------------------------

  function CreatedAt(m: Movimiento): real { m.createdAt as real }

  /** `getMovimientosProducto`: the product's movements, newest first. */
  function Kardex(ms: seq<Movimiento>, productoId: string): (r: seq<Movimiento>)
    ensures Sorting.SortedDesc(r, CreatedAt)
    ensures multiset(r) == multiset(Filter(ms, (m: Movimiento) => m.productoId == productoId))
  {
    Sorting.SortDesc(Filter(ms, (m: Movimiento) => m.productoId == productoId), CreatedAt)
  }

  /** The kardex lists exactly the product's movements. */
  lemma KardexMembers(ms: seq<Movimiento>, productoId: string, m: Movimiento)
    ensures m in Kardex(ms, productoId) <==> m in ms && m.productoId == productoId
  {
    var f := Filter(ms, (x: Movimiento) => x.productoId == productoId);
    Sorting.SortDescMembers(f, CreatedAt, m);
    if m in ms && m.productoId == productoId {
      FilterKeeps(ms, (x: Movimiento) => x.productoId == productoId);
      var j :| 0 <= j < |ms| && ms[j] == m;
    }
  }

  predicate Listed(p: Producto, q: string) {
    p.activo && (q == "" || Contains(Lower(p.nombre), Lower(q)) || Contains(Lower(p.sku), Lower(q)))
  }

  /** `filterProducts`: the active products, narrowed by name or SKU. */
  function FilterProducts(ps: seq<Producto>, q: string): (r: seq<Producto>)
    ensures forall i :: 0 <= i < |r| ==> r[i] in ps && Listed(r[i], q)
    ensures forall j :: 0 <= j < |ps| && Listed(ps[j], q) ==> ps[j] in r
  {
    var activo := (p: Producto) => p.activo;
    FilterKeeps(ps, activo);
    var activos := Filter(ps, activo);
    if q == "" then activos
    else
      var m := (p: Producto) => Contains(Lower(p.nombre), Lower(q)) || Contains(Lower(p.sku), Lower(q));
      FilterKeeps(activos, m);
      Filter(activos, m)
  }
}

=== FILE: invoice_processor.dfy ===
/** The backend purchase-invoice processor: it finds or creates the
    supplier by NIT, records the invoice, and for each line finds or
    creates the product, records the invoice item and takes the quantity
    into stock with an ENTRADA movement. The database session is an
    immutable store; record ids are table position plus one. */
module InvoiceProcessor {
  import opened Wrappers
  import opened Seqs
  import opened Text

  datatype MovementType = ENTRADA | SALIDA | AJUSTE

  datatype ProductCategory = MAQUILLAJE | CUIDADO_PIEL | FRAGANCIAS | ACCESORIOS

  /** The only status the processor writes. */
  datatype PurchaseInvoiceStatus = PROCESADA

  datatype Supplier = Supplier(
    id: nat,
    nit: string,
    razonSocial: string,
    nombreComercial: string,
    email: Option<string>,
    telefono: Option<string>,
    direccion: Option<string>,
    ciudad: Option<string>,
    isActive: bool)

  datatype Product = Product(
    id: nat,
    codigo: string,
    nombre: string,
    descripcion: string,
    categoria: ProductCategory,
    precioCompra: real,
    precioVenta: real,
    stockActual: int,
    stockMinimo: int,
    isActive: bool)

  datatype Movement = Movement(
    productId: nat,
    userId: nat,
    tipo: MovementType,
    cantidad: int,
    stockAnterior: int,
    stockNuevo: int,
    motivo: string,
    referencia: string)

  datatype PurchaseInvoice = PurchaseInvoice(
    id: nat,
    numeroFactura: string,
    supplierId: nat,
    fechaEmision: int,
    cufe: Option<string>,
    fechaAceptacion: Option<int>,
    firmaDigital: Option<string>,
    subtotal: real,
    iva: real,
    total: real,
    archivoPdf: Option<string>,
    status: PurchaseInvoiceStatus)

  datatype PurchaseInvoiceItem = PurchaseInvoiceItem(
    purchaseInvoiceId: nat,
    productId: nat,
    cantidad: int,
    precioUnitario: real,
    subtotal: real)

  datatype Store = Store(
    suppliers: seq<Supplier>,
    products: seq<Product>,
    invoices: seq<PurchaseInvoice>,
    items: seq<PurchaseInvoiceItem>,
    movements: seq<Movement>)

  /** The `proveedor` part of the request; `None` is a missing key. */
  datatype SupplierData = SupplierData(
    nit: string,
    razonSocial: Option<string>,
    email: Option<string>,
    telefono: Option<string>,
    direccion: Option<string>,
    ciudad: Option<string>)

  /** One entry of `productos`. */
  datatype ProductData = ProductData(referencia: string, nombre: string, cantidad: int, precioUnitario: real,
                                     total: real)

  /** The `factura` part; the dates arrive already parsed (see
      `ProcessInvoice`). */
  datatype FacturaData = FacturaData(numero: string, cufe: Option<string>, firmaDigital: Option<string>)

  datatype InvoiceData = InvoiceData(proveedor: SupplierData, factura: FacturaData, productos: seq<ProductData>,
                                     subtotal: real, iva: real, total: real)

  datatype HttpError = HttpError(statusCode: nat, detail: string)

  // ---------------------------------------------------------------
  // Supplier
  // ---------------------------------------------------------------

  /** Python truthiness of an optional string: present and not empty. */
  predicate Given(o: Option<string>) {
    o.Some? && o.value != ""
  }

  function Overwrite(o: Option<string>, current: string): string {
    if Given(o) then o.value else current
  }

  function OverwriteOpt(o: Option<string>, current: Option<string>): Option<string> {
    if Given(o) then o else current
  }

  function NitIs(nit: string): Supplier -> bool {
    (s: Supplier) => s.nit == nit
  }

  /** `find_or_create_supplier`: the first supplier with the NIT, with the
      given non-empty fields written over its own, or else a new active
      supplier whose trade name is its legal name. Returns the store and
      the supplier's position. */
  function FindOrCreateSupplier(s: Store, d: SupplierData): (r: (Store, nat))
    ensures |s.suppliers| <= |r.0.suppliers| && r.1 < |r.0.suppliers| && r.0.suppliers[r.1].nit == d.nit
    ensures r.0 == s.(suppliers := r.0.suppliers)
    ensures forall j :: 0 <= j < |s.suppliers| && j != r.1 ==> r.0.suppliers[j] == s.suppliers[j]
    ensures IsFirst(s.suppliers, NitIs(d.nit), r.1) ==>
              var old_ := s.suppliers[r.1];
              var new_ := r.0.suppliers[r.1];
              |r.0.suppliers| == |s.suppliers| &&
              new_.id == old_.id && new_.isActive == old_.isActive && new_.nombreComercial == old_.nombreComercial &&
              new_.razonSocial == Overwrite(d.razonSocial, old_.razonSocial) &&
              new_.email == OverwriteOpt(d.email, old_.email) &&
              new_.telefono == OverwriteOpt(d.telefono, old_.telefono) &&
              new_.direccion == OverwriteOpt(d.direccion, old_.direccion) &&
              new_.ciudad == OverwriteOpt(d.ciudad, old_.ciudad)
    ensures (forall j :: 0 <= j < |s.suppliers| ==> s.suppliers[j].nit != d.nit) ==>
              var n := r.0.suppliers[r.1];
              r.1 == |s.suppliers| && |r.0.suppliers| == |s.suppliers| + 1 &&
              n.id == |s.suppliers| + 1 && n.razonSocial == d.razonSocial.GetOr("") &&
              n.nombreComercial == n.razonSocial && n.email == d.email && n.telefono == d.telefono &&
              n.direccion == d.direccion && n.ciudad == d.ciudad && n.isActive
    ensures (exists j :: IsFirst(s.suppliers, NitIs(d.nit), j)) || r.1 == |s.suppliers|
  {
    match FindIndex(s.suppliers, NitIs(d.nit))
    case Some(j) =>
      var c := s.suppliers[j];
      var c' := c.(razonSocial := Overwrite(d.razonSocial, c.razonSocial),
                   email := OverwriteOpt(d.email, c.email),
                   telefono := OverwriteOpt(d.telefono, c.telefono),
                   ciudad := OverwriteOpt(d.ciudad, c.ciudad),
                   direccion := OverwriteOpt(d.direccion, c.direccion));
      (s.(suppliers := Replace(s.suppliers, j, c')), j)
    case None =>
      var razon := d.razonSocial.GetOr("");
      var n := Supplier(|s.suppliers| + 1, d.nit, razon, razon, d.email, d.telefono, d.direccion, d.ciudad, true);
      (s.(suppliers := s.suppliers + [n]), |s.suppliers|)
  }

  /** Sending the same supplier data twice changes nothing the second
      time, and the NIT keeps naming one supplier. */
  lemma FindOrCreateSupplierIdempotent(s: Store, d: SupplierData)
    ensures var (s1, i) := FindOrCreateSupplier(s, d);
            FindOrCreateSupplier(s1, d) == (s1, i)
  {
    var (s1, i) := FindOrCreateSupplier(s, d);
    match FindIndex(s.suppliers, NitIs(d.nit))
    case Some(j) =>
      assert IsFirst(s.suppliers, NitIs(d.nit), j);
      assert IsFirst(s1.suppliers, NitIs(d.nit), j);
      var c := s1.suppliers[j];
      assert c.(razonSocial := Overwrite(d.razonSocial, c.razonSocial),
                email := OverwriteOpt(d.email, c.email),
                telefono := OverwriteOpt(d.telefono, c.telefono),
                ciudad := OverwriteOpt(d.ciudad, c.ciudad),
                direccion := OverwriteOpt(d.direccion, c.direccion)) == c;
      assert Replace(s1.suppliers, j, c) == s1.suppliers;
    case None =>
      assert IsFirst(s1.suppliers, NitIs(d.nit), |s.suppliers|);
      var c := s1.suppliers[|s.suppliers|];
      assert c.(razonSocial := Overwrite(d.razonSocial, c.razonSocial),
                email := OverwriteOpt(d.email, c.email),
                telefono := OverwriteOpt(d.telefono, c.telefono),
                ciudad := OverwriteOpt(d.ciudad, c.ciudad),
                direccion := OverwriteOpt(d.direccion, c.direccion)) == c;
      assert Replace(s1.suppliers, |s.suppliers|, c) == s1.suppliers;
  }

  // ---------------------------------------------------------------
  // Product
  // ---------------------------------------------------------------

  /** Which lines may fall back to a lookup by name: every line, as the
      processor is written, or only lines without a reference. */
  datatype NamePolicy = AlwaysByName | OnlyWithoutReference

  predicate ByName(policy: NamePolicy, referencia: string) {
    policy.AlwaysByName? || referencia == ""
  }

  /** `nombre ILIKE '%<first 20 characters>%'`, read as a case-insensitive
      substring test. */
  predicate NameMatches(p: Product, nombre: string) {
    Contains(Lower(p.nombre), Lower(Take(nombre, 20)))
  }

  /** `i` is the first product coded `codigo`. */
  predicate FirstCodigo(ps: seq<Product>, codigo: string, i: int) {
    0 <= i < |ps| && ps[i].codigo == codigo && forall j :: 0 <= j < i ==> ps[j].codigo != codigo
  }

  /** `i` is the first product whose name matches `nombre`. */
  predicate FirstNamed(ps: seq<Product>, nombre: string, i: int) {
    0 <= i < |ps| && NameMatches(ps[i], nombre) && forall j :: 0 <= j < i ==> !NameMatches(ps[j], nombre)
  }

  /** `Product.codigo == referencia`, first row. */
  function FindCodigo(ps: seq<Product>, codigo: string): (r: Option<nat>)
    ensures r.None? <==> forall j :: 0 <= j < |ps| ==> ps[j].codigo != codigo
    ensures r.Some? ==> FirstCodigo(ps, codigo, r.value)
  {
    if |ps| == 0 then None
    else if ps[0].codigo == codigo then Some(0)
    else match FindCodigo(ps[1..], codigo)
      case None => None
      case Some(i) => Some(i + 1)
  }

  /** `Product.nombre.ilike(...)`, first row. */
  function FindNamed(ps: seq<Product>, nombre: string): (r: Option<nat>)
    ensures r.None? <==> forall j :: 0 <= j < |ps| ==> !NameMatches(ps[j], nombre)
    ensures r.Some? ==> FirstNamed(ps, nombre, r.value)
  {
    if |ps| == 0 then None
    else if NameMatches(ps[0], nombre) then Some(0)
    else match FindNamed(ps[1..], nombre)
      case None => None
      case Some(i) => Some(i + 1)
  }

  /** The lookup of `find_or_create_product`: the first product whose code
      is the reference, else (when the policy allows) the first whose name
      contains the name's first 20 characters. */
  function FindProduct(ps: seq<Product>, d: ProductData, policy: NamePolicy): (r: Option<nat>)
    ensures r.None? <==> (forall j :: 0 <= j < |ps| ==> ps[j].codigo != d.referencia) &&
                         (ByName(policy, d.referencia) ==> forall j :: 0 <= j < |ps| ==> !NameMatches(ps[j], d.nombre))
    ensures r.Some? ==> FirstCodigo(ps, d.referencia, r.value) ||
                        ((forall j :: 0 <= j < |ps| ==> ps[j].codigo != d.referencia) &&
                         ByName(policy, d.referencia) && FirstNamed(ps, d.nombre, r.value))
  {
    match FindCodigo(ps, d.referencia)
    case Some(j) => Some(j)
    case None => if ByName(policy, d.referencia) then FindNamed(ps, d.nombre) else None
  }

  /** The product created for a line nothing matched. */
  function NewProduct(id: nat, d: ProductData, stamp: string): (p: Product)
    ensures p.codigo == (if d.referencia != "" then d.referencia else "AUTO-" + stamp)
    ensures p.precioVenta == 1.5 * p.precioCompra && p.precioCompra == d.precioUnitario
    ensures p.stockActual == 0 && p.stockMinimo == 5 && p.isActive && p.nombre == d.nombre && p.id == id
  {
    Product(id, if d.referencia != "" then d.referencia else "AUTO-" + stamp, d.nombre,
            "Producto importado automáticamente de factura", ACCESORIOS,
            d.precioUnitario, d.precioUnitario * 1.5, 0, 5, true)
  }

  /** The product a line goes to once the lookup has run: the one found
      at `found`, or else a new one appended to the table. */
  function Place(s: Store, found: Option<nat>, d: ProductData, stamp: string): (r: (Store, nat))
    requires found.Some? ==> found.value < |s.products|
    ensures r.1 < |r.0.products|
    ensures found.Some? ==> r == (s, found.value)
    ensures found.None? ==>
              r.1 == |s.products| && r.0.products == s.products + [NewProduct(|s.products| + 1, d, stamp)] &&
              r.0 == s.(products := r.0.products)
  {
    match found
    case Some(j) => (s, j)
    case None => (s.(products := s.products + [NewProduct(|s.products| + 1, d, stamp)]), |s.products|)
  }

  /** `find_or_create_product`: a found product is returned untouched;
      otherwise a new one is appended. `stamp` is the clock reading the
      automatic code is built from. */
  function FindOrCreateProduct(s: Store, d: ProductData, stamp: string, policy: NamePolicy): (r: (Store, nat))
    ensures r.1 < |r.0.products|
    ensures FindProduct(s.products, d, policy).Some? ==> r == (s, FindProduct(s.products, d, policy).value)
    ensures FindProduct(s.products, d, policy).None? ==>
              r.1 == |s.products| && r.0.products == s.products + [NewProduct(|s.products| + 1, d, stamp)] &&
              r.0 == s.(products := r.0.products)
  {
    Place(s, FindProduct(s.products, d, policy), d, stamp)
  }

  // ---------------------------------------------------------------
  // Stock-in
  // ---------------------------------------------------------------

  function Motivo(referencia: string): string {
    "Compra - Factura " + referencia
  }

  /** `update_inventory`: the product at `i` gains `cantidad` units, and
      the ENTRADA movement recording it is added. */
  function UpdateInventory(s: Store, i: nat, cantidad: int, referencia: string, userId: nat): (r: (Store, Movement))
    requires i < |s.products|
    ensures |r.0.products| == |s.products| && r.0.products[i].stockActual == s.products[i].stockActual + cantidad
    ensures r.0.products[i] == s.products[i].(stockActual := r.0.products[i].stockActual)
    ensures forall j :: 0 <= j < |s.products| && j != i ==> r.0.products[j] == s.products[j]
    ensures r.0 == s.(products := r.0.products, movements := s.movements + [r.1])
    ensures r.1.tipo == ENTRADA && r.1.productId == s.products[i].id && r.1.userId == userId &&
            r.1.cantidad == cantidad && r.1.stockAnterior == s.products[i].stockActual &&
            r.1.stockNuevo == s.products[i].stockActual + cantidad &&
            r.1.motivo == Motivo(referencia) && r.1.referencia == referencia
  {
    var p := s.products[i];
    var p' := p.(stockActual := p.stockActual + cantidad);
    var m := Movement(p.id, userId, ENTRADA, cantidad, p.stockActual, p'.stockActual, Motivo(referencia), referencia);
    (s.(products := Replace(s.products, i, p'), movements := s.movements + [m]), m)
  }

  // ---------------------------------------------------------------
  // Invoice
  // ---------------------------------------------------------------

  /** What one line records: the invoice item with the line's quantity,
      price and total, and the ENTRADA movement of the same product and
      quantity under the invoice number. */
  predicate Records(it: PurchaseInvoiceItem, m: Movement, d: ProductData, invoiceId: nat, numero: string) {
    it.purchaseInvoiceId == invoiceId && it.cantidad == d.cantidad && it.precioUnitario == d.precioUnitario &&
    it.subtotal == d.total && m.tipo == ENTRADA && m.cantidad == d.cantidad && m.referencia == numero &&
    m.motivo == Motivo(numero) && m.productId == it.productId
  }

  /** The rest of one line once its product is at `i`: the invoice item,
      then the stock-in under the invoice number. */
  function StockIn(s: Store, i: nat, d: ProductData, invoiceId: nat, numero: string, userId: nat): (r: Store)
    requires i < |s.products|
    ensures r.suppliers == s.suppliers && r.invoices == s.invoices
    ensures |r.items| == |s.items| + 1 && r.items[..|s.items|] == s.items
    ensures |r.movements| == |s.movements| + 1 && r.movements[..|s.movements|] == s.movements
    ensures Records(r.items[|s.items|], r.movements[|s.movements|], d, invoiceId, numero)
    ensures r.items[|s.items|].productId == s.products[i].id
    ensures r.products == Replace(s.products, i, s.products[i].(stockActual := s.products[i].stockActual + d.cantidad))
  {
    var item := PurchaseInvoiceItem(invoiceId, s.products[i].id, d.cantidad, d.precioUnitario, d.total);
    UpdateInventory(s.(items := s.items + [item]), i, d.cantidad, numero, userId).0
  }

  /** One line once the lookup has given `found`: place the product, add
      the item, and take the quantity into stock under the invoice number. */
  function LineAt(s: Store, found: Option<nat>, d: ProductData, invoiceId: nat, numero: string, userId: nat,
                  stamp: string): (r: Store)
    requires found.Some? ==> found.value < |s.products|
    ensures r.suppliers == s.suppliers && r.invoices == s.invoices
    ensures |r.items| == |s.items| + 1 && r.items[..|s.items|] == s.items
    ensures |r.movements| == |s.movements| + 1 && r.movements[..|s.movements|] == s.movements
    ensures Records(r.items[|s.items|], r.movements[|s.movements|], d, invoiceId, numero)
  {
    var (s1, i) := Place(s, found, d, stamp);
    StockIn(s1, i, d, invoiceId, numero, userId)
  }

  /** One line of step 4: find or create the product, add the item, and
      take the quantity into stock under the invoice number. */
  function ProcessLine(s: Store, d: ProductData, invoiceId: nat, numero: string, userId: nat, stamp: string,
                       policy: NamePolicy): (r: Store)
    ensures r.suppliers == s.suppliers && r.invoices == s.invoices
    ensures |r.items| == |s.items| + 1 && r.items[..|s.items|] == s.items
    ensures |r.movements| == |s.movements| + 1 && r.movements[..|s.movements|] == s.movements
    ensures Records(r.items[|s.items|], r.movements[|s.movements|], d, invoiceId, numero)
  {
    LineAt(s, FindProduct(s.products, d, policy), d, invoiceId, numero, userId, stamp)
  }

  /** A line whose product is found at `j` adds its quantity to that
      product's stock and leaves every other product as it was. */
  lemma LineFound(s: Store, j: nat, d: ProductData, invoiceId: nat, numero: string, userId: nat, stamp: string)
    requires j < |s.products|
    ensures LineAt(s, Some(j), d, invoiceId, numero, userId, stamp).products ==
            Replace(s.products, j, s.products[j].(stockActual := s.products[j].stockActual + d.cantidad))
  {
  }

  /** A line nothing matches appends a new product holding the line's
      quantity. */
  lemma LineCreated(s: Store, d: ProductData, invoiceId: nat, numero: string, userId: nat, stamp: string)
    ensures LineAt(s, None, d, invoiceId, numero, userId, stamp).products ==
            s.products + [NewProduct(|s.products| + 1, d, stamp).(stockActual := d.cantidad)]
  {
    var p := NewProduct(|s.products| + 1, d, stamp);
    ReplaceLast(s.products, p, p.(stockActual := d.cantidad));
  }

  /** The loop over `productos`, in order. */
  function ProcessLines(s: Store, ds: seq<ProductData>, invoiceId: nat, numero: string, userId: nat, stamp: string,
                        policy: NamePolicy): Store
    decreases |ds|
  {
    if |ds| == 0 then s
    else ProcessLines(ProcessLine(s, ds[0], invoiceId, numero, userId, stamp, policy), ds[1..], invoiceId, numero,
                      userId, stamp, policy)
  }

  /** What the processor leaves in the database, and either the invoice or
      the HTTP error it raises. */
  datatype Processed = Processed(store: Store, result: Result<PurchaseInvoice, HttpError>)

  const ERROR_PREFIX := "Error processing invoice: "

  /** `process_invoice`. The issue date must parse as `%Y-%m-%d`
      (`fechaEmision`, `None` when it does not, with `parseError` the
      message); a bad acceptance date is dropped (`fechaAceptacion` is
      `None` then). The supplier step commits before the date is read, so
      the rollback after a bad issue date leaves the supplier change in
      place. `archivoPdf` is where the PDF was saved, if one was sent. */
  function ProcessInvoice(s: Store, data: InvoiceData, userId: nat, fechaEmision: Option<int>,
                          parseError: string, fechaAceptacion: Option<int>, archivoPdf: Option<string>,
                          stamp: string, policy: NamePolicy): (r: Processed)
    ensures r.result.Failure? <==> fechaEmision.None?
    ensures r.result.Failure? ==>
              r.store == FindOrCreateSupplier(s, data.proveedor).0 &&
              r.result.error == HttpError(500, ERROR_PREFIX + parseError)
    ensures r.result.Success? ==>
              var inv := r.result.value;
              var (s1, k) := FindOrCreateSupplier(s, data.proveedor);
              inv.status == PROCESADA && inv.numeroFactura == data.factura.numero &&
              inv.supplierId == s1.suppliers[k].id && s1.suppliers[k].nit == data.proveedor.nit &&
              inv.subtotal == data.subtotal && inv.iva == data.iva && inv.total == data.total &&
              inv.fechaEmision == fechaEmision.value && inv.fechaAceptacion == fechaAceptacion &&
              inv.id == |s.invoices| + 1 && r.store.invoices == s.invoices + [inv]
    ensures r.result.Success? ==>
              var inv := r.result.value;
              var s1 := FindOrCreateSupplier(s, data.proveedor).0;
              r.store == ProcessLines(s1.(invoices := s1.invoices + [inv]), data.productos, inv.id,
                                      data.factura.numero, userId, stamp, policy)
  {
    var (s1, k) := FindOrCreateSupplier(s, data.proveedor);
    if fechaEmision.None? then Processed(s1, Failure(HttpError(500, ERROR_PREFIX + parseError)))
    else
      var inv := PurchaseInvoice(|s1.invoices| + 1, data.factura.numero, s1.suppliers[k].id, fechaEmision.value,
                                 data.factura.cufe, fechaAceptacion, data.factura.firmaDigital,
                                 data.subtotal, data.iva, data.total, archivoPdf, PROCESADA);
      var s2 := s1.(invoices := s1.invoices + [inv]);
      ProcessLinesKeepsInvoices(s2, data.productos, inv.id, inv.numeroFactura, userId, stamp, policy);
      Processed(ProcessLines(s2, data.productos, inv.id, inv.numeroFactura, userId, stamp, policy), Success(inv))
  }

  /** A processed invoice adds one item and one ENTRADA movement per line,
      in line order and after the ones already stored, and raises the total
      stock by exactly the sum of the line quantities. */
  lemma ProcessInvoiceLines(s: Store, data: InvoiceData, userId: nat, fechaEmision: Option<int>,
                            parseError: string, fechaAceptacion: Option<int>, archivoPdf: Option<string>,
                            stamp: string, policy: NamePolicy)
    ensures var r := ProcessInvoice(s, data, userId, fechaEmision, parseError, fechaAceptacion, archivoPdf, stamp,
                                    policy);
            r.result.Success? ==>
              |r.store.items| == |s.items| + |data.productos| && r.store.items[..|s.items|] == s.items &&
              |r.store.movements| == |s.movements| + |data.productos| &&
              r.store.movements[..|s.movements|] == s.movements &&
              AllRecorded(r.store.items[|s.items|..], r.store.movements[|s.movements|..], data.productos,
                          r.result.value.id, data.factura.numero) &&
              SumInt(r.store.products, StockDe) == SumInt(s.products, StockDe) + SumInt(data.productos, Cantidad)
  {
    var r := ProcessInvoice(s, data, userId, fechaEmision, parseError, fechaAceptacion, archivoPdf, stamp, policy);
    if r.result.Success? {
      var s1 := FindOrCreateSupplier(s, data.proveedor).0;
      var s2 := s1.(invoices := s1.invoices + [r.result.value]);
      assert s2.items == s.items && s2.movements == s.movements && s2.products == s.products;
      ProcessLinesGrows(s2, data.productos, r.result.value.id, data.factura.numero, userId, stamp, policy);
      ProcessLinesRecords(s2, data.productos, r.result.value.id, data.factura.numero, userId, stamp, policy);
      ProcessLinesStock(s2, data.productos, r.result.value.id, data.factura.numero, userId, stamp, policy);
    }
  }

  lemma {:induction false} ProcessLinesKeepsInvoices(s: Store, ds: seq<ProductData>, invoiceId: nat, numero: string,
                                                     userId: nat, stamp: string, policy: NamePolicy)
    decreases |ds|
    ensures var r := ProcessLines(s, ds, invoiceId, numero, userId, stamp, policy);
            r.invoices == s.invoices && r.suppliers == s.suppliers
  {
    if |ds| > 0 {
      ProcessLinesKeepsInvoices(ProcessLine(s, ds[0], invoiceId, numero, userId, stamp, policy), ds[1..], invoiceId,
                                numero, userId, stamp, policy);
    }
  }

  /** The lines add one item and one movement each, after the ones already
      recorded. */
  lemma {:induction false} ProcessLinesGrows(s: Store, ds: seq<ProductData>, invoiceId: nat, numero: string,
                                             userId: nat, stamp: string, policy: NamePolicy)
    decreases |ds|
    ensures var r := ProcessLines(s, ds, invoiceId, numero, userId, stamp, policy);
            |r.items| == |s.items| + |ds| && r.items[..|s.items|] == s.items &&
            |r.movements| == |s.movements| + |ds| && r.movements[..|s.movements|] == s.movements
  {
    if |ds| > 0 {
      var s1 := ProcessLine(s, ds[0], invoiceId, numero, userId, stamp, policy);
      ProcessLinesGrows(s1, ds[1..], invoiceId, numero, userId, stamp, policy);
      var r := ProcessLines(s1, ds[1..], invoiceId, numero, userId, stamp, policy);
      PrefixOfPrefix(r.items, s1.items, s.items);
      PrefixOfPrefix(r.movements, s1.movements, s.movements);
    }
  }

  /** Item `k` and movement `k` record line `k`, for every line. */
  predicate AllRecorded(items: seq<PurchaseInvoiceItem>, movements: seq<Movement>, ds: seq<ProductData>,
                        invoiceId: nat, numero: string) {
    |items| == |ds| && |movements| == |ds| &&
    forall k :: 0 <= k < |ds| ==> Records(items[k], movements[k], ds[k], invoiceId, numero)
  }

  lemma AllRecordedCons(it: PurchaseInvoiceItem, m: Movement, d: ProductData, items: seq<PurchaseInvoiceItem>,
                        movements: seq<Movement>, ds: seq<ProductData>, invoiceId: nat, numero: string)
    requires Records(it, m, d, invoiceId, numero) && AllRecorded(items, movements, ds, invoiceId, numero)
    ensures AllRecorded([it] + items, [m] + movements, [d] + ds, invoiceId, numero)
  {
    forall k | 1 <= k < |ds| + 1
      ensures Records(([it] + items)[k], ([m] + movements)[k], ([d] + ds)[k], invoiceId, numero)
    {
      assert ([it] + items)[k] == items[k - 1];
    }
  }

  /** The items and movements the lines add, after the ones already
      there, record the lines one for one and in order. */
  lemma {:induction false} ProcessLinesRecords(s: Store, ds: seq<ProductData>, invoiceId: nat, numero: string,
                                               userId: nat, stamp: string, policy: NamePolicy)
    decreases |ds|
    ensures var r := ProcessLines(s, ds, invoiceId, numero, userId, stamp, policy);
            |s.items| <= |r.items| && |s.movements| <= |r.movements| &&
            AllRecorded(r.items[|s.items|..], r.movements[|s.movements|..], ds, invoiceId, numero)
  {
    ProcessLinesGrows(s, ds, invoiceId, numero, userId, stamp, policy);
    if |ds| > 0 {
      var s1 := ProcessLine(s, ds[0], invoiceId, numero, userId, stamp, policy);
      var r := ProcessLines(s1, ds[1..], invoiceId, numero, userId, stamp, policy);
      ProcessLinesGrows(s1, ds[1..], invoiceId, numero, userId, stamp, policy);
      ProcessLinesRecords(s1, ds[1..], invoiceId, numero, userId, stamp, policy);
      RecordedStep(s.items, s1.items, r.items, s.movements, s1.movements, r.movements, ds, invoiceId, numero);
    }
  }

  /** The record of the first line, in front of the records of the rest. */
  lemma RecordedStep(items: seq<PurchaseInvoiceItem>, items1: seq<PurchaseInvoiceItem>, items2: seq<PurchaseInvoiceItem>,
                     movs: seq<Movement>, movs1: seq<Movement>, movs2: seq<Movement>, ds: seq<ProductData>,
                     invoiceId: nat, numero: string)
    requires |ds| > 0
    requires |items1| == |items| + 1 && |items1| <= |items2| && items2[..|items1|] == items1
    requires |movs1| == |movs| + 1 && |movs1| <= |movs2| && movs2[..|movs1|] == movs1
    requires Records(items1[|items|], movs1[|movs|], ds[0], invoiceId, numero)
    requires AllRecorded(items2[|items1|..], movs2[|movs1|..], ds[1..], invoiceId, numero)
    ensures AllRecorded(items2[|items|..], movs2[|movs|..], ds, invoiceId, numero)
  {
    SuffixSplit(items2, items1, items);
    SuffixSplit(movs2, movs1, movs);
    AllRecordedCons(items1[|items|], movs1[|movs|], ds[0], items2[|items1|..], movs2[|movs1|..], ds[1..],
                    invoiceId, numero);
    assert [ds[0]] + ds[1..] == ds;
  }

  function StockDe(p: Product): int {
    p.stockActual
  }

  function Cantidad(d: ProductData): int {
    d.cantidad
  }

  /** One line adds its quantity to the total stock, whether it found a
      product or created one. */
  lemma ProcessLineStock(s: Store, d: ProductData, invoiceId: nat, numero: string, userId: nat, stamp: string,
                         policy: NamePolicy)
    ensures SumInt(ProcessLine(s, d, invoiceId, numero, userId, stamp, policy).products, StockDe) ==
            SumInt(s.products, StockDe) + d.cantidad
  {
    LineStock(s, FindProduct(s.products, d, policy), d, invoiceId, numero, userId, stamp);
  }

  lemma LineStock(s: Store, found: Option<nat>, d: ProductData, invoiceId: nat, numero: string, userId: nat,
                  stamp: string)
    requires found.Some? ==> found.value < |s.products|
    ensures SumInt(LineAt(s, found, d, invoiceId, numero, userId, stamp).products, StockDe) ==
            SumInt(s.products, StockDe) + d.cantidad
  {
    var r := LineAt(s, found, d, invoiceId, numero, userId, stamp).products;
    match found
    case Some(j) =>
      LineFound(s, j, d, invoiceId, numero, userId, stamp);
      StockReplaced(s.products, j, d.cantidad, r);
    case None =>
      LineCreated(s, d, invoiceId, numero, userId, stamp);
      StockAppended(s.products, NewProduct(|s.products| + 1, d, stamp).(stockActual := d.cantidad), r);
  }

  lemma StockReplaced(ps: seq<Product>, j: nat, c: int, r: seq<Product>)
    requires j < |ps| && r == Replace(ps, j, ps[j].(stockActual := ps[j].stockActual + c))
    ensures SumInt(r, StockDe) == SumInt(ps, StockDe) + c
  {
    SumIntReplace(ps, j, ps[j].(stockActual := ps[j].stockActual + c), StockDe);
  }

  lemma StockAppended(ps: seq<Product>, p: Product, r: seq<Product>)
    requires r == ps + [p]
    ensures SumInt(r, StockDe) == SumInt(ps, StockDe) + p.stockActual
  {
    SumIntAppend(ps, [p], StockDe);
  }

  /** The invoice takes exactly the sum of its line quantities into stock. */
  lemma {:induction false} ProcessLinesStock(s: Store, ds: seq<ProductData>, invoiceId: nat, numero: string,
                                             userId: nat, stamp: string, policy: NamePolicy)
    decreases |ds|
    ensures SumInt(ProcessLines(s, ds, invoiceId, numero, userId, stamp, policy).products, StockDe) ==
            SumInt(s.products, StockDe) + SumInt(ds, Cantidad)
  {
    if |ds| > 0 {
      var s1 := ProcessLine(s, ds[0], invoiceId, numero, userId, stamp, policy);
      ProcessLineStock(s, ds[0], invoiceId, numero, userId, stamp, policy);
      ProcessLinesStock(s1, ds[1..], invoiceId, numero, userId, stamp, policy);
    }
  }

  // ---------------------------------------------------------------
  // Lines with a fresh reference
  // ---------------------------------------------------------------

  /** The lines carry references, pairwise different, that no product in
      `ps` has as its code. */
  predicate FreshReferences(ps: seq<Product>, ds: seq<ProductData>) {
    (forall k :: 0 <= k < |ds| ==> ds[k].referencia != "") &&
    (forall j, k :: 0 <= j < k < |ds| ==> ds[j].referencia != ds[k].referencia) &&
    (forall j, k :: 0 <= j < |ps| && 0 <= k < |ds| ==> ps[j].codigo != ds[k].referencia)
  }

  /** The first fresh line creates its product, and the remaining lines are
      still fresh afterwards. */
  lemma FreshLineStep(s: Store, ds: seq<ProductData>, invoiceId: nat, numero: string, userId: nat, stamp: string)
    requires |ds| > 0 && FreshReferences(s.products, ds)
    ensures var s1 := ProcessLine(s, ds[0], invoiceId, numero, userId, stamp, OnlyWithoutReference);
            s1.products == s.products + [NewProduct(|s.products| + 1, ds[0], stamp).(stockActual := ds[0].cantidad)] &&
            FreshReferences(s1.products, ds[1..])
  {
    assert FindProduct(s.products, ds[0], OnlyWithoutReference).None?;
    LineCreated(s, ds[0], invoiceId, numero, userId, stamp);
    var s1 := ProcessLine(s, ds[0], invoiceId, numero, userId, stamp, OnlyWithoutReference);
    forall j, k | 0 <= j < |s1.products| && 0 <= k < |ds[1..]|
      ensures s1.products[j].codigo != ds[1..][k].referencia
    {
      assert ds[1..][k] == ds[k + 1];
      if j < |s.products| {
        assert s1.products[j] == s.products[j];
      }
    }
  }

  /** Product `k` is coded with the reference of line `k` and holds
      exactly its quantity, for every line. */
  predicate OwnProducts(ps: seq<Product>, ds: seq<ProductData>) {
    |ps| == |ds| && forall k :: 0 <= k < |ds| ==> ps[k].codigo == ds[k].referencia && ps[k].stockActual == ds[k].cantidad
  }

  lemma OwnProductsCons(p: Product, d: ProductData, ps: seq<Product>, ds: seq<ProductData>)
    requires p.codigo == d.referencia && p.stockActual == d.cantidad && OwnProducts(ps, ds)
    ensures OwnProducts([p] + ps, [d] + ds)
  {
    forall k | 1 <= k < |ds| + 1
      ensures ([p] + ps)[k].codigo == ([d] + ds)[k].referencia && ([p] + ps)[k].stockActual == ([d] + ds)[k].cantidad
    {
      assert ([p] + ps)[k] == ps[k - 1];
    }
  }

  /** With the name lookup kept for lines without a reference, every line
      with a fresh reference gets a product of its own, coded with the
      reference and holding exactly the line's quantity, added in line
      order after the products already there, which are untouched. */
  lemma {:induction false} FreshLinesGetOwnProducts(s: Store, ds: seq<ProductData>, invoiceId: nat, numero: string,
                                                    userId: nat, stamp: string)
    requires FreshReferences(s.products, ds)
    decreases |ds|
    ensures var r := ProcessLines(s, ds, invoiceId, numero, userId, stamp, OnlyWithoutReference);
            |s.products| <= |r.products| && r.products[..|s.products|] == s.products &&
            OwnProducts(r.products[|s.products|..], ds)
  {
    if |ds| > 0 {
      FreshLineStep(s, ds, invoiceId, numero, userId, stamp);
      var s1 := ProcessLine(s, ds[0], invoiceId, numero, userId, stamp, OnlyWithoutReference);
      var r := ProcessLines(s1, ds[1..], invoiceId, numero, userId, stamp, OnlyWithoutReference);
      FreshLinesGetOwnProducts(s1, ds[1..], invoiceId, numero, userId, stamp);
      OwnStep(s.products, s1.products, r.products, ds);
    }
  }

  /** The product of the first line, in front of the products of the rest. */
  lemma OwnStep(ps: seq<Product>, ps1: seq<Product>, ps2: seq<Product>, ds: seq<ProductData>)
    requires |ds| > 0
    requires |ps1| == |ps| + 1 && ps1[..|ps|] == ps && |ps1| <= |ps2| && ps2[..|ps1|] == ps1
    requires ps1[|ps|].codigo == ds[0].referencia && ps1[|ps|].stockActual == ds[0].cantidad
    requires OwnProducts(ps2[|ps1|..], ds[1..])
    ensures |ps| <= |ps2| && ps2[..|ps|] == ps && OwnProducts(ps2[|ps|..], ds)
  {
    PrefixOfPrefix(ps2, ps1, ps);
    SuffixSplit(ps2, ps1, ps);
    OwnProductsCons(ps1[|ps|], ds[0], ps2[|ps1|..], ds[1..]);
    assert [ds[0]] + ds[1..] == ds;
  }

  // ---------------------------------------------------------------
  // The two-product invoice of the integration test
  // ---------------------------------------------------------------

  const LINE_A := ProductData("INT-PROD-A", "PRODUCTO INTEGRATION A", 50, 2000.0, 100000.0)
  const LINE_B := ProductData("INT-PROD-B", "PRODUCTO INTEGRATION B", 30, 3000.0, 90000.0)

  /** As written, the second line of the integration test's invoice, whose
      reference is new, matches the product just created for the first
      line by the shared 20-character prefix "PRODUCTO INTEGRATION": no
      product INT-PROD-B is created and INT-PROD-A ends with 80 units. */
  lemma IntegrationLinesCollide(s: Store, invoiceId: nat, numero: string, userId: nat, stamp: string)
    requires s.products == []
    ensures var r := ProcessLines(s, [LINE_A, LINE_B], invoiceId, numero, userId, stamp, AlwaysByName);
            |r.products| == 1 && r.products[0].codigo == "INT-PROD-A" && r.products[0].stockActual == 80
  {
    var s1 := ProcessLine(s, LINE_A, invoiceId, numero, userId, stamp, AlwaysByName);
    FirstLineCreates(s, s1, invoiceId, numero, userId, stamp);
    var s2 := ProcessLine(s1, LINE_B, invoiceId, numero, userId, stamp, AlwaysByName);
    SecondLineAdds(s1, s2, invoiceId, numero, userId, stamp);
    TwoLines(s, LINE_A, LINE_B, invoiceId, numero, userId, stamp, AlwaysByName);
  }

  /** Into an empty catalogue, the first line creates its product. */
  lemma FirstLineCreates(s: Store, s1: Store, invoiceId: nat, numero: string, userId: nat, stamp: string)
    requires s.products == []
    requires s1 == ProcessLine(s, LINE_A, invoiceId, numero, userId, stamp, AlwaysByName)
    ensures s1.products == [NewProduct(1, LINE_A, stamp).(stockActual := 50)]
  {
    assert FindProduct(s.products, LINE_A, AlwaysByName).None?;
    LineCreated(s, LINE_A, invoiceId, numero, userId, stamp);
  }

  /** The second line adds its quantity to the product the first created. */
  lemma SecondLineAdds(s1: Store, s2: Store, invoiceId: nat, numero: string, userId: nat, stamp: string)
    requires s1.products == [NewProduct(1, LINE_A, stamp).(stockActual := 50)]
    requires s2 == ProcessLine(s1, LINE_B, invoiceId, numero, userId, stamp, AlwaysByName)
    ensures s2.products == [NewProduct(1, LINE_A, stamp).(stockActual := 80)]
  {
    SecondLineFindsFirst(s1.products, stamp);
    LineFound(s1, 0, LINE_B, invoiceId, numero, userId, stamp);
    var a := s1.products[0];
    ReplaceSingle(a, a.(stockActual := 80));
  }

  /** The second line's lookup, by name, lands on the product created for
      the first. */
  lemma SecondLineFindsFirst(ps: seq<Product>, stamp: string)
    requires ps == [NewProduct(1, LINE_A, stamp).(stockActual := 50)]
    ensures FindProduct(ps, LINE_B, AlwaysByName) == Some(0)
  {
    CodeMisses(ps, stamp);
    NameHits(ps, stamp);
  }

  lemma CodeMisses(ps: seq<Product>, stamp: string)
    requires ps == [NewProduct(1, LINE_A, stamp).(stockActual := 50)]
    ensures FindCodigo(ps, LINE_B.referencia).None?
  {
    assert ps[0].codigo == "INT-PROD-A";
    assert "INT-PROD-A"[9] != "INT-PROD-B"[9];
  }

  lemma NameHits(ps: seq<Product>, stamp: string)
    requires ps == [NewProduct(1, LINE_A, stamp).(stockActual := 50)]
    ensures FindNamed(ps, LINE_B.nombre) == Some(0)
  {
    assert ps[0].nombre[..20] == LINE_B.nombre[..20];
    SharedPrefixContains(ps[0].nombre, LINE_B.nombre, 20);
  }

  /** An invoice of two lines is the second line after the first. */
  lemma TwoLines(s: Store, d1: ProductData, d2: ProductData, invoiceId: nat, numero: string, userId: nat, stamp: string,
                 policy: NamePolicy)
    ensures ProcessLines(s, [d1, d2], invoiceId, numero, userId, stamp, policy) ==
            ProcessLine(ProcessLine(s, d1, invoiceId, numero, userId, stamp, policy), d2, invoiceId, numero, userId,
                        stamp, policy)
  {
    var s1 := ProcessLine(s, d1, invoiceId, numero, userId, stamp, policy);
    FirstLine(s, [d1, d2], invoiceId, numero, userId, stamp, policy);
    assert [d1, d2][1..] == [d2];
    OneLine(s1, d2, invoiceId, numero, userId, stamp, policy);
  }

  lemma FirstLine(s: Store, ds: seq<ProductData>, invoiceId: nat, numero: string, userId: nat, stamp: string,
                  policy: NamePolicy)
    requires |ds| > 0
    ensures ProcessLines(s, ds, invoiceId, numero, userId, stamp, policy) ==
            ProcessLines(ProcessLine(s, ds[0], invoiceId, numero, userId, stamp, policy), ds[1..], invoiceId, numero,
                         userId, stamp, policy)
  {
  }

  lemma OneLine(s: Store, d: ProductData, invoiceId: nat, numero: string, userId: nat, stamp: string, policy: NamePolicy)
    ensures ProcessLines(s, [d], invoiceId, numero, userId, stamp, policy) ==
            ProcessLine(s, d, invoiceId, numero, userId, stamp, policy)
  {
    assert [d][1..] == [];
  }

  /** With the name lookup kept for lines without a reference, the same
      invoice creates INT-PROD-A with 50 units and INT-PROD-B with 30, as
      the integration test expects. */
  lemma IntegrationLinesSeparate(s: Store, invoiceId: nat, numero: string, userId: nat, stamp: string)
    requires s.products == []
    ensures var r := ProcessLines(s, [LINE_A, LINE_B], invoiceId, numero, userId, stamp, OnlyWithoutReference);
            |r.products| == 2 && r.products[0].codigo == "INT-PROD-A" && r.products[0].stockActual == 50 &&
            r.products[1].codigo == "INT-PROD-B" && r.products[1].stockActual == 30
  {
    assert "INT-PROD-A"[9] != "INT-PROD-B"[9];
    assert FreshReferences(s.products, [LINE_A, LINE_B]);
    FreshLinesGetOwnProducts(s, [LINE_A, LINE_B], invoiceId, numero, userId, stamp);
    var r := ProcessLines(s, [LINE_A, LINE_B], invoiceId, numero, userId, stamp, OnlyWithoutReference);
    assert r.products[0..] == r.products;
  }

}

=== FILE: permissions.dfy ===
/** The static permission catalogue (`ALL_PERMISSIONS`), the default
    permission list of each role, and the helpers that group permission
    strings by module and test one `module.action` pair. */
module Permissions {
  import opened Wrappers
  import opened Seqs
  import opened Text

  /** One catalogue entry; its label and description are display text and
      are not modelled. */
  datatype Permission = Permission(moduleName: string, action: string)

  datatype Role = SUPERUSUARIO | ADMIN | VENDEDOR | ALMACEN | CONTADOR

  /** The permission string of a catalogue entry, `${module}.${action}`. */
  function Key(p: Permission): string {
    p.moduleName + "." + p.action
  }

  const ALL_PERMISSIONS: seq<Permission> := [
    Permission("dashboard", "read"), Permission("dashboard", "manage_metrics"),
    Permission("productos", "read"), Permission("productos", "write"), Permission("productos", "delete"), Permission("productos", "manage_stock"),
    Permission("clientes", "read"), Permission("clientes", "write"), Permission("clientes", "delete"), Permission("clientes", "export"),
    Permission("ventas", "write"), Permission("ventas", "cancel"), Permission("ventas", "discount"), Permission("ventas", "delete"), Permission("ventas", "restore"),
    Permission("inventario", "read"), Permission("inventario", "write"), Permission("inventario", "movements"), Permission("inventario", "valuation"),
    Permission("reportes", "basic"), Permission("reportes", "advanced"), Permission("reportes", "export"), Permission("reportes", "financial"),
    Permission("proveedores", "read"), Permission("proveedores", "write"), Permission("proveedores", "delete"), Permission("proveedores", "evaluate"),
    Permission("facturacion", "read"), Permission("facturacion", "write"), Permission("facturacion", "cancel"), Permission("facturacion", "reprint"),
    Permission("configuracion", "read"), Permission("configuracion", "company"), Permission("configuracion", "taxes"),
    Permission("usuarios", "read"), Permission("usuarios", "write"), Permission("usuarios", "delete"), Permission("usuarios", "permissions")
  ]

  /** `ALL_PERMISSIONS.map(p => `${p.module}.${p.action}`)`, spelled out;
      `CatalogueKeysAreKeys` proves it is that mapping. */
  const CATALOGUE_KEYS: seq<string> := [
    "dashboard.read", "dashboard.manage_metrics",
    "productos.read", "productos.write", "productos.delete", "productos.manage_stock",
    "clientes.read", "clientes.write", "clientes.delete", "clientes.export",
    "ventas.write", "ventas.cancel", "ventas.discount", "ventas.delete", "ventas.restore",
    "inventario.read", "inventario.write", "inventario.movements", "inventario.valuation",
    "reportes.basic", "reportes.advanced", "reportes.export", "reportes.financial",
    "proveedores.read", "proveedores.write", "proveedores.delete", "proveedores.evaluate",
    "facturacion.read", "facturacion.write", "facturacion.cancel", "facturacion.reprint",
    "configuracion.read", "configuracion.company", "configuracion.taxes",
    "usuarios.read", "usuarios.write", "usuarios.delete", "usuarios.permissions"
  ]

  const ADMIN_DEFAULTS: seq<string> := [
    "dashboard.read", "dashboard.manage_metrics",
    "productos.read", "productos.write", "productos.delete", "productos.manage_stock",
    "clientes.read", "clientes.write", "clientes.delete", "clientes.export",
    "ventas.write", "ventas.cancel", "ventas.discount", "ventas.delete", "ventas.restore",
    "inventario.read", "inventario.write", "inventario.movements", "inventario.valuation",
    "reportes.basic", "reportes.advanced", "reportes.export", "reportes.financial",
    "proveedores.read", "proveedores.write", "proveedores.delete", "proveedores.evaluate",
    "facturacion.read", "facturacion.write", "facturacion.cancel", "facturacion.reprint",
    "configuracion.read", "configuracion.company", "configuracion.taxes"
  ]

  const VENDEDOR_DEFAULTS: seq<string> := [
    "dashboard.read",
    "productos.read",
    "clientes.read", "clientes.write",
    "ventas.write", "ventas.discount",
    "reportes.basic"
  ]

  const ALMACEN_DEFAULTS: seq<string> := [
    "dashboard.read",
    "productos.read", "productos.write", "productos.manage_stock",
    "inventario.read", "inventario.write", "inventario.movements", "inventario.valuation",
    "proveedores.read", "proveedores.write", "proveedores.evaluate",
    "reportes.basic", "reportes.advanced"
  ]

  const CONTADOR_DEFAULTS: seq<string> := [
    "dashboard.read",
    "reportes.basic", "reportes.advanced", "reportes.export", "reportes.financial",
    "facturacion.read", "facturacion.write", "facturacion.cancel", "facturacion.reprint",
    "configuracion.read"
  ]

  /** `DEFAULT_PERMISSIONS_BY_ROLE[role]`. */
  function DefaultPermissions(role: Role): seq<string> {
    match role
    case SUPERUSUARIO => CATALOGUE_KEYS
    case ADMIN => ADMIN_DEFAULTS
    case VENDEDOR => VENDEDOR_DEFAULTS
    case ALMACEN => ALMACEN_DEFAULTS
    case CONTADOR => CONTADOR_DEFAULTS
  }

  lemma KeysAgree0() ensures forall i | 0 <= i < 4 :: CATALOGUE_KEYS[i] == Key(ALL_PERMISSIONS[i]) {}
  lemma KeysAgree1() ensures forall i | 4 <= i < 8 :: CATALOGUE_KEYS[i] == Key(ALL_PERMISSIONS[i]) {}
  lemma KeysAgree2() ensures forall i | 8 <= i < 12 :: CATALOGUE_KEYS[i] == Key(ALL_PERMISSIONS[i]) {}
  lemma KeysAgree3() ensures forall i | 12 <= i < 16 :: CATALOGUE_KEYS[i] == Key(ALL_PERMISSIONS[i]) {}
  lemma KeysAgree4() ensures forall i | 16 <= i < 20 :: CATALOGUE_KEYS[i] == Key(ALL_PERMISSIONS[i]) {}
  lemma KeysAgree5() ensures forall i | 20 <= i < 24 :: CATALOGUE_KEYS[i] == Key(ALL_PERMISSIONS[i]) {}
  lemma KeysAgree6() ensures forall i | 24 <= i < 28 :: CATALOGUE_KEYS[i] == Key(ALL_PERMISSIONS[i]) {}
  lemma KeysAgree7() ensures forall i | 28 <= i < 32 :: CATALOGUE_KEYS[i] == Key(ALL_PERMISSIONS[i]) {}
  lemma KeysAgree8() ensures forall i | 32 <= i < 35 :: CATALOGUE_KEYS[i] == Key(ALL_PERMISSIONS[i]) {}
  lemma KeysAgree9() ensures forall i | 35 <= i < 38 :: CATALOGUE_KEYS[i] == Key(ALL_PERMISSIONS[i]) {}

  /** The spelled-out list is the catalogue mapped through `Key`. */
  lemma CatalogueKeysAreKeys()
    ensures |CATALOGUE_KEYS| == |ALL_PERMISSIONS|
    ensures forall i :: 0 <= i < |ALL_PERMISSIONS| ==> CATALOGUE_KEYS[i] == Key(ALL_PERMISSIONS[i])
  {
    KeysAgree0();
    KeysAgree1();
    KeysAgree2();
    KeysAgree3();
    KeysAgree4();
    KeysAgree5();
    KeysAgree6();
    KeysAgree7();
    KeysAgree8();
    KeysAgree9();
    forall i | 0 <= i < |ALL_PERMISSIONS| ensures CATALOGUE_KEYS[i] == Key(ALL_PERMISSIONS[i]) {
      if i < 4 {
        assert 0 <= i < 4;
      } else if i < 8 {
        assert 4 <= i < 8;
      } else if i < 12 {
        assert 8 <= i < 12;
      } else if i < 16 {
        assert 12 <= i < 16;
      } else if i < 20 {
        assert 16 <= i < 20;
      } else if i < 24 {
        assert 20 <= i < 24;
      } else if i < 28 {
        assert 24 <= i < 28;
      } else if i < 32 {
        assert 28 <= i < 32;
      } else if i < 35 {
        assert 32 <= i < 35;
      } else {
        assert 35 <= i < 38;
      }
    }
  }

  /** SUPERUSUARIO's default set is exactly the set of catalogue keys. */
  lemma SuperuserHasWholeCatalogue()
    ensures forall p :: p in ALL_PERMISSIONS ==> Key(p) in DefaultPermissions(SUPERUSUARIO)
    ensures forall k :: k in DefaultPermissions(SUPERUSUARIO) ==>
              exists p :: p in ALL_PERMISSIONS && Key(p) == k
  {
    CatalogueKeysAreKeys();
    forall p | p in ALL_PERMISSIONS ensures Key(p) in CATALOGUE_KEYS {
      var i :| 0 <= i < |ALL_PERMISSIONS| && ALL_PERMISSIONS[i] == p;
      assert CATALOGUE_KEYS[i] == Key(p);
    }
    forall k | k in CATALOGUE_KEYS ensures exists p :: p in ALL_PERMISSIONS && Key(p) == k {
      var i :| 0 <= i < |CATALOGUE_KEYS| && CATALOGUE_KEYS[i] == k;
      assert ALL_PERMISSIONS[i] in ALL_PERMISSIONS;
    }
  }

  /** Every role's default list is drawn from the catalogue. */
  lemma DefaultsWithinCatalogue(role: Role)
    ensures forall k :: k in DefaultPermissions(role) ==> k in CATALOGUE_KEYS
  {
  }

  /** No role but SUPERUSUARIO is granted any `usuarios.*` permission. */
  lemma OnlySuperuserManagesUsers(role: Role)
    requires role != SUPERUSUARIO
    ensures forall k :: k in DefaultPermissions(role) ==> !StartsWith(k, "usuarios.")
  {
    // The role lists hold no key beginning with 'u'.
    var ks := DefaultPermissions(role);
    match role
    case ADMIN => assert forall i | 0 <= i < |ks| :: ks[i][0] != 'u';
    case VENDEDOR => assert forall i | 0 <= i < |ks| :: ks[i][0] != 'u';
    case ALMACEN => assert forall i | 0 <= i < |ks| :: ks[i][0] != 'u';
    case CONTADOR => assert forall i | 0 <= i < |ks| :: ks[i][0] != 'u';
    NoneStartWithU(ks);
  }

  /** A list of non-empty keys none of which begins with 'u' has no
      `usuarios.*` key. */
  lemma NoneStartWithU(ks: seq<string>)
    requires forall i | 0 <= i < |ks| :: |ks[i]| > 0 && ks[i][0] != 'u'
    ensures forall k :: k in ks ==> !StartsWith(k, "usuarios.")
  {
    forall k | k in ks ensures !StartsWith(k, "usuarios.") {
      assert |k| >= 9 ==> k[..9][0] == k[0] != 'u';
    }
  }


  lemma KeysDistinct0() ensures forall i, j | 0 <= i < 2 && i < j < |CATALOGUE_KEYS| :: CATALOGUE_KEYS[i] != CATALOGUE_KEYS[j] {}
  lemma KeysDistinct1() ensures forall i, j | 2 <= i < 4 && i < j < |CATALOGUE_KEYS| :: CATALOGUE_KEYS[i] != CATALOGUE_KEYS[j] {}
  lemma KeysDistinct2() ensures forall i, j | 4 <= i < 8 && i < j < |CATALOGUE_KEYS| :: CATALOGUE_KEYS[i] != CATALOGUE_KEYS[j] {}
  lemma KeysDistinct3() ensures forall i, j | 8 <= i < 14 && i < j < |CATALOGUE_KEYS| :: CATALOGUE_KEYS[i] != CATALOGUE_KEYS[j] {}
  lemma KeysDistinct4() ensures forall i, j | 14 <= i < 24 && i < j < |CATALOGUE_KEYS| :: CATALOGUE_KEYS[i] != CATALOGUE_KEYS[j] {}
  lemma KeysDistinct5() ensures forall i, j | 24 <= i < 38 && i < j < |CATALOGUE_KEYS| :: CATALOGUE_KEYS[i] != CATALOGUE_KEYS[j] {}

  /** The catalogue's permission strings are pairwise distinct. */
  lemma CatalogueKeysDistinct()
    ensures forall i, j :: 0 <= i < j < |CATALOGUE_KEYS| ==> CATALOGUE_KEYS[i] != CATALOGUE_KEYS[j]
  {
    KeysDistinct0();
    KeysDistinct1();
    KeysDistinct2();
    KeysDistinct3();
    KeysDistinct4();
    KeysDistinct5();
  }

  // ---------------------------------------------------------------
  // getPermissionsByModule
  // ---------------------------------------------------------------

  /** The text before the first '.', or the whole string when there is none
      (`permission.split('.')[0]`). */
  function ModulePart(s: string): (r: string)
    ensures StartsWith(s, r)
    ensures '.' !in r
    ensures |r| < |s| ==> s[|r|] == '.'
  {
    if |s| == 0 || s[0] == '.' then ""
    else [s[0]] + ModulePart(s[1..])
  }

  /** `permission.split('.')[1]`: the segment between the first and the
      second '.', or `undefined` when the string has no '.'. */
  function ActionPart(s: string): (r: Option<string>)
    ensures r.None? <==> '.' !in s
  {
    if |s| == 0 then None
    else if s[0] == '.' then Some(ModulePart(s[1..]))
    else ActionPart(s[1..])
  }

  /** Splitting a key built from dot-free parts gives the parts back. */
  lemma {:induction false} SplitKey(m: string, a: string)
    requires '.' !in m && '.' !in a
    ensures ModulePart(m + "." + a) == m
    ensures ActionPart(m + "." + a) == Some(a)
  {
    if |m| == 0 {
      assert (m + "." + a)[1..] == a;
      ModulePartWhole(a);
    } else {
      assert (m + "." + a)[1..] == m[1..] + "." + a;
      SplitKey(m[1..], a);
    }
  }

  lemma {:induction false} ModulePartWhole(a: string)
    requires '.' !in a
    ensures ModulePart(a) == a
  {
    if |a| > 0 {
      assert a == [a[0]] + a[1..];
      ModulePartWhole(a[1..]);
    }
  }

  /** One entry of the grouped object: a module and its pushed actions. */
  datatype Group = Group(moduleName: string, actions: seq<Option<string>>)

  predicate HasGroup(gs: seq<Group>, m: string) {
    exists i :: 0 <= i < |gs| && gs[i].moduleName == m
  }

  predicate DistinctModules(gs: seq<Group>) {
    forall i, j :: 0 <= i < j < |gs| ==> gs[i].moduleName != gs[j].moduleName
  }

  /** Some permission of `ps` belongs to module `m`. */
  predicate NamesModule(ps: seq<string>, m: string) {
    exists i :: 0 <= i < |ps| && ModulePart(ps[i]) == m
  }

  /** One `forEach` step: push the action onto the module's group, creating
      the group at the end when the module is new. */
  function AddPermission(gs: seq<Group>, p: string): (r: seq<Group>)
    requires DistinctModules(gs)
    ensures DistinctModules(r)
    ensures forall m :: HasGroup(r, m) <==> HasGroup(gs, m) || m == ModulePart(p)
  {
    var m := ModulePart(p);
    match FindIndex(gs, (g: Group) => g.moduleName == m)
    case Some(i) =>
      var r := Replace(gs, i, Group(m, gs[i].actions + [ActionPart(p)]));
      assert forall k :: HasGroup(r, k) ==> HasGroup(gs, k) by {
        forall k | HasGroup(r, k) ensures HasGroup(gs, k) {
          var j :| 0 <= j < |r| && r[j].moduleName == k;
          assert gs[j].moduleName == k;
        }
      }
      assert forall k :: HasGroup(gs, k) ==> HasGroup(r, k) by {
        forall k | HasGroup(gs, k) ensures HasGroup(r, k) {
          var j :| 0 <= j < |gs| && gs[j].moduleName == k;
          assert r[j].moduleName == k;
        }
      }
      r
    case None =>
      var r := gs + [Group(m, [ActionPart(p)])];
      assert r[|gs|].moduleName == m;
      assert forall k :: HasGroup(gs, k) ==> HasGroup(r, k) by {
        forall k | HasGroup(gs, k) ensures HasGroup(r, k) {
          var j :| 0 <= j < |gs| && gs[j].moduleName == k;
          assert r[j].moduleName == k;
        }
      }
      r
  }

  /** `getPermissionsByModule`: the groups in order of first appearance. */
  function GroupByModule(ps: seq<string>): (r: seq<Group>)
    ensures DistinctModules(r)
  {
    if |ps| == 0 then [] else AddPermission(GroupByModule(ps[..|ps| - 1]), ps[|ps| - 1])
  }

  /** The reference definition: the actions of the permissions whose module
      is `m`, in input order. */
  function ActionsOf(ps: seq<string>, m: string): seq<Option<string>> {
    Map(Filter(ps, (s: string) => ModulePart(s) == m), ActionPart)
  }

  lemma MapAppend<T, U>(a: seq<T>, b: seq<T>, f: T -> U)
    ensures Map(a + b, f) == Map(a, f) + Map(b, f)
  {
  }

  lemma {:induction false} ActionsOfSnoc(ps: seq<string>, p: string, m: string)
    ensures ActionsOf(ps + [p], m) ==
            ActionsOf(ps, m) + (if ModulePart(p) == m then [ActionPart(p)] else [])
  {
    var f := (s: string) => ModulePart(s) == m;
    FilterAppend(ps, [p], f);
    MapAppend(Filter(ps, f), Filter([p], f), ActionPart);
  }

  /** A module with no permission in the list has no actions. */
  lemma ActionsOfAbsent(ps: seq<string>, m: string)
    requires !NamesModule(ps, m)
    ensures ActionsOf(ps, m) == []
  {
  }

  /** A module has a group iff some input permission names it. */
  lemma {:induction false} GroupByModuleModules(ps: seq<string>)
    ensures forall m :: HasGroup(GroupByModule(ps), m) <==> NamesModule(ps, m)
  {
    if |ps| > 0 {
      var init := ps[..|ps| - 1];
      GroupByModuleModules(init);
      forall m ensures NamesModule(ps, m) <==> NamesModule(init, m) || m == ModulePart(ps[|ps| - 1]) {
        if NamesModule(ps, m) && m != ModulePart(ps[|ps| - 1]) {
          var i :| 0 <= i < |ps| && ModulePart(ps[i]) == m;
          assert init[i] == ps[i];
        }
        if NamesModule(init, m) {
          var i :| 0 <= i < |init| && ModulePart(init[i]) == m;
          assert ps[i] == init[i];
        }
      }
    }
  }

  /** The step keeps every group equal to its reference list. */
  lemma AddPermissionActions(gs: seq<Group>, init: seq<string>, p: string)
    requires DistinctModules(gs)
    requires forall m :: HasGroup(gs, m) <==> NamesModule(init, m)
    requires forall i :: 0 <= i < |gs| ==> gs[i].actions == ActionsOf(init, gs[i].moduleName)
    ensures forall i :: 0 <= i < |AddPermission(gs, p)| ==>
              AddPermission(gs, p)[i].actions == ActionsOf(init + [p], AddPermission(gs, p)[i].moduleName)
  {
    var r := AddPermission(gs, p);
    var m := ModulePart(p);
    forall i | 0 <= i < |r| ensures r[i].actions == ActionsOf(init + [p], r[i].moduleName) {
      ActionsOfSnoc(init, p, r[i].moduleName);
      if i == |gs| {
        assert !HasGroup(gs, m);
        ActionsOfAbsent(init, m);
      } else if r[i].moduleName != m {
        assert r[i] == gs[i];
      }
    }
  }

  /** Every group lists, in input order, exactly the actions of its module. */
  lemma {:induction false} GroupByModuleActions(ps: seq<string>)
    ensures forall i :: 0 <= i < |GroupByModule(ps)| ==>
              GroupByModule(ps)[i].actions == ActionsOf(ps, GroupByModule(ps)[i].moduleName)
  {
    if |ps| > 0 {
      var init := ps[..|ps| - 1];
      assert ps == init + [ps[|ps| - 1]];
      GroupByModuleActions(init);
      GroupByModuleModules(init);
      AddPermissionActions(GroupByModule(init), init, ps[|ps| - 1]);
    }
  }

  /** Every input `m.a` shows up as action `a` under module `m`. */
  lemma GroupByModuleFinds(ps: seq<string>, m: string, a: string)
    requires '.' !in m && '.' !in a
    requires m + "." + a in ps
    ensures exists i :: 0 <= i < |GroupByModule(ps)| && GroupByModule(ps)[i].moduleName == m
                        && Some(a) in GroupByModule(ps)[i].actions
  {
    var gs := GroupByModule(ps);
    var k := m + "." + a;
    SplitKey(m, a);
    var j :| 0 <= j < |ps| && ps[j] == k;
    assert NamesModule(ps, m);
    GroupByModuleModules(ps);
    assert HasGroup(gs, m);
    var i :| 0 <= i < |gs| && gs[i].moduleName == m;
    GroupByModuleActions(ps);
    assert gs[i].actions == ActionsOf(ps, m);
    ActionOfMember(ps, m, k);
  }

  /** The action of each permission of module `m` is among `m`'s actions. */
  lemma ActionOfMember(ps: seq<string>, m: string, k: string)
    requires k in ps && ModulePart(k) == m
    ensures ActionPart(k) in ActionsOf(ps, m)
  {
    var f := (s: string) => ModulePart(s) == m;
    var matching := Filter(ps, f);
    var j :| 0 <= j < |ps| && ps[j] == k;
    assert f(ps[j]);
    FilterKeeps(ps, f);
    assert k in matching;
    var t :| 0 <= t < |matching| && matching[t] == k;
    assert ActionsOf(ps, m)[t] == ActionPart(k);
  }

  function TotalActions(gs: seq<Group>): nat {
    if |gs| == 0 then 0 else |gs[0].actions| + TotalActions(gs[1..])
  }

  lemma {:induction false} TotalActionsReplace(gs: seq<Group>, i: nat, g: Group)
    requires i < |gs|
    ensures TotalActions(Replace(gs, i, g)) == TotalActions(gs) - |gs[i].actions| + |g.actions|
  {
    if i > 0 {
      assert Replace(gs, i, g)[1..] == Replace(gs[1..], i - 1, g);
      TotalActionsReplace(gs[1..], i - 1, g);
    } else {
      assert Replace(gs, i, g)[1..] == gs[1..];
    }
  }

  lemma {:induction false} TotalActionsSnoc(gs: seq<Group>, g: Group)
    ensures TotalActions(gs + [g]) == TotalActions(gs) + |g.actions|
  {
    if |gs| > 0 {
      assert (gs + [g])[1..] == gs[1..] + [g];
      TotalActionsSnoc(gs[1..], g);
    }
  }

  /** Grouping neither loses nor duplicates a permission. */
  lemma {:induction false} GroupByModuleCount(ps: seq<string>)
    ensures TotalActions(GroupByModule(ps)) == |ps|
  {
    if |ps| > 0 {
      var init := ps[..|ps| - 1];
      var p := ps[|ps| - 1];
      GroupByModuleCount(init);
      var gs := GroupByModule(init);
      var m := ModulePart(p);
      match FindIndex(gs, (g: Group) => g.moduleName == m)
      case Some(i) =>
        TotalActionsReplace(gs, i, Group(m, gs[i].actions + [ActionPart(p)]));
      case None =>
        TotalActionsSnoc(gs, Group(m, [ActionPart(p)]));
    }
  }

  /** `hasSpecificPermission`. */
  function HasSpecificPermission(userPermissions: seq<string>, moduleName: string, action: string): bool {
    moduleName + "." + action in userPermissions
  }

  /** `s` has exactly one '.'. */
  predicate OneDot(s: string) {
    |s| > 0 && if s[0] == '.' then '.' !in s[1..] else OneDot(s[1..])
  }

  /** A key whose only dot comes first: empty module, the rest as action. */
  lemma DotFirst(s: string)
    requires |s| > 0 && s[0] == '.' && '.' !in s[1..]
    ensures ActionPart(s).Some? && s == ModulePart(s) + "." + ActionPart(s).value
  {
    ModulePartWhole(s[1..]);
    assert s == "." + s[1..];
  }

  /** One step of `JoinKey` past a leading non-dot character. */
  lemma NotDotFirst(s: string, m: string, a: string)
    requires |s| > 0 && s[0] != '.' && ActionPart(s[1..]) == Some(a) && s[1..] == m + "." + a && ModulePart(s[1..]) == m
    ensures ActionPart(s).Some? && s == ModulePart(s) + "." + ActionPart(s).value
  {
    assert ModulePart(s) == [s[0]] + m by {
      assert ModulePart(s) == [s[0]] + ModulePart(s[1..]);
    }
    assert ActionPart(s) == Some(a);
    ConsJoin(s, s[0], m, a);
  }

  lemma ConsJoin(s: string, c: char, m: string, a: string)
    requires |s| > 0 && s[0] == c && s[1..] == m + "." + a
    ensures s == ([c] + m) + "." + a
  {
    assert s == [c] + s[1..];
  }

  /** A string with exactly one '.' is its module, the dot and its action. */
  lemma {:induction false} JoinKey(s: string)
    requires OneDot(s)
    ensures ActionPart(s).Some? && s == ModulePart(s) + "." + ActionPart(s).value
  {
    if s[0] == '.' {
      DotFirst(s);
    } else {
      JoinKey(s[1..]);
      NotDotFirst(s, ModulePart(s[1..]), ActionPart(s[1..]).value);
    }
  }

  /** Some group of `gs` is module `m` and lists action `a`. */
  predicate InGroup(gs: seq<Group>, m: string, a: string) {
    exists i :: 0 <= i < |gs| && gs[i].moduleName == m && Some(a) in gs[i].actions
  }

  /** `hasSpecificPermission` agrees with `getPermissionsByModule`: for a
      dot-free module and action, holding `m.a` puts `a` under `m` in the
      grouped view; and when every permission held has exactly one '.',
      `a` under `m` means holding `m.a`. */
  lemma HasSpecificPermissionGrouped(ps: seq<string>, m: string, a: string)
    ensures '.' !in m && '.' !in a && HasSpecificPermission(ps, m, a) ==> InGroup(GroupByModule(ps), m, a)
    ensures (forall i :: 0 <= i < |ps| ==> OneDot(ps[i])) && InGroup(GroupByModule(ps), m, a) ==>
              HasSpecificPermission(ps, m, a)
  {
    if '.' !in m && '.' !in a && HasSpecificPermission(ps, m, a) {
      GroupByModuleFinds(ps, m, a);
    }
    if (forall i :: 0 <= i < |ps| ==> OneDot(ps[i])) && InGroup(GroupByModule(ps), m, a) {
      GroupedHeld(ps, m, a);
    }
  }

  /** An action grouped under `m` comes from a held permission `m.a`. */
  lemma GroupedHeld(ps: seq<string>, m: string, a: string)
    requires forall i :: 0 <= i < |ps| ==> OneDot(ps[i])
    requires InGroup(GroupByModule(ps), m, a)
    ensures m + "." + a in ps
  {
    var gs := GroupByModule(ps);
    var i :| 0 <= i < |gs| && gs[i].moduleName == m && Some(a) in gs[i].actions;
    GroupByModuleActions(ps);
    var f := (s: string) => ModulePart(s) == m;
    var matching := Filter(ps, f);
    assert gs[i].actions == Map(matching, ActionPart);
    var t :| 0 <= t < |gs[i].actions| && gs[i].actions[t] == Some(a);
    var k := matching[t];
    assert k in ps && ModulePart(k) == m && ActionPart(k) == Some(a);
    var j :| 0 <= j < |ps| && ps[j] == k;
    JoinKey(ps[j]);
  }
}

=== FILE: pos.dfy ===
/** The point-of-sale page: a cart of sale lines with stock bounds, its
    totals, and checkout through `createVenta`. Each handler returns the
    cart (or store) it leaves and the error it shows; a rejected action
    leaves its state as it was. */
module Pos {
  import opened Wrappers
  import opened Seqs
  import opened Entities
  import opened Database

  /** A cart line: the sale line plus the product as it was when added. */
  datatype CartLine = CartLine(item: VentaItem, producto: Producto)

  predicate LineFor(l: CartLine, productId: string) {
    l.item.productoId == productId
  }

  /** The test `item => item.item.productoId === productId` the page passes
      to `find`/`findIndex`, and its negation for `filter`. */
  function LineOf(productId: string): CartLine -> bool {
    (l: CartLine) => LineFor(l, productId)
  }

  function OtherLine(productId: string): CartLine -> bool {
    (l: CartLine) => !LineFor(l, productId)
  }

  /** The IVA the page charges on `subtotal` for product `p`. */
  function Iva(p: Producto, subtotal: real): real {
    if p.aplicaIva then subtotal * p.porcentajeIva / 100.0 else 0.0
  }

  /** The fresh line `addToCart` creates: one unit at the sale price. */
  function NewLine(p: Producto, lineId: string): (r: CartLine)
    ensures r.item.productoId == p.id && r.item.cantidad == 1 && r.producto == p
    ensures r.item.precioUnitario == p.precioVenta && r.item.subtotalItem == p.precioVenta
    ensures r.item.ivaItem == (if p.aplicaIva then p.precioVenta * p.porcentajeIva / 100.0 else 0.0)
    ensures r.item.totalItem == r.item.subtotalItem + r.item.ivaItem
  {
    var iva := Iva(p, p.precioVenta);
    CartLine(VentaItem(lineId, p.id, 1, p.precioVenta, 0.0, p.precioVenta, iva, p.precioVenta + iva), p)
  }

  /** A line's amounts recomputed for quantity `q` at its unit price. */
  function Requantify(l: CartLine, q: int): (r: CartLine)
    ensures r.producto == l.producto && r.item.productoId == l.item.productoId && r.item.id == l.item.id
    ensures r.item.cantidad == q && r.item.precioUnitario == l.item.precioUnitario
    ensures r.item.subtotalItem == l.item.precioUnitario * q as real
    ensures r.item.ivaItem == Iva(l.producto, r.item.subtotalItem)
    ensures r.item.totalItem == r.item.subtotalItem + r.item.ivaItem
  {
    var subtotal := l.item.precioUnitario * q as real;
    var iva := Iva(l.producto, subtotal);
    l.(item := l.item.(cantidad := q, subtotalItem := subtotal, ivaItem := iva, totalItem := subtotal + iva))
  }

  /** `removeFromCart`: drops every line of the product. */
  function RemoveFromCart(cart: seq<CartLine>, productId: string): (r: seq<CartLine>)
    ensures forall i :: 0 <= i < |r| ==> r[i] in cart && !LineFor(r[i], productId)
    ensures forall i :: 0 <= i < |cart| && !LineFor(cart[i], productId) ==> cart[i] in r
  {
    FilterKeeps(cart, OtherLine(productId));
    Filter(cart, OtherLine(productId))
  }

  /** `updateCartItemQuantity`: a quantity of zero or less removes the
      product; more than the stock recorded on the product's first line
      is rejected; otherwise every line of the product is recomputed. */
  function UpdateCartItemQuantity(cart: seq<CartLine>, productId: string, q: int): (r: Outcome<seq<CartLine>>)
    ensures q <= 0 ==> r == Outcome(RemoveFromCart(cart, productId), None)
    ensures r.error.Some? ==> r.state == cart
    ensures r.error.Some? <==>
              q > 0 && exists i :: IsFirst(cart, LineOf(productId), i) &&
                                   q > cart[i].producto.stockActual
    ensures q > 0 && r.error.None? ==>
              |r.state| == |cart| &&
              forall i :: 0 <= i < |cart| ==>
                r.state[i] == if LineFor(cart[i], productId) then Requantify(cart[i], q) else cart[i]
  {
    if q <= 0 then Outcome(RemoveFromCart(cart, productId), None)
    else
      var found := Find(cart, LineOf(productId));
      if found.Some? && q > found.value.producto.stockActual then
        Outcome(cart, Some("Cantidad excede el stock disponible"))
      else
        Outcome(Map(cart, (l: CartLine) => if LineFor(l, productId) then Requantify(l, q) else l), None)
  }

  /** `addToCart`: rejects a product without stock, or one whose line
      already holds all of it; bumps an existing line by one; otherwise
      appends a fresh line. */
  function AddToCart(cart: seq<CartLine>, p: Producto, lineId: string): (r: Outcome<seq<CartLine>>)
    ensures p.stockActual <= 0 ==> r == Outcome(cart, Some("Producto sin stock disponible"))
    ensures r.error.Some? ==> r.state == cart
    ensures p.stockActual > 0 && (forall i :: 0 <= i < |cart| ==> !LineFor(cart[i], p.id)) ==>
              r == Outcome(cart + [NewLine(p, lineId)], None)
  {
    AddAt(cart, p, lineId, FindIndex(cart, LineOf(p.id)))
  }

  /** `addToCart` once `findIndex` has reported the product's line (if
      any) as `found`. */
  function AddAt(cart: seq<CartLine>, p: Producto, lineId: string, found: Option<nat>): (r: Outcome<seq<CartLine>>)
    requires found.Some? ==> found.value < |cart|
    ensures r.error.Some? ==> r.state == cart
  {
    if p.stockActual <= 0 then Outcome(cart, Some("Producto sin stock disponible"))
    else
      match found
      case Some(i) =>
        if cart[i].item.cantidad >= p.stockActual then Outcome(cart, Some("No hay suficiente stock disponible"))
        else UpdateCartItemQuantity(cart, p.id, cart[i].item.cantidad + 1)
      case None => Outcome(cart + [NewLine(p, lineId)], None)
  }

  // ---------------------------------------------------------------
  // Cart invariant
  // ---------------------------------------------------------------

  function ProductOf(l: CartLine): string { l.item.productoId }

  /** The cart holds at most one line per product, each for at least one
      and at most the recorded stock of units, with consistent amounts. */
  predicate WellFormed(cart: seq<CartLine>) {
    DistinctBy(cart, ProductOf) &&
    (forall i :: 0 <= i < |cart| ==>
       cart[i].item.productoId == cart[i].producto.id &&
       1 <= cart[i].item.cantidad <= cart[i].producto.stockActual &&
       cart[i].item.totalItem == cart[i].item.subtotalItem + cart[i].item.ivaItem)
  }

  lemma RemoveKeepsWellFormed(cart: seq<CartLine>, productId: string)
    requires WellFormed(cart)
    ensures WellFormed(RemoveFromCart(cart, productId))
  {
    FilterDistinct(cart, OtherLine(productId), ProductOf);
  }

  /** Changing a quantity keeps the cart well formed: the stock test on the
      product's first line is a test on its only line. */
  lemma UpdateKeepsWellFormed(cart: seq<CartLine>, productId: string, q: int)
    requires WellFormed(cart)
    ensures WellFormed(UpdateCartItemQuantity(cart, productId, q).state)
  {
    if q <= 0 {
      RemoveKeepsWellFormed(cart, productId);
    } else {
      var r := UpdateCartItemQuantity(cart, productId, q);
      if r.error.None? {
        forall i | 0 <= i < |cart| && LineFor(cart[i], productId)
          ensures q <= cart[i].producto.stockActual
        {
          assert IsFirst(cart, LineOf(productId), i);
        }
        assert forall i :: 0 <= i < |cart| ==> ProductOf(r.state[i]) == ProductOf(cart[i]);
      }
    }
  }

  /** Adding a product keeps the cart well formed. */
  lemma AddKeepsWellFormed(cart: seq<CartLine>, p: Producto, lineId: string)
    requires WellFormed(cart)
    ensures WellFormed(AddToCart(cart, p, lineId).state)
  {
    match FindIndex(cart, LineOf(p.id))
    case Some(i) => AddExistingKeepsWellFormed(cart, p, lineId, i);
    case None => AddNewKeepsWellFormed(cart, p, lineId);
  }

  /** Adding a product whose line is `cart[i]`: either a rejection, which
      leaves the cart, or the quantity update by one unit. */
  lemma AddExistingKeepsWellFormed(cart: seq<CartLine>, p: Producto, lineId: string, i: nat)
    requires WellFormed(cart) && i < |cart|
    ensures WellFormed(AddAt(cart, p, lineId, Some(i)).state)
  {
    if p.stockActual > 0 && cart[i].item.cantidad < p.stockActual {
      UpdateKeepsWellFormed(cart, p.id, cart[i].item.cantidad + 1);
    }
  }

  /** Adding a product the cart lacks: either a rejection, which leaves the
      cart, or one fresh line appended. */
  lemma AddNewKeepsWellFormed(cart: seq<CartLine>, p: Producto, lineId: string)
    requires WellFormed(cart) && FindIndex(cart, LineOf(p.id)).None?
    ensures WellFormed(AddAt(cart, p, lineId, None).state)
  {
    if p.stockActual > 0 {
      AppendKeepsWellFormed(cart, NewLine(p, lineId));
    }
  }

  /** An accepted addition of a product already in the cart is the
      quantity update by one unit. */
  lemma AddBumps(cart: seq<CartLine>, p: Producto, lineId: string, i: nat)
    requires FindIndex(cart, LineOf(p.id)) == Some(i) && AddToCart(cart, p, lineId).error.None?
    ensures AddToCart(cart, p, lineId) == UpdateCartItemQuantity(cart, p.id, cart[i].item.cantidad + 1)
  {
    AddToCartAt(cart, p, lineId, i);
    AddAtExisting(cart, p, lineId, i);
  }

  /** `addToCart` goes on from the index `findIndex` reports. */
  lemma AddToCartAt(cart: seq<CartLine>, p: Producto, lineId: string, i: nat)
    requires FindIndex(cart, LineOf(p.id)) == Some(i)
    ensures i < |cart| && AddToCart(cart, p, lineId) == AddAt(cart, p, lineId, Some(i))
  {
  }

  /** With the product in stock and its line at `cart[i]`, `addToCart`
      rejects a line holding all the stock and otherwise hands the line's
      quantity plus one to `updateCartItemQuantity`. */
  lemma AddAtExisting(cart: seq<CartLine>, p: Producto, lineId: string, i: nat)
    requires i < |cart| && p.stockActual > 0
    ensures cart[i].item.cantidad >= p.stockActual ==>
              AddAt(cart, p, lineId, Some(i)) == Outcome(cart, Some("No hay suficiente stock disponible"))
    ensures cart[i].item.cantidad < p.stockActual ==>
              AddAt(cart, p, lineId, Some(i)) == UpdateCartItemQuantity(cart, p.id, cart[i].item.cantidad + 1)
  {
  }

  /** A well-formed line for a product the cart lacks can be appended. */
  lemma AppendKeepsWellFormed(cart: seq<CartLine>, l: CartLine)
    requires WellFormed(cart)
    requires forall i :: 0 <= i < |cart| ==> !LineFor(cart[i], l.item.productoId)
    requires l.item.productoId == l.producto.id && 1 <= l.item.cantidad <= l.producto.stockActual
    requires l.item.totalItem == l.item.subtotalItem + l.item.ivaItem
    ensures WellFormed(cart + [l])
  {
    var c := cart + [l];
    assert forall i :: 0 <= i < |cart| ==> c[i] == cart[i];
  }

  /** A product already in the cart: its line holding all the product's
      current stock is rejected; otherwise the line goes up by one unit,
      unless that exceeds the stock recorded when it was added. */
  lemma AddToCartExisting(cart: seq<CartLine>, p: Producto, lineId: string, i: nat)
    requires p.stockActual > 0 && IsFirst(cart, LineOf(p.id), i)
    ensures var r := AddToCart(cart, p, lineId);
            var n := cart[i].item.cantidad;
            (n >= p.stockActual ==> r == Outcome(cart, Some("No hay suficiente stock disponible"))) &&
            (0 <= n < p.stockActual && n + 1 > cart[i].producto.stockActual ==>
               r == Outcome(cart, Some("Cantidad excede el stock disponible"))) &&
            (0 <= n < p.stockActual && n + 1 <= cart[i].producto.stockActual ==>
               r.error.None? && |r.state| == |cart| && r.state[i] == Requantify(cart[i], n + 1) &&
               forall j :: 0 <= j < |cart| && !LineFor(cart[j], p.id) ==> r.state[j] == cart[j])
  {
    FirstLineFound(cart, p.id, i);
    AddToCartAt(cart, p, lineId, i);
    AddAtExisting(cart, p, lineId, i);
    var n := cart[i].item.cantidad;
    if 0 <= n < p.stockActual {
      UpdateFirstLine(cart, p.id, i, n + 1);
    }
  }

  /** A positive quantity for the product whose first line is `cart[i]`:
      rejected when it exceeds that line's recorded stock, otherwise
      written into every line of the product and no other. */
  lemma UpdateFirstLine(cart: seq<CartLine>, productId: string, i: nat, q: int)
    requires q > 0 && IsFirst(cart, LineOf(productId), i)
    ensures var r := UpdateCartItemQuantity(cart, productId, q);
            (q > cart[i].producto.stockActual ==>
               r == Outcome(cart, Some("Cantidad excede el stock disponible"))) &&
            (q <= cart[i].producto.stockActual ==>
               r.error.None? && |r.state| == |cart| && r.state[i] == Requantify(cart[i], q) &&
               forall j :: 0 <= j < |cart| && !LineFor(cart[j], productId) ==> r.state[j] == cart[j])
  {
    FirstLineFound(cart, productId, i);
  }

  /** The product's first line is what `find` and `findIndex` report. */
  lemma FirstLineFound(cart: seq<CartLine>, productId: string, i: nat)
    requires IsFirst(cart, LineOf(productId), i)
    ensures FindIndex(cart, LineOf(productId)) == Some(i)
    ensures Find(cart, LineOf(productId)) == Some(cart[i])
  {
    assert FindIndex(cart, LineOf(productId)) == Some(i);
  }

  // ---------------------------------------------------------------
  // Totals and checkout
  // ---------------------------------------------------------------

  datatype Totals = Totals(subtotal: real, descuentoValor: real, subtotalConDescuento: real,
                           ivaTotal: real, total: real)

  function SubtotalOf(l: CartLine): real { l.item.subtotalItem }
  function IvaOf(l: CartLine): real { l.item.ivaItem }
  function TotalOf(l: CartLine): real { l.item.totalItem }

  /** `calculateTotals`: the discount applies to the pre-tax subtotal, and
      the line IVA is added on top, undiscounted. */
  function CalculateTotals(cart: seq<CartLine>, descuentoPorcentaje: real): (r: Totals)
    ensures r.subtotal == Sum(cart, SubtotalOf) && r.ivaTotal == Sum(cart, IvaOf)
    ensures r.descuentoValor == r.subtotal * (descuentoPorcentaje / 100.0)
    ensures r.total == r.subtotal - r.descuentoValor + r.ivaTotal
  {
    var subtotal := Sum(cart, SubtotalOf);
    var descuento := subtotal * (descuentoPorcentaje / 100.0);
    var iva := Sum(cart, IvaOf);
    Totals(subtotal, descuento, subtotal - descuento, iva, subtotal - descuento + iva)
  }

  /** Lines whose total is subtotal plus IVA sum to the same split. */
  lemma {:induction false} SumOfLineTotals(cart: seq<CartLine>)
    requires forall i :: 0 <= i < |cart| ==> cart[i].item.totalItem == cart[i].item.subtotalItem + cart[i].item.ivaItem
    ensures Sum(cart, TotalOf) == Sum(cart, SubtotalOf) + Sum(cart, IvaOf)
  {
    if |cart| > 0 {
      SumOfLineTotals(cart[1..]);
    }
  }

  /** Without a discount the sale total is the sum of the line totals. */
  lemma UndiscountedTotal(cart: seq<CartLine>)
    requires WellFormed(cart)
    ensures CalculateTotals(cart, 0.0).total == Sum(cart, TotalOf)
    ensures CalculateTotals(cart, 100.0).total == Sum(cart, IvaOf)
  {
    SumOfLineTotals(cart);
  }

  /** The checkout's result: the store and cart it leaves, the sale it
      recorded, and the error it showed. */
  datatype Checkout = Checkout(db: Db, cart: seq<CartLine>, venta: Option<Venta>, error: Option<string>)

  function ItemOf(l: CartLine): VentaItem { l.item }

  /** `procesarVenta`: rejects an empty cart, and a cash payment below the
      total; otherwise records a PAGADA sale of the cart's lines (change
      for cash, the exact total otherwise) and empties the cart. */
  function ProcesarVenta(db: Db, cart: seq<CartLine>, selectedCliente: string, descuentoPorcentaje: real,
                         metodo: MetodoPago, valorRecibido: real, user: string, id: string, now: int): (r: Checkout)
    ensures |cart| == 0 ==> r == Checkout(db, cart, None, Some("El carrito está vacío"))
    ensures var t := CalculateTotals(cart, descuentoPorcentaje);
            |cart| > 0 && metodo == EFECTIVO && valorRecibido < t.total ==>
              r == Checkout(db, cart, None, Some("El valor recibido es menor al total de la venta"))
    ensures r.error.Some? <==> r.venta.None?
    ensures r.error.Some? <==>
              |cart| == 0 || (metodo == EFECTIVO && valorRecibido < CalculateTotals(cart, descuentoPorcentaje).total)
    ensures r.error.Some? ==> r.db == db && r.cart == cart
    ensures r.venta.Some? ==>
              var t := CalculateTotals(cart, descuentoPorcentaje);
              |cart| > 0 && (metodo == EFECTIVO ==> valorRecibido >= t.total) &&
              r == RecordSale(db, cart, t, selectedCliente, descuentoPorcentaje, metodo, valorRecibido, user, id, now)
  {
    if |cart| == 0 then Checkout(db, cart, None, Some("El carrito está vacío"))
    else
      var t := CalculateTotals(cart, descuentoPorcentaje);
      if metodo == EFECTIVO && valorRecibido < t.total then
        Checkout(db, cart, None, Some("El valor recibido es menor al total de la venta"))
      else
        RecordSale(db, cart, t, selectedCliente, descuentoPorcentaje, metodo, valorRecibido, user, id, now)
  }

  /** The accepted branch of `procesarVenta`, for totals `t` already
      computed: the sale `createVenta` records and the emptied cart. */
  function RecordSale(db: Db, cart: seq<CartLine>, t: Totals, selectedCliente: string, descuentoPorcentaje: real,
                      metodo: MetodoPago, valorRecibido: real, user: string, id: string, now: int): (r: Checkout)
    requires metodo == EFECTIVO ==> valorRecibido >= t.total
    ensures r.error.None? && r.venta.Some? && r.cart == []
    ensures var v := r.venta.value;
            v.estado == EstadoVenta.PAGADA && v.usuarioId == user && v.metodoPago == metodo &&
            v.total == t.total && v.subtotal == t.subtotal && v.ivaValor == t.ivaTotal &&
            v.descuentoValor == t.descuentoValor &&
            |v.items| == |cart| && (forall i :: 0 <= i < |cart| ==> v.items[i] == cart[i].item) &&
            (v.clienteId.None? <==> selectedCliente == "") &&
            (metodo == EFECTIVO ==> v.valorRecibido == Some(valorRecibido) &&
                                    v.cambio == Some(valorRecibido - t.total) && v.cambio.value >= 0.0) &&
            (metodo != EFECTIVO ==> v.valorRecibido == Some(t.total) && v.cambio == Some(0.0)) &&
            (r.db, v) == CreateVenta(db, v.(id := "", numeroVenta := "", createdAt := 0), id, now)
  {
    var data := Venta("", "", if selectedCliente == "" then None else Some(selectedCliente), user, now,
                      Map(cart, ItemOf), t.subtotal, descuentoPorcentaje, t.descuentoValor, t.ivaTotal,
                      t.total, metodo,
                      Some(if metodo == EFECTIVO then valorRecibido else t.total),
                      Some(if metodo == EFECTIVO then valorRecibido - t.total else 0.0),
                      EstadoVenta.PAGADA, None, 0, None, None, None);
    var (db', v) := CreateVenta(db, data, id, now);
    Checkout(db', [], Some(v), None)
  }

  /** The product search of the page: nothing for an empty query, else the
      first ten active matches. */
  function PosSearch(db: Db, q: string): (r: seq<Producto>)
    ensures q == "" ==> r == []
    ensures |r| <= 10
    ensures q != "" ==> |r| <= |SearchProductos(db, q)| && r == SearchProductos(db, q)[..|r|]
    ensures q != "" && |SearchProductos(db, q)| <= 10 ==> r == SearchProductos(db, q)
  {
    if q == "" then []
    else
      var all := SearchProductos(db, q);
      if |all| <= 10 then all else all[..10]
  }
}

=== FILE: products.dfy ===
/** The products page: saving a product behind `productos.write` and the
    price rule, the automatic SKU of a new product, the stock badge and the
    text filter over all products. */
module Products {
  import opened Wrappers
  import opened Seqs
  import opened Text
  import opened Entities
  import opened Database
  import opened Auth
  import Inventory

  /** The product form; the optional text fields are plain strings here,
      empty when left blank. */
  datatype ProductoForm = ProductoForm(
    sku: string,
    nombre: string,
    descripcion: string,
    categoriaId: string,
    marcaId: string,
    proveedorId: string,
    precioCompra: real,
    precioVenta: real,
    stockActual: int,
    stockMinimo: int,
    aplicaIva: bool,
    porcentajeIva: real,
    activo: bool)

  /** The form as a patch: every field is written. */
  function PatchOf(f: ProductoForm): (r: ProductoPatch)
    ensures r.sku == Some(f.sku) && r.precioCompra == Some(f.precioCompra) && r.precioVenta == Some(f.precioVenta)
    ensures r.nombre == Some(f.nombre) && r.descripcion == Some(Some(f.descripcion))
    ensures r.categoriaId == Some(f.categoriaId) && r.marcaId == Some(f.marcaId)
    ensures r.proveedorId == Some(Some(f.proveedorId))
    ensures r.stockActual == Some(f.stockActual) && r.stockMinimo == Some(f.stockMinimo)
    ensures r.aplicaIva == Some(f.aplicaIva) && r.porcentajeIva == Some(f.porcentajeIva) && r.activo == Some(f.activo)
  {
    ProductoPatch(Some(f.sku), Some(f.nombre), Some(Some(f.descripcion)), Some(f.categoriaId), Some(f.marcaId),
                  Some(Some(f.proveedorId)), Some(f.precioCompra), Some(f.precioVenta), Some(f.stockActual),
                  Some(f.stockMinimo), Some(f.aplicaIva), Some(f.porcentajeIva), Some(f.activo))
  }

  /** The form as a new record with the given SKU (id and creation time
      are set by the store). */
  function ProductoOf(f: ProductoForm, sku: string): (r: Producto)
    ensures r.sku == sku && r.precioCompra == f.precioCompra && r.precioVenta == f.precioVenta
  {
    Producto("", sku, f.nombre, Some(f.descripcion), f.categoriaId, f.marcaId, Some(f.proveedorId),
             f.precioCompra, f.precioVenta, f.stockActual, f.stockMinimo, f.aplicaIva, f.porcentajeIva,
             f.activo, 0)
  }

  /** Editing a product with the form leaves it exactly the product a
      create with the same form and SKU would build, under its own id and
      creation time. */
  lemma EditMatchesCreate(p: Producto, f: ProductoForm)
    ensures MergeProducto(p, PatchOf(f)) == ProductoOf(f, f.sku).(id := p.id, createdAt := p.createdAt)
  {
  }

  /** `name?.substring(0, 3).toUpperCase() || 'GEN'`. */
  function Prefix(nombre: Option<string>): (r: string)
    ensures 1 <= |r| <= 3
    ensures nombre.Some? && nombre.value != "" ==> r == Upper(Take(nombre.value, 3))
    ensures nombre.None? || nombre.value == "" ==> r == "GEN"
  {
    if nombre.Some? && Upper(Take(nombre.value, 3)) != "" then Upper(Take(nombre.value, 3)) else "GEN"
  }

  function CategoriaNombre(cs: seq<Categoria>, id: string): Option<string> {
    match Find(cs, (c: Categoria) => c.id == id)
    case Some(c) => Some(c.nombre)
    case None => None
  }

  function MarcaNombre(ms: seq<Marca>, id: string): Option<string> {
    match Find(ms, (m: Marca) => m.id == id)
    case Some(m) => Some(m.nombre)
    case None => None
  }

  /** `${categPrefix}-${marcaPrefix}-${String(count).padStart(3, '0')}`. */
  function Sku(categPrefix: string, marcaPrefix: string, count: nat): string {
    categPrefix + "-" + marcaPrefix + "-" + ZeroPad(count, 3)
  }

  /** The generated SKU: the two prefixes, then the counter zero-padded
      to three digits (so exactly three digits below 1000), which reads
      back as the counter. */
  lemma SkuSpec(categPrefix: string, marcaPrefix: string, count: nat)
    ensures var r := Sku(categPrefix, marcaPrefix, count);
            var n := |categPrefix| + |marcaPrefix| + 2;
            |r| >= n + 3 && r[..|categPrefix|] == categPrefix && r[|categPrefix|] == '-' &&
            r[|categPrefix| + 1..n - 1] == marcaPrefix && r[n - 1] == '-' &&
            r[n..] == ZeroPad(count, 3) && (|r| == n + 3 <==> count < 1000) &&
            AllDigits(r[n..]) && ParseDecimal(r[n..]) == count
  {
    var r := Sku(categPrefix, marcaPrefix, count);
    var n := |categPrefix| + |marcaPrefix| + 2;
    assert r[n..] == ZeroPad(count, 3);
    DecimalFits(count, 3);
    Pow10Values();
  }

  /** The counter 7 under prefixes "ELE" and "SAM" gives "ELE-SAM-007". */
  lemma SkuExample()
    ensures Sku("ELE", "SAM", 7) == "ELE-SAM-007"
  {
    assert Decimal(7) == "7";
  }

  /** With the same prefixes, different counters give different SKUs. */
  lemma SkuInjective(categPrefix: string, marcaPrefix: string, m: nat, n: nat)
    requires Sku(categPrefix, marcaPrefix, m) == Sku(categPrefix, marcaPrefix, n)
    ensures m == n
  {
    SkuSpec(categPrefix, marcaPrefix, m);
    SkuSpec(categPrefix, marcaPrefix, n);
  }

  const SIN_PERMISO := "No tienes permisos para crear/editar productos"
  const PRECIO_INVALIDO := "El precio de venta debe ser mayor al precio de compra"

  /** `handleSubmit`: permission, then the price rule; an edit merges the
      whole form (its SKU as typed); a create with an empty SKU generates
      one from the active category and brand and the product count. */
  function HandleSubmit(db: Db, user: User, form: ProductoForm, editing: Option<Producto>, id: string, now: int)
    : (r: Outcome<Db>)
    ensures !HasPermission(user, "productos.write") ==> r == Outcome(db, Some(SIN_PERMISO))
    ensures HasPermission(user, "productos.write") && form.precioVenta <= form.precioCompra ==>
              r == Outcome(db, Some(PRECIO_INVALIDO))
    ensures r.error.Some? ==> r.state == db
    ensures r.error.None? ==> HasPermission(user, "productos.write") && form.precioVenta > form.precioCompra
    ensures r.error.None? && editing.Some? ==> r.state == UpdateProducto(db, editing.value.id, PatchOf(form)).0
    ensures r.error.None? && editing.None? && form.sku != "" ==>
              r.state == CreateProducto(db, ProductoOf(form, form.sku), id, now).0
    ensures r.error.None? && editing.None? && form.sku == "" ==>
              var categorias := Filter(db.categorias, (c: Categoria) => c.activo);
              var marcas := Filter(db.marcas, (m: Marca) => m.activo);
              r.state == CreateProducto(db, ProductoOf(form, Sku(Prefix(CategoriaNombre(categorias, form.categoriaId)),
                                                                 Prefix(MarcaNombre(marcas, form.marcaId)),
                                                                 |db.productos| + 1)), id, now).0
  {
    if !HasPermission(user, "productos.write") then Outcome(db, Some(SIN_PERMISO))
    else if form.precioVenta <= form.precioCompra then Outcome(db, Some(PRECIO_INVALIDO))
    else if editing.Some? then Outcome(UpdateProducto(db, editing.value.id, PatchOf(form)).0, None)
    else
      var categorias := Filter(db.categorias, (c: Categoria) => c.activo);
      var marcas := Filter(db.marcas, (m: Marca) => m.activo);
      var sku := if form.sku != "" then form.sku
                 else Sku(Prefix(CategoriaNombre(categorias, form.categoriaId)),
                          Prefix(MarcaNombre(marcas, form.marcaId)), |db.productos| + 1);
      Outcome(CreateProducto(db, ProductoOf(form, sku), id, now).0, None)
  }

  /** Every product sells above its purchase price. */
  predicate PricesValid(ps: seq<Producto>) {
    forall i :: 0 <= i < |ps| ==> ps[i].precioVenta > ps[i].precioCompra
  }

  /** Saving keeps the price rule for the whole table, and a typed SKU is
      what gets stored: a create appends a product with it, and an edit
      writes it into the first product with the edited id. */
  lemma HandleSubmitKeepsPrices(db: Db, user: User, form: ProductoForm, editing: Option<Producto>, id: string, now: int)
    requires PricesValid(db.productos)
    ensures var r := HandleSubmit(db, user, form, editing, id, now);
            PricesValid(r.state.productos) &&
            (r.error.None? && editing.None? ==>
               |r.state.productos| == |db.productos| + 1 &&
               (form.sku != "" ==> r.state.productos[|db.productos|].sku == form.sku)) &&
            (r.error.None? && editing.Some? ==>
               forall j :: IsFirst(db.productos, ProductoIdIs(editing.value.id), j) ==>
                 r.state.productos[j].sku == form.sku)
  {
  }

  // ---------------------------------------------------------------
  // Badge and listing
  // ---------------------------------------------------------------

  /** `getStockStatus` of this page. */
  function GetStockStatus(p: Producto): Inventory.EstadoStock {
    if p.stockActual == 0 then Inventory.AGOTADO
    else if p.stockActual <= p.stockMinimo then Inventory.BAJO
    else Inventory.OK
  }

  function StockLabel(e: Inventory.EstadoStock): string {
    match e
    case AGOTADO => "Sin Stock"
    case BAJO => "Stock Bajo"
    case OK => "Stock OK"
  }

  /** Both pages split the stock line at the same thresholds; only the
      empty-stock label differs. */
  lemma SameThresholdsAsInventory(p: Producto)
    ensures GetStockStatus(p) == Inventory.GetStockStatus(p)
    ensures StockLabel(GetStockStatus(p)) == Inventory.StockLabel(Inventory.GetStockStatus(p)) <==>
            p.stockActual != 0
  {
  }

  predicate Matches(p: Producto, q: string) {
    Contains(Lower(p.nombre), Lower(q)) || Contains(Lower(p.sku), Lower(q)) ||
    (p.descripcion.Some? && Contains(Lower(p.descripcion.value), Lower(q)))
  }

  /** `filterProducts`: inactive products are listed too. */
  function FilterProducts(ps: seq<Producto>, q: string): (r: seq<Producto>)
    ensures q == "" ==> r == ps
    ensures forall i :: 0 <= i < |r| ==> r[i] in ps && (q == "" || Matches(r[i], q))
    ensures forall j :: 0 <= j < |ps| && (q == "" || Matches(ps[j], q)) ==> ps[j] in r
  {
    if q == "" then ps
    else
      var m := (p: Producto) => Matches(p, q);
      FilterKeeps(ps, m);
      Filter(ps, m)
  }
}

=== FILE: purchase_invoices.dfy ===
/** The purchase-invoice form: the product lines typed in by hand, their
    totals with 19% IVA, and the checks run before the form is sent to the
    backend processor. */
module PurchaseInvoices {
  import opened Wrappers
  import opened Seqs

  /** One product line; quantities are parsed as integers and prices as
      decimals, a blank field giving 0. */
  datatype Linea = Linea(referencia: string, nombre: string, cantidad: int, precioUnitario: real, total: real)

  datatype ProveedorDatos = ProveedorDatos(nit: string, razonSocial: string, email: string, telefono: string,
                                           direccion: string, ciudad: string)

  datatype FacturaDatos = FacturaDatos(numero: string, fecha: string, cufe: string, fechaAceptacion: string,
                                       firmaDigital: string)

  datatype Totales = Totales(subtotal: real, iva: real, total: real)

  datatype InvoiceForm = InvoiceForm(proveedor: ProveedorDatos, factura: FacturaDatos, productos: seq<Linea>,
                                     totales: Totales)

  /** The line `addProduct` appends. */
  const LINEA_NUEVA := Linea("", "", 1, 0.0, 0.0)

  /** `addProduct`: one blank line at the end. */
  function AddProduct(ls: seq<Linea>): (r: seq<Linea>)
    ensures |r| == |ls| + 1 && r[..|ls|] == ls
    ensures r[|ls|].cantidad == 1 && r[|ls|].precioUnitario == 0.0 && r[|ls|].total == 0.0
    ensures r[|ls|].referencia == "" && r[|ls|].nombre == ""
  {
    ls + [LINEA_NUEVA]
  }

  /** `removeProduct`: the line at `index` goes, the others keep their
      order; an index past the end removes nothing. */
  function RemoveProduct(ls: seq<Linea>, index: nat): (r: seq<Linea>)
    ensures index < |ls| ==> |r| == |ls| - 1
    ensures index >= |ls| ==> r == ls
    ensures forall j :: 0 <= j < index && j < |ls| ==> r[j] == ls[j]
    ensures forall j :: index < j < |ls| ==> r[j - 1] == ls[j]
  {
    if index < |ls| then ls[..index] + ls[index + 1..] else ls
  }

  /** A field edit from the line table. */
  datatype Campo = Referencia(s: string) | Nombre(s: string) | Cantidad(n: int) | PrecioUnitario(x: real)

  function SetCampo(l: Linea, c: Campo): Linea {
    match c
    case Referencia(s) => l.(referencia := s)
    case Nombre(s) => l.(nombre := s)
    case Cantidad(n) => l.(cantidad := n)
    case PrecioUnitario(x) => l.(precioUnitario := x)
  }

  /** `updateProduct`: the edited field takes its value; a quantity or
      price edit recomputes the line total, any other edit leaves it. */
  function UpdateProduct(ls: seq<Linea>, index: nat, c: Campo): (r: seq<Linea>)
    requires index < |ls|
    ensures |r| == |ls| && forall j :: 0 <= j < |ls| && j != index ==> r[j] == ls[j]
    ensures r[index].referencia == (if c.Referencia? then c.s else ls[index].referencia)
    ensures r[index].nombre == (if c.Nombre? then c.s else ls[index].nombre)
    ensures r[index].cantidad == (if c.Cantidad? then c.n else ls[index].cantidad)
    ensures r[index].precioUnitario == (if c.PrecioUnitario? then c.x else ls[index].precioUnitario)
    ensures c.Cantidad? || c.PrecioUnitario? ==> r[index].total == r[index].cantidad as real * r[index].precioUnitario
    ensures c.Referencia? || c.Nombre? ==> r[index].total == ls[index].total
  {
    var l := SetCampo(ls[index], c);
    var l' := if c.Cantidad? || c.PrecioUnitario? then l.(total := l.cantidad as real * l.precioUnitario) else l;
    Replace(ls, index, l')
  }

  function TotalDe(l: Linea): real {
    l.total
  }

  /** `calculateTotals`: the lines' totals, 19% IVA on them, and their sum. */
  function CalculateTotals(ls: seq<Linea>): (r: Totales)
    ensures r.subtotal == Sum(ls, TotalDe)
    ensures 100.0 * r.iva == 19.0 * r.subtotal
    ensures r.total == r.subtotal + r.iva
  {
    var subtotal := Sum(ls, TotalDe);
    Totales(subtotal, subtotal * 0.19, subtotal + subtotal * 0.19)
  }

  /** Every line's total is its quantity times its price. */
  predicate Consistent(ls: seq<Linea>) {
    forall i :: 0 <= i < |ls| ==> ls[i].total == ls[i].cantidad as real * ls[i].precioUnitario
  }

  /** A fresh line is consistent: one unit at price 0 totals 0. */
  lemma AddKeepsConsistent(ls: seq<Linea>)
    requires Consistent(ls)
    ensures Consistent(AddProduct(ls))
  {
    var r := AddProduct(ls);
    forall j | 0 <= j < |r| ensures r[j].total == r[j].cantidad as real * r[j].precioUnitario {
      if j < |ls| {
        assert r[j] == ls[j];
      }
    }
  }

  lemma RemoveKeepsConsistent(ls: seq<Linea>, index: nat)
    requires Consistent(ls)
    ensures Consistent(RemoveProduct(ls, index))
  {
    var r := RemoveProduct(ls, index);
    forall j | 0 <= j < |r| ensures r[j].total == r[j].cantidad as real * r[j].precioUnitario {
      if index < |ls| && j >= index {
        assert r[j] == ls[j + 1];
      } else {
        assert r[j] == ls[j];
      }
    }
  }

  /** An edit of any field keeps the line total equal to quantity times
      price: a quantity or price edit recomputes it, a text edit touches
      neither factor. */
  lemma UpdateKeepsConsistent(ls: seq<Linea>, index: nat, c: Campo)
    requires Consistent(ls) && index < |ls|
    ensures Consistent(UpdateProduct(ls, index, c))
  {
    var r := UpdateProduct(ls, index, c);
    forall j | 0 <= j < |r| ensures r[j].total == r[j].cantidad as real * r[j].precioUnitario {
      if j != index {
        assert r[j] == ls[j];
      }
    }
  }

  /** A new blank line adds nothing to the totals. */
  lemma AddProductKeepsTotals(ls: seq<Linea>)
    ensures CalculateTotals(AddProduct(ls)) == CalculateTotals(ls)
  {
    SumAppend(ls, [LINEA_NUEVA], TotalDe);
  }

  /** Removing a line takes its total out of the subtotal. */
  lemma RemoveProductTotals(ls: seq<Linea>, index: nat)
    requires index < |ls|
    ensures CalculateTotals(RemoveProduct(ls, index)).subtotal == CalculateTotals(ls).subtotal - ls[index].total
  {
    assert ls == ls[..index] + [ls[index]] + ls[index + 1..];
    SumAppend(ls[..index] + [ls[index]], ls[index + 1..], TotalDe);
    SumAppend(ls[..index], [ls[index]], TotalDe);
    SumAppend(ls[..index], ls[index + 1..], TotalDe);
  }

  const SIN_PROVEEDOR := "Por favor completa los datos del proveedor"
  const SIN_FACTURA := "Por favor completa los datos de la factura"
  const SIN_PRODUCTOS := "Por favor agrega al menos un producto"
  const PRODUCTO_INCOMPLETO := "Por favor completa todos los campos de los productos"

  /** A line the processor can take: a reference, a name, and a positive
      quantity and price. */
  predicate LineaCompleta(l: Linea) {
    l.referencia != "" && l.nombre != "" && l.cantidad > 0 && l.precioUnitario > 0.0
  }

  /** The checks of `handleProcessInvoice`, in order; `None` means the form
      is sent. */
  function ValidateInvoice(f: InvoiceForm): (r: Option<string>)
    ensures r.None? <==> f.proveedor.nit != "" && f.proveedor.razonSocial != "" &&
                         f.factura.numero != "" && f.factura.fecha != "" &&
                         |f.productos| > 0 && forall i :: 0 <= i < |f.productos| ==> LineaCompleta(f.productos[i])
    ensures f.proveedor.nit == "" || f.proveedor.razonSocial == "" ==> r == Some(SIN_PROVEEDOR)
    ensures f.proveedor.nit != "" && f.proveedor.razonSocial != "" && (f.factura.numero == "" || f.factura.fecha == "")
            ==> r == Some(SIN_FACTURA)
    ensures r.Some? ==> r.value in {SIN_PROVEEDOR, SIN_FACTURA, SIN_PRODUCTOS, PRODUCTO_INCOMPLETO}
  {
    if f.proveedor.nit == "" || f.proveedor.razonSocial == "" then Some(SIN_PROVEEDOR)
    else if f.factura.numero == "" || f.factura.fecha == "" then Some(SIN_FACTURA)
    else if |f.productos| == 0 then Some(SIN_PRODUCTOS)
    else if Find(f.productos, (l: Linea) => !LineaCompleta(l)).Some? then Some(PRODUCTO_INCOMPLETO)
    else None
  }

  /** A form fresh from `addProduct` cannot be sent: its new line has no
      reference, name or price. */
  lemma BlankLineBlocksSubmit(f: InvoiceForm)
    ensures ValidateInvoice(f.(productos := AddProduct(f.productos))).Some?
  {
    var ls := AddProduct(f.productos);
    assert !LineaCompleta(ls[|f.productos|]);
  }
}

=== FILE: reports.dfy ===
/** The reports page: paid sales in a date range, grouped by day, by
    product and by client, and the general metrics. Dates are day numbers
    (`DayOf` of a timestamp): comparing the `YYYY-MM-DD` prefixes of ISO
    timestamps is comparing those numbers. */
module Reports {
  import opened Wrappers
  import opened Seqs
  import opened Entities
  import opened Database
  import opened Grouping
  import Sorting

  /** `loadData` keeps only PAGADA sales; deleted sales are not excluded. */
  predicate Pagada(v: Venta) {
    v.estado == EstadoVenta.PAGADA
  }

  function VentasPagadas(db: Db): (r: seq<Venta>)
    ensures forall i :: 0 <= i < |r| ==> r[i] in db.ventas && Pagada(r[i])
    ensures forall j :: 0 <= j < |db.ventas| && Pagada(db.ventas[j]) ==> db.ventas[j] in r
  {
    FilterKeeps(db.ventas, Pagada);
    Filter(db.ventas, Pagada)
  }

  function DiaDe(v: Venta): int {
    DayOf(v.createdAt)
  }

  function TotalDe(v: Venta): real {
    v.total
  }

  /** The date test; a missing bound switches it off. */
  predicate EnRango(v: Venta, inicio: Option<int>, fin: Option<int>) {
    inicio.None? || fin.None? || inicio.value <= DiaDe(v) <= fin.value
  }

  /** `filtrarVentasPorFecha`: both bounds inclusive. */
  function FiltrarVentasPorFecha(vs: seq<Venta>, inicio: Option<int>, fin: Option<int>): (r: seq<Venta>)
    ensures inicio.None? || fin.None? ==> r == vs
    ensures forall i :: 0 <= i < |r| ==> r[i] in vs && EnRango(r[i], inicio, fin)
    ensures forall j :: 0 <= j < |vs| && EnRango(vs[j], inicio, fin) ==> vs[j] in r
  {
    if inicio.None? || fin.None? then vs
    else
      var dentro := (v: Venta) => inicio.value <= DiaDe(v) <= fin.value;
      FilterKeeps(vs, dentro);
      Filter(vs, dentro)
  }

  // ---------------------------------------------------------------
  // Sales by day
  // ---------------------------------------------------------------

  datatype VentasReporte = VentasReporte(fecha: int, total: real, cantidad: nat, promedio: real)

  predicate Ascending(ds: seq<int>) {
    forall i, j :: 0 <= i < j < |ds| ==> ds[i] < ds[j]
  }

  /** Puts a day into an ascending list of days, once. */
  function InsertDay(d: int, ds: seq<int>): (r: seq<int>)
    requires Ascending(ds)
    ensures Ascending(r)
    ensures forall e :: e in r <==> e == d || e in ds
  {
    if |ds| == 0 || d < ds[0] then [d] + ds
    else if d == ds[0] then ds
    else
      var rest := InsertDay(d, ds[1..]);
      assert forall e :: e in ds[1..] ==> ds[0] < e;
      assert forall k :: 0 <= k < |rest| ==> ds[0] < rest[k] by {
        forall k | 0 <= k < |rest| ensures ds[0] < rest[k] {
          assert rest[k] in rest;
        }
      }
      [ds[0]] + rest
  }

  /** The days on which the sales fall, ascending and each once. */
  function Dias(vs: seq<Venta>): (r: seq<int>)
    ensures Ascending(r)
    ensures forall i :: 0 <= i < |vs| ==> DiaDe(vs[i]) in r
    ensures forall d :: d in r ==> exists i :: 0 <= i < |vs| && DiaDe(vs[i]) == d
  {
    if |vs| == 0 then []
    else
      var ds := Dias(vs[1..]);
      DiasStep(vs, ds);
      InsertDay(DiaDe(vs[0]), ds)
  }

  lemma DiasStep(vs: seq<Venta>, ds: seq<int>)
    requires |vs| > 0
    requires forall i :: 0 <= i < |vs[1..]| ==> DiaDe(vs[1..][i]) in ds
    requires forall d :: d in ds ==> exists i :: 0 <= i < |vs[1..]| && DiaDe(vs[1..][i]) == d
    ensures forall i :: 0 <= i < |vs| ==> DiaDe(vs[i]) in ds || i == 0
    ensures forall d :: d in ds ==> exists i :: 0 <= i < |vs| && DiaDe(vs[i]) == d
  {
    forall i | 0 < i < |vs| ensures DiaDe(vs[i]) in ds {
      assert vs[i] == vs[1..][i - 1];
    }
    forall d | d in ds ensures exists i :: 0 <= i < |vs| && DiaDe(vs[i]) == d {
      var i :| 0 <= i < |vs[1..]| && DiaDe(vs[1..][i]) == d;
      assert DiaDe(vs[i + 1]) == d;
    }
  }

  /** `total / n`, and 0 for no terms. */
  function Mean(total: real, n: nat): (r: real)
    ensures n > 0 ==> r * n as real == total
    ensures n == 0 ==> r == 0.0
  {
    if n > 0 then total / n as real else 0.0
  }

  /** `part / whole * 100`, and 0 when `whole` is not positive. */
  function Percent(part: real, whole: real): (r: real)
    ensures whole > 0.0 ==> r * whole == part * 100.0
    ensures whole <= 0.0 ==> r == 0.0
  {
    if whole > 0.0 then part / whole * 100.0 else 0.0
  }

  /** The row of one day: its total, its number of sales and their mean. */
  function FilaDelDia(vs: seq<Venta>, d: int): VentasReporte {
    var del := Members(vs, DiaDe, d);
    var total := Sum(del, TotalDe);
    VentasReporte(d, total, |del|, Mean(total, |del|))
  }

  function FilasDias(vs: seq<Venta>, ds: seq<int>): (r: seq<VentasReporte>)
    ensures |r| == |ds|
    ensures forall k :: 0 <= k < |ds| ==> r[k] == FilaDelDia(vs, ds[k])
  {
    if |ds| == 0 then [] else [FilaDelDia(vs, ds[0])] + FilasDias(vs, ds[1..])
  }

  /** `generarReporteVentas`: the day rows in ascending date order, so no
      day has two rows. */
  function GenerarReporteVentas(vs: seq<Venta>, inicio: Option<int>, fin: Option<int>): (r: seq<VentasReporte>)
    ensures forall i, j :: 0 <= i < j < |r| ==> r[i].fecha < r[j].fecha
  {
    var f := FiltrarVentasPorFecha(vs, inicio, fin);
    FilasDias(f, Dias(f))
  }

  /** Some row of the report is the row of day `d`. */
  predicate TieneDia(r: seq<VentasReporte>, d: int) {
    exists k :: 0 <= k < |r| && r[k].fecha == d
  }

  /** A day row of sales `f`: a day on which one of them falls, the number
      and the sum of that day's sales, at least one, and their mean (which
      times the count gives the total, by `Mean`). */
  predicate FilaDiaValida(row: VentasReporte, f: seq<Venta>) {
    var del := Members(f, DiaDe, row.fecha);
    (exists i :: 0 <= i < |f| && DiaDe(f[i]) == row.fecha) &&
    row.cantidad == |del| && row.cantidad >= 1 && row.total == Sum(del, TotalDe) &&
    row.promedio == Mean(row.total, row.cantidad)
  }

  /** Every sale in range has the row of its day. */
  lemma ReporteVentasCovers(vs: seq<Venta>, inicio: Option<int>, fin: Option<int>, v: Venta)
    requires v in FiltrarVentasPorFecha(vs, inicio, fin)
    ensures TieneDia(GenerarReporteVentas(vs, inicio, fin), DiaDe(v))
  {
    var f := FiltrarVentasPorFecha(vs, inicio, fin);
    var ds := Dias(f);
    var r := GenerarReporteVentas(vs, inicio, fin);
    var i :| 0 <= i < |f| && f[i] == v;
    var k :| 0 <= k < |ds| && ds[k] == DiaDe(f[i]);
    assert r[k].fecha == ds[k];
  }

  /** The row of a day with a sale is a valid day row. */
  lemma FilaDelDiaValida(f: seq<Venta>, i: nat)
    requires i < |f|
    ensures FilaDiaValida(FilaDelDia(f, DiaDe(f[i])), f)
  {
    var del := Members(f, DiaDe, DiaDe(f[i]));
    assert f[i] in del;
    var row := FilaDelDia(f, DiaDe(f[i]));
    assert row.fecha == DiaDe(f[i]) && row.cantidad == |del| >= 1;
  }

  /** Every row is the row of a day with sales in range. */
  lemma ReporteVentasRow(vs: seq<Venta>, inicio: Option<int>, fin: Option<int>, k: nat)
    requires k < |GenerarReporteVentas(vs, inicio, fin)|
    ensures FilaDiaValida(GenerarReporteVentas(vs, inicio, fin)[k], FiltrarVentasPorFecha(vs, inicio, fin))
  {
    var f := FiltrarVentasPorFecha(vs, inicio, fin);
    var ds := Dias(f);
    assert ds[k] in ds;
    var i :| 0 <= i < |f| && DiaDe(f[i]) == ds[k];
    FilaDelDiaValida(f, i);
  }

  function FilaTotal(r: VentasReporte): real {
    r.total
  }

  function FilaCantidad(r: VentasReporte): int {
    r.cantidad
  }

  lemma {:induction false} FilasDiasSums(vs: seq<Venta>, ds: seq<int>)
    ensures Sum(FilasDias(vs, ds), FilaTotal) == GroupSum(vs, DiaDe, ds, TotalDe)
    ensures SumInt(FilasDias(vs, ds), FilaCantidad) == GroupCount(vs, DiaDe, ds)
  {
    if |ds| > 0 {
      FilasDiasSums(vs, ds[1..]);
      assert FilasDias(vs, ds)[1..] == FilasDias(vs, ds[1..]);
    }
  }

  // ---------------------------------------------------------------
  // General metrics
  // ---------------------------------------------------------------

  datatype MetricasGenerales = MetricasGenerales(
    totalVentas: real,
    totalTransacciones: nat,
    ticketPromedio: real,
    utilidadBruta: real,
    margenUtilidad: real,
    totalCosto: real)

  /** The cost of a line: purchase price times quantity, 0 for an unknown
      product. */
  function CostoItem(productos: seq<Producto>, it: VentaItem): real {
    match Find(productos, ProductoIdIs(it.productoId))
    case Some(p) => p.precioCompra * it.cantidad as real
    case None => 0.0
  }

  function CostoItems(productos: seq<Producto>, items: seq<VentaItem>): real {
    if |items| == 0 then 0.0 else CostoItem(productos, items[0]) + CostoItems(productos, items[1..])
  }

  /** The nested `reduce` over sales and their lines. */
  function CostoVentas(productos: seq<Producto>, vs: seq<Venta>): real {
    if |vs| == 0 then 0.0 else CostoItems(productos, vs[0].items) + CostoVentas(productos, vs[1..])
  }

  /** The metrics from the range's total, sale count and cost: the
      ticket is the mean sale, the gross profit what the cost leaves of the
      total, and the margin that profit in percent of the total. */
  function Metricas(total: real, n: nat, costo: real): (r: MetricasGenerales)
    ensures r.totalVentas == total && r.totalTransacciones == n && r.totalCosto == costo
    ensures n > 0 ==> r.ticketPromedio * n as real == total
    ensures n == 0 ==> r.ticketPromedio == 0.0
    ensures r.utilidadBruta + costo == total
    ensures total > 0.0 ==> r.margenUtilidad * total == r.utilidadBruta * 100.0
    ensures total <= 0.0 ==> r.margenUtilidad == 0.0
  {
    var utilidad := total - costo;
    MetricasGenerales(total, n, Mean(total, n), utilidad, Percent(utilidad, total), costo)
  }

  /** `calcularMetricasGenerales`: the metrics of the sales in range, with
      no sales giving zero sales and a zero ticket. */
  function CalcularMetricasGenerales(vs: seq<Venta>, productos: seq<Producto>, inicio: Option<int>, fin: Option<int>)
    : (r: MetricasGenerales)
    ensures var f := FiltrarVentasPorFecha(vs, inicio, fin);
            r == Metricas(Sum(f, TotalDe), |f|, CostoVentas(productos, f))
    ensures r.totalTransacciones == 0 ==> r.totalVentas == 0.0 && r.ticketPromedio == 0.0
  {
    var f := FiltrarVentasPorFecha(vs, inicio, fin);
    Metricas(Sum(f, TotalDe), |f|, CostoVentas(productos, f))
  }

  /** The day rows add up to the general metrics over the same range: the
      totals to `totalVentas` and the counts to `totalTransacciones`. */
  lemma DailyRowsAddUp(vs: seq<Venta>, productos: seq<Producto>, inicio: Option<int>, fin: Option<int>)
    ensures var m := CalcularMetricasGenerales(vs, productos, inicio, fin);
            var r := GenerarReporteVentas(vs, inicio, fin);
            Sum(r, FilaTotal) == m.totalVentas && SumInt(r, FilaCantidad) == m.totalTransacciones
  {
    var f := FiltrarVentasPorFecha(vs, inicio, fin);
    var ds := Dias(f);
    FilasDiasSums(f, ds);
    GroupPartition(f, DiaDe, ds, TotalDe);
  }

  /** All lines of the sales, in order. */
  function ItemsDe(vs: seq<Venta>): (r: seq<VentaItem>)
    ensures forall i, k :: 0 <= i < |vs| && 0 <= k < |vs[i].items| ==> vs[i].items[k] in r
    ensures forall m :: 0 <= m < |r| ==> exists i :: 0 <= i < |vs| && r[m] in vs[i].items
  {
    if |vs| == 0 then []
    else
      var rest := ItemsDe(vs[1..]);
      assert forall i, k :: 1 <= i < |vs| && 0 <= k < |vs[i].items| ==> vs[i].items[k] in rest by {
        forall i, k | 1 <= i < |vs| && 0 <= k < |vs[i].items| ensures vs[i].items[k] in rest {
          assert vs[i] == vs[1..][i - 1];
        }
      }
      assert forall m :: 0 <= m < |rest| ==> exists i :: 0 <= i < |vs| && rest[m] in vs[i].items by {
        forall m | 0 <= m < |rest| ensures exists i :: 0 <= i < |vs| && rest[m] in vs[i].items {
          var i :| 0 <= i < |vs[1..]| && rest[m] in vs[1..][i].items;
          assert vs[i + 1] == vs[1..][i];
        }
      }
      vs[0].items + rest
  }

  lemma {:induction false} CostoItemsAppend(productos: seq<Producto>, a: seq<VentaItem>, b: seq<VentaItem>)
    ensures CostoItems(productos, a + b) == CostoItems(productos, a) + CostoItems(productos, b)
  {
    if |a| > 0 {
      CostoItemsAppend(productos, a[1..], b);
      assert (a + b)[0] == a[0];
      assert (a + b)[1..] == a[1..] + b;
    } else {
      assert a + b == b;
    }
  }

  /** The cost summed sale by sale is the cost of all their lines taken
      together. */
  lemma {:induction false} CostoVentasFlat(productos: seq<Producto>, vs: seq<Venta>)
    ensures CostoVentas(productos, vs) == CostoItems(productos, ItemsDe(vs))
  {
    if |vs| > 0 {
      CostoVentasFlat(productos, vs[1..]);
      CostoItemsAppend(productos, vs[0].items, ItemsDe(vs[1..]));
    }
  }

  // ---------------------------------------------------------------
  // Products sold
  // ---------------------------------------------------------------

  datatype ProductoVendido = ProductoVendido(producto: Producto, cantidadVendida: int, totalVentas: real, margen: real)

  function ProductoDe(it: VentaItem): string {
    it.productoId
  }

  function CantidadItem(it: VentaItem): int {
    it.cantidad
  }

  function TotalItem(it: VentaItem): real {
    it.totalItem
  }

  /** The margin in percent of the sale price, 0 without a sale price. */
  function Margen(p: Producto): (r: real)
    ensures p.precioVenta > 0.0 ==> r * p.precioVenta == (p.precioVenta - p.precioCompra) * 100.0
    ensures p.precioVenta <= 0.0 ==> r == 0.0
  {
    Percent(p.precioVenta - p.precioCompra, p.precioVenta)
  }

  /** A product's row: the quantity and amount of all its lines. */
  function FilaProducto(p: Producto, items: seq<VentaItem>): ProductoVendido {
    var ms := Members(items, ProductoDe, p.id);
    ProductoVendido(p, SumInt(ms, CantidadItem), Sum(ms, TotalItem), Margen(p))
  }

  /** One row per key whose product is in the catalogue; the others are
      dropped. */
  function FilasProductos(productos: seq<Producto>, items: seq<VentaItem>, ks: seq<string>): seq<ProductoVendido> {
    if |ks| == 0 then []
    else
      var rest := FilasProductos(productos, items, ks[1..]);
      match Find(productos, ProductoIdIs(ks[0]))
      case None => rest
      case Some(p) => [FilaProducto(p, items)] + rest
  }

  /** Every row is the row of a catalogue product whose id is a key. */
  lemma {:induction false} FilasProductosSound(productos: seq<Producto>, items: seq<VentaItem>, ks: seq<string>, k: nat)
    requires k < |FilasProductos(productos, items, ks)|
    ensures var r := FilasProductos(productos, items, ks)[k];
            r.producto in productos && r.producto.id in ks && r == FilaProducto(r.producto, items)
  {
    var rest := FilasProductos(productos, items, ks[1..]);
    match Find(productos, ProductoIdIs(ks[0]))
    case None =>
      FilasProductosSound(productos, items, ks[1..], k);
    case Some(p) =>
      if k > 0 {
        FilasProductosSound(productos, items, ks[1..], k - 1);
      }
  }

  /** Some row of `rows` is the row of product `p`. */
  predicate ListsProducto(rows: seq<ProductoVendido>, p: Producto) {
    exists k :: 0 <= k < |rows| && rows[k].producto == p
  }

  /** Every key whose product is in the catalogue has that product's row. */
  lemma {:induction false} FilasProductosComplete(productos: seq<Producto>, items: seq<VentaItem>, ks: seq<string>,
                                                  id: string)
    requires id in ks && Find(productos, ProductoIdIs(id)).Some?
    ensures ListsProducto(FilasProductos(productos, items, ks), Find(productos, ProductoIdIs(id)).value)
  {
    assert ks == [ks[0]] + ks[1..];
    var target := Find(productos, ProductoIdIs(id)).value;
    var rest := FilasProductos(productos, items, ks[1..]);
    match Find(productos, ProductoIdIs(ks[0]))
    case None =>
      assert id in ks[1..];
      FilasProductosComplete(productos, items, ks[1..], id);
    case Some(p) =>
      if id != ks[0] {
        assert id in ks[1..];
        FilasProductosComplete(productos, items, ks[1..], id);
      }
      ListsProductoCons(FilaProducto(p, items), rest, target);
  }

  lemma ListsProductoCons(row: ProductoVendido, rest: seq<ProductoVendido>, p: Producto)
    requires row.producto == p || ListsProducto(rest, p)
    ensures ListsProducto([row] + rest, p)
  {
    if row.producto != p {
      var k :| 0 <= k < |rest| && rest[k].producto == p;
      assert ([row] + rest)[k + 1] == rest[k];
    } else {
      assert ([row] + rest)[0] == row;
    }
  }

  function VendidaKey(r: ProductoVendido): real {
    r.cantidadVendida as real
  }

  /** `generarReporteProductos`. */
  function GenerarReporteProductos(vs: seq<Venta>, productos: seq<Producto>, inicio: Option<int>, fin: Option<int>)
    : (r: seq<ProductoVendido>)
    ensures Sorting.SortedDesc(r, VendidaKey)
    ensures DistinctBy(r, FilaProductoId)
  {
    var items := ItemsDe(FiltrarVentasPorFecha(vs, inicio, fin));
    var filas := FilasProductos(productos, items, Keys(items, ProductoDe));
    FilasProductosDistinct(productos, items, Keys(items, ProductoDe));
    Sorting.SortDescDistinctBy(filas, VendidaKey, FilaProductoId);
    Sorting.SortDesc(filas, VendidaKey)
  }

  function FilaProductoId(r: ProductoVendido): string {
    r.producto.id
  }

  /** Distinct keys give one row per product. */
  lemma {:induction false} FilasProductosDistinct(productos: seq<Producto>, items: seq<VentaItem>, ks: seq<string>)
    requires Distinct(ks)
    ensures DistinctBy(FilasProductos(productos, items, ks), FilaProductoId)
  {
    if |ks| > 0 {
      var rest := FilasProductos(productos, items, ks[1..]);
      DistinctTail(ks);
      FilasProductosDistinct(productos, items, ks[1..]);
      match Find(productos, ProductoIdIs(ks[0]))
      case None =>
      case Some(p) =>
        forall y | y in rest ensures FilaProductoId(FilaProducto(p, items)) != FilaProductoId(y) {
          var m :| 0 <= m < |rest| && rest[m] == y;
          FilasProductosSound(productos, items, ks[1..], m);
          DistinctHead(ks, y.producto.id);
        }
        Sorting.ConsDistinctBy(FilaProducto(p, items), rest, FilaProductoId);
    }
  }

  /** A product row of lines `items`: a catalogue product some line sells,
      with the quantity and the amount of all its lines and its margin. */
  predicate FilaProductoValida(row: ProductoVendido, productos: seq<Producto>, items: seq<VentaItem>) {
    var ms := Members(items, ProductoDe, row.producto.id);
    row.producto in productos &&
    (exists m :: 0 <= m < |items| && items[m].productoId == row.producto.id) &&
    row.cantidadVendida == SumInt(ms, CantidadItem) && row.totalVentas == Sum(ms, TotalItem) &&
    row.margen == Margen(row.producto)
  }

  /** Every row is the row of a catalogue product sold in range. */
  lemma ReporteProductosRow(vs: seq<Venta>, productos: seq<Producto>, inicio: Option<int>, fin: Option<int>, k: nat)
    requires k < |GenerarReporteProductos(vs, productos, inicio, fin)|
    ensures FilaProductoValida(GenerarReporteProductos(vs, productos, inicio, fin)[k], productos,
                               ItemsDe(FiltrarVentasPorFecha(vs, inicio, fin)))
  {
    var items := ItemsDe(FiltrarVentasPorFecha(vs, inicio, fin));
    var ks := Keys(items, ProductoDe);
    var filas := FilasProductos(productos, items, ks);
    var r := GenerarReporteProductos(vs, productos, inicio, fin);
    assert r[k] in r;
    Sorting.SortDescMembers(filas, VendidaKey, r[k]);
    var j :| 0 <= j < |filas| && filas[j] == r[k];
    FilasProductosSound(productos, items, ks, j);
    var n :| 0 <= n < |ks| && ks[n] == r[k].producto.id;
    var m :| 0 <= m < |items| && ProductoDe(items[m]) == ks[n];
  }

  /** Every line in range whose product is in the catalogue shows up in
      that product's row. */
  lemma ReporteProductosComplete(vs: seq<Venta>, productos: seq<Producto>, inicio: Option<int>, fin: Option<int>,
                                 it: VentaItem)
    requires it in ItemsDe(FiltrarVentasPorFecha(vs, inicio, fin))
    requires Find(productos, ProductoIdIs(it.productoId)).Some?
    ensures ListsProducto(GenerarReporteProductos(vs, productos, inicio, fin),
                          Find(productos, ProductoIdIs(it.productoId)).value)
  {
    var items := ItemsDe(FiltrarVentasPorFecha(vs, inicio, fin));
    var ks := Keys(items, ProductoDe);
    var m :| 0 <= m < |items| && items[m] == it;
    assert ProductoDe(items[m]) in ks;
    FilasProductosComplete(productos, items, ks, it.productoId);
    ListsProductoSorted(FilasProductos(productos, items, ks), Find(productos, ProductoIdIs(it.productoId)).value);
  }

  lemma ListsProductoSorted(filas: seq<ProductoVendido>, p: Producto)
    requires ListsProducto(filas, p)
    ensures ListsProducto(Sorting.SortDesc(filas, VendidaKey), p)
  {
    var k :| 0 <= k < |filas| && filas[k].producto == p;
    Sorting.SortDescMembers(filas, VendidaKey, filas[k]);
    var r := Sorting.SortDesc(filas, VendidaKey);
    var j :| 0 <= j < |r| && r[j] == filas[k];
  }

  // ---------------------------------------------------------------
  // Clients
  // ---------------------------------------------------------------

  datatype ClienteReporte = ClienteReporte(cliente: Cliente, totalCompras: nat, totalGastado: real, ultimaCompra: int)

  /** `if (venta.cliente_id)`: an empty id counts as none. */
  predicate ConCliente(v: Venta) {
    v.clienteId.Some? && v.clienteId.value != ""
  }

  function ClienteDe(v: Venta): string {
    v.clienteId.GetOr("")
  }

  /** The running latest purchase of the `forEach`: the first sale sets it,
      a later one replaces it only when strictly later. */
  function UltimaCompra(vs: seq<Venta>): (r: Option<int>)
    ensures r.None? <==> |vs| == 0
    ensures r.Some? ==> (forall i :: 0 <= i < |vs| ==> vs[i].createdAt <= r.value) &&
                        exists i :: 0 <= i < |vs| && vs[i].createdAt == r.value
  {
    if |vs| == 0 then None
    else
      var u := UltimaCompra(vs[..|vs| - 1]);
      var c := vs[|vs| - 1].createdAt;
      assert forall i :: 0 <= i < |vs| - 1 ==> vs[i] == vs[..|vs| - 1][i];
      if u.None? || c > u.value then Some(c) else u
  }

  /** A client's row: the number of their sales, what they add up to, and
      the latest of their times. */
  function FilaCliente(c: Cliente, vs: seq<Venta>): ClienteReporte {
    var ms := Members(vs, ClienteDe, c.id);
    ClienteReporte(c, |ms|, Sum(ms, TotalDe), UltimaCompra(ms).GetOr(0))
  }

  function FilasClientes(clientes: seq<Cliente>, vs: seq<Venta>, ks: seq<string>): seq<ClienteReporte> {
    if |ks| == 0 then []
    else
      var rest := FilasClientes(clientes, vs, ks[1..]);
      match Find(clientes, ClienteIdIs(ks[0]))
      case None => rest
      case Some(c) => [FilaCliente(c, vs)] + rest
  }

  /** Every row is the row of a known client whose id is a key. */
  lemma {:induction false} FilasClientesSound(clientes: seq<Cliente>, vs: seq<Venta>, ks: seq<string>, k: nat)
    requires k < |FilasClientes(clientes, vs, ks)|
    ensures var r := FilasClientes(clientes, vs, ks)[k];
            r.cliente in clientes && r.cliente.id in ks && r == FilaCliente(r.cliente, vs)
  {
    match Find(clientes, ClienteIdIs(ks[0]))
    case None =>
      FilasClientesSound(clientes, vs, ks[1..], k);
    case Some(c) =>
      if k > 0 {
        FilasClientesSound(clientes, vs, ks[1..], k - 1);
      }
  }

  /** Some row of `rows` is the row of client `c`. */
  predicate ListsCliente(rows: seq<ClienteReporte>, c: Cliente) {
    exists k :: 0 <= k < |rows| && rows[k].cliente == c
  }

  /** Every key of a known client has that client's row. */
  lemma {:induction false} FilasClientesComplete(clientes: seq<Cliente>, vs: seq<Venta>, ks: seq<string>, id: string)
    requires id in ks && Find(clientes, ClienteIdIs(id)).Some?
    ensures ListsCliente(FilasClientes(clientes, vs, ks), Find(clientes, ClienteIdIs(id)).value)
  {
    assert ks == [ks[0]] + ks[1..];
    var target := Find(clientes, ClienteIdIs(id)).value;
    var rest := FilasClientes(clientes, vs, ks[1..]);
    match Find(clientes, ClienteIdIs(ks[0]))
    case None =>
      assert id in ks[1..];
      FilasClientesComplete(clientes, vs, ks[1..], id);
    case Some(p) =>
      if id == ks[0] {
        ListsClienteCons(FilaCliente(p, vs), rest, target);
      } else {
        assert id in ks[1..];
        FilasClientesComplete(clientes, vs, ks[1..], id);
        ListsClienteCons(FilaCliente(p, vs), rest, target);
      }
  }

  lemma ListsClienteCons(row: ClienteReporte, rest: seq<ClienteReporte>, c: Cliente)
    requires row.cliente == c || ListsCliente(rest, c)
    ensures ListsCliente([row] + rest, c)
  {
    if row.cliente != c {
      var k :| 0 <= k < |rest| && rest[k].cliente == c;
      assert ([row] + rest)[k + 1] == rest[k];
    } else {
      assert ([row] + rest)[0] == row;
    }
  }

  function GastadoKey(r: ClienteReporte): real {
    r.totalGastado
  }

  /** `generarReporteClientes`. */
  function GenerarReporteClientes(vs: seq<Venta>, clientes: seq<Cliente>, inicio: Option<int>, fin: Option<int>)
    : (r: seq<ClienteReporte>)
    ensures Sorting.SortedDesc(r, GastadoKey)
    ensures DistinctBy(r, FilaClienteId)
  {
    var conCliente := VentasConCliente(vs, inicio, fin);
    var filas := FilasClientes(clientes, conCliente, Keys(conCliente, ClienteDe));
    FilasClientesDistinct(clientes, conCliente, Keys(conCliente, ClienteDe));
    Sorting.SortDescDistinctBy(filas, GastadoKey, FilaClienteId);
    Sorting.SortDesc(filas, GastadoKey)
  }

  function FilaClienteId(r: ClienteReporte): string {
    r.cliente.id
  }

  /** Distinct keys give one row per client. */
  lemma {:induction false} FilasClientesDistinct(clientes: seq<Cliente>, vs: seq<Venta>, ks: seq<string>)
    requires Distinct(ks)
    ensures DistinctBy(FilasClientes(clientes, vs, ks), FilaClienteId)
  {
    if |ks| > 0 {
      var rest := FilasClientes(clientes, vs, ks[1..]);
      DistinctTail(ks);
      FilasClientesDistinct(clientes, vs, ks[1..]);
      match Find(clientes, ClienteIdIs(ks[0]))
      case None =>
      case Some(c) =>
        forall y | y in rest ensures FilaClienteId(FilaCliente(c, vs)) != FilaClienteId(y) {
          var m :| 0 <= m < |rest| && rest[m] == y;
          FilasClientesSound(clientes, vs, ks[1..], m);
          DistinctHead(ks, y.cliente.id);
        }
        Sorting.ConsDistinctBy(FilaCliente(c, vs), rest, FilaClienteId);
    }
  }

  /** A client row of sales `vs`: a known client with at least one of
      them, the number of those sales, what they add up to, and the latest
      of their times. */
  predicate FilaClienteValida(row: ClienteReporte, clientes: seq<Cliente>, vs: seq<Venta>) {
    var ms := Members(vs, ClienteDe, row.cliente.id);
    row.cliente in clientes && row.totalCompras == |ms| && row.totalCompras >= 1 &&
    row.totalGastado == Sum(ms, TotalDe) &&
    (forall i :: 0 <= i < |ms| ==> ms[i].createdAt <= row.ultimaCompra) &&
    (exists i :: 0 <= i < |ms| && ms[i].createdAt == row.ultimaCompra)
  }

  /** The sales the client report counts: those in range with a client. */
  function VentasConCliente(vs: seq<Venta>, inicio: Option<int>, fin: Option<int>): (r: seq<Venta>)
    ensures forall i :: 0 <= i < |r| ==> r[i] in FiltrarVentasPorFecha(vs, inicio, fin) && ConCliente(r[i])
    ensures forall v :: v in FiltrarVentasPorFecha(vs, inicio, fin) && ConCliente(v) ==> v in r
  {
    var f := FiltrarVentasPorFecha(vs, inicio, fin);
    assert forall v :: v in f ==> exists j :: 0 <= j < |f| && f[j] == v;
    FilterKeeps(f, ConCliente);
    Filter(f, ConCliente)
  }

  /** Every row is the row of a known client with sales in range; sales
      without a client count for no one. */
  lemma ReporteClientesRow(vs: seq<Venta>, clientes: seq<Cliente>, inicio: Option<int>, fin: Option<int>, k: nat)
    requires k < |GenerarReporteClientes(vs, clientes, inicio, fin)|
    ensures FilaClienteValida(GenerarReporteClientes(vs, clientes, inicio, fin)[k], clientes,
                              VentasConCliente(vs, inicio, fin))
  {
    var conCliente := VentasConCliente(vs, inicio, fin);
    var ks := Keys(conCliente, ClienteDe);
    var filas := FilasClientes(clientes, conCliente, ks);
    Sorting.SortDescIndex(filas, GastadoKey, k);
    var j :| 0 <= j < |filas| && filas[j] == Sorting.SortDesc(filas, GastadoKey)[k];
    FilasClientesSound(clientes, conCliente, ks, j);
    FilaDeClaveValida(filas[j], clientes, conCliente);
  }

  /** The row of a known client whose id is a key of the sales is a valid
      client row. */
  lemma FilaDeClaveValida(row: ClienteReporte, clientes: seq<Cliente>, vs: seq<Venta>)
    requires row.cliente in clientes && row.cliente.id in Keys(vs, ClienteDe) && row == FilaCliente(row.cliente, vs)
    ensures FilaClienteValida(row, clientes, vs)
  {
    var i :| 0 <= i < |vs| && ClienteDe(vs[i]) == row.cliente.id;
    assert vs[i] in Members(vs, ClienteDe, row.cliente.id);
  }

  /** Every known client with a sale in range has a row. */
  lemma ReporteClientesComplete(vs: seq<Venta>, clientes: seq<Cliente>, inicio: Option<int>, fin: Option<int>, v: Venta)
    requires v in FiltrarVentasPorFecha(vs, inicio, fin) && ConCliente(v)
    requires Find(clientes, ClienteIdIs(v.clienteId.value)).Some?
    ensures ListsCliente(GenerarReporteClientes(vs, clientes, inicio, fin),
                         Find(clientes, ClienteIdIs(v.clienteId.value)).value)
  {
    var conCliente := VentasConCliente(vs, inicio, fin);
    var ks := Keys(conCliente, ClienteDe);
    var m :| 0 <= m < |conCliente| && conCliente[m] == v;
    assert ClienteDe(conCliente[m]) in ks;
    FilasClientesComplete(clientes, conCliente, ks, v.clienteId.value);
    ListsClienteSorted(FilasClientes(clientes, conCliente, ks), Find(clientes, ClienteIdIs(v.clienteId.value)).value);
  }

  lemma ListsClienteSorted(filas: seq<ClienteReporte>, c: Cliente)
    requires ListsCliente(filas, c)
    ensures ListsCliente(Sorting.SortDesc(filas, GastadoKey), c)
  {
    var k :| 0 <= k < |filas| && filas[k].cliente == c;
    Sorting.SortDescMembers(filas, GastadoKey, filas[k]);
    var r := Sorting.SortDesc(filas, GastadoKey);
    var j :| 0 <= j < |r| && r[j] == filas[k];
  }
}

=== FILE: seqs.dfy ===
/** Generic sequence helpers: the `filter`, `find`, `findIndex` and `reduce`
    idioms the application uses on its in-memory collections. */
module Seqs {
  import opened Wrappers

  /** `xs.filter(p)`: keeps the elements satisfying `p`, in order. */
  function Filter<T>(xs: seq<T>, p: T -> bool): (r: seq<T>)
    ensures |r| <= |xs|
    ensures forall i :: 0 <= i < |r| ==> r[i] in xs && p(r[i])
  {
    if |xs| == 0 then []
    else if p(xs[0]) then [xs[0]] + Filter(xs[1..], p)
    else Filter(xs[1..], p)
  }

  /** Filtering drops nothing that satisfies `p`. (Stated apart from
      `Filter`'s contract: with both directions of membership in one
      context the solver can chase witnesses back and forth.) */
  lemma {:induction false} FilterKeeps<T>(xs: seq<T>, p: T -> bool)
    ensures forall i :: 0 <= i < |xs| && p(xs[i]) ==> xs[i] in Filter(xs, p)
  {
    if |xs| > 0 {
      FilterKeeps(xs[1..], p);
      assert forall i :: 1 <= i < |xs| ==> xs[i] == xs[1..][i - 1];
    }
  }

  lemma {:induction false} FilterAppend<T>(a: seq<T>, b: seq<T>, p: T -> bool)
    ensures Filter(a + b, p) == Filter(a, p) + Filter(b, p)
  {
    if |a| == 0 {
      assert a + b == b;
    } else {
      assert (a + b)[1..] == a[1..] + b;
      FilterAppend(a[1..], b, p);
    }
  }

  /** Filtering by a predicate that holds everywhere is the identity. */
  lemma {:induction false} FilterAll<T>(xs: seq<T>, p: T -> bool)
    requires forall i :: 0 <= i < |xs| ==> p(xs[i])
    ensures Filter(xs, p) == xs
  {
    if |xs| > 0 {
      FilterAll(xs[1..], p);
    }
  }

  /** Filtering by equivalent predicates gives the same result. */
  lemma {:induction false} FilterSame<T>(xs: seq<T>, f: T -> bool, g: T -> bool)
    requires forall x :: f(x) == g(x)
    ensures Filter(xs, f) == Filter(xs, g)
  {
    if |xs| > 0 {
      FilterSame(xs[1..], f, g);
    }
  }

  /** Two filters in a row are one filter by the conjunction. */
  lemma {:induction false} FilterFilter<T>(xs: seq<T>, p: T -> bool, q: T -> bool, pq: T -> bool)
    requires forall x :: pq(x) == (p(x) && q(x))
    ensures Filter(Filter(xs, p), q) == Filter(xs, pq)
  {
    if |xs| > 0 {
      FilterFilter(xs[1..], p, q, pq);
      if p(xs[0]) {
        assert Filter(xs, p) == [xs[0]] + Filter(xs[1..], p);
        assert Filter(xs, p)[1..] == Filter(xs[1..], p);
      }
    }
  }

  /** No two elements of `xs` share a key. */
  predicate DistinctBy<T, K(==)>(xs: seq<T>, key: T -> K) {
    forall i, j :: 0 <= i < j < |xs| ==> key(xs[i]) != key(xs[j])
  }

  /** Filtering keeps keys distinct. */
  lemma {:induction false} FilterDistinct<T, K>(xs: seq<T>, p: T -> bool, key: T -> K)
    requires DistinctBy(xs, key)
    ensures DistinctBy(Filter(xs, p), key)
  {
    if |xs| > 0 {
      FilterDistinct(xs[1..], p, key);
      var rest := Filter(xs[1..], p);
      if p(xs[0]) {
        forall j | 0 <= j < |rest| ensures key(xs[0]) != key(rest[j]) {
          var b :| 0 <= b < |xs[1..]| && xs[1..][b] == rest[j];
          assert xs[b + 1] == rest[j];
        }
        assert Filter(xs, p) == [xs[0]] + rest;
      }
    }
  }

  /** `xs.reduce((sum, x) => sum + f(x), 0)`. */
  function Sum<T>(xs: seq<T>, f: T -> real): real
  {
    if |xs| == 0 then 0.0 else f(xs[0]) + Sum(xs[1..], f)
  }

  lemma {:induction false} SumAppend<T>(a: seq<T>, b: seq<T>, f: T -> real)
    ensures Sum(a + b, f) == Sum(a, f) + Sum(b, f)
  {
    if |a| == 0 {
      assert a + b == b;
    } else {
      assert (a + b)[1..] == a[1..] + b;
      SumAppend(a[1..], b, f);
    }
  }

  /** A sum of terms between `lo` and `hi` lies between `lo` and `hi`
      times the number of terms. */
  lemma {:induction false} SumBounds<T>(xs: seq<T>, f: T -> real, lo: real, hi: real)
    requires forall i :: 0 <= i < |xs| ==> lo <= f(xs[i]) <= hi
    ensures lo * |xs| as real <= Sum(xs, f) <= hi * |xs| as real
  {
    if |xs| > 0 {
      SumBounds(xs[1..], f, lo, hi);
      assert lo * |xs| as real == lo + lo * |xs[1..]| as real;
      assert hi * |xs| as real == hi + hi * |xs[1..]| as real;
    }
  }

  /** Integer version of Sum, for quantities. */
  function SumInt<T>(xs: seq<T>, f: T -> int): int
  {
    if |xs| == 0 then 0 else f(xs[0]) + SumInt(xs[1..], f)
  }

  lemma {:induction false} SumIntAppend<T>(a: seq<T>, b: seq<T>, f: T -> int)
    ensures SumInt(a + b, f) == SumInt(a, f) + SumInt(b, f)
  {
    if |a| == 0 {
      assert a + b == b;
    } else {
      assert (a + b)[1..] == a[1..] + b;
      SumIntAppend(a[1..], b, f);
    }
  }

  /** Replacing one element changes an integer sum by the difference of
      the two terms. */
  lemma SumIntReplace<T>(xs: seq<T>, i: nat, x: T, f: T -> int)
    requires i < |xs|
    ensures SumInt(Replace(xs, i, x), f) == SumInt(xs, f) - f(xs[i]) + f(x)
  {
    var r := Replace(xs, i, x);
    assert r[..i] == xs[..i] && r[i + 1..] == xs[i + 1..];
    SumIntSplit(xs, i, f);
    SumIntSplit(r, i, f);
  }

  /** An integer sum splits around any one of its terms. */
  lemma SumIntSplit<T>(xs: seq<T>, i: nat, f: T -> int)
    requires i < |xs|
    ensures SumInt(xs, f) == SumInt(xs[..i], f) + f(xs[i]) + SumInt(xs[i + 1..], f)
  {
    assert xs == xs[..i] + ([xs[i]] + xs[i + 1..]);
    SumIntAppend(xs[..i], [xs[i]] + xs[i + 1..], f);
    assert ([xs[i]] + xs[i + 1..])[1..] == xs[i + 1..];
  }

  /** Replacing the last element of `xs + [x]`. */
  lemma ReplaceLast<T>(xs: seq<T>, x: T, y: T)
    ensures Replace(xs + [x], |xs|, y) == xs + [y]
  {
    assert (xs + [x])[..|xs|] == xs;
  }

  lemma ReplaceSingle<T>(x: T, y: T)
    ensures Replace([x], 0, y) == [y]
  {
    assert [x][1..] == [];
  }

  /** Writing back the old element undoes a replacement. */
  lemma ReplaceReplace<T>(xs: seq<T>, i: nat, x: T)
    requires i < |xs|
    ensures Replace(Replace(xs, i, x), i, xs[i]) == xs
  {
  }

  /** An element of a prefix is the element of the whole sequence. */
  lemma PrefixAt<T>(a: seq<T>, b: seq<T>, n: nat)
    requires n < |b| <= |a| && a[..|b|] == b
    ensures a[n] == b[n]
  {
    assert a[..|b|][n] == a[n];
  }

  /** A prefix of a prefix is a prefix. */
  lemma PrefixOfPrefix<T>(a: seq<T>, b: seq<T>, c: seq<T>)
    requires |c| <= |b| <= |a| && a[..|b|] == b && b[..|c|] == c
    ensures a[..|c|] == c
  {
    assert a[..|b|][..|c|] == a[..|c|];
  }

  /** When `r` extends `s1`, which is one longer than `s`, what `r` has
      past `s` is the last element of `s1` followed by what it has past
      `s1`. */
  lemma SuffixSplit<T>(r: seq<T>, s1: seq<T>, s: seq<T>)
    requires |s1| == |s| + 1 && |s1| <= |r| && r[..|s1|] == s1
    ensures r[|s|..] == [s1[|s|]] + r[|s1|..]
  {
    assert r[|s|] == r[..|s1|][|s|];
  }

  /** `i` is the index `xs.findIndex(p)` reports: the first match. */
  predicate IsFirst<T>(xs: seq<T>, p: T -> bool, i: int) {
    0 <= i < |xs| && p(xs[i]) && forall j :: 0 <= j < i ==> !p(xs[j])
  }

  /** `xs.findIndex(p)`, with `None` for -1. */
  function FindIndex<T>(xs: seq<T>, p: T -> bool): (r: Option<nat>)
    ensures r.None? <==> forall i :: 0 <= i < |xs| ==> !p(xs[i])
    ensures r.Some? ==> r.value < |xs| && p(xs[r.value])
                        && forall j :: 0 <= j < r.value ==> !p(xs[j])
    ensures forall i :: IsFirst(xs, p, i) <==> r == Some(i)
  {
    if |xs| == 0 then None
    else if p(xs[0]) then Some(0)
    else match FindIndex(xs[1..], p)
      case None => None
      case Some(i) => Some(i + 1)
  }

  /** `xs.find(p)`: the first element satisfying `p`. */
  function Find<T>(xs: seq<T>, p: T -> bool): (r: Option<T>)
    ensures r.None? <==> forall i :: 0 <= i < |xs| ==> !p(xs[i])
    ensures r.Some? ==> r.value in xs && p(r.value)
  {
    match FindIndex(xs, p)
    case None => None
    case Some(i) => Some(xs[i])
  }

  /** `find` returns the element `findIndex` reports: the first match. */
  lemma FindFirst<T>(xs: seq<T>, p: T -> bool)
    ensures Find(xs, p).Some? ==> exists i :: IsFirst(xs, p, i) && Find(xs, p).value == xs[i]
  {
    if Find(xs, p).Some? {
      assert IsFirst(xs, p, FindIndex(xs, p).value);
    }
  }

  /** `xs.some(p)`. */
  predicate Exists<T>(xs: seq<T>, p: T -> bool) {
    exists i :: 0 <= i < |xs| && p(xs[i])
  }

  /** `xs.every(p)`. */
  predicate Every<T>(xs: seq<T>, p: T -> bool) {
    forall i :: 0 <= i < |xs| ==> p(xs[i])
  }

  /** `xs.map(f)`. */
  function Map<T, U>(xs: seq<T>, f: T -> U): (r: seq<U>)
    ensures |r| == |xs|
    ensures forall i :: 0 <= i < |xs| ==> r[i] == f(xs[i])
  {
    if |xs| == 0 then [] else [f(xs[0])] + Map(xs[1..], f)
  }

  /** Replaces the element at index `i`. */
  function Replace<T>(xs: seq<T>, i: nat, x: T): (r: seq<T>)
    requires i < |xs|
    ensures |r| == |xs| && r[i] == x
    ensures forall j :: 0 <= j < |xs| && j != i ==> r[j] == xs[j]
  {
    xs[..i] + [x] + xs[i + 1..]
  }

  /** `xs[i] = f(xs[i])` at `i = xs.findIndex(p)`, when there is a match:
      the store's merge-update. */
  function UpdateFirst<T>(xs: seq<T>, p: T -> bool, f: T -> T): (r: seq<T>)
    ensures |r| == |xs|
    ensures forall j :: 0 <= j < |xs| ==> r[j] == if IsFirst(xs, p, j) then f(xs[j]) else xs[j]
    ensures (forall j :: 0 <= j < |xs| ==> !p(xs[j])) ==> r == xs
  {
    match FindIndex(xs, p)
    case Some(i) => Replace(xs, i, f(xs[i]))
    case None => xs
  }

  /** The merge-update at the first match is a replacement there. */
  lemma UpdateFirstAt<T>(xs: seq<T>, p: T -> bool, f: T -> T, i: nat)
    requires IsFirst(xs, p, i)
    ensures UpdateFirst(xs, p, f) == Replace(xs, i, f(xs[i]))
  {
    assert FindIndex(xs, p) == Some(i);
  }
}

=== FILE: sorting.dfy ===
/** The `array.sort((a, b) => key(b) - key(a))` idiom: a sort into
    descending key order, written as an insertion sort on sequences. The
    order among elements with equal keys is not part of its contract. */
module Sorting {
  import Seqs

  predicate SortedDesc<T>(xs: seq<T>, key: T -> real) {
    forall i, j :: 0 <= i < j < |xs| ==> key(xs[i]) >= key(xs[j])
  }

  /** Inserts `x` in front of the first element whose key is not greater
      than its own, so that earlier elements stay ahead of equal ones. */
  function Insert<T>(x: T, xs: seq<T>, key: T -> real): (r: seq<T>)
    requires SortedDesc(xs, key)
    ensures SortedDesc(r, key)
    ensures multiset(r) == multiset(xs) + multiset{x}
    ensures |r| == |xs| + 1
  {
    if |xs| == 0 || key(xs[0]) <= key(x) then
      ConsSorted(x, xs, key);
      [x] + xs
    else
      var rest := Insert(x, xs[1..], key);
      InsertBehind(x, xs, key, rest);
      [xs[0]] + rest
  }

  /** The step of `Insert` past the head: the head keeps its place in front
      of the insertion into the tail. */
  lemma InsertBehind<T>(x: T, xs: seq<T>, key: T -> real, rest: seq<T>)
    requires |xs| > 0 && key(xs[0]) > key(x) && SortedDesc(xs, key)
    requires SortedDesc(rest, key) && multiset(rest) == multiset(xs[1..]) + multiset{x}
    ensures SortedDesc([xs[0]] + rest, key)
    ensures multiset([xs[0]] + rest) == multiset(xs) + multiset{x}
  {
    assert multiset(xs) == multiset{xs[0]} + multiset(xs[1..]) by {
      assert xs == [xs[0]] + xs[1..];
    }
    forall y | y in rest ensures key(xs[0]) >= key(y) {
      assert y in multiset(rest);
      if y != x {
        assert y in xs[1..];
      }
    }
    ConsSorted(xs[0], rest, key);
  }

  /** A sorted sequence stays sorted with an element in front whose key is
      at least every key in it. */
  lemma ConsSorted<T>(h: T, rest: seq<T>, key: T -> real)
    requires SortedDesc(rest, key)
    requires forall y :: y in rest ==> key(h) >= key(y)
    ensures SortedDesc([h] + rest, key)
  {
    forall i, j | 0 <= i < j < |rest| + 1 ensures key(([h] + rest)[i]) >= key(([h] + rest)[j]) {
      assert ([h] + rest)[j] == rest[j - 1];
      if i > 0 {
        assert ([h] + rest)[i] == rest[i - 1];
      }
    }
  }

  /** Sorts `xs` into descending order of `key`. */
  function SortDesc<T>(xs: seq<T>, key: T -> real): (r: seq<T>)
    ensures SortedDesc(r, key)
    ensures multiset(r) == multiset(xs)
    ensures |r| == |xs|
  {
    if |xs| == 0 then []
    else
      assert multiset(xs) == multiset{xs[0]} + multiset(xs[1..]) by {
        assert xs == [xs[0]] + xs[1..];
      }
      Insert(xs[0], SortDesc(xs[1..], key), key)
  }

  lemma {:induction false} SumInsert<T>(x: T, xs: seq<T>, key: T -> real, f: T -> real)
    requires SortedDesc(xs, key)
    ensures Seqs.Sum(Insert(x, xs, key), f) == f(x) + Seqs.Sum(xs, f)
  {
    if |xs| == 0 || key(xs[0]) <= key(x) {
      assert ([x] + xs)[1..] == xs;
    } else {
      SumInsert(x, xs[1..], key, f);
      assert ([xs[0]] + Insert(x, xs[1..], key))[1..] == Insert(x, xs[1..], key);
    }
  }

  /** Sorting does not change a sum over the sequence. */
  lemma {:induction false} SumSortDesc<T>(xs: seq<T>, key: T -> real, f: T -> real)
    ensures Seqs.Sum(SortDesc(xs, key), f) == Seqs.Sum(xs, f)
  {
    if |xs| > 0 {
      SumSortDesc(xs[1..], key, f);
      SumInsert(xs[0], SortDesc(xs[1..], key), key, f);
    }
  }

  lemma {:induction false} SumIntInsert<T>(x: T, xs: seq<T>, key: T -> real, f: T -> int)
    requires SortedDesc(xs, key)
    ensures Seqs.SumInt(Insert(x, xs, key), f) == f(x) + Seqs.SumInt(xs, f)
  {
    if |xs| == 0 || key(xs[0]) <= key(x) {
      assert ([x] + xs)[1..] == xs;
    } else {
      SumIntInsert(x, xs[1..], key, f);
      assert ([xs[0]] + Insert(x, xs[1..], key))[1..] == Insert(x, xs[1..], key);
    }
  }

  lemma {:induction false} SumIntSortDesc<T>(xs: seq<T>, key: T -> real, f: T -> int)
    ensures Seqs.SumInt(SortDesc(xs, key), f) == Seqs.SumInt(xs, f)
  {
    if |xs| > 0 {
      SumIntSortDesc(xs[1..], key, f);
      SumIntInsert(xs[0], SortDesc(xs[1..], key), key, f);
    }
  }

  /** Distinct keys stay distinct with an element in front whose key is
      none of theirs. */
  lemma ConsDistinctBy<T, K>(h: T, rest: seq<T>, k: T -> K)
    requires Seqs.DistinctBy(rest, k)
    requires forall y :: y in rest ==> k(h) != k(y)
    ensures Seqs.DistinctBy([h] + rest, k)
  {
    forall i, j | 0 <= i < j < |rest| + 1 ensures k(([h] + rest)[i]) != k(([h] + rest)[j]) {
      assert ([h] + rest)[j] == rest[j - 1];
      if i > 0 {
        assert ([h] + rest)[i] == rest[i - 1];
      }
    }
  }

  /** Inserting an element with a new key `k` keeps the keys distinct. */
  lemma {:induction false} InsertDistinctBy<T, K>(x: T, xs: seq<T>, key: T -> real, k: T -> K)
    requires SortedDesc(xs, key) && Seqs.DistinctBy(xs, k)
    requires forall y :: y in xs ==> k(x) != k(y)
    ensures Seqs.DistinctBy(Insert(x, xs, key), k)
  {
    if |xs| == 0 || key(xs[0]) <= key(x) {
      ConsDistinctBy(x, xs, k);
    } else {
      var rest := Insert(x, xs[1..], key);
      assert Seqs.DistinctBy(xs[1..], k);
      InsertDistinctBy(x, xs[1..], key, k);
      forall y | y in rest ensures k(xs[0]) != k(y) {
        assert y in multiset(rest);
        if y != x {
          assert y in xs[1..];
          var m :| 0 <= m < |xs[1..]| && xs[1..][m] == y;
          assert xs[m + 1] == y;
        }
      }
      ConsDistinctBy(xs[0], rest, k);
    }
  }

  /** Sorting keeps distinct keys `k` distinct, so a sorted report still
      has one row per key. */
  lemma {:induction false} SortDescDistinctBy<T, K>(xs: seq<T>, key: T -> real, k: T -> K)
    requires Seqs.DistinctBy(xs, k)
    ensures Seqs.DistinctBy(SortDesc(xs, key), k)
  {
    if |xs| > 0 {
      assert Seqs.DistinctBy(xs[1..], k);
      SortDescDistinctBy(xs[1..], key, k);
      forall y | y in SortDesc(xs[1..], key) ensures k(xs[0]) != k(y) {
        SortDescMembers(xs[1..], key, y);
        var m :| 0 <= m < |xs[1..]| && xs[1..][m] == y;
        assert xs[m + 1] == y;
      }
      InsertDistinctBy(xs[0], SortDesc(xs[1..], key), key, k);
    }
  }

  /** An element is in the sorted sequence exactly when it is in the input. */
  lemma SortDescMembers<T>(xs: seq<T>, key: T -> real, x: T)
    ensures x in SortDesc(xs, key) <==> x in xs
  {
    var r := SortDesc(xs, key);
    assert x in r <==> x in multiset(r);
    assert x in xs <==> x in multiset(xs);
  }

  /** Each element of the sorted sequence comes from the input. */
  lemma SortDescIndex<T>(xs: seq<T>, key: T -> real, k: nat)
    requires k < |SortDesc(xs, key)|
    ensures exists j :: 0 <= j < |xs| && xs[j] == SortDesc(xs, key)[k]
  {
    var r := SortDesc(xs, key);
    assert r[k] in r;
    SortDescMembers(xs, key, r[k]);
  }
}

=== FILE: suppliers.dfy ===
/** The suppliers page: saving a supplier behind `proveedores.write` with
    one supplier per NIT, soft deletion, the active-only listing, and the
    supplier evaluations with their averages. */
module Suppliers {
  import opened Wrappers
  import opened Seqs
  import opened Text
  import opened Entities
  import opened Database
  import opened Auth

  /** The supplier form; blank optional fields are empty strings. */
  datatype ProveedorForm = ProveedorForm(
    nit: string,
    razonSocial: string,
    nombreComercial: string,
    contactoNombre: string,
    contactoTelefono: string,
    contactoEmail: string,
    direccion: string,
    ciudad: string,
    pais: string,
    sitioWeb: string,
    observaciones: string,
    activo: bool)

  /** The form as a patch writing every field. */
  function PatchOf(f: ProveedorForm): (r: ProveedorPatch)
    ensures r.nit == Some(f.nit) && r.razonSocial == Some(f.razonSocial) && r.activo == Some(f.activo)
    ensures r.nombreComercial == Some(Some(f.nombreComercial)) && r.contactoNombre == Some(Some(f.contactoNombre))
    ensures r.contactoEmail == Some(Some(f.contactoEmail)) && r.contactoTelefono == Some(Some(f.contactoTelefono))
    ensures r.direccion == Some(Some(f.direccion)) && r.ciudad == Some(Some(f.ciudad)) && r.pais == Some(Some(f.pais))
    ensures r.sitioWeb == Some(Some(f.sitioWeb)) && r.observaciones == Some(Some(f.observaciones))
  {
    ProveedorPatch(Some(f.nit), Some(f.razonSocial), Some(Some(f.nombreComercial)), Some(Some(f.contactoNombre)),
                   Some(Some(f.contactoEmail)), Some(Some(f.contactoTelefono)), Some(Some(f.direccion)),
                   Some(Some(f.ciudad)), Some(Some(f.pais)), Some(Some(f.sitioWeb)), Some(Some(f.observaciones)),
                   Some(f.activo))
  }

  /** The form as a new record (id and creation time are set by the store). */
  function ProveedorOf(f: ProveedorForm): (r: Proveedor)
    ensures r.nit == f.nit && r.razonSocial == f.razonSocial && r.activo == f.activo
  {
    Proveedor("", f.nit, f.razonSocial, Some(f.nombreComercial), Some(f.contactoNombre), Some(f.contactoEmail),
              Some(f.contactoTelefono), Some(f.direccion), Some(f.ciudad), Some(f.pais), Some(f.sitioWeb),
              Some(f.observaciones), f.activo, 0)
  }

  /** Editing a supplier with the form leaves it exactly the supplier a
      create with the same form would build, under its own id and creation
      time. */
  lemma EditMatchesCreate(p: Proveedor, f: ProveedorForm)
    ensures MergeProveedor(p, PatchOf(f)) == ProveedorOf(f).(id := p.id, createdAt := p.createdAt)
  {
  }

  const SIN_PERMISO := "No tienes permisos para crear/editar proveedores"
  const NIT_REPETIDO := "Ya existe un proveedor con este NIT"
  const SIN_PERMISO_ELIMINAR := "No tienes permisos para eliminar proveedores"
  const SIN_PERMISO_EVALUAR := "No tienes permisos para evaluar proveedores"

  /** Another supplier (not the one being edited) already holds the NIT;
      inactive suppliers count too. */
  predicate NitTomado(ps: seq<Proveedor>, nit: string, editing: Option<Proveedor>) {
    exists k :: 0 <= k < |ps| && ps[k].nit == nit && (editing.None? || ps[k].id != editing.value.id)
  }

  /** `handleSubmit`: permission, then the NIT rule; an edit merges the
      whole form, a create appends it. */
  function HandleSubmit(db: Db, user: User, form: ProveedorForm, editing: Option<Proveedor>, id: string, now: int)
    : (r: Outcome<Db>)
    ensures !HasPermission(user, "proveedores.write") ==> r == Outcome(db, Some(SIN_PERMISO))
    ensures HasPermission(user, "proveedores.write") && NitTomado(db.proveedores, form.nit, editing) ==>
              r == Outcome(db, Some(NIT_REPETIDO))
    ensures r.error.None? <==> HasPermission(user, "proveedores.write") && !NitTomado(db.proveedores, form.nit, editing)
    ensures r.error.None? && editing.Some? ==> r.state == UpdateProveedor(db, editing.value.id, PatchOf(form)).0
    ensures r.error.None? && editing.None? ==> r.state == CreateProveedor(db, ProveedorOf(form), id, now).0
  {
    if !HasPermission(user, "proveedores.write") then Outcome(db, Some(SIN_PERMISO))
    else match Find(db.proveedores, (p: Proveedor) => p.nit == form.nit && (editing.None? || p.id != editing.value.id))
      case Some(_) => Outcome(db, Some(NIT_REPETIDO))
      case None =>
        if editing.Some? then Outcome(UpdateProveedor(db, editing.value.id, PatchOf(form)).0, None)
        else Outcome(CreateProveedor(db, ProveedorOf(form), id, now).0, None)
  }

  /** No two suppliers share an id or a NIT. */
  predicate Registry(ps: seq<Proveedor>) {
    (forall i, j :: 0 <= i < j < |ps| ==> ps[i].id != ps[j].id) &&
    (forall i, j :: 0 <= i < j < |ps| ==> ps[i].nit != ps[j].nit)
  }

  /** An in-place rewrite that keeps ids and moves only the edited
      supplier's NIT to one no other supplier holds keeps the registry. */
  lemma EditKeepsRegistry(ps: seq<Proveedor>, rs: seq<Proveedor>, eid: string, nit: string)
    requires Registry(ps) && |rs| == |ps|
    requires forall j :: 0 <= j < |ps| ==> rs[j].id == ps[j].id && (rs[j].nit == ps[j].nit || (ps[j].id == eid && rs[j].nit == nit))
    requires forall k :: 0 <= k < |ps| && ps[k].id != eid ==> ps[k].nit != nit
    ensures Registry(rs)
  {
  }

  /** Saving with a fresh id keeps one supplier per id and per NIT. */
  lemma SaveKeepsNitsUnique(db: Db, user: User, form: ProveedorForm, editing: Option<Proveedor>, id: string, now: int)
    requires Registry(db.proveedores)
    requires forall j :: 0 <= j < |db.proveedores| ==> db.proveedores[j].id != id
    ensures Registry(HandleSubmit(db, user, form, editing, id, now).state.proveedores)
  {
    var r := HandleSubmit(db, user, form, editing, id, now);
    var ps := db.proveedores;
    if r.error.None? {
      assert !NitTomado(ps, form.nit, editing);
      if editing.Some? {
        EditKeepsRegistry(ps, r.state.proveedores, editing.value.id, form.nit);
      } else {
        var rs := r.state.proveedores;
        assert rs == ps + [rs[|ps|]];
        AppendKeepsRegistry(ps, rs[|ps|]);
      }
    }
  }

  /** A supplier with a fresh id and a NIT nobody holds can be appended. */
  lemma AppendKeepsRegistry(ps: seq<Proveedor>, p: Proveedor)
    requires Registry(ps)
    requires forall j :: 0 <= j < |ps| ==> ps[j].id != p.id && ps[j].nit != p.nit
    ensures Registry(ps + [p])
  {
  }

  /** `handleDelete`: with `proveedores.delete` and the user's
      confirmation, the supplier is only marked inactive. */
  function HandleDelete(db: Db, user: User, proveedor: Proveedor, confirmado: bool): (r: Outcome<Db>)
    ensures !HasPermission(user, "proveedores.delete") ==> r == Outcome(db, Some(SIN_PERMISO_ELIMINAR))
    ensures r.error.None? <==> HasPermission(user, "proveedores.delete")
    ensures !confirmado ==> r.state == db
    ensures r.state == db.(proveedores := r.state.proveedores) && |r.state.proveedores| == |db.proveedores|
    ensures forall j :: 0 <= j < |db.proveedores| ==>
              r.state.proveedores[j] ==
                if r.error.None? && confirmado && IsFirst(db.proveedores, ProveedorIdIs(proveedor.id), j)
                then db.proveedores[j].(activo := false) else db.proveedores[j]
  {
    if !HasPermission(user, "proveedores.delete") then Outcome(db, Some(SIN_PERMISO_ELIMINAR))
    else if confirmado then
      Outcome(UpdateProveedor(db, proveedor.id, PROVEEDOR_NO_CHANGE.(activo := Some(false))).0, None)
    else Outcome(db, None)
  }

  /** A deleted supplier drops out of the listing whatever the query, and
      the row count is kept. */
  lemma DeleteHidesSupplier(db: Db, user: User, proveedor: Proveedor, q: string, j: nat)
    requires HasPermission(user, "proveedores.delete")
    requires IsFirst(db.proveedores, ProveedorIdIs(proveedor.id), j)
    ensures var ps := HandleDelete(db, user, proveedor, true).state.proveedores;
            |ps| == |db.proveedores| && ps[j] !in FilterSuppliers(ps, q)
  {
  }

  // ---------------------------------------------------------------
  // Listing
  // ---------------------------------------------------------------

  /** The text test: the NIT is matched as typed against the lower-cased
      query. */
  predicate Matches(p: Proveedor, q: string) {
    Contains(Lower(p.razonSocial), Lower(q)) || Contains(p.nit, Lower(q)) ||
    (p.contactoEmail.Some? && Contains(Lower(p.contactoEmail.value), Lower(q))) ||
    (p.ciudad.Some? && Contains(Lower(p.ciudad.value), Lower(q)))
  }

  predicate Listed(p: Proveedor, q: string) {
    p.activo && (q == "" || Matches(p, q))
  }

  /** `filterSuppliers`: active suppliers matching the query, in order. */
  function FilterSuppliers(ps: seq<Proveedor>, q: string): (r: seq<Proveedor>)
    ensures forall i :: 0 <= i < |r| ==> r[i] in ps && Listed(r[i], q)
    ensures forall j :: 0 <= j < |ps| && Listed(ps[j], q) ==> ps[j] in r
  {
    var activo := (p: Proveedor) => p.activo;
    FilterKeeps(ps, activo);
    var activos := Filter(ps, activo);
    if q == "" then activos
    else
      var m := (p: Proveedor) => Matches(p, q);
      FilterKeeps(activos, m);
      Filter(activos, m)
  }

  /** With no query the listing is the active suppliers, in store order. */
  lemma NoQueryListsActive(ps: seq<Proveedor>)
    ensures FilterSuppliers(ps, "") == Filter(ps, (p: Proveedor) => Listed(p, ""))
  {
    FilterSame(ps, (p: Proveedor) => p.activo, (p: Proveedor) => Listed(p, ""));
  }

  // ---------------------------------------------------------------
  // Evaluations
  // ---------------------------------------------------------------

  /** A stored evaluation; the list lives apart from the store tables. */
  datatype Evaluacion = Evaluacion(
    id: string,
    proveedorId: string,
    calidad: int,
    precio: int,
    entrega: int,
    servicio: int,
    promedio: real,
    comentarios: string,
    fechaEvaluacion: int,
    usuarioEvaluador: string)

  datatype EvaluacionForm = EvaluacionForm(calidad: int, precio: int, entrega: int, servicio: int, comentarios: string)

  /** The form `handleEvaluate` opens: every score 5, no comment. */
  const FORM_INICIAL := EvaluacionForm(5, 5, 5, 5, "")

  /** `handleEvaluate`: with `proveedores.evaluate` the supplier becomes the
      selected one and the form is reset; otherwise nothing is selected. */
  function HandleEvaluate(user: User, proveedor: Proveedor): (r: Outcome<Option<(Proveedor, EvaluacionForm)>>)
    ensures r.error.None? <==> HasPermission(user, "proveedores.evaluate")
    ensures r.error.Some? ==> r == Outcome(None, Some(SIN_PERMISO_EVALUAR))
    ensures r.error.None? ==> r.state == Some((proveedor, FORM_INICIAL))
  {
    if !HasPermission(user, "proveedores.evaluate") then Outcome(None, Some(SIN_PERMISO_EVALUAR))
    else Outcome(Some((proveedor, FORM_INICIAL)), None)
  }

  /** The mean of the four scores. */
  function Promedio(f: EvaluacionForm): (r: real)
    ensures 4.0 * r == (f.calidad + f.precio + f.entrega + f.servicio) as real
  {
    (f.calidad + f.precio + f.entrega + f.servicio) as real / 4.0
  }

  /** Scores between `lo` and `hi` average between them. */
  lemma PromedioBounds(f: EvaluacionForm, lo: int, hi: int)
    requires lo <= f.calidad <= hi && lo <= f.precio <= hi && lo <= f.entrega <= hi && lo <= f.servicio <= hi
    ensures lo as real <= Promedio(f) <= hi as real
  {
  }

  /** `handleSaveEvaluation`: with a supplier selected, one evaluation is
      appended carrying the scores, their mean and the evaluator. */
  function HandleSaveEvaluation(evals: seq<Evaluacion>, selected: Option<Proveedor>, f: EvaluacionForm, user: User,
                                id: string, now: int): (r: seq<Evaluacion>)
    ensures selected.None? ==> r == evals
    ensures selected.Some? ==>
              |r| == |evals| + 1 && r[..|evals|] == evals &&
              var e := r[|evals|];
              e.proveedorId == selected.value.id && e.usuarioEvaluador == user.id &&
              e.calidad == f.calidad && e.precio == f.precio && e.entrega == f.entrega && e.servicio == f.servicio &&
              4.0 * e.promedio == (f.calidad + f.precio + f.entrega + f.servicio) as real
  {
    if selected.None? then evals
    else evals + [Evaluacion(id, selected.value.id, f.calidad, f.precio, f.entrega, f.servicio, Promedio(f),
                             f.comentarios, now, user.id)]
  }

  /** `getProveedorEvaluaciones`. */
  function EvaluacionesDe(evals: seq<Evaluacion>, proveedorId: string): (r: seq<Evaluacion>)
    ensures forall i :: 0 <= i < |r| ==> r[i] in evals && r[i].proveedorId == proveedorId
    ensures forall j :: 0 <= j < |evals| && evals[j].proveedorId == proveedorId ==> evals[j] in r
  {
    var de := (e: Evaluacion) => e.proveedorId == proveedorId;
    FilterKeeps(evals, de);
    Filter(evals, de)
  }

  function PromedioDe(e: Evaluacion): real {
    e.promedio
  }

  /** `getPromedioEvaluacion`: the mean of the supplier's evaluations, 0
      with none. */
  function PromedioEvaluacion(evals: seq<Evaluacion>, proveedorId: string): (r: real)
    ensures EvaluacionesDe(evals, proveedorId) == [] ==> r == 0.0
    ensures EvaluacionesDe(evals, proveedorId) != [] ==>
              r * |EvaluacionesDe(evals, proveedorId)| as real == Sum(EvaluacionesDe(evals, proveedorId), PromedioDe)
  {
    var es := EvaluacionesDe(evals, proveedorId);
    if |es| == 0 then 0.0 else Sum(es, PromedioDe) / |es| as real
  }

  /** A total of `n` terms between `lo` and `hi`, divided by `n`, lies
      between them. */
  lemma MeanBounds(total: real, n: real, lo: real, hi: real)
    requires n > 0.0 && lo * n <= total <= hi * n
    ensures lo <= total / n <= hi
  {
  }

  /** When every evaluation of the supplier has its mean between `lo` and
      `hi`, so has the supplier's average. */
  lemma PromedioEvaluacionBounds(evals: seq<Evaluacion>, proveedorId: string, lo: real, hi: real)
    requires forall i :: 0 <= i < |evals| && evals[i].proveedorId == proveedorId ==> lo <= evals[i].promedio <= hi
    requires EvaluacionesDe(evals, proveedorId) != []
    ensures lo <= PromedioEvaluacion(evals, proveedorId) <= hi
  {
    EvaluacionesDeBounds(evals, proveedorId, lo, hi);
    MeanOfBounded(EvaluacionesDe(evals, proveedorId), lo, hi);
  }

  /** The mean of evaluations whose means lie between `lo` and `hi`. */
  lemma MeanOfBounded(es: seq<Evaluacion>, lo: real, hi: real)
    requires |es| > 0 && forall i :: 0 <= i < |es| ==> lo <= PromedioDe(es[i]) <= hi
    ensures lo <= Sum(es, PromedioDe) / |es| as real <= hi
  {
    SumBounds(es, PromedioDe, lo, hi);
    MeanBounds(Sum(es, PromedioDe), |es| as real, lo, hi);
  }

  /** The supplier's own evaluations keep the bounds. */
  lemma EvaluacionesDeBounds(evals: seq<Evaluacion>, proveedorId: string, lo: real, hi: real)
    requires forall i :: 0 <= i < |evals| && evals[i].proveedorId == proveedorId ==> lo <= evals[i].promedio <= hi
    ensures var es := EvaluacionesDe(evals, proveedorId);
            forall i :: 0 <= i < |es| ==> lo <= PromedioDe(es[i]) <= hi
  {
  }

  /** Saving an evaluation moves only the evaluated supplier's average. */
  lemma SaveEvaluationIsolated(evals: seq<Evaluacion>, selected: Proveedor, f: EvaluacionForm, user: User, id: string,
                               now: int, other: string)
    requires other != selected.id
    ensures PromedioEvaluacion(HandleSaveEvaluation(evals, Some(selected), f, user, id, now), other)
            == PromedioEvaluacion(evals, other)
  {
    var evals' := HandleSaveEvaluation(evals, Some(selected), f, user, id, now);
    var e := evals'[|evals|];
    var p := (e: Evaluacion) => e.proveedorId == other;
    assert evals' == evals + [e];
    FilterAppend(evals, [e], p);
    assert Filter([e], p) == [];
    assert EvaluacionesDe(evals', other) == EvaluacionesDe(evals, other);
  }
}

=== FILE: text.dfy ===
/** String helpers standing in for the JavaScript/Python string methods the
    application uses: case mapping (ASCII only), `includes`/`ilike`
    substring search, `startsWith`, `substring(0, n)`, `String(n)` for
    natural numbers and `padStart`. */
module Text {

  /** ASCII `toLowerCase` of one character. */
  function LowerChar(c: char): char {
    if 'A' <= c <= 'Z' then (c as int + 32) as char else c
  }

  /** ASCII `toUpperCase` of one character. */
  function UpperChar(c: char): char {
    if 'a' <= c <= 'z' then (c as int - 32) as char else c
  }

  function Lower(s: string): (r: string)
    ensures |r| == |s|
    ensures forall i :: 0 <= i < |s| ==> r[i] == LowerChar(s[i])
  {
    if |s| == 0 then "" else [LowerChar(s[0])] + Lower(s[1..])
  }

  function Upper(s: string): (r: string)
    ensures |r| == |s|
    ensures forall i :: 0 <= i < |s| ==> r[i] == UpperChar(s[i])
  {
    if |s| == 0 then "" else [UpperChar(s[0])] + Upper(s[1..])
  }

  /** `s.includes(q)`: `q` occurs as a contiguous block of `s`. */
  predicate Contains(s: string, q: string) {
    exists i: nat | i <= |s| :: OccursAt(s, q, i)
  }

  /** `q` occurs in `s` starting at position `i`. */
  predicate OccursAt(s: string, q: string, i: nat) {
    i + |q| <= |s| && s[i..i + |q|] == q
  }

  /** `s.toLowerCase().includes(q)`. */
  predicate LowerContains(s: string, q: string) {
    Contains(Lower(s), q)
  }

  /** Every string contains the empty query. */
  lemma ContainsEmpty(s: string)
    ensures Contains(s, "")
  {
    assert OccursAt(s, "", 0);
  }

  /** `s.startsWith(p)`. */
  predicate StartsWith(s: string, p: string) {
    |p| <= |s| && s[..|p|] == p
  }

  lemma PrefixOfConcat(p: string, s: string)
    ensures StartsWith(p + s, p)
  {
    assert (p + s)[..|p|] == p;
  }

  /** `s.substring(0, n)` (Python `s[:n]`). */
  function Take(s: string, n: nat): (r: string)
    ensures |r| == if |s| < n then |s| else n
    ensures StartsWith(s, r)
  {
    if |s| < n then s else s[..n]
  }

  /** Two strings that agree on their first `n` characters: the first,
      lower-cased, contains the second's first `n` characters lower-cased. */
  lemma SharedPrefixContains(s: string, q: string, n: nat)
    requires n <= |s| && n <= |q| && s[..n] == q[..n]
    ensures Contains(Lower(s), Lower(Take(q, n)))
  {
    assert Lower(s)[..n] == Lower(q[..n]);
    assert OccursAt(Lower(s), Lower(Take(q, n)), 0);
  }

  predicate IsDigit(c: char) {
    '0' <= c <= '9'
  }

  predicate AllDigits(s: string) {
    forall i :: 0 <= i < |s| ==> IsDigit(s[i])
  }

  function DigitChar(d: nat): (c: char)
    requires d < 10
    ensures IsDigit(c)
  {
    ('0' as int + d) as char
  }

  function DigitValue(c: char): (d: nat)
    requires IsDigit(c)
    ensures d < 10
  {
    c as int - '0' as int
  }

  /** `String(n)` for a natural number: its decimal digits, no leading zero. */
  function Decimal(n: nat): (s: string)
    ensures 1 <= |s| && AllDigits(s)
    ensures n >= 10 ==> s[0] != '0'
  {
    if n < 10 then [DigitChar(n)] else Decimal(n / 10) + [DigitChar(n % 10)]
  }

  /** Reads a string of decimal digits back as a number (leading zeros allowed). */
  function ParseDecimal(s: string): nat
    requires AllDigits(s)
  {
    if |s| == 0 then 0
    else ParseDecimal(s[..|s| - 1]) * 10 + DigitValue(s[|s| - 1])
  }

  lemma {:induction false} ParseDecimalOfDecimal(n: nat)
    ensures ParseDecimal(Decimal(n)) == n
  {
    if n >= 10 {
      var s := Decimal(n);
      assert s[..|s| - 1] == Decimal(n / 10);
      ParseDecimalOfDecimal(n / 10);
    }
  }

  /** `k` copies of character `c`. */
  function Repeat(c: char, k: nat): (r: string)
    ensures |r| == k
    ensures forall i :: 0 <= i < k ==> r[i] == c
  {
    if k == 0 then "" else [c] + Repeat(c, k - 1)
  }

  /** `s.padStart(width, c)`: left-pads with `c` to at least `width`
      characters; a longer string is returned unchanged. */
  function PadStart(s: string, width: nat, c: char): (r: string)
    ensures |r| == if |s| < width then width else |s|
    ensures r[|r| - |s|..] == s
    ensures forall i :: 0 <= i < |r| - |s| ==> r[i] == c
  {
    if |s| < width then Repeat(c, width - |s|) + s else s
  }

  lemma {:induction false} ParseLeadingZeros(k: nat, s: string)
    requires AllDigits(s)
    ensures AllDigits(Repeat('0', k) + s)
    ensures ParseDecimal(Repeat('0', k) + s) == ParseDecimal(s)
  {
    var z := Repeat('0', k) + s;
    if |s| == 0 {
      assert z == Repeat('0', k);
      if k > 0 {
        assert z[..|z| - 1] == Repeat('0', k - 1) + "";
        ParseLeadingZeros(k - 1, "");
      }
    } else {
      assert z[..|z| - 1] == Repeat('0', k) + s[..|s| - 1];
      ParseLeadingZeros(k, s[..|s| - 1]);
    }
  }

  /** `String(n).padStart(width, '0')`: the digits of `n` behind just
      enough zeros to fill `width`, none when they already do. */
  function ZeroPad(n: nat, width: nat): (r: string)
    ensures AllDigits(r)
    ensures |r| == if |Decimal(n)| < width then width else |Decimal(n)|
    ensures r[|r| - |Decimal(n)|..] == Decimal(n)
    ensures forall i :: 0 <= i < |r| - |Decimal(n)| ==> r[i] == '0'
    ensures ParseDecimal(r) == n
  {
    var d := Decimal(n);
    ParseDecimalOfDecimal(n);
    if |d| < width then ParseLeadingZeros(width - |d|, d); PadStart(d, width, '0')
    else PadStart(d, width, '0')
  }

  /** `10` to the power `w`. */
  function Pow10(w: nat): (r: nat)
    ensures r >= 1
  {
    if w == 0 then 1 else 10 * Pow10(w - 1)
  }

  /** `String(n)` has at most `w` digits exactly when `n < 10^w`. */
  lemma {:induction false} DecimalFits(n: nat, w: nat)
    requires w >= 1
    ensures |Decimal(n)| <= w <==> n < Pow10(w)
  {
    if n >= 10 {
      assert |Decimal(n)| == |Decimal(n / 10)| + 1;
      if w > 1 {
        DecimalFits(n / 10, w - 1);
        assert n / 10 < Pow10(w - 1) <==> n < 10 * Pow10(w - 1);
      }
    }
  }

  lemma Pow10Values()
    ensures Pow10(3) == 1000 && Pow10(6) == 1000000
  {
    assert Pow10(1) == 10;
    assert Pow10(2) == 100;
    assert Pow10(4) == 10000;
    assert Pow10(5) == 100000;
  }

  /** What `p + z` holds past `p`: the characters of `z`, in place. */
  lemma AfterPrefix(p: string, z: string, d: nat)
    requires d <= |z|
    ensures (p + z)[|p + z| - d..] == z[|z| - d..]
    ensures forall i :: |p| <= i < |p + z| ==> (p + z)[i] == z[i - |p|]
  {
  }

  /** Zero padding never maps two numbers to the same text. */
  lemma ZeroPadInjective(m: nat, n: nat, width: nat)
    requires ZeroPad(m, width) == ZeroPad(n, width)
    ensures m == n
  {
  }
}

=== FILE: users.dfy ===
/** The users page: every change to the user table is reserved to the
    SUPERUSUARIO role; saving assigns the role's default permissions;
    usernames are unique among users that are not deleted; the permission
    editor; and the active/deleted views. */
module Users {
  import opened Wrappers
  import opened Seqs
  import opened Text
  import opened Permissions
  import opened Auth

  /** The user form; on edit the password field starts empty. */
  datatype UserForm = UserForm(
    username: string,
    password: string,
    nombreCompleto: string,
    email: string,
    rol: Role,
    ubicacion: Ubicacion,
    activo: bool)

  /** `userData` for a create: the form with the role's default permissions. */
  function UserDataOf(f: UserForm): (r: UserData)
    ensures r.username == f.username && r.password == f.password && r.rol == f.rol
    ensures r.permissions == DefaultPermissions(f.rol)
  {
    UserData(f.username, f.password, f.nombreCompleto, f.email, f.rol, f.ubicacion, f.activo, DefaultPermissions(f.rol))
  }

  /** `userData` for an edit: every form field, the password included, and
      the role's default permissions. */
  function PatchOf(f: UserForm): (r: UserPatch)
    ensures r.username == Some(f.username) && r.password == Some(f.password)
    ensures r.nombreCompleto == Some(f.nombreCompleto) && r.email == Some(f.email)
    ensures r.rol == Some(f.rol) && r.ubicacion == Some(f.ubicacion) && r.activo == Some(f.activo)
    ensures r.permissions == Some(DefaultPermissions(f.rol))
    ensures r.lastLogin.None? && r.deletedAt.None?
  {
    UserPatch(Some(f.username), Some(f.password), Some(f.nombreCompleto), Some(f.email), Some(f.rol),
              Some(f.ubicacion), Some(f.activo), Some(DefaultPermissions(f.rol)), None, None)
  }

  /** Editing a user with the form leaves it exactly the user a create
      with the same form would build, under its own id and creation time,
      with its login and deletion stamps kept. */
  lemma EditMatchesCreate(u: User, f: UserForm)
    ensures var c := CreateUser([], UserDataOf(f), u.id, u.createdAt).1;
            Merge(u, PatchOf(f)) == c.(lastLogin := u.lastLogin, deletedAt := u.deletedAt)
  {
  }

  const SOLO_SUPERUSUARIO := "Solo el SUPERUSUARIO puede gestionar usuarios"
  const USUARIO_REPETIDO := "Ya existe un usuario con este nombre de usuario"
  const SOLO_SUPERUSUARIO_ELIMINAR := "Solo el SUPERUSUARIO puede eliminar usuarios"
  const NO_AUTOELIMINAR := "No puedes eliminar tu propio usuario"
  const SOLO_SUPERUSUARIO_RESTAURAR := "Solo el SUPERUSUARIO puede restaurar usuarios"

  /** Another user that is not deleted (and is not the one being edited)
      already has the username. */
  predicate UsernameTomado(users: seq<User>, username: string, editing: Option<User>) {
    exists k :: 0 <= k < |users| && users[k].username == username &&
                (editing.None? || users[k].id != editing.value.id) && users[k].deletedAt.None?
  }

  /** `handleSubmit` as written, the password of an edit included. */
  function HandleSubmit(users: seq<User>, actor: User, form: UserForm, editing: Option<User>, id: string, now: int)
    : (r: Outcome<seq<User>>)
    ensures !IsSuperUser(actor) ==> r == Outcome(users, Some(SOLO_SUPERUSUARIO))
    ensures IsSuperUser(actor) && UsernameTomado(users, form.username, editing) ==>
              r == Outcome(users, Some(USUARIO_REPETIDO))
    ensures r.error.None? <==> IsSuperUser(actor) && !UsernameTomado(users, form.username, editing)
    ensures r.error.None? && editing.Some? ==> r.state == UpdateUser(users, editing.value.id, PatchOf(form)).0
    ensures r.error.None? && editing.None? ==> r.state == CreateUser(users, UserDataOf(form), id, now).0
  {
    if !IsSuperUser(actor) then Outcome(users, Some(SOLO_SUPERUSUARIO))
    else match Find(users, (u: User) => u.username == form.username &&
                                        (editing.None? || u.id != editing.value.id) && u.deletedAt.None?)
      case Some(_) => Outcome(users, Some(USUARIO_REPETIDO))
      case None =>
        if editing.Some? then Outcome(UpdateUser(users, editing.value.id, PatchOf(form)).0, None)
        else Outcome(CreateUser(users, UserDataOf(form), id, now).0, None)
  }

  /** A save stores the role's default permissions, whatever the user held
      before: on create in the appended record, on edit in the edited one. */
  lemma SavedPermissionsAreDefaults(users: seq<User>, actor: User, form: UserForm, editing: Option<User>, id: string,
                                    now: int)
    ensures var r := HandleSubmit(users, actor, form, editing, id, now);
            (r.error.None? && editing.None? ==>
               |r.state| == |users| + 1 && r.state[|users|].permissions == DefaultPermissions(form.rol) &&
               r.state[|users|].id == id && r.state[|users|].deletedAt.None?) &&
            (r.error.None? && editing.Some? ==>
               forall j :: IsFirst(users, IdIs(editing.value.id), j) ==>
                 r.state[j].permissions == DefaultPermissions(form.rol) && r.state[j].rol == form.rol)
  {
  }

  /** An edit that leaves the password field blank stores the empty
      password, after which logging in with an empty password succeeds. */
  lemma BlankPasswordEditAllowsEmptyLogin(actor: User, u: User, now: nat)
    requires IsSuperUser(actor) && u.activo && u.deletedAt.None? && u.password == "secreto"
    ensures var form := UserForm(u.username, "", u.nombreCompleto, u.email, u.rol, u.ubicacion, true);
            var us := HandleSubmit([u], actor, form, Some(u), "", now).state;
            us[0].password == "" && Login(us, u.username, "", now).1.Some?
  {
    var form := UserForm(u.username, "", u.nombreCompleto, u.email, u.rol, u.ubicacion, true);
    assert !UsernameTomado([u], form.username, Some(u));
    assert IsFirst([u], IdIs(u.id), 0);
    var us := HandleSubmit([u], actor, form, Some(u), "", now).state;
    LoginSpec(us, u.username, "", now);
    assert CanLogIn(us[0], u.username, "");
  }

  /** The edit patch that leaves the stored password alone when the field
      is blank. */
  function EditPatch(f: UserForm): (r: UserPatch)
    ensures r.password == if f.password == "" then None else Some(f.password)
    ensures r.permissions == Some(DefaultPermissions(f.rol)) && r.deletedAt.None?
  {
    if f.password == "" then PatchOf(f).(password := None) else PatchOf(f)
  }

  /** `handleSubmit` with a blank password on edit meaning "keep it". */
  function HandleSubmitKeepingPassword(users: seq<User>, actor: User, form: UserForm, editing: Option<User>, id: string,
                                       now: int): (r: Outcome<seq<User>>)
    ensures r.error == HandleSubmit(users, actor, form, editing, id, now).error
    ensures r.error.Some? || editing.None? ==> r == HandleSubmit(users, actor, form, editing, id, now)
    ensures r.error.None? && editing.Some? ==> r.state == UpdateUser(users, editing.value.id, EditPatch(form)).0
  {
    if !IsSuperUser(actor) then Outcome(users, Some(SOLO_SUPERUSUARIO))
    else match Find(users, (u: User) => u.username == form.username &&
                                        (editing.None? || u.id != editing.value.id) && u.deletedAt.None?)
      case Some(_) => Outcome(users, Some(USUARIO_REPETIDO))
      case None =>
        if editing.Some? then Outcome(UpdateUser(users, editing.value.id, EditPatch(form)).0, None)
        else Outcome(CreateUser(users, UserDataOf(form), id, now).0, None)
  }

  predicate NoEmptyPasswords(users: seq<User>) {
    forall i :: 0 <= i < |users| ==> users[i].password != ""
  }

  /** With the corrected save, an edit keeps the stored password when the
      field is blank and takes the typed one otherwise; so when every
      stored password is non-empty and a create always types one, no save
      lets an empty password log in. */
  lemma KeepingPasswordBlocksEmptyLogin(users: seq<User>, actor: User, form: UserForm, editing: Option<User>, id: string,
                                        now: nat)
    requires NoEmptyPasswords(users)
    requires editing.None? ==> form.password != ""
    ensures var us := HandleSubmitKeepingPassword(users, actor, form, editing, id, now).state;
            NoEmptyPasswords(us) && Login(us, form.username, "", now).1.None?
  {
    var r := HandleSubmitKeepingPassword(users, actor, form, editing, id, now);
    var us := r.state;
    if r.error.None? {
      if editing.Some? {
        forall j | 0 <= j < |us| ensures us[j].password != "" {
          assert us[j] == users[j] || us[j] == Merge(users[j], EditPatch(form));
        }
      } else {
        assert us == users + [us[|users|]];
      }
    }
    LoginSpec(us, form.username, "", now);
  }

  /** The corrected save on edit: the password the edited user ends with. */
  lemma EditKeepsPassword(users: seq<User>, actor: User, form: UserForm, editing: User, now: int, j: nat)
    requires IsSuperUser(actor) && !UsernameTomado(users, form.username, Some(editing))
    requires IsFirst(users, IdIs(editing.id), j)
    ensures var us := HandleSubmitKeepingPassword(users, actor, form, Some(editing), "", now).state;
            us[j].password == if form.password == "" then users[j].password else form.password
  {
  }

  // ---------------------------------------------------------------
  // Unique usernames
  // ---------------------------------------------------------------

  /** Ids are unique, and usernames are unique among users not deleted. */
  predicate Registry(us: seq<User>) {
    (forall i, j :: 0 <= i < j < |us| ==> us[i].id != us[j].id) &&
    (forall i, j :: 0 <= i < j < |us| && us[i].deletedAt.None? && us[j].deletedAt.None? ==>
       us[i].username != us[j].username)
  }

  /** An in-place rewrite that keeps ids and deletion stamps and moves only
      the edited user's name to one no other live user has keeps the
      registry. */
  lemma EditKeepsRegistry(us: seq<User>, rs: seq<User>, eid: string, username: string)
    requires Registry(us) && |rs| == |us|
    requires forall j :: 0 <= j < |us| ==>
               rs[j].id == us[j].id && rs[j].deletedAt == us[j].deletedAt &&
               (rs[j].username == us[j].username || (us[j].id == eid && rs[j].username == username))
    requires forall k :: 0 <= k < |us| && us[k].id != eid && us[k].deletedAt.None? ==> us[k].username != username
    ensures Registry(rs)
  {
  }

  /** Saving with a fresh id keeps the registry. */
  lemma SaveKeepsRegistry(users: seq<User>, actor: User, form: UserForm, editing: Option<User>, id: string, now: int)
    requires Registry(users)
    requires forall j :: 0 <= j < |users| ==> users[j].id != id
    ensures Registry(HandleSubmit(users, actor, form, editing, id, now).state)
  {
    var r := HandleSubmit(users, actor, form, editing, id, now);
    if r.error.None? {
      assert !UsernameTomado(users, form.username, editing);
      if editing.Some? {
        EditKeepsRegistry(users, r.state, editing.value.id, form.username);
      } else {
        assert r.state == users + [r.state[|users|]];
      }
    }
  }

  /** The corrected save keeps the registry too. */
  lemma SaveKeepingPasswordKeepsRegistry(users: seq<User>, actor: User, form: UserForm, editing: Option<User>,
                                         id: string, now: int)
    requires Registry(users)
    requires forall j :: 0 <= j < |users| ==> users[j].id != id
    ensures Registry(HandleSubmitKeepingPassword(users, actor, form, editing, id, now).state)
  {
    var r := HandleSubmitKeepingPassword(users, actor, form, editing, id, now);
    if r.error.None? && editing.Some? {
      assert !UsernameTomado(users, form.username, editing);
      EditKeepsRegistry(users, r.state, editing.value.id, form.username);
    } else {
      SaveKeepsRegistry(users, actor, form, editing, id, now);
    }
  }

  // ---------------------------------------------------------------
  // Delete and restore
  // ---------------------------------------------------------------

  /** `handleDelete`: SUPERUSUARIO only, never oneself, and only once the
      user confirms. */
  function HandleDelete(users: seq<User>, actor: User, target: User, confirmado: bool, now: int)
    : (r: Outcome<seq<User>>)
    ensures !IsSuperUser(actor) ==> r == Outcome(users, Some(SOLO_SUPERUSUARIO_ELIMINAR))
    ensures IsSuperUser(actor) && target.id == actor.id ==> r == Outcome(users, Some(NO_AUTOELIMINAR))
    ensures r.error.None? <==> IsSuperUser(actor) && target.id != actor.id
    ensures r.error.Some? || !confirmado ==> r.state == users
    ensures r.error.None? && confirmado ==> r.state == DeleteUser(users, target.id, now).0
  {
    if !IsSuperUser(actor) then Outcome(users, Some(SOLO_SUPERUSUARIO_ELIMINAR))
    else if target.id == actor.id then Outcome(users, Some(NO_AUTOELIMINAR))
    else if confirmado then Outcome(DeleteUser(users, target.id, now).0, None)
    else Outcome(users, None)
  }

  /** A SUPERUSUARIO cannot delete their own record, so at least the
      acting record survives every delete; deleting keeps the registry. */
  lemma DeleteSparesActor(users: seq<User>, actor: User, target: User, confirmado: bool, now: int)
    requires Registry(users)
    ensures var us := HandleDelete(users, actor, target, confirmado, now).state;
            Registry(us) && |us| == |users| &&
            forall j :: 0 <= j < |users| && users[j].id == actor.id ==> us[j] == users[j]
  {
    var r := HandleDelete(users, actor, target, confirmado, now);
    if r.error.None? && confirmado {
      DeleteUserRevokesAll(users, target.id, now);
    }
  }

  /** `handleRestore`: SUPERUSUARIO only; no confirmation and no username
      check. */
  function HandleRestore(users: seq<User>, actor: User, target: User): (r: Outcome<seq<User>>)
    ensures !IsSuperUser(actor) ==> r == Outcome(users, Some(SOLO_SUPERUSUARIO_RESTAURAR))
    ensures r.error.None? <==> IsSuperUser(actor)
    ensures r.error.None? ==> r.state == RestoreUser(users, target.id).0
  {
    if !IsSuperUser(actor) then Outcome(users, Some(SOLO_SUPERUSUARIO_RESTAURAR))
    else Outcome(RestoreUser(users, target.id).0, None)
  }

  /** Since a deleted user's name may be reused, restoring that user can
      leave two live users with one username. */
  lemma RestoreMayDuplicateUsername(actor: User, former: User, newer: User)
    requires IsSuperUser(actor) && former.id != newer.id && former.username == newer.username
    requires former.deletedAt.Some? && newer.deletedAt.None?
    ensures Registry([former, newer])
    ensures !Registry(HandleRestore([former, newer], actor, former).state)
  {
    assert IsFirst([former, newer], IdIs(former.id), 0);
    var us := HandleRestore([former, newer], actor, former).state;
    assert us[0].deletedAt.None? && us[1] == newer;
  }

  // ---------------------------------------------------------------
  // Permission editor
  // ---------------------------------------------------------------

  /** `handlePermissionChange`: checking appends the key (even if already
      there); unchecking removes every occurrence. */
  function HandlePermissionChange(ps: seq<string>, p: string, checked: bool): (r: seq<string>)
    ensures checked ==> r == ps + [p]
    ensures p in r <==> checked
    ensures forall q :: q != p ==> (q in r <==> q in ps)
    ensures !checked ==> multiset(r)[p] == 0 && forall q :: q != p ==> multiset(r)[q] == multiset(ps)[q]
  {
    if checked then ps + [p] else RemoveAll(ps, p)
  }

  /** `ps.filter(q => q !== p)`. */
  function RemoveAll(ps: seq<string>, p: string): (r: seq<string>)
    ensures p !in r
    ensures forall q :: q != p ==> multiset(r)[q] == multiset(ps)[q]
    ensures forall q :: q != p ==> (q in r <==> q in ps)
  {
    if |ps| == 0 then []
    else
      assert ps == [ps[0]] + ps[1..];
      if ps[0] == p then RemoveAll(ps[1..], p) else [ps[0]] + RemoveAll(ps[1..], p)
  }

  /** Unchecking after checking leaves exactly the keys other than the
      toggled one. */
  lemma CheckThenUncheck(ps: seq<string>, p: string)
    ensures var r := HandlePermissionChange(HandlePermissionChange(ps, p, true), p, false);
            forall q :: (q in r <==> q in ps && q != p)
  {
  }

  /** `handleSavePermissions`: the edited list replaces the selected user's
      permissions; this handler has no role check. */
  function HandleSavePermissions(users: seq<User>, selected: Option<User>, ps: seq<string>): (r: seq<User>)
    ensures selected.None? ==> r == users
    ensures |r| == |users|
    ensures selected.Some? ==> forall j :: 0 <= j < |users| ==>
              r[j] == if IsFirst(users, IdIs(selected.value.id), j) then users[j].(permissions := ps) else users[j]
  {
    if selected.None? then users
    else UpdateUser(users, selected.value.id, NO_CHANGE.(permissions := Some(ps))).0
  }

  // ---------------------------------------------------------------
  // Listing
  // ---------------------------------------------------------------

  function RoleName(r: Role): string {
    match r
    case SUPERUSUARIO => "SUPERUSUARIO"
    case ADMIN => "ADMIN"
    case VENDEDOR => "VENDEDOR"
    case ALMACEN => "ALMACEN"
    case CONTADOR => "CONTADOR"
  }

  predicate Matches(u: User, q: string) {
    Contains(Lower(u.nombreCompleto), Lower(q)) || Contains(Lower(u.username), Lower(q)) ||
    Contains(Lower(u.email), Lower(q)) || Contains(Lower(RoleName(u.rol)), Lower(q))
  }

  /** The deleted view holds users with a deletion stamp, the other view
      those without. */
  predicate InView(u: User, showDeleted: bool) {
    u.deletedAt.Some? == showDeleted
  }

  /** `filterUsers`. */
  function FilterUsers(users: seq<User>, q: string, showDeleted: bool): (r: seq<User>)
    ensures forall i :: 0 <= i < |r| ==> r[i] in users && InView(r[i], showDeleted) && (q == "" || Matches(r[i], q))
    ensures forall j :: 0 <= j < |users| && InView(users[j], showDeleted) && (q == "" || Matches(users[j], q)) ==>
              users[j] in r
  {
    var shown := (u: User) => InView(u, showDeleted);
    FilterKeeps(users, shown);
    var view := Filter(users, shown);
    if q == "" then view
    else
      var m := (u: User) => Matches(u, q);
      FilterKeeps(view, m);
      Filter(view, m)
  }

  /** Without a query, every user is in exactly one of the two views. */
  lemma ViewsPartition(users: seq<User>, j: nat)
    requires j < |users|
    ensures (users[j] in FilterUsers(users, "", true)) != (users[j] in FilterUsers(users, "", false))
  {
  }
}

=== FILE: wrappers.dfy ===
/** Option and Result values used where the application returns `null`,
    `undefined` or raises an error. */
module Wrappers {

  datatype Option<+T> = None | Some(value: T) {
    function GetOr(default: T): T {
      match this
      case Some(v) => v
      case None => default
    }
  }

  datatype Result<+R, +E> = Success(value: R) | Failure(error: E)

  /** What a page handler leaves behind: its state, and the error alert
      it shows when it rejects the action. */
  datatype Outcome<+S> = Outcome(state: S, error: Option<string>)
}
